=== FILE: README.md ===
# expracker in Dafny

A model of the decision logic of expracker, a Next.js expense tracker in
which users record expenses, share them in households and ask for
spending advice. The model covers:

- the rule-based advice engine of `GET /api/advice` (totals per month and
  per category, the trend, dominance, spike, savings, budget and
  subscription rules, and the generic tips);
- the per-expense analysis endpoints: the keyword-dispatched question
  answerer of `/api/advice/ask`, the insights of `/api/advice/expense-insights`,
  the statistics and fallback routing of `/api/advice/llm-analyze`, and the
  fallback generators of `lib/generateFallbackAdvice.ts`;
- the client-side aggregations: the expense table's filter, sort and
  total, the dashboards' totals, top-five lists, budget bar and six-month
  buckets, the household summaries, the insight panels and the
  recommendation tabs;
- the small rules and validators: the household role controls, the
  authentication middleware, the connections grouping, registration,
  password change, the reset-token lifecycle, the profile update with its
  30-day rename cooldown, the profile form, the rate-limit countdown, the
  Cloudinary public-id extraction and the category colours.

Amounts are exact `real`s and dates are civil dates with day granularity
(`Calendar`). Recommendations, insights and answers are tagged datatypes
carrying the numbers their sentences are formatted from. Database queries
are filters over input sequences (`Store`), the user table is a map updated
in place (`Accounts.UserTable`), and the language model, bcrypt, random
tokens, the clock and image uploads are parameters. Where the source keeps
state that its handlers update step by step, the model is a class
(`ExpenseList.View`, `EnhancedDashboard.Dashboard`, `SpendingInsights.Panel`,
`AiInsight.InsightPanel`, `ProfileContent.ProfileForm`,
`RateLimitAlert.Alert`, `Accounts.UserTable`); where the source loops and
fills objects, the model is a method with a loop proved against a
specification function (`AdviceEngine.GenerateRecommendations`,
`AdviceEngine.DetectRecurringExpenses`, `AdviceDashboard.GetMonthlyData`,
`Connections.GroupConnections` and others).

Amounts are taken to be positive, as the expense form demands
(app/expenses/_components/ExpenseForm.tsx:88-91; that file is not part of
this model). The expense API itself does not check the sign (see "Left
out"). Lemmas and methods that divide by a total or an average take this
as the precondition `AllPositive`.

Three behaviours of the source that are not errors but are easy to miss
are stated as lemmas. The profile page allows a rename only after strictly
more than 30 days, while the server accepts one at exactly 30 days
(`ProfileContent.PageWithinServer`). Dismissing the rate-limit banner
leaves its timer running, so, while the parent keeps the banner mounted,
`onClose` is called again when the count runs out
(`RateLimitAlert.Alert.DismissThenCountDown`). The spending insight
panel never withdraws an unusual-spending warning once raised
(`SpendingInsights.StaleWarning`).

The generic helpers (the folds of `Agg`, the stable sort of `Sorting`, the
string functions of `Text`, the number helpers of `Numbers`) and the small
step lemmas of the loop proofs have a row below only where they state
something about particular source lines.

## Model

| member | source | states |
|---|---|---|
| AdviceEngine.RankedLength | pages/api/advice/index.ts:112-114 | the category ranking is non-empty exactly when there are expenses |
| AdviceEngine.ActiveMonthSumPositive | pages/api/advice/index.ts:184-193 | with positive amounts the spend summed over the months in which a category has spend is not negative, and positive once one such month exists |
| AdviceEngine.EarlierAverage | pages/api/advice/index.ts:195-196 | the average over the earlier active months, divided only when one exists, is positive |
| AdviceEngine.DetectRecurringExpenses | pages/api/advice/index.ts:302-333 | the one-pass grouping followed by the count and month filter yields exactly the recurring descriptions of the reference definition, in first-seen order |
| AdviceEngine.GroupDescriptions | pages/api/advice/index.ts:305-322 | after the pass every normalised description seen has its first amount, its number of expenses and its set of months recorded, and the keys are in first-seen order |
| AdviceEngine.RecurringFirstSighting | pages/api/advice/index.ts:316-321 | the first expense with a new description starts its record with its own amount, a count of 1 and its month |
| AdviceEngine.RecurringSighting | pages/api/advice/index.ts:320-321 | a later expense with a known description raises the count and adds its month, keeping the first amount |
| AdviceEngine.AbsentMonths | pages/api/advice/index.ts:311-322 | a description that never occurs has no months |
| AdviceEngine.TallyExpenses | pages/api/advice/index.ts:79-103 | the single pass leaves, for months, categories and (month, category) cells, each key seen once in first-seen order (the order `Object.keys` gives for the application's category names and months) with the sum of its expenses' amounts |
| AdviceEngine.MonthOverMonth | pages/api/advice/index.ts:116-133 | each month after the first gets the change from the month before it, in money and in percent of the earlier month, or 0 percent when that month's total is not positive |
| AdviceEngine.GenerateRecommendations | pages/api/advice/index.ts:73-300 | the imperative generator returns exactly the list the rule functions specify |
| AdviceEngine.ApplyRules | pages/api/advice/index.ts:105-284 | rules 1 to 5 computed from the tallies give the trend, category and later advice in that order |
| AdviceEngine.LaterChecks | pages/api/advice/index.ts:218-284 | rules 3 to 5 give the savings, budget and subscription advice in that order |
| AdviceEngine.SavingsCheck | pages/api/advice/index.ts:218-231 | the savings step matches its specification |
| AdviceEngine.SubscriptionCheck | pages/api/advice/index.ts:270-284 | the subscription step matches its specification |
| AdviceEngine.TalliedMonths | pages/api/advice/index.ts:105-106 | sorting the tallied month keys gives the months with expenses, oldest first, each with its total |
| AdviceEngine.SpendingTrend | pages/api/advice/index.ts:116-158 | the month-over-month loop and the trend test give the trend advice of the last month |
| AdviceEngine.CategoryChecks | pages/api/advice/index.ts:160-216 | the dominance check and the spike loop give the category advice |
| AdviceEngine.DominanceCheck | pages/api/advice/index.ts:161-171 | the top category's share gives the dominance message when above 40 percent |
| AdviceEngine.CategorySpikes | pages/api/advice/index.ts:174-215 | the loop over the categories appends one spike check per category, in first-seen order (the order `Object.keys` gives for the application's category names) |
| AdviceEngine.CheckSpike | pages/api/advice/index.ts:176-213 | the loop body for one category appends the spike the specification gives for it |
| AdviceEngine.EarlierActivity | pages/api/advice/index.ts:180-193 | the inner loop sums the category's spend over the earlier months in which it had spend and counts those months |
| AdviceEngine.BudgetDistribution | pages/api/advice/index.ts:246-268 | the loop over the ranked categories appends each one's budget advice in ranking order |
| AdviceEngine.BudgetCheck | pages/api/advice/index.ts:247-267 | the loop body for one category matches its budget specification |
| AdviceProperties.MonthsOrdered | pages/api/advice/index.ts:105-106 | the months are exactly those with expenses, strictly increasing |
| AdviceProperties.MonthKeysOrdered | pages/api/advice/index.ts:81 | for years 0 to 9999 the "yyyy-MM" keys sort as strings in the order of the months, so the string sort is chronological |
| AdviceProperties.MonthTotalPositive | pages/api/advice/index.ts:84-87 | with positive amounts every listed month has a positive total |
| AdviceProperties.CategoryTotalsPartition | pages/api/advice/index.ts:89-114 | the ranked category totals add up to the total spent |
| AdviceProperties.MonthTotalsPartition | pages/api/advice/index.ts:83-109 | the month totals add up to the total spent |
| AdviceProperties.TrendRule | pages/api/advice/index.ts:119-158 | at most one trend item; an increase iff the last month exceeds the one before by more than 15 percent, a decrease iff it is more than 15 percent below it |
| AdviceProperties.ChangeThresholds | pages/api/advice/index.ts:124-127 | for a positive earlier total, "above 15 percent" and "below -15 percent" are the ratios 1.15 and 0.85 |
| AdviceProperties.RankingHead | pages/api/advice/index.ts:112-114 | the head of the ranking is a first-seen category with its total, and no category has a larger total |
| AdviceProperties.TopCategory | pages/api/advice/index.ts:112-162 | the top category has the largest total, the first such in order of first appearance (the sort is stable) |
| AdviceProperties.SpikesAreSpikes | pages/api/advice/index.ts:176-214 | the spike loop produces only spike items |
| AdviceProperties.DominanceRule | pages/api/advice/index.ts:161-171 | the dominance item comes first in the category advice, names the top category, and is there exactly when some category makes up more than 40 percent of the total |
| AdviceProperties.SpikeMeaning | pages/api/advice/index.ts:176-213 | a category gets a spike exactly when its total is at least 100, it had spend in some earlier month, and its last-month spend is above 200 and above 1.5 times the earlier active-month average; the spike then reports the increase over that average, which is above 50 percent, and otherwise there is none |
| AdviceProperties.SpikeRule | pages/api/advice/index.ts:174-215 | in the list `generateRecommendations` returns, a category of the expenses has a spike exactly when its spike conditions hold, and that spike carries the increase over the earlier average |
| AdviceProperties.NewCategoryNoSpike | pages/api/advice/index.ts:195 | a category without spend before the last month never spikes |
| AdviceProperties.NoActiveMonths | pages/api/advice/index.ts:186-192 | no month with spend gives a month count of 0 |
| AdviceProperties.SpikesCategories | pages/api/advice/index.ts:176-214 | every spike is of one of the categories looped over |
| AdviceProperties.SpikeKind | pages/api/advice/index.ts:201-211 | a spike names the category it was computed for |
| AdviceProperties.SpikesPerCategory | pages/api/advice/index.ts:176-214 | at most one spike per category |
| AdviceProperties.SavingsRule | pages/api/advice/index.ts:218-231 | with expenses there is exactly one savings item: the total over the number of months, and 15 percent of it |
| AdviceProperties.BudgetMembers | pages/api/advice/index.ts:246-268 | an item is in the budget advice iff it is the advice for one of the ranked categories |
| AdviceProperties.BudgetForFacts | pages/api/advice/index.ts:247-267 | the advice for one category: its share of the total, over-budget only above the top of its range, under-allocated only below a bottom above 5 percent |
| AdviceProperties.BudgetRule | pages/api/advice/index.ts:234-268 | every budget item is for a ranked category of the nine-row table, with the over/under conditions and the category's share |
| AdviceProperties.BudgetForComplete | pages/api/advice/index.ts:247-267 | for a category of the table and a positive total, the advice is over-budget above the top of the range, under-allocated below a bottom above 5 percent, and nothing otherwise |
| AdviceProperties.BudgetComplete | pages/api/advice/index.ts:234-268 | conversely, every category of the expenses that is in the table and over its range, or under a bottom above 5 percent, has its over-budget or under-allocated item in the returned list |
| AdviceProperties.BudgetTable | pages/api/advice/index.ts:234-244 | the table has rows for exactly the nine categories, and exactly Utilities, Debt, Personal and Entertainment can never be under-allocated |
| AdviceProperties.RecurringRule | pages/api/advice/index.ts:302-333 | a description is reported iff it occurs in at least two months, once, with the amount of its first occurrence |
| AdviceProperties.RecurringOfOnce | pages/api/advice/index.ts:325-333 | over distinct keys, the filter reports each description at most once and only keys it was given |
| AdviceProperties.RecurringOfMembers | pages/api/advice/index.ts:325-330 | the filter keeps exactly the recurring keys with their first amounts |
| AdviceProperties.MonthsBoundedByCount | pages/api/advice/index.ts:326 | a description's distinct months are at most its count, so the count test is implied by the months test |
| AdviceProperties.FirstAmountIsFirst | pages/api/advice/index.ts:316-318 | the recorded amount is that of the first expense with the description |
| AdviceProperties.SubscriptionRule | pages/api/advice/index.ts:270-284 | at most one subscription item, present iff the recurring first amounts sum to more than 100, which it reports |
| AdviceProperties.RecommendationsShape | pages/api/advice/index.ts:135-299 | the list has at least three items; the rules' items come first in rule order; the three generic tips are appended iff the rules gave fewer than three |
| AdviceProperties.HandleAdvice | pages/api/advice/index.ts:19-71 | 401 without a session or user, 405 for a method other than GET; the rules run on the user's own rows newest first; with fewer than 5 expenses an empty list and "Not enough data to provide advice yet.", otherwise the generated list of at least three items |
| Store.Owned | pages/api/advice/ask.ts:104-116 | the user's expenses are exactly the rows the user owns (the `userId` filter every query applies) |
| Store.FindExpense | pages/api/advice/ask.ts:49-53 | the lookup by id finds a row with that id, or none exists |
| Store.FoundIsOwned | pages/api/advice/ask.ts:49-64 | an expense found by id and owned by the user is among the user's expenses |
| Store.NewestFirstCorrect | pages/api/advice/ask.ts:112-114 | `orderBy: { date: 'desc' }` gives a permutation of the rows, newest first |
| Store.OldestFirstCorrect | pages/api/advice/ask.ts:320-327 | sorting by ascending date gives a permutation of the rows, oldest first |
| Store.WeekContainsDate | pages/api/advice/llm-analyze.ts:385-394 | the week of a date runs from its Sunday to the following Saturday and contains the date |
| Store.QueryPositive | pages/api/advice/llm-analyze.ts:329-337 | a query's rows, in any order and under any `take`, have positive amounts when the user's expenses do |
| Store.NewestPositive | pages/api/advice/llm-analyze.ts:329-337 | the same for a query sorted newest first |
| Store.NewestTake | pages/api/advice/ask.ts:112-115 | `take: n` keeps `n` rows of the query, or all of them when there are fewer |
| Store.MonthSums | pages/api/advice/ask.ts:239-258 | the expense lies in its own month, so its amount is at most its category's month total, which is at most the month total |
| Store.Admit | pages/api/advice/ask.ts:13-65 | the checks every advice endpoint makes, in order: 401 without session or user, 405 for a method other than POST, 400 with the endpoint's message for a missing field, 404 for an unknown id, 403 for another user's expense, otherwise the row |
| Store.GroupByWeekday | pages/api/advice/ask.ts:409-422 | the `forEach` leaves, per weekday in first-seen order, the list of amounts on that weekday |
| Numbers.BandOfPercentDiff | pages/api/advice/ask.ts:122-158 | for a positive average, "close" is the open band of 10 percent either side, "higher" is from 110 percent up, "lower" up to 90 percent |
| Numbers.RoundedOutsideBand | lib/generateFallbackAdvice.ts:25-53 | outside the 10 percent band the rounded percentage shown is at least 10 |
| Numbers.ShareBounds | pages/api/advice/ask.ts:273-287 | a positive part of a whole, rounded as a percentage, lies between 0 and 100 |
| Ask.CompareTo | pages/api/advice/ask.ts:122-158 | the band of an amount against a positive average, with both directions of each band, and a shown difference of at least 10 percent outside the close band |
| Ask.NoCategoryOthers | pages/api/advice/ask.ts:104-119 | the category query is empty exactly when the expense is the only one of its category |
| Ask.NoSimilarOthers | pages/api/advice/ask.ts:166-183 | the place query is empty exactly when no other expense mentions the first word |
| Ask.CategoryPeersMeaning | pages/api/advice/ask.ts:104-116 | the category peers are at most 100 other expenses of the category, all of them when there are fewer |
| Ask.ComparisonMeaning | pages/api/advice/ask.ts:100-231 | the category sub-branch is tried before the place one; "first in category" iff no other expense of the category; a category comparison is against the mean of 1 to 100 peers; "first at place" iff no other expense mentions the first word; a place comparison is against the mean of 1 to 20 |
| Ask.MonthlyShares | pages/api/advice/ask.ts:239-291 | the expense is within its month's category total and month total, and both shares shown are whole percentages between 0 and 100 within half a percent of the exact share |
| Ask.SumGaps | pages/api/advice/ask.ts:328-334 | the loop summing consecutive gaps gives the span from the first to the last visit |
| Ask.AverageGap | pages/api/advice/ask.ts:328-338 | the mean gap is the rounded span over the number of gaps |
| Ask.CountWeekdays | pages/api/advice/ask.ts:341-345 | the `forEach` counts the visits on each weekday |
| Ask.WeekdayHabit | pages/api/advice/ask.ts:341-355 | the weekday loop and sort give the habit the specification describes |
| Ask.PatternAnalysis | pages/api/advice/ask.ts:295-377 | the pattern branch with its loops gives the specified answer |
| Ask.DescribeVisits | pages/api/advice/ask.ts:320-377 | the gap and weekday loops over two or more visits give the specified pattern |
| Ask.TopDayIsMostFrequent | pages/api/advice/ask.ts:347-349 | the weekday sorted first has the most visits |
| Ask.HabitMeaning | pages/api/advice/ask.ts:347-355 | a usual weekday has the most visits and more than 40 percent of them; without one, no weekday has more than 40 percent |
| Ask.AmountsMeaning | pages/api/advice/ask.ts:357-369 | steady amounts are each within 20 percent of their mean; varying ones lie in the reported range |
| Ask.PatternMeaning | pages/api/advice/ask.ts:295-377 | no pattern iff at most one visit; otherwise 2 to 20 visits, a mean gap that is not negative, the weekday habit and the amount habit |
| Ask.GapNonNegative | pages/api/advice/ask.ts:320-338 | sorted oldest first, the visits give a mean gap that is not negative |
| Ask.OnDayMean | pages/api/advice/ask.ts:424-432 | the mean of the visits on the expense's weekday is zero exactly when there are none |
| Ask.OffDayMean | pages/api/advice/ask.ts:433-442 | the mean of the visits on the other weekdays is zero exactly when every visit is on the expense's weekday |
| Ask.DayMeans | pages/api/advice/ask.ts:424-442 | both weekday means are not negative, each zero exactly when its side has no visit |
| Ask.OtherDays | pages/api/advice/ask.ts:433-440 | the loop over the weekday buckets sums and counts the visits on the other weekdays |
| Ask.ThisDayBucket | pages/api/advice/ask.ts:424 | the bucket of the expense's weekday holds the amounts of the visits on it, or nothing |
| Ask.DayAnalysis | pages/api/advice/ask.ts:381-473 | the weekday branch with its loops gives the specified answer |
| Ask.DayMeaning | pages/api/advice/ask.ts:381-473 | "first recorded" iff no similar expense; "first on this day" iff none on the weekday; "all on this day" iff all on it; otherwise the two weekday means compared |
| Ask.AlternativesAnalysis | pages/api/advice/ask.ts:482-550 | the alternatives branch (tally, filter, sort, cut) gives the specified answer |
| Ask.PlaceGroups | pages/api/advice/ask.ts:505-517 | the tally by first word lists each place once, in first-seen order, with its total and count |
| Ask.CandidateSound | pages/api/advice/ask.ts:519-527 | each candidate is a place of the category visited at least twice with a mean below the amount |
| Ask.CandidateComplete | pages/api/advice/ask.ts:519-527 | each place visited at least twice with a lower mean is a candidate |
| Ask.AlternativesSound | pages/api/advice/ask.ts:519-529 | at most three alternatives, cheapest first, each a qualifying place with its own count and mean |
| Ask.AlternativesCheapest | pages/api/advice/ask.ts:519-547 | the first alternative is at least as cheap as every qualifying place, there is one whenever a place qualifies, and the saving quoted against it is positive |
| Ask.CheapestGroupMeaning | pages/api/advice/ask.ts:586-597 | the kept weekday has at least two visits and the lowest mean of those that do (the first such); there is none iff no weekday has two visits |
| Ask.NegativeSavingAsWritten | pages/api/advice/ask.ts:599-619 | two $5 Monday visits and one $1 Tuesday visit: asked about the Tuesday visit, the handler suggests Monday with a saving of -4 |
| Ask.CheaperDayMeaning | pages/api/advice/ask.ts:553-620 | (corrected) fewer than 3 visits gives not-enough-data; a suggested switch names the cheapest weekday with two visits, not the expense's own, and saves a positive amount; "already cheapest" only for the expense's own weekday |
| Ask.FindCheapest | pages/api/advice/ask.ts:586-597 | the loop keeping the strictly cheaper weekday finds the specified cheapest one |
| Ask.CurrentAverageIs | pages/api/advice/ask.ts:603-607 | the current weekday's average is its mean when it has visits, the amount otherwise |
| Ask.CheaperDayAnalysis | pages/api/advice/ask.ts:553-620 | (corrected) the cheaper-weekday branch with its loops gives the specified answer, with the guard of the Findings row for ask.ts:599-619 |
| Ask.DayAverages | pages/api/advice/ask.ts:572-607 | the tally and the scan give the cheapest weekday, its mean and the current weekday's mean |
| Ask.GenerateAnswer | pages/api/advice/ask.ts:75-637 | (corrected) the imperative `generateAnswer` gives the specified answer for the lower-cased question, with the cheaper-weekday guard corrected |
| Ask.TopicPrecedence | pages/api/advice/ask.ts:87-637 | the general answer is given exactly when no keyword group is mentioned; a comparison word always wins; the saving answers only when no earlier group is mentioned |
| Ask.CheaperDayNeedsTimeOrWhen | pages/api/advice/ask.ts:381-557 | "day" is taken by the weekday branch first, so the cheaper-day branch is reached only through "time" or "when" with a saving word and no alternative word |
| Ask.HandleAsk | pages/api/advice/ask.ts:11-73 | the request checks decide the error reply; an admitted request gets the (corrected) answer for the user's own expenses |
| FallbackAdvice.GenerateFallbackAdvice | lib/generateFallbackAdvice.ts:4-88 | the imperative generator returns the specified list of insights |
| FallbackAdvice.FallbackInsightsShape | lib/generateFallbackAdvice.ts:17-87 | two or three insights; three exactly when there are similar expenses; the last is always "Keep tracking"; "first recorded" iff the count is 0 (missing data counting as 0); the middle one is a similar-expense band |
| FallbackAdvice.CategoryInsightBands | lib/generateFallbackAdvice.ts:22-48 | against a positive category average: close iff within 10 percent either side, higher from 110 percent up, lower up to 90 percent; a shown difference outside the band is at least 10 |
| FallbackAdvice.SimilarInsightBands | lib/generateFallbackAdvice.ts:56-80 | the same three bands against the mean of the similar expenses, which is positive |
| FallbackAdvice.FallbackAnswerDispatch | lib/generateFallbackAdvice.ts:97-153 | first match on the lower-cased question: compare/average (a comparison with the count iff count > 0), budget/month, pattern/trend (the "consistent" text only with at least 3 similar expenses), save/reduce, then the default |
| FallbackAdvice.FallbackAnswerIgnoresCase | lib/generateFallbackAdvice.ts:97 | the answer does not depend on the question's letter case |
| LlmAnalyze.GatherExpenseData | pages/api/advice/llm-analyze.ts:317-468 | the gathered data: category and similar means and counts, the month, month-category and week totals, the weekday patterns and the month buckets, each as its query defines it |
| LlmAnalyze.DayBucketPattern | pages/api/advice/llm-analyze.ts:404-425 | a weekday's bucket gives that weekday's count and mean |
| LlmAnalyze.DayOfWeekPatterns | pages/api/advice/llm-analyze.ts:404-425 | the weekday patterns are filled only with at least 3 similar expenses, one per weekday that occurs, with its count and mean |
| LlmAnalyze.MonthsBucketedStep | pages/api/advice/llm-analyze.ts:439-451 | one more expense adds its amount to its month's total and to its category within the month |
| LlmAnalyze.EmptyBucket | pages/api/advice/llm-analyze.ts:441-443 | a month without expenses starts as an empty bucket |
| LlmAnalyze.OtherBucket | pages/api/advice/llm-analyze.ts:439-451 | an expense of another month leaves a bucket as it is |
| LlmAnalyze.BucketStep | pages/api/advice/llm-analyze.ts:445-450 | adding an expense to its own month's bucket keeps the bucket's meaning |
| LlmAnalyze.MonthlyAverages | pages/api/advice/llm-analyze.ts:438-451 | the loop leaves each month with its total and its per-category totals, months in first-seen order |
| LlmAnalyze.CategoryStatsFacts | pages/api/advice/llm-analyze.ts:329-360 | at most 50 category and 20 similar expenses; each mean is positive exactly when its list is non-empty, so the fallback's division is safe |
| LlmAnalyze.QueriesPositive | pages/api/advice/llm-analyze.ts:329-353 | the two queries return positive amounts |
| LlmAnalyze.MonthlyTotalsFacts | pages/api/advice/llm-analyze.ts:363-402 | the expense's amount is at most its month-category total, which is at most the month total, and at most the week total |
| LlmAnalyze.DayPatternMeaning | pages/api/advice/llm-analyze.ts:404-425 | a weekday pattern exists only with at least 3 similar expenses, and its count and average are those of the similar expenses on that weekday |
| LlmAnalyze.MonthBucketPartition | pages/api/advice/llm-analyze.ts:438-451 | each month's total is the sum of its per-category values |
| LlmAnalyze.MessagesShape | pages/api/advice/llm-analyze.ts:81-107 | the history goes after the system message in order, so the first message is still the system prompt and the last the user question |
| LlmAnalyze.Analyze | pages/api/advice/llm-analyze.ts:20-315 | the request checks decide the error reply; otherwise the model's content is returned unchanged, and on any failure the fallback body is returned |
| LlmAnalyze.FallbackRouting | pages/api/advice/llm-analyze.ts:145-193 | a question with "key insights" or "how does it compare" gets the fallback advice list (2 or 3 items ending with "Keep tracking"), any other the fallback answer |
| AiInsight.AskAlternates | app/expenses/_components/ExpenseAiInsight.tsx:72-109 | a blank question changes nothing; otherwise the trimmed question and the reply (or the apology) are appended, so user and assistant turns keep alternating |
| AiInsight.InsightPanel.constructor | app/expenses/_components/ExpenseAiInsight.tsx:23-29 | the first render's state |
| AiInsight.InsightPanel.Type | app/expenses/_components/ExpenseAiInsight.tsx:25 | typing sets the question and nothing else |
| AiInsight.InsightPanel.FetchInsights | app/expenses/_components/ExpenseAiInsight.tsx:35-70 | the insights become the split answer (or the list, or the fixed texts) and loading ends; nothing else changes |
| AiInsight.InsightPanel.SubmitQuestion | app/expenses/_components/ExpenseAiInsight.tsx:72-109 | the conversation grows by the question and its reply; the history sent is the conversation before the question; the input is cleared and the asking flag is false again; a blank question changes nothing |
| AiInsight.InitialQuestionAsksForInsights | app/expenses/_components/ExpenseAiInsight.tsx:41-42 | the panel's own question is routed to the fallback advice list |
| AiInsight.PanelShowsEachInsight | app/expenses/_components/ExpenseAiInsight.tsx:46-53 | items without line breaks, joined by blank lines, are split back into the same items |
| AiInsight.FallbackReachesPanel | app/expenses/_components/ExpenseAiInsight.tsx:35-53 | the fallback advice list sent for the panel's question reaches the panel item by item: 2 or 3 items ending with "Keep tracking" |
| ExpenseInsights.PeersPositive | pages/api/advice/expense-insights.ts:84-106 | the ten newest similar expenses have positive amounts and, when there are any, a positive mean |
| ExpenseInsights.SimilarInsights | pages/api/advice/expense-insights.ts:101-131 | at most one comparison insight, of one of the three kinds |
| ExpenseInsights.ComparisonMeaning | pages/api/advice/expense-insights.ts:108-130 | above iff the amount exceeds 1.2 times the average, below iff under 0.8 times, in line otherwise; the rounded percentages are at least 20 above and between 20 and 100 below |
| ExpenseInsights.SimilarMeaning | pages/api/advice/expense-insights.ts:84-131 | exactly one comparison iff another expense of the category mentions the first word; its average is the mean of the ten newest such expenses |
| ExpenseInsights.DayInsights | pages/api/advice/expense-insights.ts:164-193 | at most one weekday insight, cheaper or pricier |
| ExpenseInsights.FrequencyInsights | pages/api/advice/expense-insights.ts:196-211 | (corrected) at most one frequency insight, and only for a positive visit gap |
| ExpenseInsights.PlacePositive | pages/api/advice/expense-insights.ts:141-160 | the same-place visits have positive amounts and, when there are any, a positive mean |
| ExpenseInsights.MealInsights | pages/api/advice/expense-insights.ts:134-213 | at most a weekday insight and a frequency insight |
| ExpenseInsights.DayInsightsMeaning | pages/api/advice/expense-insights.ts:164-193 | cheaper iff at least two visits fall on the expense's weekday and their mean is below 0.9 times the average, pricier iff above 1.1 times; nothing in between |
| ExpenseInsights.FrequencyMeaning | pages/api/advice/expense-insights.ts:196-211 | (corrected) reported iff the gap is positive and under a week with at least 4 visits; then the rounded gap is 0 to 7 days, the monthly figure exceeds 30/7 times the average visit, and the expense is later than the oldest visit |
| ExpenseInsights.FrequencyAsWrittenAcceptsNonPositiveGaps | pages/api/advice/expense-insights.ts:196-205 | the test as written accepts a gap of 0 (then divides by zero) and a negative gap; for positive gaps it agrees with the corrected test |
| ExpenseInsights.MealMeaning | pages/api/advice/expense-insights.ts:134-213 | meal insights need a meal word and at least three earlier visits to the same place; their averages are those of the ten newest visits |
| ExpenseInsights.ShareInsights | pages/api/advice/expense-insights.ts:240-259 | at most a category-share and a month-share insight |
| ExpenseInsights.MonthInsights | pages/api/advice/expense-insights.ts:216-259 | at most a category-share and a month-share insight for the expense's month |
| ExpenseInsights.ShareMeaning | pages/api/advice/expense-insights.ts:240-259 | the category-share insight iff amount > 100 and more than half the category total (rounded share 50 to 100); the month-share insight iff amount > 100 and more than 15 percent of the month (rounded share 15 to 100) |
| ExpenseInsights.MonthMeaning | pages/api/advice/expense-insights.ts:216-259 | the same over the expense's own month, whose totals include the expense |
| ExpenseInsights.ShareAbove | pages/api/advice/expense-insights.ts:240-253 | a share of a positive whole is over p percent iff the part exceeds p/100 of the whole |
| ExpenseInsights.OtherMonthsPositive | pages/api/advice/expense-insights.ts:275-298 | the other months carry positive totals, so their sum is positive when there are any |
| ExpenseInsights.TrendVerdict | pages/api/advice/expense-insights.ts:299-316 | at most one projection insight |
| ExpenseInsights.TrendInsights | pages/api/advice/expense-insights.ts:262-316 | at most one projection insight |
| ExpenseInsights.VerdictMeaning | pages/api/advice/expense-insights.ts:299-316 | reported iff other months exist and the projection exceeds 1.3 times their average, which is positive; the excess shown is at least 30 percent |
| ExpenseInsights.ProjectionAtLeast | pages/api/advice/expense-insights.ts:301-303 | the projection of a month's spending so far is never below it |
| ExpenseInsights.OtherMonthsTotals | pages/api/advice/expense-insights.ts:262-298 | each other month is not the expense's, is at most five months earlier (later months are not excluded), and carries its total |
| ExpenseInsights.OtherMonthsDistinct | pages/api/advice/expense-insights.ts:275-298 | no month is counted twice |
| ExpenseInsights.OtherMonthsComplete | pages/api/advice/expense-insights.ts:275-298 | every month of the window other than the expense's is counted |
| ExpenseInsights.OtherMonthsExist | pages/api/advice/expense-insights.ts:262-299 | there is a month to compare with iff some expense of the category in the window is in another month |
| ExpenseInsights.TrendMeaning | pages/api/advice/expense-insights.ts:262-316 | the projection insight iff other months exist and the projection exceeds 1.3 times their average total; it is never below the month so far |
| ExpenseInsights.Collected | pages/api/advice/expense-insights.ts:101-316 | steps 1 to 4 give at most six insights, none of them generic |
| ExpenseInsights.InsightsMeaning | pages/api/advice/expense-insights.ts:319-331 | never empty and at most six; "Keep tracking" comes last iff no step spoke; the significance remark iff no step spoke and the amount is over 100 |
| ExpenseInsights.MonthlyTotals | pages/api/advice/expense-insights.ts:275-286 | the `forEach` adds each amount into its month's total |
| ExpenseInsights.SumOtherMonths | pages/api/advice/expense-insights.ts:288-298 | the loop sums and counts the months other than the expense's |
| ExpenseInsights.MealHabits | pages/api/advice/expense-insights.ts:134-213 | (corrected) step 2, written imperatively, gives the specified meal insights, with the frequency guard corrected |
| ExpenseInsights.MonthImpact | pages/api/advice/expense-insights.ts:216-259 | step 3 gives the specified share insights and the category's month total |
| ExpenseInsights.WeekdayHabit | pages/api/advice/expense-insights.ts:163-193 | the weekday comparison as written pushes exactly the weekday insight that `DayInsightsMeaning` characterises |
| ExpenseInsights.FrequencyHabit | pages/api/advice/expense-insights.ts:195-211 | (corrected) the frequency check pushes exactly the visit-frequency insight that `FrequencyMeaning` characterises |
| ExpenseInsights.ShareChecks | pages/api/advice/expense-insights.ts:238-259 | the two percentage checks push exactly the share insights that `ShareMeaning` characterises |
| ExpenseInsights.Trend | pages/api/advice/expense-insights.ts:262-316 | step 4 gives the specified projection insight |
| ExpenseInsights.CompareWithSimilar | pages/api/advice/expense-insights.ts:84-131 | step 1 gives the specified comparison |
| ExpenseInsights.GenerateExpenseInsights | pages/api/advice/expense-insights.ts:73-331 | (corrected) the imperative generator returns the specified insights, with the frequency guard corrected |
| ExpenseInsights.HandleExpenseInsights | pages/api/advice/expense-insights.ts:8-71 | the request checks decide the error reply; otherwise the (corrected) insights of the user's own expense |
| AiRecommendations.FilteredMeaning | app/insights/_components/AiRecommendations.tsx:20-48 | the "all" tab shows every recommendation; any other tab shows, in their order, exactly those whose lower-cased text mentions one of the tab's words |
| AiRecommendations.IconMatchesColor | app/insights/_components/AiRecommendations.tsx:51-84 | the background colour is always the one that goes with the icon, since both tests run in the same order |
| AiRecommendations.IconPriority | app/insights/_components/AiRecommendations.tsx:51-65 | the light bulb and grey background exactly when no keyword matches; the thumbs-up exactly for praise |
| SpendingInsights.MonthOverMonth | app/insights/_components/SpendingInsights.tsx:75-99 | the change is the difference of the last two months, an increase iff the last is larger, and the percentage rebuilds the last month from the one before (0 when that is not positive) |
| SpendingInsights.UnusualShare | app/insights/_components/SpendingInsights.tsx:102-116 | a warning iff the top category is more than 40 percent of the total, carrying that category, its amount and its share |
| SpendingInsights.Panel.constructor | app/insights/_components/SpendingInsights.tsx:47-66 | the initial insight state |
| SpendingInsights.Panel.Refresh | app/insights/_components/SpendingInsights.tsx:67-118 | without months nothing changes; otherwise the average is the total over the months, the change is recomputed with at least two months, and the warning is set only when the share rule fires |
| SpendingInsights.StaleWarning | app/insights/_components/SpendingInsights.tsx:102-116 | a warning once raised stays after a refresh whose top category is no longer above 40 percent |
| ExpenseList.CompareMeaning | app/expenses/ExpenseList.tsx:80-95 | the descending comparison is the ascending one negated; by date, by amount and by category (string order) as the column says; any other column compares equal |
| ExpenseList.PrecedesIsPreorder | app/expenses/ExpenseList.tsx:80-95 | each comparison is a total preorder, so the sort is well defined |
| ExpenseList.CategoryTransitive | app/expenses/ExpenseList.tsx:87-90 | the category comparison is transitive in both orders |
| ExpenseList.ShownMeaning | app/expenses/ExpenseList.tsx:42-100 | the rows shown are exactly the expenses matching the search (case-insensitive), the category and the date filter, sorted by the chosen column and order, and their total is that of the matching expenses |
| ExpenseList.DefaultFiltersKeepAll | app/expenses/ExpenseList.tsx:35-78 | with the initial filters every expense is shown |
| ExpenseList.UnknownColumnKeepsOrder | app/expenses/ExpenseList.tsx:91-93 | an unknown sort column keeps the filtered rows in their original order (the sort is stable) |
| ExpenseList.SortToggleTwice | app/expenses/ExpenseList.tsx:102-109 | clicking the sorted column flips the order and twice restores it; a new column starts descending |
| ExpenseList.View.constructor | app/expenses/ExpenseList.tsx:27-39 | the view starts with the given expenses and every filter and the sort at their defaults |
| ExpenseList.View.HandleSort | app/expenses/ExpenseList.tsx:102-109 | the sort becomes the toggle of the old one and the filters are kept |
| ExpenseList.View.ClearFilters | app/expenses/ExpenseList.tsx:111-117 | every filter and the sort return to their defaults, so every expense is shown again |
| HouseholdTabs.UserName | app/households/_components/HouseholdTabs.tsx:38-44 | the user's name if truthy, else the e-mail if truthy, else "Unknown User"; never empty |
| HouseholdTabs.CategoriesMeaning | app/households/_components/HouseholdTabs.tsx:52-68 | one entry per category with its total and count, largest total first; totals add up to the total amount and counts to the number of expenses |
| HouseholdTabs.SortedGroups | app/households/_components/HouseholdTabs.tsx:52-90 | sorting the groups keeps their meaning and orders them by total, descending |
| HouseholdTabs.GroupsFacts | app/households/_components/HouseholdTabs.tsx:52-62 | the grouping has one entry per key seen, with its total and count |
| HouseholdTabs.MembersMeaning | app/households/_components/HouseholdTabs.tsx:70-90 | one entry per member with their total, count and the name of their first expense, largest total first; totals and counts add up |
| HouseholdTabs.MemberFacts | app/households/_components/HouseholdTabs.tsx:70-84 | the per-member grouping before the sort |
| HouseholdTabs.NameOfFirst | app/households/_components/HouseholdTabs.tsx:74-80 | a member's name is the one on their first expense |
| Ranking.RankedMeaning | app/_components/HomeDashboard.tsx:25-37 | the ranking lists every key once with its own total, in descending order, and its totals add up to the overall total |
| Sorting.SortByCorrect | app/expenses/ExpenseList.tsx:80-95 | the stable sort used for every `sort` call returns a sorted permutation of its input under any total preorder |
| Sorting.SortBySortedInput | app/expenses/ExpenseList.tsx:80-95 | a list already in order comes back unchanged, as a stable sort leaves it |
| Sorting.SortDescCorrect | app/_components/HomeDashboard.tsx:31-37 | a descending sort by a value is a permutation whose values never increase |
| Sorting.SortDescHead | pages/api/advice/index.ts:112-114 | the head of a descending sort is the first element with the largest value |
| Ranking.RankedKeys | app/_components/HomeDashboard.tsx:25-37 | the ranking holds every key of the input once, each with its own total |
| Ranking.TopMeaning | app/_components/HomeDashboard.tsx:31-37 | at most n entries, descending, each with its own total; a key left out totals no more than any shown one |
| HomeDashboard.OverviewMeaning | app/_components/HomeDashboard.tsx:19-37 | the per-category totals add up to the total spent, one per category; the top five are the largest, descending |
| EnhancedDashboard.MonthTotalStep | app/_components/EnhancedDashboard.tsx:54-65 | one more expense adds its amount to the month total exactly when it is of this month |
| EnhancedDashboard.MonthTotalBounds | app/_components/EnhancedDashboard.tsx:54-65 | the month total lies between 0 and the total of all expenses |
| EnhancedDashboard.Progress | app/_components/EnhancedDashboard.tsx:67 | the progress is capped at 100, reaches it iff the total reaches the 2000 limit, and is otherwise the total's share of the limit |
| EnhancedDashboard.ColorOfTotal | app/_components/EnhancedDashboard.tsx:164-170 | red iff the month total is above 1700, yellow iff above 1300 up to 1700, green otherwise; a larger total never gets a milder colour |
| EnhancedDashboard.RecentMeaning | app/_components/EnhancedDashboard.tsx:69-73 | the five newest expenses, newest first; any expense left out is no newer than the fifth |
| EnhancedDashboard.MonthlyChartMeaning | app/_components/EnhancedDashboard.tsx:88-100 | the last six month-name entries in first-seen order, each month once with its total |
| EnhancedDashboard.SuffixEntries | app/_components/EnhancedDashboard.tsx:98-100 | a suffix of entries with distinct keys keeps them distinct |
| EnhancedDashboard.Dashboard.constructor | app/_components/EnhancedDashboard.tsx:35-46 | the initial state |
| EnhancedDashboard.Dashboard.Refresh | app/_components/EnhancedDashboard.tsx:48-104 | without expenses nothing changes; otherwise each field becomes its specified aggregate |
| Calendar.SetMonthTarget | app/insights/_components/AdviceDashboard.tsx:81 | `setMonth` lands in the requested month with the same day when the day fits in it, and in the month after, on an earlier day, when it does not |
| Calendar.MonthKeyOrder | pages/api/advice/index.ts:81 | "yyyy-MM" keys compare as strings in calendar order and are equal exactly for the same month |
| Calendar.MonthYearLabelInjective | app/insights/_components/AdviceDashboard.tsx:83-86 | two "Mon yyyy" labels are equal exactly when they name the same month of the same year |
| AdviceDashboard.WindowAsWrittenOn31March | app/insights/_components/AdviceDashboard.tsx:76-91 | on 31 March 2025 the six labels built with `setMonth` are October, December, December, January, March, March: no November and no February |
| AdviceDashboard.WindowAsWrittenEarlyInMonth | app/insights/_components/AdviceDashboard.tsx:76-91 | up to the 28th of a month the labels as written are the intended ones |
| AdviceDashboard.WindowMeaning | app/insights/_components/AdviceDashboard.tsx:76-91 | the six buckets are the five months before today's and today's month, oldest first, all different |
| AdviceDashboard.FindBucket | app/insights/_components/AdviceDashboard.tsx:100 | `find`: the first bucket of the month, or none when no bucket has it |
| AdviceDashboard.EmptyBuckets | app/insights/_components/AdviceDashboard.tsx:76-91 | (corrected) six buckets for the six calendar months of the window, each with a zero total |
| AdviceDashboard.FilledStep | app/insights/_components/AdviceDashboard.tsx:93-104 | adding one expense to the bucket of its month keeps every bucket the total of its month and their sum the total inside the window |
| AdviceDashboard.BucketsStep | app/insights/_components/AdviceDashboard.tsx:93-104 | with distinct months, adding to the found bucket keeps every bucket the total of its own month |
| AdviceDashboard.GetMonthlyData | app/insights/_components/AdviceDashboard.tsx:76-107 | (corrected) six buckets for the last six calendar months, oldest first, each holding the total of its month's expenses; together they hold exactly the expenses inside the window |
| AdviceDashboard.BucketsBounded | app/insights/_components/AdviceDashboard.tsx:76-107 | with positive amounts the chart's total lies between 0 and the total of all expenses |
| AdviceDashboard.GetCategoryData | app/insights/_components/AdviceDashboard.tsx:110-123 | the per-category totals, largest first, adding up to the total of all expenses |
| MemberRoles.UpdateRole | app/households/_components/MemberRoleSelector.tsx:21-49 | a request is sent only for a role different from the current one |
| MemberRoles.SameRoleIsNoOp | app/households/_components/MemberRoleSelector.tsx:23-25 | choosing the current role does nothing |
| MemberRoles.OwnRoleRule | app/households/_components/MemberRoleSelector.tsx:28-35 | for one's own row a request is sent iff an admin steps down to member; any other change is refused with the own-role message |
| MemberRoles.OtherRoleRule | app/households/_components/MemberRoleSelector.tsx:36-48 | for another member a request is sent iff a member is promoted to admin; another admin is refused with the admin message |
| MemberRoles.CanChangeRoleMeaning | app/households/_components/MemberRoleSelector.tsx:81-96 | the select is enabled exactly for the rows where switching to the other role is sent, and a disabled row refuses every change |
| MemberRoles.ToggleRole | app/households/_components/MemberRoleToggle.tsx:21-40 | the toggle never does nothing: it refuses or sends |
| MemberRoles.ToggleMeaning | app/households/_components/MemberRoleToggle.tsx:21-40 | the toggle refuses exactly on one's own row and otherwise sends the other role, so toggling twice comes back |
| MemberRoles.ToggleDisabledMeaning | app/households/_components/MemberRoleToggle.tsx:62 | the button is enabled exactly when not loading and not one's own row, and then it sends |
| MemberRoles.ToggleLabelMeaning | app/households/_components/MemberRoleToggle.tsx:70 | "Updating..." exactly while loading, otherwise the role's name, and the two role names differ |
| MemberRoles.SelectorWithinToggle | app/households/_components/MemberRoleSelector.tsx:36-48 | on another member's row whatever the select sends the toggle sends too, while an admin the select protects is demoted by the toggle |
| Middleware.Route | middleware.ts:5-45 | a redirect goes to "/" for a signed-in user and to "/auth/signin" otherwise |
| Middleware.PublicPathsMeaning | middleware.ts:13-18 | five different public paths, all under "/auth/" |
| Middleware.PublicPathsAreRouted | middleware.ts:13-32 | no public path is an API, static or favicon path, so the redirect rules apply to all of them |
| Middleware.RouteMeaning | middleware.ts:20-44 | a redirect happens iff the path is not passed through and being signed in coincides with the path being public; API paths always pass |
| Middleware.NoRedirectLoop | middleware.ts:34-42 | the target of a redirect is itself let through, so no request is redirected twice |
| Connections.GroupConnections | pages/api/user/connections.ts:65-86 | the loop over the rows builds exactly the grouping: one connection per user in first-seen order with their households |
| Connections.ValuesAreGrouping | pages/api/user/connections.ts:85-86 | `Object.values` of the finished map is the grouping |
| Connections.GroupedStep | pages/api/user/connections.ts:66-83 | adding one row keeps the map the grouping of the rows seen |
| Connections.GroupingMeaning | pages/api/user/connections.ts:65-86 | one connection per user who appears, none twice, each with one household entry per row of theirs in order, and as many entries in all as rows |
| Connections.GroupingSize | pages/api/user/connections.ts:65-86 | the household entries add up to the number of rows |
| Connections.ConnectionRowsMeaning | pages/api/user/connections.ts:33-63 | each selected row is of another user and of a household the user belongs to |
| Connections.GroupRows | pages/api/user/connections.ts:66-83 | every connection and every household entry comes from a row |
| Connections.ConnectionsMeaning | pages/api/user/connections.ts:33-86 | the result never lists the user, each household listed is one the user belongs to, and the entries count the selected rows |
| Connections.Handle | pages/api/user/connections.ts:7-88 | 401 without a session e-mail or for an unknown user, 405 for any method but GET, otherwise 200 with the grouping of the user's connection rows |
| Cloudinary.GetPublicIdFromUrl | lib/cloudinary.ts:44-56 | null for an empty URL and exactly when the expression `/v<digits>/<segment>/<rest>` matches nowhere; otherwise the capture of the leftmost match, a segment and a rest joined by "/" |
| Cloudinary.DigitRun | lib/cloudinary.ts:49 | `\d+` takes the whole run of digits and stops at the first non-digit |
| Cloudinary.RunWithout | lib/cloudinary.ts:49 | `[^/]+` and `[^.]+` take the whole run up to the first excluded character |
| Cloudinary.MatchAtMeaning | lib/cloudinary.ts:49-50 | the greedy match at a position is a match there, no match there captures more, and none exists when it fails |
| Cloudinary.NoLongerMatch | lib/cloudinary.ts:49-50 | any match at a position is found and captures no more than the greedy one |
| Cloudinary.MatchedDigits | lib/cloudinary.ts:49 | every match has its "/" right after the whole run of digits |
| Cloudinary.FoundMatches | lib/cloudinary.ts:49-50 | what the greedy match returns is a match |
| Cloudinary.SearchMeaning | lib/cloudinary.ts:49-51 | scanning from left to right finds the leftmost match, and nothing exactly when no match exists |
| Cloudinary.SplitId | lib/cloudinary.ts:49 | a public id is a non-empty folder without "/" and a non-empty name without ".", joined by "/" |
| Cloudinary.UploadedUrl | lib/cloudinary.ts:44-51 | the secure URL of an upload, `<base>/v<version>/<folder>/<name>.<ext>`, gives back `<folder>/<name>` when the base has no "/v" in it |
| Cloudinary.CandidateAt | lib/cloudinary.ts:49-51 | at the first "/v" followed by digits, a segment and a rest, the id is the segment and the rest up to the first "." |
| Cloudinary.MatchAtCandidate | lib/cloudinary.ts:49 | the greedy runs at such a candidate stop where its parts end |
| Cloudinary.SkipToCandidate | lib/cloudinary.ts:49-50 | the scan skips every position where "/v" does not start |
| Constants.GetCategoryColor | lib/constants.ts:19-96 | whatever the category, the badge is that of a listed category in the theme the flag, or else the document, chooses |
| Constants.KeysAreCategories | lib/constants.ts:1-84 | the colour map has an entry for exactly the listed categories |
| Constants.CategoriesDistinct | lib/constants.ts:1-17 | the list holds 15 different categories |
| Constants.UnknownFallsBack | lib/constants.ts:93-95 | a category not listed gets the Miscellaneous badge; a listed one its own |
| Constants.ExplicitModeWins | lib/constants.ts:86-91 | an explicit dark-mode flag decides the theme whatever the document says, as the document would with that theme |
| Constants.ThemesDiffer | lib/constants.ts:23-84 | no badge is the same in both themes |
| Constants.LightColorsDistinct | lib/constants.ts:23-84 | different categories have different light badges |
| Constants.DarkColorsDistinct | lib/constants.ts:23-84 | different categories have different dark badges |
| RateLimitAlert.ClockFields | components/RateLimitAlert.tsx:36-46 | for a count that is not negative, hours, minutes and seconds rebuild it, with minutes and seconds below 60 |
| RateLimitAlert.DivMod60 | components/RateLimitAlert.tsx:36-46 | quotient and remainder by 60 are the ones that rebuild the dividend |
| RateLimitAlert.FieldDigits | components/RateLimitAlert.tsx:41-45 | a padded field is at least two digits, exactly two below 100, and reads back as its number |
| RateLimitAlert.NatToStringShort | components/RateLimitAlert.tsx:41-45 | a number below 100 has at most two digits |
| RateLimitAlert.FormatTimeRoundTrip | components/RateLimitAlert.tsx:36-46 | the display of a count that is not negative reads back as the count, even past 99 hours |
| RateLimitAlert.FieldsValue | components/RateLimitAlert.tsx:36-46 | the three fields are digit strings that stand for the count |
| RateLimitAlert.ParseJoined | components/RateLimitAlert.tsx:41-45 | digit fields joined by ":" split back into themselves |
| RateLimitAlert.NoColon | components/RateLimitAlert.tsx:41-45 | a digit string holds no ":" |
| RateLimitAlert.FormatTimeShape | components/RateLimitAlert.tsx:36-46 | below 100 hours the display is eight characters, "HH:MM:SS" |
| RateLimitAlert.Alert.constructor | components/RateLimitAlert.tsx:12-18 | the banner starts visible with the given seconds and message, one hour and the default message when none is given |
| RateLimitAlert.Alert.Tick | components/RateLimitAlert.tsx:20-33 | at zero or below the banner hides and `onClose` is called when given; otherwise the count drops by one second and nothing else changes |
| RateLimitAlert.Alert.Dismiss | components/RateLimitAlert.tsx:78-85 | the banner hides and `onClose` is called, the count is kept |
| RateLimitAlert.Alert.CountDown | components/RateLimitAlert.tsx:20-33 | left alone the banner closes after exactly the remaining seconds and calls `onClose` once |
| RateLimitAlert.Alert.DismissThenCountDown | components/RateLimitAlert.tsx:20-85 | after a dismiss the timer still runs out and calls `onClose` a second time |
| ProfileContent.DaysUntilUsernameChange | app/profile/ProfileContent.tsx:83-93 | never negative, and 0 for a name never changed |
| ProfileContent.DaysUntilBounds | app/profile/ProfileContent.tsx:78-93 | for a change in the past the days shown lie between 0 and 30, and are 0 whenever a change is allowed |
| ProfileContent.PageWithinServer | app/profile/ProfileContent.tsx:78-81 | where the page allows a rename the server accepts it, and the two disagree exactly at 30 days to the millisecond |
| ProfileContent.PageShowsServerWait | app/profile/ProfileContent.tsx:83-93 | while the server refuses a rename the page shows the same number of days as the server's message |
| ProfileContent.ImageProblem | app/profile/ProfileContent.tsx:112-125 | a file is taken iff it is at most 5 MB and of an "image/" type; too large is reported before a wrong type |
| ProfileContent.ProfileForm.constructor | app/profile/ProfileContent.tsx:61-73 | the form starts from the user's fields, no file, the stored image as preview, not editing and no messages |
| ProfileContent.ProfileForm.HandleImageChange | app/profile/ProfileContent.tsx:112-131 | no file changes nothing; a rejected file only sets the error; an accepted one becomes the chosen file and the preview and clears the error; the preview keeps showing the chosen file |
| ProfileContent.ProfileForm.CancelAsWritten | app/profile/ProfileContent.tsx:348-356 | Cancel as written resets the fields, the preview and the messages but keeps the chosen file |
| ProfileContent.ProfileForm.Cancel | app/profile/ProfileContent.tsx:348-356 | (corrected) Cancel with the file discarded: the form sends the user's own fields and no file |
| ProfileContent.CancelKeepsFile | app/profile/ProfileContent.tsx:140-147 | choosing an image and pressing Cancel as written still sends that image with the next save; the corrected Cancel sends none |
| Accounts.RegisterRefusal | pages/api/register.ts:9-34 | registration goes ahead iff the method is POST and name, e-mail and password are all given; and the password has 8 characters and the e-mail is free; otherwise 405 for another method and 400 for the rest, a short password being refused as missing or too short |
| Accounts.ChangePasswordRefusal | pages/api/user/change-password.ts:14-63 | the change goes ahead iff there is a session e-mail of a known user and the method is POST, both fields are given, the new password has 8 characters and the current one matches the stored hash; otherwise an error among 400, 401, 404 and 405, with 401 exactly when there is no session e-mail |
| Accounts.ResetRefusal | pages/api/reset-password.ts:9-25 | the reset goes on to the token lookup iff the method is POST and token and password are given and the password has 8 characters; 405 or 400 otherwise |
| Accounts.IssueToken | pages/api/forgot-password.ts:29-39 | the new token is accepted exactly until one hour after it was issued, no other token is accepted, and nothing else in the record changes |
| Accounts.ConsumeToken | pages/api/reset-password.ts:43-53 | afterwards no token is accepted, the new password matches the stored hash, and nothing else changes |
| Accounts.TokenLifecycle | pages/api/reset-password.ts:27-53 | an issued token resets the password exactly within its hour, and once used it is spent |
| Accounts.CooldownWait | pages/api/user/profile.ts:75-88 | a rename is refused iff fewer than 30 whole days have passed, with a wait of 30 minus the days passed, between 1 and 30 for a change in the past |
| Accounts.FloorBelow | pages/api/user/profile.ts:76-81 | whole days rounded down stay below n exactly when the time is below n days |
| Accounts.ProfileRefusal | pages/api/user/profile.ts:61-89 | only a rename (a non-empty name different from the stored one) can be refused, always with 400; a name another user has is refused first, then the cooldown applies |
| Accounts.MergeProfile | pages/api/user/profile.ts:92-123 | the name changes only for a non-empty name, bio and location whenever sent, the image and its public id only on an upload, the rename time only on a real rename, and id, e-mail, password and token never |
| Accounts.ResendIsNoRename | pages/api/user/profile.ts:61-123 | sending the stored profile back unchanged leaves the record as it was |
| Accounts.UserTable.constructor | pages/api/register.ts:28-46 | an empty table of users |
| Accounts.UserTable.Register | pages/api/register.ts:9-51 | a user is created iff there is no refusal; the new record holds the hashed password and the reply leaves it out; a refusal changes nothing |
| Accounts.UserTable.ChangePassword | pages/api/user/change-password.ts:7-74 | without a refusal the user's password becomes the hash of the new one and nothing else changes; a refusal changes nothing |
| Accounts.UserTable.ForgotPassword | pages/api/forgot-password.ts:8-47 | a well-formed request gets the same reply whether the address is registered or not, and only a registered user's token changes |
| Accounts.UserTable.ResetPassword | pages/api/reset-password.ts:8-55 | some user whose token is accepted gets the new password and loses the token; with no such user the reply is the invalid-token error and nothing changes |
| Accounts.UserTable.UserProfile | pages/api/user/profile.ts:20-178 | 401 without a session e-mail, 404 for an unknown user, the profile for GET, 405 for other methods, and the PUT outcome for PUT |
| Accounts.UserTable.UpdateProfile | pages/api/user/profile.ts:40-136 | a refusal leaves the table as it was; otherwise the merged record replaces the user's and is sent back, and after a rename no other user has the new name |

## Left out

- Network and storage: the HTTP layer beyond status and body, the session lookup (a parameter), the Prisma queries (filters over input sequences, or the user map), the exceptions they can throw and the 500 replies that catch them, and console logging.
- The language model call of `/api/advice/llm-analyze` and the JSON parsing of its reply: the call's outcome is the parameter `outcome`.
- bcrypt is the symbolic digest `Accounts.Hash`, which tells apart any two passwords, whereas bcrypt reads only the first 72 bytes, so two passwords that share those bytes both match one hash; the random reset token of `crypto.randomBytes`, the database-assigned id and the clock are parameters.
- Form parsing (formidable), the file read, and the Cloudinary upload and deletion: the uploaded URL is a parameter; `URL.createObjectURL` is a field of `ProfileContent.File`.
- Text rendering: `toFixed`, `toLocaleString`, `Intl.NumberFormat` and the sentence templates. Answers and insights carry exact values instead of formatted strings.
- Floating point: amounts are exact reals, so rounding errors, `Infinity` and `NaN` do not arise.
- Time of day and time zones: dates have day granularity. The account rules work on milliseconds. In `ExpenseList.DateMatch` the boundary day of the week, month and year filters (7 days, a month or a year back) counts as inside, whereas the list compares against `new Date()` at the current time of day, so an expense dated midnight of that day is outside the filter except at midnight itself.
- String lengths count characters rather than UTF-16 code units, and `toLowerCase` folds ASCII letters only.
- React itself: rendering, effect scheduling, `isLoading` flags, toasts, `router.refresh` and `window.location.reload`.
- The fields the profile GET reply adds that no rule reads: `createdAt` and the household memberships.
- The `config.matcher` of middleware.ts, which decides which paths reach the middleware at all.
- AdviceEngine.TallyExpenses: keys come back in first-insertion order; `Object.keys` would list integer-like categories (such as "2024") first in ascending order, and a category named like an `Object.prototype` member (such as "constructor") would start from the inherited member and sum to a string. Categories are taken to be among the 15 of lib/constants.ts:1-17, which the expense form's select offers, although POST /api/expenses (pages/api/expenses/index.ts:54-64) stores any non-empty category.
- AdviceEngine.RankedCategories: inherits the category key order and prototype-name caveat of `AdviceEngine.TallyExpenses`, which can change which of two equal totals ranks first.
- AdviceEngine.CategorySpikes: loops over the categories in first-seen order, with the same caveat as `AdviceEngine.TallyExpenses` for integer-like and prototype-named categories.
- AdviceEngine.BudgetChecks: follows the ranking of `AdviceEngine.RankedCategories` and shares its caveat; table categories are never integer-like or prototype names, so only the order among tied totals can differ.
- HomeDashboard.OverviewMeaning: the per-category totals are listed in first-seen order before the stable sort; integer-like or prototype-named categories are not modelled, as for `AdviceEngine.TallyExpenses`.
- EnhancedDashboard.Dashboard.Refresh: the top categories have the same caveat as `AdviceEngine.TallyExpenses` for integer-like and prototype-named categories.
- HouseholdTabs.CategoriesMeaning: the per-category groups have the same caveat as `AdviceEngine.TallyExpenses`; with a prototype-named category, `!acc[category]` is false, the updates land on the inherited member, and the category is missing from `Object.entries`.
- AdviceDashboard.GetCategoryData: the per-category totals have the same caveat as `AdviceEngine.TallyExpenses` for integer-like and prototype-named categories.
- SpendingInsights.Panel.Refresh: requires a non-zero total when top categories are given, because JavaScript's division by zero (`Infinity` or `NaN`) is not modelled; the component's `biggestExpense`, which no code writes, is not modelled either.
- ExpenseList.CompareMeaning: `localeCompare` is modelled as code-unit order, not locale collation.
- Constants.GetCategoryColor: a category named like an `Object.prototype` member (such as "constructor") is treated like any unknown category, while JavaScript would find the inherited member.
- ProfileContent.DaysUntilBounds: the bound of 0 to 30 days is proved only for a last change that is not in the future. For a date in the future the page shows more than 30 days.
- FallbackAdvice.GenerateFallbackAdvice: requires the category average to be positive whenever the category count is, because the source divides by that average.
- Cloudinary.SplitId: the folder segment may contain "." (`[^/]+`), so an id is free of "." only in its name part.
- Ask.CheaperDayAnalysis: models the corrected guard of the Findings row for ask.ts:599-619; the code as written is `Ask.NegativeSavingAsWritten`.
- Ask.GenerateAnswer: its cheaper-weekday branch is the corrected one of the Findings row for ask.ts:599-619, so it never suggests a switch to a dearer weekday as the code does.
- Ask.HandleAsk: answers with the corrected `Ask.GenerateAnswer` of the Findings row for ask.ts:599-619.
- ExpenseInsights.FrequencyInsights: uses the corrected frequency guard of the Findings row for expense-insights.ts:196-205; the code as written also reports gaps of zero or below (`ExpenseInsights.FrequencyAsWrittenAcceptsNonPositiveGaps`).
- ExpenseInsights.FrequencyHabit: computes the same corrected frequency guard of the Findings row for expense-insights.ts:196-205 as `ExpenseInsights.FrequencyInsights`.
- ExpenseInsights.MealHabits: its frequency step is the corrected one of the Findings row for expense-insights.ts:196-205.
- ExpenseInsights.GenerateExpenseInsights: built on the corrected `ExpenseInsights.MealHabits` of the Findings row for expense-insights.ts:196-205.
- ExpenseInsights.HandleExpenseInsights: returns the corrected insights of the Findings row for expense-insights.ts:196-205.
- AdviceDashboard.EmptyBuckets: labels the six calendar months (`AdviceDashboard.Window`), the corrected half of the Findings row for AdviceDashboard.tsx:76-91; on the 29th to the 31st the code's labels can repeat a month and skip others (`AdviceDashboard.WindowAsWritten`).
- AdviceDashboard.GetMonthlyData: fills the corrected buckets of the Findings row for AdviceDashboard.tsx:76-91, so no month's expenses drop out as they do in the code.
- ProfileContent.ProfileForm.Cancel: is the corrected Cancel of the Findings row for ProfileContent.tsx:348-356; the code as written keeps the chosen file (`ProfileContent.CancelKeepsFile`).
- Ask.PlaceGroups: a plain JavaScript object is modelled as a map listed in first-seen order, whereas `Object.entries` lists integer-like keys (such as "711") first, in ascending order, and a first word named like an `Object.prototype` member (such as "constructor") updates the inherited member, so that place is lost from the tally.
- Ask.AlternativesAnalysis: inherits the key order and the lost `Object.prototype` names of `Ask.PlaceGroups`, which can change which alternatives are listed after the stable sort and the cut to three.
- AdviceEngine.DetectRecurringExpenses: lists descriptions in first-seen order, whereas `Object.entries` puts integer-like descriptions first in ascending order; a description such as "constructor" finds the inherited member, whose `months.add` throws, and the endpoint answers 500 instead.
- Expenses.AllPositive: positive amounts rest on the expense form only; `POST /api/expenses` (pages/api/expenses/index.ts:54-64) stores `parseFloat(amount)` without a sign check, so the advice rules' division and ordering facts assume data entered through the form.

## Findings

| source | as written | input that shows it | evidently intended | confidence | as-written member | corrected member |
|---|---|---|---|---|---|---|
| pages/api/advice/ask.ts:599-619 | the answer suggests moving to the cheapest weekday with at least two visits whenever the expense is on another weekday, even when that weekday is cheaper | visits to "Cafe": $5 on two Mondays and $1 on one Tuesday; asked about the Tuesday visit, the answer suggests Monday and a saving of -4 per visit | suggest a switch only when the expense's weekday costs more than the cheapest, so the saving is positive | high, not executed | Ask.NegativeSavingAsWritten | Ask.CheaperDayMeaning |
| pages/api/advice/expense-insights.ts:196-205 | `frequency < 7` also accepts a visit gap of zero or below | four visits at the same place, the oldest on the expense's own day: the gap is 0 and the monthly figure divides by zero; with the oldest visit ten days after the expense the gap is -2 | report a frequency only for a positive gap, that is for an expense later than the oldest visit | medium, not executed | ExpenseInsights.FrequencyAsWrittenAcceptsNonPositiveGaps | ExpenseInsights.FrequencyMeaning |
| app/insights/_components/AdviceDashboard.tsx:76-91 | each bucket's month is `setMonth(getMonth() - i)` on today's date, keeping the day of the month | on 31 March 2025 the buckets are October, December, December, January, March, March: "31 November" rolls over to 1 December and "31 February" to 3 March, so November and February have no bucket and their expenses drop out of the chart | the six calendar months ending with the current one | high, not executed | AdviceDashboard.WindowAsWrittenOn31March | AdviceDashboard.WindowMeaning |
| app/profile/ProfileContent.tsx:348-356 | Cancel resets the text fields, the preview and the messages but not the chosen image file | choose an image, press Cancel, then edit and save: the form still sends the discarded image (lines 145-147) and it is uploaded | Cancel also discards the chosen file | medium, not executed | ProfileContent.CancelKeepsFile | ProfileContent.ProfileForm.Cancel |

=== FILE: accounts.dfy ===
/** The account endpoints over the user table: pages/api/register.ts,
    pages/api/user/change-password.ts, pages/api/forgot-password.ts,
    pages/api/reset-password.ts and the PUT and GET branches of
    pages/api/user/profile.ts. The table is a map from e-mail address (its
    unique column) to user record, updated in place by the handlers.
    bcrypt is the symbolic digest `Hash`, which `Matches` exactly the
    password it was made from; the clock (`now`, in milliseconds), the
    random reset token, the id the database assigns and the URL the image
    upload returns are parameters. */
module Accounts {
  import opened Wrappers
  import opened Text
  import Cloudinary

  /** A stored bcrypt hash. */
  datatype Digest = Digest(secret: string)

  /** `bcrypt.hash(password, 12)` */
  function Hash(password: string): Digest {
    Digest(password)
  }

  /** `bcrypt.compare(password, digest)` */
  predicate Matches(password: string, digest: Digest) {
    digest == Hash(password)
  }

  datatype User = User(
    id: string,
    name: Option<string>,
    email: string,
    password: Option<Digest>,
    resetToken: Option<string>,
    resetTokenExpiry: Option<int>,
    bio: Option<string>,
    location: Option<string>,
    image: Option<string>,
    imagePublicId: Option<string>,
    lastUsernameChange: Option<int>)

  /** The record register.ts sends back: everything but the password. */
  datatype Account = Account(
    id: string,
    name: Option<string>,
    email: string,
    resetToken: Option<string>,
    resetTokenExpiry: Option<int>,
    bio: Option<string>,
    location: Option<string>,
    image: Option<string>,
    imagePublicId: Option<string>,
    lastUsernameChange: Option<int>)

  /** The fields profile.ts selects for its reply. */
  datatype ProfileView = ProfileView(
    id: string,
    name: Option<string>,
    email: string,
    image: Option<string>,
    bio: Option<string>,
    location: Option<string>,
    lastUsernameChange: Option<int>)

  function WithoutPassword(u: User): Account {
    Account(u.id, u.name, u.email, u.resetToken, u.resetTokenExpiry, u.bio, u.location,
            u.image, u.imagePublicId, u.lastUsernameChange)
  }

  function ViewOf(u: User): ProfileView {
    ProfileView(u.id, u.name, u.email, u.image, u.bio, u.location, u.lastUsernameChange)
  }

  /** A JSON reply: an error or a message with its status, the new account
      (201) or a profile (200). */
  datatype Reply =
    | Error(status: int, error: string)
    | Message(status: int, message: string)
    | Registered(account: Account)
    | Profile(profile: ProfileView)

  const MethodNotAllowed := "Method not allowed"
  const MissingFields := "Missing required fields"
  const PasswordTooShort := "Password must be at least 8 characters"
  const EmailInUse := "Email already in use"
  const NoPasswordSet := "No password is set for this account. You might be using a social login method."
  const WrongPassword := "Current password is incorrect"
  const PasswordChanged := "Password changed successfully"
  const EmailRequired := "Email is required"
  const ResetEmailSent := "Password reset email sent"
  const InvalidToken := "Invalid or expired reset token. Please request a new one."
  const ResetDone := "Password reset successful"
  const NameTaken := "Username is already taken"

  /** Passwords are at least this long. */
  const MinPasswordLength := 8
  /** A reset token lives one hour. */
  const ResetTokenLifetime := 3600000
  /** One day in milliseconds. */
  const DayMs := 1000 * 60 * 60 * 24
  /** Days between two changes of the user name. */
  const UsernameCooldownDays := 30

  /** A request body field that JavaScript finds truthy: present and not
      the empty string. */
  predicate Given(field: Option<string>) {
    field.Some? && field.value != ""
  }

  // ---------------------------------------------------------------------
  // Checks before any write

  /** The reply register.ts gives before touching the table, or None when
      it goes on to create the user; `taken` is whether the e-mail is
      already registered. */
  function RegisterRefusal(httpMethod: string, name: Option<string>, email: Option<string>,
                           password: Option<string>, taken: bool): (r: Option<Reply>)
    ensures r.None? <==> httpMethod == "POST" && Given(name) && Given(email) && Given(password)
                         && |password.value| >= MinPasswordLength && !taken
    ensures r.Some? ==> r.value.Error? && r.value.status == (if httpMethod == "POST" then 400 else 405)
    ensures httpMethod == "POST" && Given(password) && |password.value| < MinPasswordLength ==>
              r.Some? && r.value.error in {MissingFields, PasswordTooShort}
  {
    if httpMethod != "POST" then Some(Error(405, MethodNotAllowed))
    else if !Given(name) || !Given(email) || !Given(password) then Some(Error(400, MissingFields))
    else if |password.value| < MinPasswordLength then Some(Error(400, PasswordTooShort))
    else if taken then Some(Error(400, EmailInUse))
    else None
  }

  /** The reply change-password.ts gives before the update, or None when it
      goes on to store the new password. `user` is the record the session's
      e-mail finds. */
  function ChangePasswordRefusal(sessionEmail: Option<string>, user: Option<User>, httpMethod: string,
                                 currentPassword: Option<string>, newPassword: Option<string>): (r: Option<Reply>)
    ensures r.None? <==> Given(sessionEmail) && user.Some? && httpMethod == "POST"
                         && Given(currentPassword) && Given(newPassword)
                         && |newPassword.value| >= MinPasswordLength
                         && user.value.password.Some? && Matches(currentPassword.value, user.value.password.value)
    ensures r.Some? ==> r.value.Error? && r.value.status in {400, 401, 404, 405}
    ensures r.Some? && r.value.status == 401 <==> !Given(sessionEmail)
  {
    if !Given(sessionEmail) then Some(Error(401, "Unauthorized"))
    else if user.None? then Some(Error(404, "User not found"))
    else if httpMethod != "POST" then Some(Error(405, MethodNotAllowed))
    else if !Given(currentPassword) || !Given(newPassword) then Some(Error(400, MissingFields))
    else if |newPassword.value| < MinPasswordLength then Some(Error(400, PasswordTooShort))
    else if user.value.password.None? then Some(Error(400, NoPasswordSet))
    else if !Matches(currentPassword.value, user.value.password.value) then Some(Error(400, WrongPassword))
    else None
  }

  /** The reply reset-password.ts gives before looking the token up. */
  function ResetRefusal(httpMethod: string, token: Option<string>, password: Option<string>): (r: Option<Reply>)
    ensures r.None? <==> httpMethod == "POST" && Given(token) && Given(password)
                         && |password.value| >= MinPasswordLength
    ensures r.Some? ==> r.value.Error? && r.value.status == (if httpMethod == "POST" then 400 else 405)
  {
    if httpMethod != "POST" then Some(Error(405, MethodNotAllowed))
    else if !Given(token) || !Given(password) then Some(Error(400, MissingFields))
    else if |password.value| < MinPasswordLength then Some(Error(400, PasswordTooShort))
    else None
  }

  // ---------------------------------------------------------------------
  // The reset token

  /** `findFirst` of reset-password.ts accepts `u` for `token` at `now`:
      the stored token is the one given and its expiry is strictly later. */
  predicate Accepts(u: User, token: string, now: int) {
    u.resetToken == Some(token) && u.resetTokenExpiry.Some? && u.resetTokenExpiry.value > now
  }

  /** The update of forgot-password.ts: a fresh token valid for one hour.
      The token is then accepted exactly until an hour has passed, no other
      token is accepted, and nothing else changes. */
  function IssueToken(u: User, token: string, now: int): (v: User)
    ensures forall t, later :: Accepts(v, t, later) <==> t == token && later < now + ResetTokenLifetime
    ensures v.(resetToken := u.resetToken, resetTokenExpiry := u.resetTokenExpiry) == u
  {
    u.(resetToken := Some(token), resetTokenExpiry := Some(now + ResetTokenLifetime))
  }

  /** The update of reset-password.ts: the new password, and the token
      cleared so that it is never accepted again; nothing else changes. */
  function ConsumeToken(u: User, password: string): (v: User)
    ensures forall t, later :: !Accepts(v, t, later)
    ensures v.password.Some? && Matches(password, v.password.value)
    ensures v.(password := u.password, resetToken := u.resetToken, resetTokenExpiry := u.resetTokenExpiry) == u
  {
    u.(password := Some(Hash(password)), resetToken := None, resetTokenExpiry := None)
  }

  /** A token issued at `issued` lets the password be reset at `now` exactly
      within the hour, and once used it is spent: a second reset with it
      fails. */
  lemma TokenLifecycle(u: User, token: string, issued: int, now: int, later: int, password: string)
    ensures Accepts(IssueToken(u, token, issued), token, now) <==> now < issued + ResetTokenLifetime
    ensures !Accepts(ConsumeToken(IssueToken(u, token, issued), password), token, later)
    ensures Matches(password, ConsumeToken(IssueToken(u, token, issued), password).password.value)
  {
  }

  // ---------------------------------------------------------------------
  // The user name cooldown

  /** `Math.floor((Date.now() - lastUsernameChange) / 86400000)`: whole
      days elapsed, rounded down (also for a negative difference). */
  function DaysSince(now: int, last: int): int {
    (now - last) / DayMs
  }

  /** How many more days a name change must wait, or None when it may
      happen: it is refused while fewer than 30 whole days have passed, and
      the wait reported is 30 minus the days passed. Since a change in the
      past, the wait is between 1 and 30 days. */
  function CooldownWait(now: int, last: int): (w: Option<int>)
    ensures w.Some? <==> now - last < UsernameCooldownDays * DayMs
    ensures w.Some? ==> w.value == UsernameCooldownDays - DaysSince(now, last)
    ensures w.Some? && last <= now ==> 1 <= w.value <= UsernameCooldownDays
  {
    var days := DaysSince(now, last);
    FloorBelow(now - last, UsernameCooldownDays);
    if days < UsernameCooldownDays then Some(UsernameCooldownDays - days) else None
  }

  /** Whole days rounded down stay below `n` exactly when the time is below
      `n` days. */
  lemma FloorBelow(t: int, n: int)
    ensures t / DayMs < n <==> t < n * DayMs
  {
    var q, r := t / DayMs, t % DayMs;
    assert t == q * DayMs + r && 0 <= r < DayMs;
    if q < n {
      assert q * DayMs <= (n - 1) * DayMs;
    } else {
      assert q * DayMs >= n * DayMs;
    }
  }

  /** The refusal's text. */
  function CooldownMessage(wait: int): string {
    "You can change your username once every 30 days. Please wait " + IntToString(wait) + " more days."
  }

  /** `name && name !== user.name`: a non-empty name different from the
      stored one is asked for. */
  predicate RenameAsked(u: User, name: Option<string>) {
    Given(name) && Some(name.value) != u.name
  }

  /** The reply of profile.ts's PUT branch before the update, or None when
      it goes on to update; `taken` is whether another user has the name. */
  function ProfileRefusal(u: User, name: Option<string>, taken: bool, now: int): (r: Option<Reply>)
    ensures r.Some? ==> RenameAsked(u, name) && r.value.Error? && r.value.status == 400
    ensures RenameAsked(u, name) && taken ==> r == Some(Error(400, NameTaken))
    ensures r.None? <==> !RenameAsked(u, name)
                         || (!taken && (u.lastUsernameChange.None? || CooldownWait(now, u.lastUsernameChange.value).None?))
  {
    if RenameAsked(u, name) then
      if taken then Some(Error(400, NameTaken))
      else if u.lastUsernameChange.Some? && CooldownWait(now, u.lastUsernameChange.value).Some? then
        Some(Error(400, CooldownMessage(CooldownWait(now, u.lastUsernameChange.value).value)))
      else None
    else None
  }

  /** The record profile.ts writes: the name only when a non-empty one is
      given, bio and location whenever they are sent (even empty), the
      uploaded image with the public id read from its URL, and the time of
      a real name change. Nothing else changes. */
  function MergeProfile(u: User, name: Option<string>, bio: Option<string>, location: Option<string>,
                        uploadedUrl: Option<string>, now: int): (v: User)
    ensures !Given(name) ==> v.name == u.name
    ensures Given(name) ==> v.name == name
    ensures bio.None? ==> v.bio == u.bio
    ensures location.None? ==> v.location == u.location
    ensures v.lastUsernameChange != u.lastUsernameChange ==> RenameAsked(u, name)
    ensures RenameAsked(u, name) ==> v.lastUsernameChange == Some(now)
    ensures uploadedUrl.None? ==> v.image == u.image && v.imagePublicId == u.imagePublicId
    ensures uploadedUrl.Some? ==>
              v.image == uploadedUrl && v.imagePublicId == Cloudinary.GetPublicIdFromUrl(uploadedUrl.value)
    ensures v.id == u.id && v.email == u.email && v.password == u.password
    ensures v.resetToken == u.resetToken && v.resetTokenExpiry == u.resetTokenExpiry
  {
    u.(name := if Given(name) then name else u.name,
       bio := if bio.Some? then bio else u.bio,
       location := if location.Some? then location else u.location,
       image := if uploadedUrl.Some? then uploadedUrl else u.image,
       imagePublicId := if uploadedUrl.Some? then Cloudinary.GetPublicIdFromUrl(uploadedUrl.value) else u.imagePublicId,
       lastUsernameChange := if RenameAsked(u, name) then Some(now) else u.lastUsernameChange)
  }

  /** Sending the profile back unchanged changes nothing but what the form
      always sends: re-sending the stored name is not a rename. */
  lemma ResendIsNoRename(u: User, now: int)
    requires u.name.Some? && u.name.value != ""
    ensures MergeProfile(u, u.name, u.bio, u.location, None, now) == u
  {
  }

  // ---------------------------------------------------------------------
  // The table

  class UserTable {
    /** The user records by e-mail address. */
    var users: map<string, User>

    /** Each record sits under its own address and ids are unique. */
    ghost predicate Valid()
      reads this
    {
      (forall e :: e in users ==> users[e].email == e)
      && (forall e, f :: e in users && f in users && e != f ==> users[e].id != users[f].id)
    }

    constructor()
      ensures users == map[] && Valid()
    {
      users := map[];
    }

    /** `POST /api/register`. `newId` is the id the database assigns. */
    method Register(httpMethod: string, name: Option<string>, email: Option<string>,
                    password: Option<string>, newId: string) returns (reply: Reply)
      requires Valid()
      requires forall e :: e in users ==> users[e].id != newId
      modifies this
      ensures Valid()
      ensures var refusal := RegisterRefusal(httpMethod, name, email, password, email.Some? && email.value in old(users));
              refusal.Some? ==> reply == refusal.value && users == old(users)
      ensures reply.Registered? <==> RegisterRefusal(httpMethod, name, email, password, email.Some? && email.value in old(users)).None?
      ensures reply.Registered? ==>
                var u := User(newId, name, email.value, Some(Hash(password.value)), None, None, None, None, None, None, None);
                users == old(users)[email.value := u] && email.value !in old(users)
                && reply.account == WithoutPassword(u)
    {
      var refusal := RegisterRefusal(httpMethod, name, email, password, email.Some? && email.value in users);
      if refusal.Some? {
        return refusal.value;
      }
      var u := User(newId, name, email.value, Some(Hash(password.value)), None, None, None, None, None, None, None);
      users := users[email.value := u];
      reply := Registered(WithoutPassword(u));
    }

    /** `POST /api/user/change-password` for the session's e-mail. */
    method ChangePassword(sessionEmail: Option<string>, httpMethod: string,
                          currentPassword: Option<string>, newPassword: Option<string>) returns (reply: Reply)
      requires Valid()
      modifies this
      ensures Valid()
      ensures var user := if Given(sessionEmail) && sessionEmail.value in old(users) then Some(old(users)[sessionEmail.value]) else None;
              var refusal := ChangePasswordRefusal(sessionEmail, user, httpMethod, currentPassword, newPassword);
              (refusal.Some? ==> reply == refusal.value && users == old(users))
              && (refusal.None? ==>
                    reply == Message(200, PasswordChanged)
                    && users == old(users)[sessionEmail.value := user.value.(password := Some(Hash(newPassword.value)))])
    {
      var user := if Given(sessionEmail) && sessionEmail.value in users then Some(users[sessionEmail.value]) else None;
      var refusal := ChangePasswordRefusal(sessionEmail, user, httpMethod, currentPassword, newPassword);
      if refusal.Some? {
        return refusal.value;
      }
      users := users[sessionEmail.value := user.value.(password := Some(Hash(newPassword.value)))];
      reply := Message(200, PasswordChanged);
    }

    /** `POST /api/forgot-password`. The reply to a well-formed request is
        the same whether the address is registered or not; only a registered
        user's token changes. */
    method ForgotPassword(httpMethod: string, email: Option<string>, token: string, now: int) returns (reply: Reply)
      requires Valid()
      modifies this
      ensures Valid()
      ensures httpMethod != "POST" ==> reply == Error(405, MethodNotAllowed) && users == old(users)
      ensures httpMethod == "POST" && !Given(email) ==> reply == Error(400, EmailRequired) && users == old(users)
      ensures httpMethod == "POST" && Given(email) ==> reply == Message(200, ResetEmailSent)
      ensures httpMethod == "POST" && Given(email) && email.value !in old(users) ==> users == old(users)
      ensures httpMethod == "POST" && Given(email) && email.value in old(users) ==>
                users == old(users)[email.value := IssueToken(old(users)[email.value], token, now)]
    {
      if httpMethod != "POST" {
        return Error(405, MethodNotAllowed);
      }
      if !Given(email) {
        return Error(400, EmailRequired);
      }
      if email.value in users {
        users := users[email.value := IssueToken(users[email.value], token, now)];
      }
      reply := Message(200, ResetEmailSent);
    }

    /** `POST /api/reset-password`. Some user whose token is accepted gets
        the new password and loses the token; with none, nothing changes. */
    method ResetPassword(httpMethod: string, token: Option<string>, password: Option<string>, now: int)
      returns (reply: Reply)
      requires Valid()
      modifies this
      ensures Valid()
      ensures var refusal := ResetRefusal(httpMethod, token, password);
              refusal.Some? ==> reply == refusal.value && users == old(users)
      ensures ResetRefusal(httpMethod, token, password).None? && (forall e :: e in old(users) ==> !Accepts(old(users)[e], token.value, now)) ==>
                reply == Error(400, InvalidToken) && users == old(users)
      ensures reply == Message(200, ResetDone) <==>
                ResetRefusal(httpMethod, token, password).None? && exists e :: e in old(users) && Accepts(old(users)[e], token.value, now)
      ensures reply == Message(200, ResetDone) ==>
                exists e :: e in old(users) && Accepts(old(users)[e], token.value, now)
                            && users == old(users)[e := ConsumeToken(old(users)[e], password.value)]
    {
      var refusal := ResetRefusal(httpMethod, token, password);
      if refusal.Some? {
        return refusal.value;
      }
      if e :| e in users && Accepts(users[e], token.value, now) {
        users := users[e := ConsumeToken(users[e], password.value)];
        reply := Message(200, ResetDone);
      } else {
        reply := Error(400, InvalidToken);
      }
    }

    /** `findFirst({ where: { name, id: { not: user.id } } })` found someone. */
    predicate NameTakenByOther(name: string, u: User)
      reads this
    {
      exists e :: e in users && users[e].name == Some(name) && users[e].id != u.id
    }

    /** `/api/user/profile` for the session's e-mail: PUT updates the
        profile, GET returns it, any other method gets 405. */
    method UserProfile(sessionEmail: Option<string>, httpMethod: string, name: Option<string>, bio: Option<string>,
                       location: Option<string>, uploadedUrl: Option<string>, now: int) returns (reply: Reply)
      requires Valid()
      modifies this
      ensures Valid()
      ensures !Given(sessionEmail) ==> reply == Error(401, "Unauthorized") && users == old(users)
      ensures Given(sessionEmail) && sessionEmail.value !in old(users) ==>
                reply == Error(404, "User not found") && users == old(users)
      ensures Given(sessionEmail) && sessionEmail.value in old(users) && httpMethod == "GET" ==>
                reply == Profile(ViewOf(old(users)[sessionEmail.value])) && users == old(users)
      ensures Given(sessionEmail) && sessionEmail.value in old(users) && httpMethod != "GET" && httpMethod != "PUT" ==>
                reply == Error(405, MethodNotAllowed) && users == old(users)
      ensures Given(sessionEmail) && sessionEmail.value in old(users) && httpMethod == "PUT" ==>
                PutOutcome(old(users), sessionEmail.value, name, bio, location, uploadedUrl, now, reply, users)
    {
      if !Given(sessionEmail) {
        return Error(401, "Unauthorized");
      }
      var email := sessionEmail.value;
      if email !in users {
        return Error(404, "User not found");
      }
      if httpMethod == "PUT" {
        reply := UpdateProfile(email, name, bio, location, uploadedUrl, now);
      } else if httpMethod == "GET" {
        reply := Profile(ViewOf(users[email]));
      } else {
        reply := Error(405, MethodNotAllowed);
      }
    }

    /** The PUT branch of profile.ts for the user registered under `email`:
        the refusals of `ProfileRefusal`, else the merged record. After a
        rename no other user has the new name. */
    method UpdateProfile(email: string, name: Option<string>, bio: Option<string>, location: Option<string>,
                         uploadedUrl: Option<string>, now: int) returns (reply: Reply)
      requires Valid() && email in users
      modifies this
      ensures Valid()
      ensures PutOutcome(old(users), email, name, bio, location, uploadedUrl, now, reply, users)
      ensures reply.Profile? && RenameAsked(old(users)[email], name) ==>
                forall e :: e in users && e != email ==> users[e].name != name
    {
      var u := users[email];
      var taken := RenameAsked(u, name) && NameTakenByOther(name.value, u);
      var refusal := ProfileRefusal(u, name, taken, now);
      if refusal.Some? {
        return refusal.value;
      }
      var v := MergeProfile(u, name, bio, location, uploadedUrl, now);
      users := users[email := v];
      reply := Profile(ViewOf(v));
    }
  }

  /** What the PUT branch does to the table `before` for the user under
      `email`: a refusal leaves the table as it was, otherwise the merged
      record replaces the user's and is sent back. */
  ghost predicate PutOutcome(before: map<string, User>, email: string, name: Option<string>, bio: Option<string>,
                             location: Option<string>, uploadedUrl: Option<string>, now: int,
                             reply: Reply, after: map<string, User>)
    requires email in before
  {
    var u := before[email];
    var taken := name.Some? && exists e :: e in before && before[e].name == Some(name.value) && before[e].id != u.id;
    var refusal := ProfileRefusal(u, name, taken, now);
    (refusal.Some? ==> reply == refusal.value && after == before)
    && (refusal.None? ==>
          after == before[email := MergeProfile(u, name, bio, location, uploadedUrl, now)]
          && reply == Profile(ViewOf(after[email])))
  }
}

=== FILE: advice_dashboard.dfy ===
/** The charts of app/insights/_components/AdviceDashboard.tsx: six monthly
    buckets ending with the current month, filled by walking the expenses,
    and the per-category totals, largest first. `new Date()` is the
    parameter `today`. A bucket is identified by its month (year and
    month); the chart labels it "MMM yyyy", and two such labels are equal
    exactly when the months are (`MonthYearLabelInjective`). */
module AdviceDashboard {
  import opened Agg
  import opened Sorting
  import opened Calendar
  import opened Expenses
  import opened Ranking

  // ---------------------------------------------------------------------
  // The six months

  /** The month of bucket `i` (0 is the current month) as written:
      `date.setMonth(date.getMonth() - i)` on today's date, whose day of
      the month can overflow into the following month. */
  function WindowMonthAsWritten(today: Date, i: int): int
    requires ValidDate(today)
  {
    MonthIndex(SetMonth(today, today.month - 1 - i))
  }

  /** The months of the buckets as written, oldest first (the list is built
      for `i` = 0..5 and then reversed). */
  function WindowAsWritten(today: Date): seq<int>
    requires ValidDate(today)
  {
    seq(6, k requires 0 <= k < 6 => WindowMonthAsWritten(today, 5 - k))
  }

  /** On 31 March 2025 the labels run October, December, December, January,
      March, March: "31 November" rolls over to 1 December and "31 February"
      to 3 March, so November's and February's expenses are dropped from
      the chart. */
  lemma WindowAsWrittenOn31March()
    ensures var w := WindowAsWritten(Date(2025, 3, 31));
            w == [MonthIndex(Date(2024, 10, 1)), MonthIndex(Date(2024, 12, 1)), MonthIndex(Date(2024, 12, 1)),
                  MonthIndex(Date(2025, 1, 1)), MonthIndex(Date(2025, 3, 1)), MonthIndex(Date(2025, 3, 1))]
            && MonthIndex(Date(2024, 11, 1)) !in w && MonthIndex(Date(2025, 2, 1)) !in w
  {
    var today := Date(2025, 3, 31);
    assert SetMonth(today, -3) == Date(2024, 10, 31);
    assert SetMonth(today, -2) == Date(2024, 12, 1);
    assert SetMonth(today, -1) == Date(2024, 12, 31);
    assert SetMonth(today, 0) == Date(2025, 1, 31);
    assert SetMonth(today, 1) == Date(2025, 3, 3);
    assert SetMonth(today, 2) == Date(2025, 3, 31);
    var w := WindowAsWritten(today);
    assert w[0] == 2024 * 12 + 9;
    assert w[1] == 2024 * 12 + 11;
    assert w[2] == 2024 * 12 + 11;
    assert w[3] == 2025 * 12;
    assert w[4] == 2025 * 12 + 2;
    assert w[5] == 2025 * 12 + 2;
  }

  /** The month of bucket `i` with the day moved to the 1st before going
      back, so no overflow can happen. */
  function WindowMonth(today: Date, i: int): int
    requires ValidDate(today)
  {
    MonthIndex(SetMonth(Date(today.year, today.month, 1), today.month - 1 - i))
  }

  function Window(today: Date): seq<int>
    requires ValidDate(today)
  {
    seq(6, k requires 0 <= k < 6 => WindowMonth(today, 5 - k))
  }

  /** The six buckets are the five months before the current one and the
      current month, oldest first, each once. */
  lemma WindowMeaning(today: Date)
    requires ValidDate(today)
    ensures forall k :: 0 <= k < 6 ==> Window(today)[k] == MonthIndex(today) - 5 + k
    ensures forall i, j :: 0 <= i < j < 6 ==> Window(today)[i] < Window(today)[j]
  {
    forall k | 0 <= k < 6
      ensures Window(today)[k] == MonthIndex(today) - 5 + k
    {
      SetMonthTarget(Date(today.year, today.month, 1), today.month - 1 - (5 - k));
    }
  }

  /** Up to the 28th of a month the code as written builds the same
      buckets. */
  lemma WindowAsWrittenEarlyInMonth(today: Date)
    requires ValidDate(today) && today.day <= 28
    ensures WindowAsWritten(today) == Window(today)
  {
    forall k | 0 <= k < 6
      ensures WindowAsWritten(today)[k] == Window(today)[k]
    {
      SetMonthTarget(today, today.month - 1 - (5 - k));
      SetMonthTarget(Date(today.year, today.month, 1), today.month - 1 - (5 - k));
    }
  }

  // ---------------------------------------------------------------------
  // Filling the buckets

  datatype Bucket = Bucket(month: int, total: real)

  function BucketTotal(b: Bucket): real {
    b.total
  }

  function MonthIs(m: int): Expense -> bool {
    (x: Expense) => MonthIndex(x.date) == m
  }

  /** The expense falls in one of the six months. */
  function InWindow(today: Date): Expense -> bool {
    (x: Expense) => MonthIndex(today) - 5 <= MonthIndex(x.date) <= MonthIndex(today)
  }

  /** `last6Months.find((m) => m.month === monthYear)`: the first bucket of
      the month, or -1. */
  function FindBucket(buckets: seq<Bucket>, m: int): (j: int)
    ensures -1 <= j < |buckets|
    ensures j >= 0 ==> buckets[j].month == m && forall k :: 0 <= k < j ==> buckets[k].month != m
    ensures j < 0 ==> forall k :: 0 <= k < |buckets| ==> buckets[k].month != m
    decreases |buckets|
  {
    if |buckets| == 0 then -1
    else if buckets[0].month == m then 0
    else
      var j := FindBucket(buckets[1..], m);
      if j < 0 then -1 else j + 1
  }

  /** The state of the bucket loop after the expenses `xs`. */
  ghost predicate Filled(xs: seq<Expense>, today: Date, buckets: seq<Bucket>) {
    |buckets| == 6
    && (forall k :: 0 <= k < 6 ==> buckets[k].month == MonthIndex(today) - 5 + k)
    && (forall k :: 0 <= k < 6 ==> buckets[k].total == SumKey(xs, MonthOf, buckets[k].month, Amount))
    && Sum(buckets, BucketTotal) == SumKey(xs, InWindow(today), true, Amount)
  }

  /** The six empty buckets the chart starts from. */
  function EmptyBuckets(today: Date): (buckets: seq<Bucket>)
    ensures |buckets| == 6
    ensures forall k :: 0 <= k < 6 ==> buckets[k] == Bucket(MonthIndex(today) - 5 + k, 0.0)
  {
    var base := MonthIndex(today) - 5;
    [Bucket(base, 0.0), Bucket(base + 1, 0.0), Bucket(base + 2, 0.0),
     Bucket(base + 3, 0.0), Bucket(base + 4, 0.0), Bucket(base + 5, 0.0)]
  }

  /** Before any expense the empty buckets are filled. */
  lemma EmptyFilled(today: Date)
    ensures Filled([], today, EmptyBuckets(today))
  {
    SumZero(EmptyBuckets(today));
  }

  /** Buckets that all hold zero add up to zero. */
  lemma {:induction false} SumZero(buckets: seq<Bucket>)
    requires forall k :: 0 <= k < |buckets| ==> buckets[k].total == 0.0
    ensures Sum(buckets, BucketTotal) == 0.0
    decreases |buckets|
  {
    if |buckets| > 0 {
      SumZero(buckets[..|buckets| - 1]);
    }
  }

  /** `getMonthlyData`: six buckets, oldest first; each expense adds its
      amount to the bucket of its month, and an expense outside the six
      months is ignored. */
  method GetMonthlyData(expenses: seq<Expense>, today: Date) returns (buckets: seq<Bucket>)
    requires ValidDate(today)
    ensures |buckets| == 6
    ensures forall k :: 0 <= k < 6 ==> buckets[k].month == Window(today)[k]
    ensures forall k :: 0 <= k < 6 ==> buckets[k].total == Sum(Filter(expenses, MonthIs(buckets[k].month)), Amount)
    ensures Sum(buckets, BucketTotal) == Sum(Filter(expenses, InWindow(today)), Amount)
  {
    buckets := EmptyBuckets(today);
    EmptyFilled(today);
    assert expenses[..0] == [];
    for i := 0 to |expenses|
      invariant Filled(expenses[..i], today, buckets)
    {
      var j := FindBucket(buckets, MonthIndex(expenses[i].date));
      var after := if j >= 0 then buckets[j := Bucket(buckets[j].month, buckets[j].total + expenses[i].amount)] else buckets;
      FilledNext(expenses, i, today, buckets, j, after);
      buckets := after;
    }
    FilledAll(expenses, today, buckets);
  }

  /** One more expense of the list walked. */
  lemma FilledNext(xs: seq<Expense>, i: nat, today: Date, buckets: seq<Bucket>, j: int, after: seq<Bucket>)
    requires i < |xs|
    requires Filled(xs[..i], today, buckets)
    requires j == FindBucket(buckets, MonthIndex(xs[i].date))
    requires after == if j >= 0 then buckets[j := Bucket(buckets[j].month, buckets[j].total + xs[i].amount)] else buckets
    ensures Filled(xs[..i + 1], today, after)
  {
    assert xs[..i + 1] == xs[..i] + [xs[i]];
    FilledStep(xs[..i], xs[i], xs[..i + 1], today, buckets, j, after);
  }

  /** The whole list walked: the buckets are the window's months with their
      totals. */
  lemma FilledAll(xs: seq<Expense>, today: Date, buckets: seq<Bucket>)
    requires ValidDate(today)
    requires Filled(xs[..|xs|], today, buckets)
    ensures |buckets| == 6
    ensures forall k :: 0 <= k < 6 ==> buckets[k].month == Window(today)[k]
    ensures forall k :: 0 <= k < 6 ==> buckets[k].total == Sum(Filter(xs, MonthIs(buckets[k].month)), Amount)
    ensures Sum(buckets, BucketTotal) == Sum(Filter(xs, InWindow(today)), Amount)
  {
    WindowMeaning(today);
    assert xs[..|xs|] == xs;
    forall k | 0 <= k < 6
      ensures buckets[k].total == Sum(Filter(xs, MonthIs(buckets[k].month)), Amount)
    {
      SumKeyAsFilter(xs, MonthOf, buckets[k].month, MonthIs(buckets[k].month));
    }
    SumKeyAsFilter(xs, InWindow(today), true, InWindow(today));
  }

  /** A key's sum is the sum of the records a filter keeps when the filter
      keeps exactly the records of that key. */
  lemma {:induction false} SumKeyAsFilter<K(!new)>(xs: seq<Expense>, key: Expense -> K, k: K, p: Expense -> bool)
    requires forall x :: p(x) <==> key(x) == k
    ensures SumKey(xs, key, k, Amount) == Sum(Filter(xs, p), Amount)
    decreases |xs|
  {
    if |xs| > 0 {
      var init, x := xs[..|xs| - 1], xs[|xs| - 1];
      SumKeyAsFilter(init, key, k, p);
      if p(x) {
        SumAppend(Filter(init, p), [x], Amount);
        assert Sum([x], Amount) == x.amount by { assert [x][..0] == []; }
      }
    }
  }

  /** One expense more: it lands in the bucket `FindBucket` names, or
      nowhere when no bucket has its month. */
  lemma FilledStep(xs: seq<Expense>, x: Expense, ys: seq<Expense>, today: Date, buckets: seq<Bucket>, j: int, after: seq<Bucket>)
    requires Filled(xs, today, buckets) && ys == xs + [x]
    requires j == FindBucket(buckets, MonthIndex(x.date))
    requires after == if j >= 0 then buckets[j := Bucket(buckets[j].month, buckets[j].total + x.amount)] else buckets
    ensures Filled(ys, today, after)
  {
    FindInWindow(today, buckets, MonthIndex(x.date));
    BucketsStep(xs, x, buckets, j);
    SumStep(xs, x, InWindow(today), buckets, j, after);
  }

  /** The buckets' sum follows the filtered sum when the expense goes to
      bucket `j` exactly when it is kept. */
  lemma SumStep(xs: seq<Expense>, x: Expense, p: Expense -> bool, buckets: seq<Bucket>, j: int, after: seq<Bucket>)
    requires Sum(buckets, BucketTotal) == SumKey(xs, p, true, Amount)
    requires j < |buckets| && (p(x) <==> j >= 0)
    requires after == if j >= 0 then buckets[j := Bucket(buckets[j].month, buckets[j].total + x.amount)] else buckets
    ensures Sum(after, BucketTotal) == SumKey(xs + [x], p, true, Amount)
  {
    SumKeySnoc(xs, x, p, true);
    if j >= 0 {
      SumUpdate(buckets, j, after[j]);
    }
  }

  /** With the six buckets in place, a month has a bucket exactly when it is
      one of the six, at its offset from the oldest. */
  lemma FindInWindow(today: Date, buckets: seq<Bucket>, m: int)
    requires |buckets| == 6
    requires forall k :: 0 <= k < 6 ==> buckets[k].month == MonthIndex(today) - 5 + k
    ensures FindBucket(buckets, m)
            == if MonthIndex(today) - 5 <= m <= MonthIndex(today) then m - MonthIndex(today) + 5 else -1
  {
    if MonthIndex(today) - 5 <= m <= MonthIndex(today) {
      assert buckets[m - MonthIndex(today) + 5].month == m;
    }
  }

  /** Each bucket's total grows by the amount exactly when the expense is
      in its month. */
  lemma BucketsStep(xs: seq<Expense>, x: Expense, buckets: seq<Bucket>, j: int)
    requires forall k :: 0 <= k < |buckets| ==> buckets[k].total == SumKey(xs, MonthOf, buckets[k].month, Amount)
    requires forall k, l :: 0 <= k < l < |buckets| ==> buckets[k].month != buckets[l].month
    requires j == FindBucket(buckets, MonthIndex(x.date))
    ensures var after := if j >= 0 then buckets[j := Bucket(buckets[j].month, buckets[j].total + x.amount)] else buckets;
            forall k :: 0 <= k < |after| ==> after[k].total == SumKey(xs + [x], MonthOf, after[k].month, Amount)
  {
    forall k | 0 <= k < |buckets|
      ensures SumKey(xs + [x], MonthOf, buckets[k].month, Amount)
              == buckets[k].total + (if k == j then x.amount else 0.0)
    {
      SumKeySnoc(xs, x, MonthOf, buckets[k].month);
    }
  }

  /** One more record adds its amount to its own key's sum. */
  lemma SumKeySnoc<K(!new)>(xs: seq<Expense>, x: Expense, key: Expense -> K, k: K)
    ensures SumKey(xs + [x], key, k, Amount) == SumKey(xs, key, k, Amount) + (if key(x) == k then x.amount else 0.0)
  {
    assert (xs + [x])[..|xs|] == xs;
  }

  /** Replacing one bucket changes the sum by the difference. */
  lemma {:induction false} SumUpdate(buckets: seq<Bucket>, j: nat, b: Bucket)
    requires j < |buckets|
    ensures Sum(buckets[j := b], BucketTotal) == Sum(buckets, BucketTotal) - buckets[j].total + b.total
    decreases |buckets|
  {
    var n := |buckets|;
    var updated := buckets[j := b];
    if j < n - 1 {
      assert updated[..n - 1] == buckets[..n - 1][j := b];
      SumUpdate(buckets[..n - 1], j, b);
    } else {
      assert updated[..n - 1] == buckets[..n - 1];
    }
  }

  /** With positive amounts, the buckets hold at most the total spent. */
  lemma BucketsBounded(expenses: seq<Expense>, today: Date)
    requires AllPositive(expenses)
    ensures 0.0 <= Sum(Filter(expenses, InWindow(today)), Amount) <= TotalAmount(expenses)
  {
    FilterSum(expenses, InWindow(today), Amount);
  }

  // ---------------------------------------------------------------------
  // Categories

  /** `getCategoryData`: `categoryTotals` filled by walking the expenses,
      then its entries largest first. */
  method GetCategoryData(expenses: seq<Expense>) returns (data: seq<Entry<string>>)
    ensures data == Ranked(expenses, Category, Amount)
    ensures Sum(data, EntryValue) == TotalAmount(expenses)
  {
    var order: seq<string>, categoryTotals: map<string, real> := [], map[];
    for i := 0 to |expenses|
      invariant Tallied(expenses[..i], Category, Amount, order, categoryTotals)
    {
      var category := expenses[i].category;
      TalliedNext(expenses, i, Category, Amount, order, categoryTotals);
      if category !in categoryTotals {
        categoryTotals := categoryTotals[category := 0.0];
        order := order + [category];
      }
      categoryTotals := categoryTotals[category := categoryTotals[category] + expenses[i].amount];
    }
    assert expenses[..|expenses|] == expenses;
    TalliedEntries(expenses, Category, Amount, order, categoryTotals);
    data := SortDesc(Entries(order, categoryTotals), EntryValue);
    RankedMeaning(expenses, Category, Amount);
  }
}

=== FILE: advice_engine.dfy ===
/** The rule-based advice engine of the advice endpoint: from a user's
    expenses it computes totals per month and per category, then applies, in
    order, a month-over-month trend rule, a dominant-category rule, a
    category-spike rule, a savings target, a budget-distribution table and a
    recurring-expense rule, and tops the list up with three generic tips
    when fewer than three recommendations were produced.

    Recommendations are tagged values carrying the computed numbers; the
    wording of each message is fixed by its tag. Month keys are month
    indices: `Expenses.MonthKeyOfOrder` shows that sorting the "yyyy-MM"
    strings orders them exactly like the indices. */
module AdviceEngine {
  import opened Wrappers
  import opened Text
  import opened Agg
  import opened Sorting
  import opened Expenses

  datatype Recommendation =
    | SpendingIncrease(percentage: real)
    | SpendingDecrease(percentage: real)
    | CategoryDominance(category: string, share: real)
    | CategorySpike(category: string, percentIncrease: real)
    | SavingsTarget(monthlyAverage: real, target: real)
    | OverBudget(category: string, share: real, max: real)
    | UnderAllocated(category: string, share: real, min: real, max: real)
    | Subscriptions(total: real)
    | BudgetRuleTip
    | TrackExpensesTip
    | SetGoalsTip

  datatype MonthChange = MonthChange(amount: real, percentage: real)

  datatype RecurringExpense = RecurringExpense(description: string, amount: real)

  // ---------------------------------------------------------------------
  // The aggregates

  /** The distinct months with expenses, oldest first. */
  function Months(es: seq<Expense>): seq<int> {
    SortAsc(FirstSeen(es, MonthOf), AsReal)
  }

  function MonthTotal(es: seq<Expense>, m: int): real {
    SumKey(es, MonthOf, m, Amount)
  }

  function CategoryTotal(es: seq<Expense>, c: string): real {
    SumKey(es, Category, c, Amount)
  }

  function CategoryMonthTotal(es: seq<Expense>, m: int, c: string): real {
    SumKey(es, MonthCategory, (m, c), Amount)
  }

  /** Categories with their totals, largest first; ties keep first-seen
      order. */
  function RankedCategories(es: seq<Expense>): seq<Entry<string>> {
    SortDesc(Totals(es, Category, Amount), EntryValue)
  }

  /** There is a ranked category exactly when there is an expense. */
  lemma RankedLength(es: seq<Expense>)
    ensures |RankedCategories(es)| > 0 <==> |es| > 0
  {
    if |es| > 0 {
      assert Map(es, Category)[0] == Category(es[0]);
    }
  }

  /** The change from one month to the next in percent of the earlier one,
      or 0 when the earlier month's total is not positive. */
  function ChangePercent(previous: real, current: real): real {
    if previous > 0.0 then (current - previous) / previous * 100.0 else 0.0
  }

  // ---------------------------------------------------------------------
  // The rules

  function LastChange(es: seq<Expense>): real
    requires |Months(es)| >= 2
  {
    var ms := Months(es);
    ChangePercent(MonthTotal(es, ms[|ms| - 2]), MonthTotal(es, ms[|ms| - 1]))
  }

  function TrendAdvice(es: seq<Expense>): seq<Recommendation> {
    if |Months(es)| < 2 then []
    else if LastChange(es) > 15.0 then [SpendingIncrease(LastChange(es))]
    else if LastChange(es) < -15.0 then [SpendingDecrease(LastChange(es))]
    else []
  }

  /** Spend of category `c` summed over those months of `ms` in which it has
      any (non-zero) spend. */
  function ActiveMonthSum(es: seq<Expense>, ms: seq<int>, c: string): real
    decreases |ms|
  {
    if |ms| == 0 then 0.0
    else
      var v := CategoryMonthTotal(es, ms[|ms| - 1], c);
      ActiveMonthSum(es, ms[..|ms| - 1], c) + (if v != 0.0 then v else 0.0)
  }

  /** The number of months of `ms` in which category `c` has spend. */
  function ActiveMonthCount(es: seq<Expense>, ms: seq<int>, c: string): nat
    decreases |ms|
  {
    if |ms| == 0 then 0
    else
      ActiveMonthCount(es, ms[..|ms| - 1], c)
      + (if CategoryMonthTotal(es, ms[|ms| - 1], c) != 0.0 then 1 else 0)
  }

  /** One more month of the prefix `ms[..i]`. */
  lemma ActiveMonthNext(es: seq<Expense>, ms: seq<int>, i: nat, c: string)
    requires i < |ms|
    ensures var v := CategoryMonthTotal(es, ms[i], c);
            ActiveMonthSum(es, ms[..i + 1], c) == ActiveMonthSum(es, ms[..i], c) + (if v != 0.0 then v else 0.0)
            && ActiveMonthCount(es, ms[..i + 1], c) == ActiveMonthCount(es, ms[..i], c) + (if v != 0.0 then 1 else 0)
  {
    assert ms[..i + 1][..i] == ms[..i];
  }

  lemma {:induction false} ActiveMonthSumPositive(es: seq<Expense>, ms: seq<int>, c: string)
    requires AllPositive(es)
    ensures ActiveMonthCount(es, ms, c) > 0 ==> ActiveMonthSum(es, ms, c) > 0.0
    ensures ActiveMonthSum(es, ms, c) >= 0.0
    decreases |ms|
  {
    if |ms| > 0 {
      ActiveMonthSumPositive(es, ms[..|ms| - 1], c);
      SumKeyPositive(es, MonthCategory, (ms[|ms| - 1], c), Amount);
    }
  }

  /** The average monthly spend of `c` over the months before the last one
      in which it had spend (the months in `earlier`). */
  function EarlierAverage(es: seq<Expense>, earlier: seq<int>, c: string): real
    requires AllPositive(es) && ActiveMonthCount(es, earlier, c) > 0
    ensures EarlierAverage(es, earlier, c) > 0.0
  {
    ActiveMonthSumPositive(es, earlier, c);
    ActiveMonthSum(es, earlier, c) / ActiveMonthCount(es, earlier, c) as real
  }

  function SpikeFor(es: seq<Expense>, c: string): seq<Recommendation>
    requires AllPositive(es) && |Months(es)| >= 2
  {
    var ms := Months(es);
    var earlier := ms[..|ms| - 1];
    if CategoryTotal(es, c) < 100.0 || ActiveMonthCount(es, earlier, c) == 0 then []
    else
      var avg := EarlierAverage(es, earlier, c);
      var last := CategoryMonthTotal(es, ms[|ms| - 1], c);
      if last > avg * 1.5 && last > 200.0 then [CategorySpike(c, (last / avg - 1.0) * 100.0)] else []
  }

  function Spikes(es: seq<Expense>, cs: seq<string>): seq<Recommendation>
    requires AllPositive(es) && |Months(es)| >= 2
    decreases |cs|
  {
    if |cs| == 0 then [] else Spikes(es, cs[..|cs| - 1]) + SpikeFor(es, cs[|cs| - 1])
  }

  /** One more category of the prefix `cs[..i]`. */
  lemma SpikesNext(es: seq<Expense>, cs: seq<string>, i: nat)
    requires AllPositive(es) && |Months(es)| >= 2 && i < |cs|
    ensures Spikes(es, cs[..i + 1]) == Spikes(es, cs[..i]) + SpikeFor(es, cs[i])
  {
    assert cs[..i + 1][..i] == cs[..i];
  }

  function TopShare(es: seq<Expense>): real
    requires AllPositive(es) && |es| > 0
  {
    TotalAmountPositive(es);
    RankedCategories(es)[0].value / TotalAmount(es) * 100.0
  }

  /** The dominance message for the top category, if it has more than 40
      percent of the total. */
  function DominanceAdvice(es: seq<Expense>): seq<Recommendation>
    requires AllPositive(es) && |es| > 0
  {
    if TopShare(es) > 40.0 then [CategoryDominance(RankedCategories(es)[0].key, TopShare(es))] else []
  }

  function CategoryAdvice(es: seq<Expense>): seq<Recommendation>
    requires AllPositive(es)
  {
    if |es| == 0 then []
    else DominanceAdvice(es) + (if |Months(es)| >= 2 then Spikes(es, FirstSeen(es, Category)) else [])
  }

  function SavingsAdvice(es: seq<Expense>): seq<Recommendation> {
    var n := |Months(es)|;
    if n > 0 then
      var avg := TotalAmount(es) / n as real;
      [SavingsTarget(avg, avg * 0.15)]
    else []
  }

  /** The recommended share range, in percent, of the budget categories. */
  function BudgetRange(c: string): Option<(real, real)> {
    if c == "Housing" then Some((25.0, 35.0))
    else if c == "Transportation" then Some((10.0, 15.0))
    else if c == "Food" then Some((10.0, 15.0))
    else if c == "Utilities" then Some((5.0, 10.0))
    else if c == "Insurance" then Some((10.0, 15.0))
    else if c == "Debt" then Some((0.0, 15.0))
    else if c == "Personal" then Some((5.0, 10.0))
    else if c == "Entertainment" then Some((5.0, 10.0))
    else if c == "Savings" then Some((15.0, 20.0))
    else None
  }

  function BudgetFor(total: real, entry: Entry<string>): seq<Recommendation>
    requires total > 0.0
  {
    var share := entry.value / total * 100.0;
    match BudgetRange(entry.key)
    case None => []
    case Some((lo, hi)) =>
      if share > hi then [OverBudget(entry.key, share, hi)]
      else if share < lo && lo > 5.0 then [UnderAllocated(entry.key, share, lo, hi)]
      else []
  }

  function BudgetAdvice(total: real, entries: seq<Entry<string>>): seq<Recommendation>
    requires total > 0.0 || |entries| == 0
    decreases |entries|
  {
    if |entries| == 0 then []
    else BudgetAdvice(total, entries[..|entries| - 1]) + BudgetFor(total, entries[|entries| - 1])
  }

  /** One more entry of the prefix `entries[..i]`. */
  lemma BudgetNext(total: real, entries: seq<Entry<string>>, i: nat)
    requires total > 0.0 && i < |entries|
    ensures BudgetAdvice(total, entries[..i + 1]) == BudgetAdvice(total, entries[..i]) + BudgetFor(total, entries[i])
  {
    assert entries[..i + 1][..i] == entries[..i];
  }

  // ---------------------------------------------------------------------
  // Recurring expenses

  /** `description.toLowerCase().trim()` */
  function RecurringKey(e: Expense): string {
    Trim(ToLower(e.description))
  }

  /** The amount of the first expense with key `k` (0 if there is none). */
  function FirstAmount(es: seq<Expense>, k: string): real
    decreases |es|
  {
    if |es| == 0 then 0.0
    else if k in Map(es[..|es| - 1], RecurringKey) then FirstAmount(es[..|es| - 1], k)
    else if RecurringKey(es[|es| - 1]) == k then es[|es| - 1].amount
    else 0.0
  }

  /** The months in which an expense with key `k` occurs. */
  function MonthsWith(es: seq<Expense>, k: string): set<int>
    decreases |es|
  {
    if |es| == 0 then {}
    else MonthsWith(es[..|es| - 1], k) + (if RecurringKey(es[|es| - 1]) == k then {MonthOf(es[|es| - 1])} else {})
  }

  predicate IsRecurring(es: seq<Expense>, k: string) {
    CountKey(es, RecurringKey, k) >= 2 && |MonthsWith(es, k)| >= 2
  }

  function RecurringOf(es: seq<Expense>, ks: seq<string>): seq<RecurringExpense>
    decreases |ks|
  {
    if |ks| == 0 then []
    else
      var k := ks[|ks| - 1];
      RecurringOf(es, ks[..|ks| - 1]) + (if IsRecurring(es, k) then [RecurringExpense(k, FirstAmount(es, k))] else [])
  }

  function RecurringExpenses(es: seq<Expense>): seq<RecurringExpense> {
    RecurringOf(es, FirstSeen(es, RecurringKey))
  }

  function RecurringAmount(r: RecurringExpense): real {
    r.amount
  }

  function SubscriptionAdvice(es: seq<Expense>): seq<Recommendation> {
    var subs := RecurringExpenses(es);
    if |subs| > 0 && Sum(subs, RecurringAmount) > 100.0 then [Subscriptions(Sum(subs, RecurringAmount))] else []
  }

  // ---------------------------------------------------------------------
  // The whole list

  /** The budget-table advice for the ranked categories. */
  function BudgetChecks(es: seq<Expense>): seq<Recommendation>
    requires AllPositive(es)
  {
    assert TotalAmount(es) > 0.0 || |RankedCategories(es)| == 0 by {
      if |es| > 0 {
        TotalAmountPositive(es);
      }
    }
    BudgetAdvice(TotalAmount(es), RankedCategories(es))
  }

  /** Steps 3 to 5: savings, budget distribution, recurring expenses. */
  function LaterAdvice(es: seq<Expense>): seq<Recommendation>
    requires AllPositive(es)
  {
    SavingsAdvice(es) + BudgetChecks(es) + SubscriptionAdvice(es)
  }

  function RuleAdvice(es: seq<Expense>): seq<Recommendation>
    requires AllPositive(es)
  {
    TrendAdvice(es) + CategoryAdvice(es) + LaterAdvice(es)
  }

  const GenericTips: seq<Recommendation> := [BudgetRuleTip, TrackExpensesTip, SetGoalsTip]

  /** What `generateRecommendations` returns. */
  function Recommendations(es: seq<Expense>): seq<Recommendation>
    requires AllPositive(es)
  {
    var r := RuleAdvice(es);
    if |r| < 3 then r + GenericTips else r
  }

  // ---------------------------------------------------------------------
  // The imperative code

  /** What `detectRecurringExpenses` records per key. */
  datatype RecurringData = RecurringData(count: nat, amount: real, months: set<int>)

  function DataOf(xs: seq<Expense>, k: string): RecurringData {
    RecurringData(CountKey(xs, RecurringKey, k), FirstAmount(xs, k), MonthsWith(xs, k))
  }

  /** The state of the grouping pass of `detectRecurringExpenses` after
      walking `xs`. */
  ghost predicate RecurringState(xs: seq<Expense>, order: seq<string>, recurring: map<string, RecurringData>) {
    order == FirstSeen(xs, RecurringKey)
    && (forall k :: k in recurring <==> k in order)
    && (forall k :: k in recurring ==> recurring[k] == DataOf(xs, k))
  }

  lemma RecurringFirstSighting(xs: seq<Expense>, e: Expense, order: seq<string>, recurring: map<string, RecurringData>)
    requires RecurringState(xs, order, recurring)
    requires RecurringKey(e) !in recurring
    ensures var key := RecurringKey(e);
            RecurringState(xs + [e], order + [key], recurring[key := RecurringData(1, e.amount, {MonthOf(e)})])
  {
    var ys, key := xs + [e], RecurringKey(e);
    assert ys[..|ys| - 1] == xs;
    AbsentKey(xs, RecurringKey, key, Amount);
    AbsentMonths(xs, key);
    forall k | k in order
      ensures DataOf(ys, k) == DataOf(xs, k)
    {
      assert k in Map(xs, RecurringKey);
    }
  }

  lemma RecurringSighting(xs: seq<Expense>, e: Expense, order: seq<string>, recurring: map<string, RecurringData>)
    requires RecurringState(xs, order, recurring)
    requires RecurringKey(e) in recurring
    ensures var key := RecurringKey(e);
            var d := recurring[key];
            RecurringState(xs + [e], order, recurring[key := d.(count := d.count + 1, months := d.months + {MonthOf(e)})])
  {
    var ys, key := xs + [e], RecurringKey(e);
    assert ys[..|ys| - 1] == xs;
    assert key in Map(xs, RecurringKey);
    assert FirstSeen(ys, RecurringKey) == order;
    forall k | k in order
      ensures CountKey(ys, RecurringKey, k) == CountKey(xs, RecurringKey, k) + (if k == key then 1 else 0)
      ensures FirstAmount(ys, k) == FirstAmount(xs, k)
      ensures MonthsWith(ys, k) == MonthsWith(xs, k) + (if k == key then {MonthOf(e)} else {})
    {
      assert k in Map(xs, RecurringKey);
    }
  }

  /** `detectRecurringExpenses`: one pass recording, per normalised
      description, the first amount, the number of expenses and the set of
      months; then the keys seen at least twice in at least two months. */
  method DetectRecurringExpenses(es: seq<Expense>) returns (subs: seq<RecurringExpense>)
    ensures subs == RecurringExpenses(es)
  {
    var order, recurring := GroupDescriptions(es);
    subs := [];
    var j := 0;
    while j < |order|
      invariant 0 <= j <= |order|
      invariant subs == RecurringOf(es, order[..j])
    {
      var key := order[j];
      var data := recurring[key];
      if data.count >= 2 && |data.months| >= 2 {
        subs := subs + [RecurringExpense(key, data.amount)];
      }
      assert order[..j + 1][..j] == order[..j];
      j := j + 1;
    }
    assert order[..j] == order;
  }

  /** The grouping `forEach` of `detectRecurringExpenses`. */
  method GroupDescriptions(es: seq<Expense>) returns (order: seq<string>, recurring: map<string, RecurringData>)
    ensures RecurringState(es, order, recurring)
  {
    order, recurring := [], map[];
    var i := 0;
    while i < |es|
      invariant 0 <= i <= |es|
      invariant RecurringState(es[..i], order, recurring)
    {
      var e := es[i];
      var key := RecurringKey(e);
      assert es[..i + 1] == es[..i] + [e];
      if key !in recurring {
        RecurringFirstSighting(es[..i], e, order, recurring);
        recurring := recurring[key := RecurringData(0, e.amount, {})];
        order := order + [key];
      } else {
        RecurringSighting(es[..i], e, order, recurring);
      }
      var data := recurring[key];
      recurring := recurring[key := data.(count := data.count + 1, months := data.months + {MonthOf(e)})];
      i := i + 1;
    }
    assert es[..i] == es;
  }

  lemma {:induction false} AbsentMonths(es: seq<Expense>, k: string)
    requires k !in Map(es, RecurringKey)
    ensures MonthsWith(es, k) == {}
    decreases |es|
  {
    if |es| > 0 {
      assert Map(es, RecurringKey) == Map(es[..|es| - 1], RecurringKey) + [RecurringKey(es[|es| - 1])];
      AbsentMonths(es[..|es| - 1], k);
    }
  }

  /** The single `forEach` pass of `generateRecommendations`, filling the
      per-month, per-category and per-month-and-category totals (the nested
      object `categoryMonthlyAverages[month][category]` is keyed here by the
      pair). */
  method TallyExpenses(es: seq<Expense>)
    returns (monthOrder: seq<int>, monthlyTotals: map<int, real>,
             categoryOrder: seq<string>, categoryTotals: map<string, real>,
             cellOrder: seq<(int, string)>, categoryMonthly: map<(int, string), real>)
    ensures Tallied(es, MonthOf, Amount, monthOrder, monthlyTotals)
    ensures Tallied(es, Category, Amount, categoryOrder, categoryTotals)
    ensures Tallied(es, MonthCategory, Amount, cellOrder, categoryMonthly)
  {
    monthOrder, monthlyTotals := [], map[];
    categoryOrder, categoryTotals := [], map[];
    cellOrder, categoryMonthly := [], map[];
    var i := 0;
    while i < |es|
      invariant 0 <= i <= |es|
      invariant Tallied(es[..i], MonthOf, Amount, monthOrder, monthlyTotals)
      invariant Tallied(es[..i], Category, Amount, categoryOrder, categoryTotals)
      invariant Tallied(es[..i], MonthCategory, Amount, cellOrder, categoryMonthly)
    {
      var e := es[i];
      TalliedNext(es, i, MonthOf, Amount, monthOrder, monthlyTotals);
      TalliedNext(es, i, Category, Amount, categoryOrder, categoryTotals);
      TalliedNext(es, i, MonthCategory, Amount, cellOrder, categoryMonthly);
      monthOrder, monthlyTotals := Note(monthOrder, MonthOf(e)), AddTo(monthlyTotals, MonthOf(e), Amount(e));
      categoryOrder, categoryTotals := Note(categoryOrder, Category(e)), AddTo(categoryTotals, Category(e), Amount(e));
      cellOrder, categoryMonthly := Note(cellOrder, MonthCategory(e)), AddTo(categoryMonthly, MonthCategory(e), Amount(e));
      i := i + 1;
    }
    assert es[..i] == es;
  }

  /** The month-over-month loop: for each month after the first, the change
      from the month before it. */
  method MonthOverMonth(es: seq<Expense>, sortedMonths: seq<int>, monthlyTotals: map<int, real>)
    returns (monthlyChanges: map<int, MonthChange>)
    requires forall i, j :: 0 <= i < j < |sortedMonths| ==> sortedMonths[i] != sortedMonths[j]
    requires forall m :: m in sortedMonths ==> m in monthlyTotals && monthlyTotals[m] == MonthTotal(es, m)
    ensures forall j :: 1 <= j < |sortedMonths| ==>
              sortedMonths[j] in monthlyChanges
              && monthlyChanges[sortedMonths[j]].percentage
                 == ChangePercent(MonthTotal(es, sortedMonths[j - 1]), MonthTotal(es, sortedMonths[j]))
  {
    monthlyChanges := map[];
    var i := 1;
    while i < |sortedMonths|
      invariant 1 <= i && (|sortedMonths| > 0 ==> i <= |sortedMonths|)
      invariant forall j :: 1 <= j < i && j < |sortedMonths| ==>
                  (sortedMonths[j] in monthlyChanges
                   && monthlyChanges[sortedMonths[j]].percentage
                      == ChangePercent(MonthTotal(es, sortedMonths[j - 1]), MonthTotal(es, sortedMonths[j])))
    {
      var currentMonth, previousMonth := sortedMonths[i], sortedMonths[i - 1];
      var change := monthlyTotals[currentMonth] - monthlyTotals[previousMonth];
      var percentage := if monthlyTotals[previousMonth] > 0.0 then change / monthlyTotals[previousMonth] * 100.0 else 0.0;
      monthlyChanges := monthlyChanges[currentMonth := MonthChange(change, percentage)];
      i := i + 1;
    }
  }

  /** `generateRecommendations`. */
  method GenerateRecommendations(es: seq<Expense>) returns (recs: seq<Recommendation>)
    requires AllPositive(es)
    ensures recs == Recommendations(es)
  {
    var monthOrder, monthlyTotals, categoryOrder, categoryTotals, cellOrder, categoryMonthly := TallyExpenses(es);
    recs := ApplyRules(es, monthOrder, monthlyTotals, categoryOrder, categoryTotals, cellOrder, categoryMonthly);

    // 6. Generic tips.
    if |recs| < 3 {
      recs := recs + [BudgetRuleTip, TrackExpensesTip, SetGoalsTip];
    }
  }

  /** Steps 1 to 5 of `generateRecommendations`, from the tallies. */
  method ApplyRules(es: seq<Expense>, monthOrder: seq<int>, monthlyTotals: map<int, real>,
                    categoryOrder: seq<string>, categoryTotals: map<string, real>,
                    cellOrder: seq<(int, string)>, categoryMonthly: map<(int, string), real>)
    returns (recs: seq<Recommendation>)
    requires AllPositive(es)
    requires Tallied(es, MonthOf, Amount, monthOrder, monthlyTotals)
    requires Tallied(es, Category, Amount, categoryOrder, categoryTotals)
    requires Tallied(es, MonthCategory, Amount, cellOrder, categoryMonthly)
    ensures recs == RuleAdvice(es)
  {
    // 1. The trend.
    var trend := SpendingTrend(es, monthOrder, monthlyTotals);
    // 2. The top category and the category spikes.
    var categories := CategoryChecks(es, categoryOrder, categoryTotals, cellOrder, categoryMonthly);
    // 3 to 5. Savings, budget distribution, recurring expenses.
    var totalSpent := Sum(es, Amount);
    var later := LaterChecks(es, SortAsc(monthOrder, AsReal), totalSpent, categoryOrder, categoryTotals);
    recs := trend + categories + later;
  }

  /** Steps 3 to 5 of `generateRecommendations`. */
  method LaterChecks(es: seq<Expense>, sortedMonths: seq<int>, totalSpent: real,
                     categoryOrder: seq<string>, categoryTotals: map<string, real>)
    returns (recs: seq<Recommendation>)
    requires AllPositive(es)
    requires Tallied(es, Category, Amount, categoryOrder, categoryTotals)
    requires sortedMonths == Months(es) && totalSpent == TotalAmount(es)
    ensures recs == LaterAdvice(es)
  {
    TalliedEntries(es, Category, Amount, categoryOrder, categoryTotals);
    var sortedCategories := SortDesc(Entries(categoryOrder, categoryTotals), EntryValue);
    // 3. Savings.
    recs := SavingsCheck(es, |sortedMonths|, totalSpent);
    // 4. Budget distribution.
    if |sortedCategories| > 0 {
      TotalAmountPositive(es);
    }
    recs := BudgetDistribution(totalSpent, sortedCategories, recs);
    // 5. Recurring expenses.
    var subscriptions := SubscriptionCheck(es);
    recs := recs + subscriptions;
  }

  /** Step 3 of `generateRecommendations`: the savings target. */
  method SavingsCheck(es: seq<Expense>, totalMonths: int, totalSpent: real) returns (recs: seq<Recommendation>)
    requires totalMonths == |Months(es)| && totalSpent == TotalAmount(es)
    ensures recs == SavingsAdvice(es)
  {
    recs := [];
    if totalMonths > 0 {
      var monthlyAverage := totalSpent / totalMonths as real;
      recs := recs + [SavingsTarget(monthlyAverage, monthlyAverage * 0.15)];
    }
  }

  /** Step 5 of `generateRecommendations`: the recurring-expense total. */
  method SubscriptionCheck(es: seq<Expense>) returns (recs: seq<Recommendation>)
    ensures recs == SubscriptionAdvice(es)
  {
    recs := [];
    var potentialSubscriptions := DetectRecurringExpenses(es);
    if |potentialSubscriptions| > 0 {
      var subscriptionTotal := Sum(potentialSubscriptions, RecurringAmount);
      if subscriptionTotal > 100.0 {
        recs := recs + [Subscriptions(subscriptionTotal)];
      }
    }
  }

  /** The tallied months, sorted, are the months of the expenses, each once
      and each with its total. */
  lemma TalliedMonths(es: seq<Expense>, monthOrder: seq<int>, monthlyTotals: map<int, real>)
    requires Tallied(es, MonthOf, Amount, monthOrder, monthlyTotals)
    ensures var sortedMonths := SortAsc(monthOrder, AsReal);
            sortedMonths == Months(es)
            && (forall i, j :: 0 <= i < j < |sortedMonths| ==> sortedMonths[i] != sortedMonths[j])
            && forall m :: m in sortedMonths ==> m in monthlyTotals && monthlyTotals[m] == MonthTotal(es, m)
  {
    var sortedMonths := SortAsc(monthOrder, AsReal);
    SortAscCorrect(monthOrder, AsReal);
    DistinctPermutation(monthOrder, sortedMonths);
    assert forall m :: m in sortedMonths ==> m in multiset(monthOrder);
  }

  /** Step 1 of `generateRecommendations`: the month-over-month changes and
      the trend message for the last month. */
  method SpendingTrend(es: seq<Expense>, monthOrder: seq<int>, monthlyTotals: map<int, real>)
    returns (recs: seq<Recommendation>)
    requires Tallied(es, MonthOf, Amount, monthOrder, monthlyTotals)
    ensures recs == TrendAdvice(es)
  {
    var sortedMonths := SortAsc(monthOrder, AsReal);
    TalliedMonths(es, monthOrder, monthlyTotals);
    var monthlyChanges := MonthOverMonth(es, sortedMonths, monthlyTotals);
    assert sortedMonths == Months(es);
    recs := [];
    if |sortedMonths| >= 2 {
      var lastMonth := sortedMonths[|sortedMonths| - 1];
      assert lastMonth in monthlyChanges && monthlyChanges[lastMonth].percentage
        == ChangePercent(MonthTotal(es, sortedMonths[|sortedMonths| - 2]), MonthTotal(es, lastMonth));
      if lastMonth in monthlyChanges {
        var lastMonthChange := monthlyChanges[lastMonth];
        if lastMonthChange.percentage > 15.0 {
          recs := recs + [SpendingIncrease(lastMonthChange.percentage)];
        } else if lastMonthChange.percentage < -15.0 {
          recs := recs + [SpendingDecrease(lastMonthChange.percentage)];
        }
      }
    }
  }

  /** Step 2 of `generateRecommendations`: the dominant category and the
      category spikes. */
  method CategoryChecks(es: seq<Expense>, categoryOrder: seq<string>, categoryTotals: map<string, real>,
                        cellOrder: seq<(int, string)>, categoryMonthly: map<(int, string), real>)
    returns (recs: seq<Recommendation>)
    requires AllPositive(es)
    requires Tallied(es, Category, Amount, categoryOrder, categoryTotals)
    requires Tallied(es, MonthCategory, Amount, cellOrder, categoryMonthly)
    ensures recs == CategoryAdvice(es)
  {
    TalliedEntries(es, Category, Amount, categoryOrder, categoryTotals);
    var sortedCategories := SortDesc(Entries(categoryOrder, categoryTotals), EntryValue);
    assert sortedCategories == RankedCategories(es);
    assert categoryOrder == FirstSeen(es, Category);
    RankedLength(es);
    recs := [];
    if |sortedCategories| > 0 {
      recs := DominanceCheck(es, sortedCategories);
      var sortedMonths := Months(es);
      if |sortedMonths| >= 2 {
        recs := CategorySpikes(es, sortedMonths, categoryOrder, categoryTotals, cellOrder, categoryMonthly, recs);
      }
    }
  }

  /** The share of the top category, and the dominance message when it is
      above 40 percent. */
  method DominanceCheck(es: seq<Expense>, sortedCategories: seq<Entry<string>>) returns (recs: seq<Recommendation>)
    requires AllPositive(es) && |es| > 0 && sortedCategories == RankedCategories(es)
    ensures recs == DominanceAdvice(es)
  {
    RankedLength(es);
    TotalAmountPositive(es);
    var top := sortedCategories[0];
    var totalPercentage := top.value / Sum(es, Amount) * 100.0;
    recs := [];
    if totalPercentage > 40.0 {
      recs := recs + [CategoryDominance(top.key, totalPercentage)];
    }
  }

  /** The spike loop over `Object.keys(categoryTotals)`. */
  method CategorySpikes(es: seq<Expense>, sortedMonths: seq<int>,
                        categoryOrder: seq<string>, categoryTotals: map<string, real>,
                        cellOrder: seq<(int, string)>, categoryMonthly: map<(int, string), real>,
                        recs: seq<Recommendation>)
    returns (recs': seq<Recommendation>)
    requires AllPositive(es) && sortedMonths == Months(es) && |sortedMonths| >= 2
    requires Tallied(es, Category, Amount, categoryOrder, categoryTotals)
    requires Tallied(es, MonthCategory, Amount, cellOrder, categoryMonthly)
    ensures recs' == recs + Spikes(es, categoryOrder)
  {
    recs' := recs;
    for c := 0 to |categoryOrder|
      invariant recs' == recs + Spikes(es, categoryOrder[..c])
    {
      var category := categoryOrder[c];
      assert category in categoryTotals && categoryTotals[category] == CategoryTotal(es, category);
      recs' := CheckSpike(es, sortedMonths, categoryTotals[category], categoryMonthly, cellOrder, category, recs');
      SpikesNext(es, categoryOrder, c);
    }
    assert categoryOrder[..|categoryOrder|] == categoryOrder;
  }

  /** The body of the spike loop for one category: the average over the
      earlier months in which the category had spend, compared with the
      last month's spend. */
  method CheckSpike(es: seq<Expense>, sortedMonths: seq<int>, categoryTotal: real,
                    categoryMonthly: map<(int, string), real>, cellOrder: seq<(int, string)>,
                    category: string, recs: seq<Recommendation>)
    returns (recs': seq<Recommendation>)
    requires AllPositive(es) && sortedMonths == Months(es) && |sortedMonths| >= 2
    requires Tallied(es, MonthCategory, Amount, cellOrder, categoryMonthly)
    requires categoryTotal == CategoryTotal(es, category)
    ensures recs' == recs + SpikeFor(es, category)
  {
    recs' := recs;
    if categoryTotal >= 100.0 {
      var categoryAvg, monthCount := EarlierActivity(es, sortedMonths, categoryMonthly, cellOrder, category);
      if monthCount > 0 {
        ActiveMonthSumPositive(es, sortedMonths[..|sortedMonths| - 1], category);
        categoryAvg := categoryAvg / monthCount as real;
        var lastCell := (sortedMonths[|sortedMonths| - 1], category);
        TalliedLookup(es, MonthCategory, Amount, cellOrder, categoryMonthly, lastCell);
        var lastMonthCategorySpend := if lastCell in categoryMonthly then categoryMonthly[lastCell] else 0.0;
        assert categoryAvg == EarlierAverage(es, sortedMonths[..|sortedMonths| - 1], category);
        if lastMonthCategorySpend > categoryAvg * 1.5 && lastMonthCategorySpend > 200.0 {
          recs' := recs' + [CategorySpike(category, (lastMonthCategorySpend / categoryAvg - 1.0) * 100.0)];
        }
      }
    }
  }

  /** The loop over the months before the last one: the spend of `category`
      summed over the months in which it had spend, and their number. */
  method EarlierActivity(es: seq<Expense>, sortedMonths: seq<int>,
                         categoryMonthly: map<(int, string), real>, cellOrder: seq<(int, string)>,
                         category: string)
    returns (sum: real, monthCount: nat)
    requires |sortedMonths| >= 1
    requires Tallied(es, MonthCategory, Amount, cellOrder, categoryMonthly)
    ensures sum == ActiveMonthSum(es, sortedMonths[..|sortedMonths| - 1], category)
    ensures monthCount == ActiveMonthCount(es, sortedMonths[..|sortedMonths| - 1], category)
  {
    sum := 0.0;
    monthCount := 0;
    var i := 0;
    while i < |sortedMonths| - 1
      invariant 0 <= i <= |sortedMonths| - 1
      invariant sum == ActiveMonthSum(es, sortedMonths[..i], category)
      invariant monthCount == ActiveMonthCount(es, sortedMonths[..i], category)
    {
      var cell := (sortedMonths[i], category);
      TalliedLookup(es, MonthCategory, Amount, cellOrder, categoryMonthly, cell);
      ActiveMonthNext(es, sortedMonths, i, category);
      if cell in categoryMonthly && categoryMonthly[cell] != 0.0 {
        sum := sum + categoryMonthly[cell];
        monthCount := monthCount + 1;
      }
      i := i + 1;
    }
  }

  /** The budget-table loop over the ranked categories. */
  method BudgetDistribution(totalSpent: real, sortedCategories: seq<Entry<string>>, recs: seq<Recommendation>)
    returns (recs': seq<Recommendation>)
    requires totalSpent > 0.0 || |sortedCategories| == 0
    ensures recs' == recs + BudgetAdvice(totalSpent, sortedCategories)
  {
    recs' := recs;
    for i := 0 to |sortedCategories|
      invariant recs' == recs + BudgetAdvice(totalSpent, sortedCategories[..i])
    {
      BudgetNext(totalSpent, sortedCategories, i);
      var advice := BudgetCheck(totalSpent, sortedCategories[i]);
      recs' := recs' + advice;
    }
    assert sortedCategories[..|sortedCategories|] == sortedCategories;
  }

  /** The body of the budget-table loop for one category. */
  method BudgetCheck(totalSpent: real, entry: Entry<string>) returns (recs: seq<Recommendation>)
    requires totalSpent > 0.0
    ensures recs == BudgetFor(totalSpent, entry)
  {
    var categoryName := entry.key;
    var percentage := entry.value / totalSpent * 100.0;
    var range := BudgetRange(categoryName);
    recs := [];
    if range.Some? {
      var (min, max) := range.value;
      if percentage > max {
        recs := [OverBudget(categoryName, percentage, max)];
      } else if percentage < min && min > 5.0 {
        recs := [UnderAllocated(categoryName, percentage, min, max)];
      }
    }
  }
}

=== FILE: advice_properties.dfy ===
/** What the advice engine's rules guarantee, stated about the functions of
    `AdviceEngine` (which `GenerateRecommendations` is proved to compute),
    and the endpoint that serves them. */
module AdviceProperties {
  import opened Wrappers
  import opened Text
  import opened Agg
  import opened Sorting
  import opened Calendar
  import opened Expenses
  import opened AdviceEngine
  import Ranking
  import Store

  // ---------------------------------------------------------------------
  // Months and totals

  /** The months are the months that have expenses, each once, oldest
      first. */
  lemma MonthsOrdered(es: seq<Expense>)
    ensures forall i, j :: 0 <= i < j < |Months(es)| ==> Months(es)[i] < Months(es)[j]
    ensures forall m :: m in Months(es) <==> m in Map(es, MonthOf)
  {
    var ks := FirstSeen(es, MonthOf);
    var ms := Months(es);
    SortAscCorrect(ks, AsReal);
    DistinctPermutation(ks, ms);
    forall i, j | 0 <= i < j < |ms|
      ensures ms[i] < ms[j]
    {
      assert AsReal(ms[i]) <= AsReal(ms[j]);
    }
    forall m
      ensures m in ms <==> m in ks
    {
      assert m in ms <==> m in multiset(ms);
      assert m in ks <==> m in multiset(ks);
    }
  }

  /** For years 0..9999 the "yyyy-MM" keys of the months are in strictly
      increasing string order, so sorting the keys as strings gives the
      months oldest first. */
  lemma MonthKeysOrdered(es: seq<Expense>)
    requires forall i :: 0 <= i < |es| ==> 0 <= es[i].date.year <= 9999 && 1 <= es[i].date.month <= 12
    ensures forall i :: 0 <= i < |Months(es)| ==> 0 <= Months(es)[i] < 120000
    ensures forall i, j :: 0 <= i < j < |Months(es)| ==> LexLess(MonthKeyOf(Months(es)[i]), MonthKeyOf(Months(es)[j]))
  {
    MonthsOrdered(es);
    var ms := Months(es);
    forall k | 0 <= k < |ms|
      ensures 0 <= ms[k] < 120000
    {
      assert ms[k] in ms;
      assert ms[k] in Map(es, MonthOf);
      var i :| 0 <= i < |es| && MonthOf(es[i]) == ms[k];
    }
    forall i, j | 0 <= i < j < |ms|
      ensures LexLess(MonthKeyOf(ms[i]), MonthKeyOf(ms[j]))
    {
      MonthKeyOfOrder(ms[i], ms[j]);
    }
  }

  /** With positive amounts every listed month has a positive total. */
  lemma MonthTotalPositive(es: seq<Expense>, m: int)
    requires AllPositive(es) && m in Months(es)
    ensures MonthTotal(es, m) > 0.0
  {
    MonthsOrdered(es);
    SumKeyPositive(es, MonthOf, m, Amount);
  }

  /** The category totals of the ranking add up to the total spent, so the
      shares the budget rule compares add up to 100 percent. */
  lemma CategoryTotalsPartition(es: seq<Expense>)
    ensures Sum(RankedCategories(es), EntryValue) == TotalAmount(es)
  {
    var ts := Totals(es, Category, Amount);
    SortDescCorrect(ts, EntryValue);
    SumPermutation(ts, RankedCategories(es), EntryValue);
    TotalsPartition(es, Category, Amount);
  }

  /** The month totals add up to the total spent. */
  lemma MonthTotalsPartition(es: seq<Expense>)
    ensures Sum(Totals(es, MonthOf, Amount), EntryValue) == TotalAmount(es)
  {
    TotalsPartition(es, MonthOf, Amount);
  }

  // ---------------------------------------------------------------------
  // The trend rule

  /** The trend rule says "increased" exactly when the last month's total
      exceeds the month before by more than 15 percent, and "decreased"
      exactly when it falls short of it by more than 15 percent. */
  lemma TrendRule(es: seq<Expense>)
    requires AllPositive(es)
    ensures |TrendAdvice(es)| <= 1
    ensures (exists p :: SpendingIncrease(p) in TrendAdvice(es))
            <==> |Months(es)| >= 2
                 && MonthTotal(es, Months(es)[|Months(es)| - 1]) > MonthTotal(es, Months(es)[|Months(es)| - 2]) * 1.15
    ensures (exists p :: SpendingDecrease(p) in TrendAdvice(es))
            <==> |Months(es)| >= 2
                 && MonthTotal(es, Months(es)[|Months(es)| - 1]) < MonthTotal(es, Months(es)[|Months(es)| - 2]) * 0.85
  {
    var ms := Months(es);
    if |ms| >= 2 {
      var prev, cur := MonthTotal(es, ms[|ms| - 2]), MonthTotal(es, ms[|ms| - 1]);
      MonthTotalPositive(es, ms[|ms| - 2]);
      ChangeThresholds(prev, cur);
      if LastChange(es) > 15.0 {
        assert SpendingIncrease(LastChange(es)) in TrendAdvice(es);
      } else if LastChange(es) < -15.0 {
        assert SpendingDecrease(LastChange(es)) in TrendAdvice(es);
      }
    }
  }

  lemma ChangeThresholds(prev: real, cur: real)
    requires prev > 0.0
    ensures ChangePercent(prev, cur) > 15.0 <==> cur > prev * 1.15
    ensures ChangePercent(prev, cur) < -15.0 <==> cur < prev * 0.85
  {
    var q := (cur - prev) / prev;
    assert q * prev == cur - prev;
    assert ChangePercent(prev, cur) == q * 100.0;
    if q > 0.15 {
      assert q * prev > 0.15 * prev;
    }
    if cur > prev * 1.15 {
      assert q * prev > 0.15 * prev;
    }
    if q < -0.15 {
      assert q * prev < -0.15 * prev;
    }
    if cur < prev * 0.85 {
      assert q * prev < -0.15 * prev;
    }
  }

  // ---------------------------------------------------------------------
  // The category rules

  /** The position, among the categories in order of first appearance, of
      the head of the ranking. */
  lemma RankingHead(es: seq<Expense>) returns (i: int)
    requires |es| > 0
    ensures |RankedCategories(es)| > 0
    ensures 0 <= i < |FirstSeen(es, Category)|
    ensures RankedCategories(es)[0] == Entry(FirstSeen(es, Category)[i], CategoryTotal(es, FirstSeen(es, Category)[i]))
    ensures forall j :: 0 <= j < |FirstSeen(es, Category)| ==>
              CategoryTotal(es, FirstSeen(es, Category)[j]) <= RankedCategories(es)[0].value
    ensures forall j :: 0 <= j < i ==> CategoryTotal(es, FirstSeen(es, Category)[j]) < RankedCategories(es)[0].value
  {
    var ts := Totals(es, Category, Amount);
    assert Map(es, Category)[0] == Category(es[0]);
    SortDescHead(ts, EntryValue);
    i :| 0 <= i < |ts| && ts[i] == SortDesc(ts, EntryValue)[0]
         && (forall j :: 0 <= j < |ts| ==> EntryValue(ts[j]) <= EntryValue(ts[i]))
         && (forall j :: 0 <= j < i ==> EntryValue(ts[j]) < EntryValue(ts[i]));
  }

  /** The head of the ranking is a category with the largest total, the
      first such in order of first appearance. */
  lemma TopCategory(es: seq<Expense>)
    requires |es| > 0
    ensures |RankedCategories(es)| > 0
    ensures var top := RankedCategories(es)[0];
            top.key in Map(es, Category)
            && top.value == CategoryTotal(es, top.key)
            && (forall c :: c in Map(es, Category) ==> CategoryTotal(es, c) <= top.value)
            && (exists i :: 0 <= i < |FirstSeen(es, Category)| && FirstSeen(es, Category)[i] == top.key
                            && forall j :: 0 <= j < i ==> CategoryTotal(es, FirstSeen(es, Category)[j]) < top.value)
  {
    var i := RankingHead(es);
    var ks := FirstSeen(es, Category);
    forall c | c in Map(es, Category)
      ensures CategoryTotal(es, c) <= RankedCategories(es)[0].value
    {
      var j :| 0 <= j < |ks| && ks[j] == c;
    }
    assert ks[i] in ks;
  }

  /** Every item the spike rule produces is a spike. */
  lemma {:induction false} SpikesAreSpikes(es: seq<Expense>, cs: seq<string>)
    requires AllPositive(es) && |Months(es)| >= 2
    ensures forall r :: r in Spikes(es, cs) ==> r.CategorySpike?
    decreases |cs|
  {
    if |cs| > 0 {
      SpikesAreSpikes(es, cs[..|cs| - 1]);
    }
  }

  /** The dominance message comes first in the category advice, and is there
      exactly when some category makes up more than 40 percent of the total
      spent; it names the top category of the ranking. */
  lemma DominanceRule(es: seq<Expense>)
    requires AllPositive(es) && |es| > 0
    ensures TotalAmount(es) > 0.0
    ensures (|CategoryAdvice(es)| > 0 && CategoryAdvice(es)[0].CategoryDominance?)
            <==> exists c :: c in Map(es, Category) && CategoryTotal(es, c) / TotalAmount(es) * 100.0 > 40.0
    ensures |CategoryAdvice(es)| > 0 && CategoryAdvice(es)[0].CategoryDominance?
            ==> CategoryAdvice(es)[0].category == RankedCategories(es)[0].key
  {
    TopCategory(es);
    TotalAmountPositive(es);
    var top := RankedCategories(es)[0];
    var t := TotalAmount(es);
    var spikes := if |Months(es)| >= 2 then Spikes(es, FirstSeen(es, Category)) else [];
    if |Months(es)| >= 2 {
      SpikesAreSpikes(es, FirstSeen(es, Category));
    }
    assert forall r :: r in spikes ==> r.CategorySpike?;
    assert CategoryAdvice(es) == DominanceAdvice(es) + spikes;
    if TopShare(es) > 40.0 {
      assert CategoryAdvice(es) == [CategoryDominance(top.key, TopShare(es))] + spikes;
      assert top.key in Map(es, Category);
    } else {
      assert CategoryAdvice(es) == spikes;
      forall c | c in Map(es, Category)
        ensures CategoryTotal(es, c) / t * 100.0 <= 40.0
      {
        ShareMonotone(CategoryTotal(es, c), top.value, t);
      }
      if |spikes| > 0 {
        assert spikes[0] in spikes;
      }
    }
  }

  lemma ShareMonotone(a: real, b: real, t: real)
    requires t > 0.0 && a <= b
    ensures a / t * 100.0 <= b / t * 100.0
  {
    assert a / t <= b / t by {
      assert (a / t) * t == a && (b / t) * t == b;
    }
  }

  /** The conditions under which category `c` gets a spike: it totals at
      least 100, it had spend in some month before the last, and its
      last-month spend is above 200 and more than one and a half times its
      average over the earlier months in which it had spend. */
  predicate SpikeConditions(es: seq<Expense>, c: string)
    requires AllPositive(es) && |Months(es)| >= 2
  {
    var ms := Months(es);
    var earlier := ms[..|ms| - 1];
    var last := CategoryMonthTotal(es, ms[|ms| - 1], c);
    CategoryTotal(es, c) >= 100.0 && ActiveMonthCount(es, earlier, c) > 0
    && last > 200.0 && last > EarlierAverage(es, earlier, c) * 1.5
  }

  /** The percentage by which the last month's spend of `c` exceeds its
      earlier average. */
  function SpikeIncrease(es: seq<Expense>, c: string): real
    requires AllPositive(es) && |Months(es)| >= 2
    requires ActiveMonthCount(es, Months(es)[..|Months(es)| - 1], c) > 0
  {
    var ms := Months(es);
    var earlier := ms[..|ms| - 1];
    (CategoryMonthTotal(es, ms[|ms| - 1], c) / EarlierAverage(es, earlier, c) - 1.0) * 100.0
  }

  /** Category `c` gets a spike exactly when the spike conditions hold, and
      the spike then reports the increase over the earlier average, which is
      above 50 percent. */
  lemma SpikeMeaning(es: seq<Expense>, c: string)
    requires AllPositive(es) && |Months(es)| >= 2
    ensures forall r :: r in SpikeFor(es, c) ==>
              r.CategorySpike? && r.category == c && r.percentIncrease > 50.0
              && SpikeConditions(es, c)
    ensures SpikeConditions(es, c) ==> SpikeFor(es, c) == [CategorySpike(c, SpikeIncrease(es, c))]
    ensures !SpikeConditions(es, c) ==> SpikeFor(es, c) == []
  {
    var ms := Months(es);
    var earlier := ms[..|ms| - 1];
    if CategoryTotal(es, c) >= 100.0 && ActiveMonthCount(es, earlier, c) > 0 {
      var avg := EarlierAverage(es, earlier, c);
      var last := CategoryMonthTotal(es, ms[|ms| - 1], c);
      if last > avg * 1.5 {
        RatioAbove(last, avg, 1.5);
      }
    }
  }

  /** Lifted to the whole list: every category with expenses whose spike
      conditions hold gets its spike among the recommendations, and every
      spike among the recommendations is one whose conditions hold, with the
      increase over the earlier average. */
  lemma SpikeRule(es: seq<Expense>, c: string)
    requires AllPositive(es) && |Months(es)| >= 2
    ensures SpikeConditions(es, c) ==> c in Map(es, Category)
    ensures SpikeConditions(es, c) ==> CategorySpike(c, SpikeIncrease(es, c)) in Recommendations(es)
    ensures forall r :: r in Recommendations(es) && r.CategorySpike? && r.category == c ==>
              SpikeConditions(es, c) && r == CategorySpike(c, SpikeIncrease(es, c))
  {
    SpikeMeaning(es, c);
    RecommendationsShape(es);
    var cs := FirstSeen(es, Category);
    if SpikeConditions(es, c) {
      if c !in Map(es, Category) {
        AbsentKey(es, Category, c, Amount);
        assert false;
      }
      SpikesContain(es, cs, c);
      PrefixMember(RuleAdvice(es), Recommendations(es), CategorySpike(c, SpikeIncrease(es, c)));
    }
    forall r | r in Recommendations(es) && r.CategorySpike? && r.category == c
      ensures SpikeConditions(es, c) && r == CategorySpike(c, SpikeIncrease(es, c))
    {
      SpikeSource(es, r);
      SpikesFrom(es, cs);
    }
  }

  /** Each category's spike is in the spike list of any category list that
      names it. */
  lemma {:induction false} SpikesContain(es: seq<Expense>, cs: seq<string>, c: string)
    requires AllPositive(es) && |Months(es)| >= 2 && c in cs
    ensures forall r :: r in SpikeFor(es, c) ==> r in Spikes(es, cs)
    decreases |cs|
  {
    var init := cs[..|cs| - 1];
    if c != cs[|cs| - 1] {
      assert c in init;
      SpikesContain(es, init, c);
    }
  }

  /** Every entry of a spike list is the spike of its own category. */
  lemma {:induction false} SpikesFrom(es: seq<Expense>, cs: seq<string>)
    requires AllPositive(es) && |Months(es)| >= 2
    ensures forall r :: r in Spikes(es, cs) ==> r.CategorySpike? && r in SpikeFor(es, r.category)
    decreases |cs|
  {
    if |cs| > 0 {
      SpikesFrom(es, cs[..|cs| - 1]);
      SpikeKind(es, cs[|cs| - 1]);
    }
  }

  /** A spike among the recommendations comes from the spike list: the
      trend, dominance, savings, budget and subscription items and the
      generic tips are of other kinds. */
  lemma SpikeSource(es: seq<Expense>, r: Recommendation)
    requires AllPositive(es) && |Months(es)| >= 2
    requires r in Recommendations(es) && r.CategorySpike?
    ensures r in Spikes(es, FirstSeen(es, Category))
  {
    var rule := RuleAdvice(es);
    assert r in rule by {
      assert Recommendations(es) == (if |rule| < 3 then rule + GenericTips else rule);
      TipsNoSpike(rule, r);
    }
    TrendNoSpike(es);
    LaterNoSpike(es);
    MiddleMember(TrendAdvice(es), CategoryAdvice(es), LaterAdvice(es), r);
    CategorySpikeSource(es, r);
  }

  lemma MiddleMember<T>(xs: seq<T>, ys: seq<T>, zs: seq<T>, x: T)
    requires x in xs + ys + zs && x !in xs && x !in zs
    ensures x in ys
  {
  }

  /** The trend step never reports a spike. */
  lemma TrendNoSpike(es: seq<Expense>)
    ensures forall r :: r in TrendAdvice(es) ==> !r.CategorySpike?
  {
  }

  /** A spike of the category step comes from its spike list. */
  lemma CategorySpikeSource(es: seq<Expense>, r: Recommendation)
    requires AllPositive(es) && |Months(es)| >= 2
    requires r in CategoryAdvice(es) && r.CategorySpike?
    ensures r in Spikes(es, FirstSeen(es, Category))
  {
  }

  /** The generic tips are not spikes. */
  lemma TipsNoSpike(rule: seq<Recommendation>, r: Recommendation)
    requires r.CategorySpike? && (r in rule || r in rule + GenericTips)
    ensures r in rule
  {
  }

  /** The savings, budget and subscription steps never report a spike. */
  lemma LaterNoSpike(es: seq<Expense>)
    requires AllPositive(es)
    ensures forall r :: r in LaterAdvice(es) ==> !r.CategorySpike?
  {
    var total := TotalAmount(es);
    if |es| > 0 {
      TotalAmountPositive(es);
    }
    forall r | r in BudgetChecks(es)
      ensures !r.CategorySpike?
    {
      BudgetRule(total, RankedCategories(es), r);
    }
  }

  lemma PrefixMember<T>(xs: seq<T>, ys: seq<T>, x: T)
    requires xs <= ys && x in xs
    ensures x in ys
  {
    var i :| 0 <= i < |xs| && xs[i] == x;
    assert ys[i] == x;
  }

  lemma RatioAbove(a: real, b: real, k: real)
    requires b > 0.0 && a > b * k
    ensures a / b > k
  {
    var q := a / b;
    assert q * b == a;
    if q <= k {
      assert q * b <= k * b;
    }
  }

  /** A category that had no spend before the last month never spikes,
      whatever its last-month spend. */
  lemma NewCategoryNoSpike(es: seq<Expense>, c: string)
    requires AllPositive(es) && |Months(es)| >= 2
    requires forall m :: m in Months(es)[..|Months(es)| - 1] ==> CategoryMonthTotal(es, m, c) == 0.0
    ensures SpikeFor(es, c) == []
  {
    var ms := Months(es);
    NoActiveMonths(es, ms[..|ms| - 1], c);
  }

  lemma {:induction false} NoActiveMonths(es: seq<Expense>, ms: seq<int>, c: string)
    requires forall m :: m in ms ==> CategoryMonthTotal(es, m, c) == 0.0
    ensures ActiveMonthCount(es, ms, c) == 0
    decreases |ms|
  {
    if |ms| > 0 {
      assert ms[|ms| - 1] in ms;
      NoActiveMonths(es, ms[..|ms| - 1], c);
    }
  }

  /** Every entry of the spike list is a spike of one of the list's
      categories. */
  lemma {:induction false} SpikesCategories(es: seq<Expense>, cs: seq<string>)
    requires AllPositive(es) && |Months(es)| >= 2
    ensures forall r :: r in Spikes(es, cs) ==> r.CategorySpike? && r.category in cs
    decreases |cs|
  {
    if |cs| > 0 {
      var init, d := cs[..|cs| - 1], cs[|cs| - 1];
      SpikesCategories(es, init);
      SpikeKind(es, d);
    }
  }

  /** A spike names the category it was computed for. */
  lemma SpikeKind(es: seq<Expense>, c: string)
    requires AllPositive(es) && |Months(es)| >= 2
    ensures forall r :: r in SpikeFor(es, c) ==> r.CategorySpike? && r.category == c
  {
    SpikeMeaning(es, c);
  }

  /** With distinct categories the spike list holds at most one spike per
      category. */
  lemma {:induction false} SpikesPerCategory(es: seq<Expense>, cs: seq<string>, c: string)
    requires AllPositive(es) && |Months(es)| >= 2 && Distinct(cs)
    ensures |Filter(Spikes(es, cs), (r: Recommendation) => r.CategorySpike? && r.category == c)| <= 1
    decreases |cs|
  {
    if |cs| > 0 {
      var init, d := cs[..|cs| - 1], cs[|cs| - 1];
      assert Distinct(init);
      assert d !in init;
      SpikesPerCategory(es, init, c);
      SpikesCategories(es, init);
      SpikeKind(es, d);
      var p := (r: Recommendation) => r.CategorySpike? && r.category == c;
      FilterAppend(Spikes(es, init), SpikeFor(es, d), p);
      if d == c {
        FilterNone(Spikes(es, init), p);
      } else {
        FilterNone(SpikeFor(es, d), p);
      }
    }
  }

  lemma FilterNone<T>(xs: seq<T>, p: T -> bool)
    requires forall x :: x in xs ==> !p(x)
    ensures Filter(xs, p) == []
  {
  }

  lemma {:induction false} FilterAppend<T>(xs: seq<T>, ys: seq<T>, p: T -> bool)
    ensures Filter(xs + ys, p) == Filter(xs, p) + Filter(ys, p)
    decreases |ys|
  {
    if |ys| > 0 {
      var zs := xs + ys;
      assert zs[..|zs| - 1] == xs + ys[..|ys| - 1];
      assert zs[|zs| - 1] == ys[|ys| - 1];
      FilterAppend(xs, ys[..|ys| - 1], p);
    } else {
      assert xs + ys == xs;
    }
  }

  // ---------------------------------------------------------------------
  // Savings

  /** When there are expenses there is exactly one savings item: the total
      spread evenly over the months with expenses, and 15 percent of that. */
  lemma SavingsRule(es: seq<Expense>)
    requires |es| > 0
    ensures |SavingsAdvice(es)| == 1
    ensures var s := SavingsAdvice(es)[0];
            s.SavingsTarget?
            && s.monthlyAverage * |Months(es)| as real == TotalAmount(es)
            && s.target * 100.0 == s.monthlyAverage * 15.0
  {
    MonthsOrdered(es);
    assert Map(es, MonthOf)[0] == MonthOf(es[0]);
    assert MonthOf(es[0]) in Months(es);
  }

  // ---------------------------------------------------------------------
  // The budget table

  /** The budget advice is the advice for each ranked category in turn. */
  lemma {:induction false} BudgetMembers(total: real, entries: seq<Entry<string>>)
    requires total > 0.0 || |entries| == 0
    ensures forall r :: r in BudgetAdvice(total, entries) <==>
              exists i :: 0 <= i < |entries| && r in BudgetFor(total, entries[i])
    decreases |entries|
  {
    if |entries| > 0 {
      var init := entries[..|entries| - 1];
      BudgetMembers(total, init);
      forall r | r in BudgetAdvice(total, entries)
        ensures exists i :: 0 <= i < |entries| && r in BudgetFor(total, entries[i])
      {
        if r in BudgetAdvice(total, init) {
          var i :| 0 <= i < |init| && r in BudgetFor(total, init[i]);
          assert entries[i] == init[i];
        }
      }
      forall r, i | 0 <= i < |entries| && r in BudgetFor(total, entries[i])
        ensures r in BudgetAdvice(total, entries)
      {
        if i < |init| {
          assert entries[i] == init[i];
        }
      }
    }
  }

  /** What the budget rule says about one ranked category. */
  lemma BudgetForFacts(total: real, e: Entry<string>, r: Recommendation)
    requires total > 0.0 && r in BudgetFor(total, e)
    ensures (r.OverBudget? || r.UnderAllocated?) && r.category == e.key && BudgetRange(e.key).Some?
    ensures r.share == e.value / total * 100.0
    ensures r.OverBudget? ==> r.max == BudgetRange(e.key).value.1 && r.share > r.max
    ensures r.UnderAllocated? ==> (r.min, r.max) == BudgetRange(e.key).value && r.share < r.min && r.min > 5.0
  {
  }

  /** Only the nine categories of the table get budget advice; a category is
      "over budget" when its share is above the top of its range, and
      "under-allocated" only when its share is below the bottom of a range
      whose bottom is above 5 percent. */
  lemma BudgetRule(total: real, entries: seq<Entry<string>>, r: Recommendation)
    requires total > 0.0 || |entries| == 0
    requires r in BudgetAdvice(total, entries)
    ensures (r.OverBudget? || r.UnderAllocated?) && BudgetRange(r.category).Some?
    ensures exists i :: 0 <= i < |entries| && entries[i].key == r.category && r.share == entries[i].value / total * 100.0
    ensures r.OverBudget? ==> r.max == BudgetRange(r.category).value.1 && r.share > r.max
    ensures r.UnderAllocated? ==> (r.min, r.max) == BudgetRange(r.category).value && r.share < r.min && r.min > 5.0
  {
    BudgetMembers(total, entries);
    var i :| 0 <= i < |entries| && r in BudgetFor(total, entries[i]);
    BudgetForFacts(total, entries[i], r);
  }

  /** The converse for one category of the table: a share above the top of
      its range gives the over-budget item, and otherwise a share below a
      bottom above 5 percent gives the under-allocated item. */
  lemma BudgetForComplete(total: real, e: Entry<string>)
    requires total > 0.0 && BudgetRange(e.key).Some?
    ensures var share := e.value / total * 100.0;
            var (lo, hi) := BudgetRange(e.key).value;
            (share > hi ==> BudgetFor(total, e) == [OverBudget(e.key, share, hi)])
            && (share <= hi && share < lo && lo > 5.0 ==> BudgetFor(total, e) == [UnderAllocated(e.key, share, lo, hi)])
            && (share <= hi && (share >= lo || lo <= 5.0) ==> BudgetFor(total, e) == [])
  {
  }

  /** The share of the total, in percent, spent on category `c`. */
  function CategoryShare(es: seq<Expense>, c: string): real
    requires TotalAmount(es) > 0.0
  {
    CategoryTotal(es, c) / TotalAmount(es) * 100.0
  }

  /** Lifted to the whole list: every category of the expenses that has a
      row in the table gets the over-budget item when its share is above
      the top of its range, and otherwise the under-allocated item when its
      share is below a bottom above 5 percent. */
  lemma BudgetComplete(es: seq<Expense>, c: string)
    requires AllPositive(es) && c in Map(es, Category) && BudgetRange(c).Some?
    ensures TotalAmount(es) > 0.0
    ensures var share := CategoryShare(es, c);
            var lo, hi := BudgetRange(c).value.0, BudgetRange(c).value.1;
            (share > hi ==> OverBudget(c, share, hi) in Recommendations(es))
            && (share <= hi && share < lo && lo > 5.0 ==> UnderAllocated(c, share, lo, hi) in Recommendations(es))
  {
    TotalAmountPositive(es);
    var i := RankedEntry(es, c);
    var e := RankedCategories(es)[i];
    var share := CategoryShare(es, c);
    var lo, hi := BudgetRange(c).value.0, BudgetRange(c).value.1;
    BudgetForComplete(TotalAmount(es), e);
    if share > hi {
      BudgetListed(es, i, OverBudget(c, share, hi));
    } else if share < lo && lo > 5.0 {
      BudgetListed(es, i, UnderAllocated(c, share, lo, hi));
    }
  }

  /** Each category of the expenses has its entry, with its total, in the
      ranking. */
  lemma RankedEntry(es: seq<Expense>, c: string) returns (i: int)
    requires c in Map(es, Category)
    ensures 0 <= i < |RankedCategories(es)| && RankedCategories(es)[i] == Entry(c, CategoryTotal(es, c))
  {
    var rs := RankedCategories(es);
    assert rs == Ranking.Ranked(es, Category, Amount);
    Ranking.RankedKeys(es, Category, Amount);
    var r :| r in rs && r.key == c;
    i :| 0 <= i < |rs| && rs[i] == r;
  }

  /** The budget advice of a ranked entry reaches the returned list. */
  lemma BudgetListed(es: seq<Expense>, i: int, x: Recommendation)
    requires AllPositive(es) && TotalAmount(es) > 0.0 && 0 <= i < |RankedCategories(es)|
    requires x in BudgetFor(TotalAmount(es), RankedCategories(es)[i])
    ensures x in Recommendations(es)
  {
    BudgetMembers(TotalAmount(es), RankedCategories(es));
    assert x in BudgetChecks(es);
    BudgetInRecommendations(es, x);
  }

  /** Budget items reach the returned list. */
  lemma BudgetInRecommendations(es: seq<Expense>, x: Recommendation)
    requires AllPositive(es) && x in BudgetChecks(es)
    ensures x in Recommendations(es)
  {
    RecommendationsShape(es);
    assert x in LaterAdvice(es);
    assert RuleAdvice(es) == TrendAdvice(es) + CategoryAdvice(es) + LaterAdvice(es);
    PrefixMember(RuleAdvice(es), Recommendations(es), x);
  }

  /** The table has a row for exactly the nine budget categories, and
      Utilities, Debt, Personal and Entertainment are never reported as
      under-allocated. */
  lemma BudgetTable(c: string)
    ensures BudgetRange(c).Some? <==>
              c in ["Housing", "Transportation", "Food", "Utilities", "Insurance", "Debt", "Personal", "Entertainment", "Savings"]
    ensures BudgetRange(c).Some? && BudgetRange(c).value.0 <= 5.0 <==>
              c in ["Utilities", "Debt", "Personal", "Entertainment"]
    ensures BudgetRange(c).Some? ==> 0.0 <= BudgetRange(c).value.0 < BudgetRange(c).value.1
  {
  }

  // ---------------------------------------------------------------------
  // Recurring expenses

  /** A description is reported as recurring exactly when it occurs, in at
      least two different months; it is reported once, with the amount of
      its first occurrence. */
  lemma RecurringRule(es: seq<Expense>, k: string, a: real)
    ensures RecurringExpense(k, a) in RecurringExpenses(es)
            <==> k in Map(es, RecurringKey) && |MonthsWith(es, k)| >= 2 && a == FirstAmount(es, k)
    ensures var rs := RecurringExpenses(es);
            forall i, j :: 0 <= i < j < |rs| ==> rs[i].description != rs[j].description
  {
    MonthsBoundedByCount(es, k);
    RecurringOfMembers(es, FirstSeen(es, RecurringKey), k, a);
    RecurringOfOnce(es, FirstSeen(es, RecurringKey));
  }

  /** Over distinct keys, each key is reported at most once. */
  lemma {:induction false} RecurringOfOnce(es: seq<Expense>, ks: seq<string>)
    requires Distinct(ks)
    ensures forall r :: r in RecurringOf(es, ks) ==> r.description in ks
    ensures forall i, j :: 0 <= i < j < |RecurringOf(es, ks)| ==>
              RecurringOf(es, ks)[i].description != RecurringOf(es, ks)[j].description
    decreases |ks|
  {
    if |ks| > 0 {
      var init, k := ks[..|ks| - 1], ks[|ks| - 1];
      assert Distinct(init);
      RecurringOfOnce(es, init);
      assert k !in init;
      var rs, prev := RecurringOf(es, ks), RecurringOf(es, init);
      forall i, j | 0 <= i < j < |rs|
        ensures rs[i].description != rs[j].description
      {
        var tail := if IsRecurring(es, k) then [RecurringExpense(k, FirstAmount(es, k))] else [];
        assert rs == prev + tail;
        assert rs[i] == prev[i] && prev[i] in prev;
        if j < |prev| {
          assert rs[j] == prev[j];
          assert prev[i].description != prev[j].description;
        } else {
          assert rs[j] == tail[j - |prev|];
          assert prev[i].description in init;
        }
      }
    }
  }

  lemma {:induction false} RecurringOfMembers(es: seq<Expense>, ks: seq<string>, k: string, a: real)
    ensures RecurringExpense(k, a) in RecurringOf(es, ks) <==> k in ks && IsRecurring(es, k) && a == FirstAmount(es, k)
    decreases |ks|
  {
    if |ks| > 0 {
      RecurringOfMembers(es, ks[..|ks| - 1], k, a);
      assert ks == ks[..|ks| - 1] + [ks[|ks| - 1]];
    }
  }

  /** The distinct months of a description are at most its occurrences, so
      "seen at least twice" is implied by "seen in two months". */
  lemma {:induction false} MonthsBoundedByCount(es: seq<Expense>, k: string)
    ensures |MonthsWith(es, k)| <= CountKey(es, RecurringKey, k)
    decreases |es|
  {
    if |es| > 0 {
      MonthsBoundedByCount(es[..|es| - 1], k);
    }
  }

  /** The amount recorded for a description is that of its first
      occurrence, at position `i`. */
  lemma {:induction false} FirstAmountIsFirst(es: seq<Expense>, k: string) returns (i: int)
    requires k in Map(es, RecurringKey)
    ensures 0 <= i < |es| && RecurringKey(es[i]) == k && FirstAmount(es, k) == es[i].amount
    ensures forall j :: 0 <= j < i ==> RecurringKey(es[j]) != k
    decreases |es|
  {
    var init := es[..|es| - 1];
    assert Map(es, RecurringKey) == Map(init, RecurringKey) + [RecurringKey(es[|es| - 1])];
    if k in Map(init, RecurringKey) {
      i := FirstAmountIsFirst(init, k);
      assert es[i] == init[i];
      assert forall j :: 0 <= j < i ==> es[j] == init[j];
    } else {
      i := |es| - 1;
      forall j | 0 <= j < i
        ensures RecurringKey(es[j]) != k
      {
        assert Map(init, RecurringKey)[j] == RecurringKey(es[j]);
      }
    }
  }

  /** With positive amounts the subscription message, when present, reports
      the sum of the first amounts of the recurring descriptions, above
      100. */
  lemma SubscriptionRule(es: seq<Expense>)
    ensures |SubscriptionAdvice(es)| <= 1
    ensures |SubscriptionAdvice(es)| == 1 <==> Sum(RecurringExpenses(es), RecurringAmount) > 100.0
    ensures |SubscriptionAdvice(es)| == 1 ==>
              SubscriptionAdvice(es)[0] == Subscriptions(Sum(RecurringExpenses(es), RecurringAmount))
  {
    if |RecurringExpenses(es)| == 0 {
      assert Sum(RecurringExpenses(es), RecurringAmount) == 0.0;
    }
  }

  // ---------------------------------------------------------------------
  // The whole list

  /** The list always holds at least three items, the generic tips are added
      exactly when the rules produce fewer than three, and the rules' items
      come first in rule order. */
  lemma RecommendationsShape(es: seq<Expense>)
    requires AllPositive(es)
    ensures |Recommendations(es)| >= 3
    ensures RuleAdvice(es) <= Recommendations(es)
    ensures |RuleAdvice(es)| < 3 <==> Recommendations(es)[|RuleAdvice(es)|..] == GenericTips
    ensures TrendAdvice(es) <= RuleAdvice(es)
  {
    var r := RuleAdvice(es);
    if |r| >= 3 {
      assert Recommendations(es)[|r|..] == [];
    }
  }

  // ---------------------------------------------------------------------
  // The endpoint

  datatype AdviceResponse =
    | AdviceList(status: int, recommendations: seq<Recommendation>, message: Option<string>)
    | AdviceError(status: int, error: string)

  const NotEnoughData: string := "Not enough data to provide advice yet."

  /** `GET /api/advice` over the expense table `rows`. `signedIn` is whether
      the session carries an email and `userFound` whether that email names
      the user `u`; the rules run on `u`'s expenses newest first, as the
      query returns them. */
  function HandleAdvice(signedIn: bool, userFound: bool, httpMethod: string, rows: seq<Store.Row>, u: string): (r: AdviceResponse)
    requires AllPositive(Store.Owned(rows, u))
    ensures r.status == 200 <==> signedIn && userFound && httpMethod == "GET"
    ensures r.status == 401 <==> !signedIn || !userFound
    ensures r.status == 405 <==> signedIn && userFound && httpMethod != "GET"
    ensures var es := Store.NewestFirst(Store.Owned(rows, u));
            r.status == 200 ==> r.AdviceList? && (|es| < 5 <==> r.message.Some?)
    ensures var es := Store.NewestFirst(Store.Owned(rows, u));
            r.status == 200 && |es| < 5 ==> r.recommendations == [] && r.message == Some(NotEnoughData)
    ensures var es := Store.NewestFirst(Store.Owned(rows, u));
            r.status == 200 && |es| >= 5 ==>
              AllPositive(es) && r.recommendations == Recommendations(es) && |r.recommendations| >= 3
  {
    var es := Store.NewestFirst(Store.Owned(rows, u));
    AdviceQueryPositive(rows, u);
    if !signedIn then AdviceError(401, "Unauthorized")
    else if !userFound then AdviceError(401, "User not found")
    else if httpMethod == "GET" then
      if |es| < 5 then AdviceList(200, [], Some(NotEnoughData))
      else
        RecommendationsShape(es);
        AdviceList(200, Recommendations(es), None)
    else AdviceError(405, "Method not allowed")
  }

  /** The newest-first query over positive amounts keeps them positive. */
  lemma AdviceQueryPositive(rows: seq<Store.Row>, u: string)
    requires AllPositive(Store.Owned(rows, u))
    ensures AllPositive(Store.NewestFirst(Store.Owned(rows, u)))
  {
    var mine := Store.Owned(rows, u);
    Store.NewestFirstCorrect(mine);
    assert |Store.NewestFirst(mine)| == |multiset(Store.NewestFirst(mine))| == |mine|;
    Store.NewestPositive(mine, mine, |mine|);
  }
}

=== FILE: agg.dfy ===
/** Folds over finite sequences of records, in the shapes the application
    uses them: sums (`reduce`), filters, and the JavaScript idiom of filling a
    plain object keyed by some field and listing it with `Object.keys` or
    `Object.entries`. The folds here list keys in first-insertion order,
    which is what JavaScript does for the keys the application produces
    (category names, "yyyy-MM" months, weekday names). Two kinds of key
    behave otherwise in JavaScript and are not modelled: integer-like keys
    (such as "711") are listed first, in ascending numeric order, and a key
    that names an `Object.prototype` member (such as "constructor") finds the
    inherited member, so `(acc[k] || 0) + amount` yields a string. */
module Agg {

  function Sum<T>(xs: seq<T>, f: T -> real): real
    decreases |xs|
  {
    if |xs| == 0 then 0.0 else Sum(xs[..|xs| - 1], f) + f(xs[|xs| - 1])
  }

  function One<T>(x: T): real {
    1.0
  }

  function Map<T, U>(xs: seq<T>, f: T -> U): seq<U> {
    seq(|xs|, i requires 0 <= i < |xs| => f(xs[i]))
  }

  predicate Distinct<K(==,!new)>(ks: seq<K>) {
    forall i, j :: 0 <= i < j < |ks| ==> ks[i] != ks[j]
  }

  lemma {:induction false} SumAppend<T>(xs: seq<T>, ys: seq<T>, f: T -> real)
    ensures Sum(xs + ys, f) == Sum(xs, f) + Sum(ys, f)
    decreases |ys|
  {
    if |ys| > 0 {
      assert (xs + ys)[..|xs + ys| - 1] == xs + ys[..|ys| - 1];
      SumAppend(xs, ys[..|ys| - 1], f);
    } else {
      assert xs + ys == xs;
    }
  }

  lemma {:induction false} SumOne<T>(xs: seq<T>)
    ensures Sum(xs, One) == |xs| as real
    decreases |xs|
  {
    if |xs| > 0 {
      SumOne(xs[..|xs| - 1]);
    }
  }

  /** A sum of non-negative terms is at least each of its terms. */
  lemma {:induction false} SumBoundsTerm<T>(xs: seq<T>, f: T -> real, i: int)
    requires forall k :: 0 <= k < |xs| ==> f(xs[k]) >= 0.0
    requires 0 <= i < |xs|
    ensures 0.0 <= f(xs[i]) <= Sum(xs, f)
    decreases |xs|
  {
    SumNonNegative(xs[..|xs| - 1], f);
    if i < |xs| - 1 {
      SumBoundsTerm(xs[..|xs| - 1], f, i);
    }
  }

  lemma {:induction false} SumNonNegative<T>(xs: seq<T>, f: T -> real)
    requires forall k :: 0 <= k < |xs| ==> f(xs[k]) >= 0.0
    ensures Sum(xs, f) >= 0.0
    decreases |xs|
  {
    if |xs| > 0 {
      SumNonNegative(xs[..|xs| - 1], f);
    }
  }

  lemma {:induction false} SumPositive<T>(xs: seq<T>, f: T -> real)
    requires forall k :: 0 <= k < |xs| ==> f(xs[k]) > 0.0
    ensures |xs| > 0 ==> Sum(xs, f) > 0.0
    decreases |xs|
  {
    if |xs| > 0 {
      SumNonNegative(xs[..|xs| - 1], f);
    }
  }

  /** `xs.filter(p)`: the elements satisfying `p`, in their original order. */
  function Filter<T>(xs: seq<T>, p: T -> bool): (ys: seq<T>)
    ensures |ys| <= |xs|
    ensures forall y :: y in ys ==> y in xs && p(y)
    ensures forall x :: x in xs && p(x) ==> x in ys
    decreases |xs|
  {
    if |xs| == 0 then []
    else
      var ys := Filter(xs[..|xs| - 1], p);
      assert forall x :: x in xs[..|xs| - 1] ==> x in xs;
      assert forall x :: x in xs ==> x in xs[..|xs| - 1] || x == xs[|xs| - 1];
      if p(xs[|xs| - 1]) then ys + [xs[|xs| - 1]] else ys
  }

  /** `ys` is obtained from `xs` by deleting elements: an order-preserving
      sub-list. */
  predicate IsSublist<T(==)>(ys: seq<T>, xs: seq<T>)
    decreases |xs|
  {
    if |ys| == 0 then true
    else if |xs| == 0 then false
    else (ys[|ys| - 1] == xs[|xs| - 1] && IsSublist(ys[..|ys| - 1], xs[..|xs| - 1]))
         || IsSublist(ys, xs[..|xs| - 1])
  }

  lemma {:induction false} FilterIsSublist<T>(xs: seq<T>, p: T -> bool)
    ensures IsSublist(Filter(xs, p), xs)
    decreases |xs|
  {
    if |xs| > 0 {
      var init := xs[..|xs| - 1];
      FilterIsSublist(init, p);
      var ys := Filter(xs, p);
      if p(xs[|xs| - 1]) {
        assert ys[..|ys| - 1] == Filter(init, p);
      }
    }
  }

  /** With non-negative values, a filtered list sums to at most the whole
      list, and to at least any one of its members. */
  lemma {:induction false} FilterSum<T>(xs: seq<T>, p: T -> bool, f: T -> real)
    requires forall k :: 0 <= k < |xs| ==> f(xs[k]) >= 0.0
    ensures 0.0 <= Sum(Filter(xs, p), f) <= Sum(xs, f)
    ensures forall y :: y in xs && p(y) ==> f(y) <= Sum(Filter(xs, p), f)
    decreases |xs|
  {
    if |xs| > 0 {
      var init, x := xs[..|xs| - 1], xs[|xs| - 1];
      FilterSum(init, p, f);
      var ys := Filter(init, p);
      if p(x) {
        SumAppend(ys, [x], f);
        assert Sum([x], f) == f(x) by { assert [x][..0] == []; }
      }
      forall y | y in xs && p(y)
        ensures f(y) <= Sum(Filter(xs, p), f)
      {
        if y != x {
          assert y in init;
        }
      }
    }
  }

  /** Summing the mapped values is summing the function. */
  lemma {:induction false} SumMap<T>(xs: seq<T>, f: T -> real)
    ensures Sum(Map(xs, f), Real) == Sum(xs, f)
    decreases |xs|
  {
    if |xs| > 0 {
      SumMap(xs[..|xs| - 1], f);
      assert Map(xs, f)[..|xs| - 1] == Map(xs[..|xs| - 1], f);
    }
  }

  /** Filtering with a predicate that holds everywhere changes nothing. */
  lemma {:induction false} FilterAll<T>(xs: seq<T>, p: T -> bool)
    requires forall k :: 0 <= k < |xs| ==> p(xs[k])
    ensures Filter(xs, p) == xs
    decreases |xs|
  {
    if |xs| > 0 {
      FilterAll(xs[..|xs| - 1], p);
      assert xs == xs[..|xs| - 1] + [xs[|xs| - 1]];
    }
  }

  // ---------------------------------------------------------------------
  // Grouping by a key, as `obj[key] = (obj[key] || 0) + value` does

  /** The sum of `f` over the records whose key is `k`. */
  function SumKey<T, K(==,!new)>(xs: seq<T>, key: T -> K, k: K, f: T -> real): real
    decreases |xs|
  {
    if |xs| == 0 then 0.0
    else SumKey(xs[..|xs| - 1], key, k, f) + (if key(xs[|xs| - 1]) == k then f(xs[|xs| - 1]) else 0.0)
  }

  /** The number of records whose key is `k`. */
  function CountKey<T, K(==,!new)>(xs: seq<T>, key: T -> K, k: K): nat
    decreases |xs|
  {
    if |xs| == 0 then 0
    else CountKey(xs[..|xs| - 1], key, k) + (if key(xs[|xs| - 1]) == k then 1 else 0)
  }

  /** The distinct keys of `xs` in order of first appearance: the key order
      of a JavaScript object filled while walking `xs`. */
  function FirstSeen<T, K(==,!new)>(xs: seq<T>, key: T -> K): (ks: seq<K>)
    ensures Distinct(ks)
    ensures forall k :: k in ks <==> k in Map(xs, key)
    decreases |xs|
  {
    if |xs| == 0 then []
    else
      var init := xs[..|xs| - 1];
      var ks := FirstSeen(init, key);
      var k := key(xs[|xs| - 1]);
      assert Map(xs, key) == Map(init, key) + [k];
      if k in ks then ks else ks + [k]
  }

  lemma {:induction false} CountKeyAsSum<T, K(!new)>(xs: seq<T>, key: T -> K, k: K)
    ensures CountKey(xs, key, k) as real == SumKey(xs, key, k, One)
    decreases |xs|
  {
    if |xs| > 0 {
      CountKeyAsSum(xs[..|xs| - 1], key, k);
    }
  }

  /** A key no record carries has no records and sums to zero. */
  lemma {:induction false} AbsentKey<T, K(!new)>(xs: seq<T>, key: T -> K, k: K, f: T -> real)
    requires k !in Map(xs, key)
    ensures SumKey(xs, key, k, f) == 0.0 && CountKey(xs, key, k) == 0
    decreases |xs|
  {
    if |xs| > 0 {
      assert Map(xs, key) == Map(xs[..|xs| - 1], key) + [key(xs[|xs| - 1])];
      AbsentKey(xs[..|xs| - 1], key, k, f);
    }
  }

  /** A key some record carries has at least one record. */
  lemma {:induction false} PresentKey<T, K(!new)>(xs: seq<T>, key: T -> K, k: K)
    requires k in Map(xs, key)
    ensures CountKey(xs, key, k) >= 1
    decreases |xs|
  {
    assert Map(xs, key) == Map(xs[..|xs| - 1], key) + [key(xs[|xs| - 1])];
    if key(xs[|xs| - 1]) != k {
      PresentKey(xs[..|xs| - 1], key, k);
    }
  }

  /** If every record with key `k` has a positive value, the key's sum is
      positive exactly when the key is present. */
  lemma {:induction false} SumKeyPositive<T, K(!new)>(xs: seq<T>, key: T -> K, k: K, f: T -> real)
    requires forall i :: 0 <= i < |xs| ==> f(xs[i]) > 0.0
    ensures k in Map(xs, key) <==> SumKey(xs, key, k, f) > 0.0
    ensures SumKey(xs, key, k, f) >= 0.0
    decreases |xs|
  {
    if |xs| > 0 {
      assert Map(xs, key) == Map(xs[..|xs| - 1], key) + [key(xs[|xs| - 1])];
      SumKeyPositive(xs[..|xs| - 1], key, k, f);
    }
  }

  // ---------------------------------------------------------------------
  // The state of a "group into an object" loop

  /** `order` and `totals` are what walking `xs` and adding `f` of each
      record into `totals[key]` produces. */
  ghost predicate Tallied<T, K(!new)>(xs: seq<T>, key: T -> K, f: T -> real, order: seq<K>, totals: map<K, real>) {
    order == FirstSeen(xs, key)
    && (forall k :: k in totals <==> k in order)
    && (forall k :: k in totals ==> totals[k] == SumKey(xs, key, k, f))
  }

  /** Like `Tallied`, for a loop that counts records per key. */
  ghost predicate Counted<T, K(!new)>(xs: seq<T>, key: T -> K, counts: map<K, nat>) {
    (forall k :: k in counts <==> k in Map(xs, key))
    && (forall k :: k in counts ==> counts[k] == CountKey(xs, key, k))
  }

  function AddTo<K>(totals: map<K, real>, k: K, v: real): map<K, real> {
    totals[k := (if k in totals then totals[k] else 0.0) + v]
  }

  function IncrementIn<K>(counts: map<K, nat>, k: K): map<K, nat> {
    counts[k := (if k in counts then counts[k] else 0) + 1]
  }

  function Note<K(==,!new)>(order: seq<K>, k: K): seq<K> {
    if k in order then order else order + [k]
  }

  lemma TalliedStep<T, K(!new)>(xs: seq<T>, x: T, key: T -> K, f: T -> real, order: seq<K>, totals: map<K, real>)
    requires Tallied(xs, key, f, order, totals)
    ensures Tallied(xs + [x], key, f, Note(order, key(x)), AddTo(totals, key(x), f(x)))
  {
    var ys := xs + [x];
    assert ys[..|ys| - 1] == xs;
    var k := key(x);
    if k !in totals {
      assert k !in Map(xs, key);
      AbsentKey(xs, key, k, f);
    }
  }

  lemma CountedStep<T, K(!new)>(xs: seq<T>, x: T, key: T -> K, counts: map<K, nat>)
    requires Counted(xs, key, counts)
    ensures Counted(xs + [x], key, IncrementIn(counts, key(x)))
  {
    var ys := xs + [x];
    assert ys[..|ys| - 1] == xs;
    assert Map(ys, key) == Map(xs, key) + [key(x)];
    if key(x) !in counts {
      AbsentKey(xs, key, key(x), One);
    }
  }

  // ---------------------------------------------------------------------
  // Groups and the partition of the total

  datatype Group<K> = Group(key: K, total: real, count: nat)

  function GroupTotal<K>(g: Group<K>): real {
    g.total
  }

  function GroupCount<K>(g: Group<K>): real {
    g.count as real
  }

  /** One group per key of `ks`, holding that key's total and count. */
  function GroupsOf<T, K(==,!new)>(xs: seq<T>, key: T -> K, f: T -> real, ks: seq<K>): (gs: seq<Group<K>>)
    ensures |gs| == |ks|
    ensures forall i :: 0 <= i < |ks| ==> gs[i] == Group(ks[i], SumKey(xs, key, ks[i], f), CountKey(xs, key, ks[i]))
    decreases |ks|
  {
    if |ks| == 0 then []
    else GroupsOf(xs, key, f, ks[..|ks| - 1]) + [Group(ks[|ks| - 1], SumKey(xs, key, ks[|ks| - 1], f), CountKey(xs, key, ks[|ks| - 1]))]
  }

  /** The groups a keyed fold produces, in first-seen key order. */
  function Groups<T, K(==,!new)>(xs: seq<T>, key: T -> K, f: T -> real): seq<Group<K>> {
    GroupsOf(xs, key, f, FirstSeen(xs, key))
  }

  lemma {:induction false} GroupsOfStep<T, K(!new)>(xs: seq<T>, x: T, key: T -> K, f: T -> real, ks: seq<K>)
    requires Distinct(ks)
    ensures Sum(GroupsOf(xs + [x], key, f, ks), GroupTotal)
         == Sum(GroupsOf(xs, key, f, ks), GroupTotal) + (if key(x) in ks then f(x) else 0.0)
    ensures Sum(GroupsOf(xs + [x], key, f, ks), GroupCount)
         == Sum(GroupsOf(xs, key, f, ks), GroupCount) + (if key(x) in ks then 1.0 else 0.0)
    decreases |ks|
  {
    var ys := xs + [x];
    assert ys[..|ys| - 1] == xs;
    if |ks| > 0 {
      var init := ks[..|ks| - 1];
      GroupsOfStep(xs, x, key, f, init);
      assert key(x) in ks <==> key(x) in init || key(x) == ks[|ks| - 1];
    }
  }

  /** Group totals add up to the overall total, and group counts to the
      number of records. */
  lemma {:induction false} GroupsPartition<T, K(!new)>(xs: seq<T>, key: T -> K, f: T -> real)
    ensures Sum(Groups(xs, key, f), GroupTotal) == Sum(xs, f)
    ensures Sum(Groups(xs, key, f), GroupCount) == |xs| as real
    decreases |xs|
  {
    if |xs| > 0 {
      GroupsPartition(xs[..|xs| - 1], key, f);
      GroupsPartitionStep(xs, key, f);
    }
  }

  /** One more record adds its amount to the group totals and one to the
      group counts. */
  lemma GroupsPartitionStep<T, K(!new)>(xs: seq<T>, key: T -> K, f: T -> real)
    requires |xs| > 0
    ensures Sum(Groups(xs, key, f), GroupTotal) == Sum(Groups(xs[..|xs| - 1], key, f), GroupTotal) + f(xs[|xs| - 1])
    ensures Sum(Groups(xs, key, f), GroupCount) == Sum(Groups(xs[..|xs| - 1], key, f), GroupCount) + 1.0
  {
    var init, x := xs[..|xs| - 1], xs[|xs| - 1];
    assert xs == init + [x];
    var ks := FirstSeen(init, key);
    FirstSeenSnoc(init, x, key);
    GroupsOfStep(init, x, key, f, ks);
    if key(x) !in ks {
      NewKeyGroup(init, x, key, f);
    }
  }

  /** The invariant of a loop over the groups of keys `ks` that adds up the
      totals and counts of every group but the one of key `k`. */
  ghost predicate OthersSoFar<T, K(!new)>(xs: seq<T>, key: T -> K, f: T -> real, k: K, ks: seq<K>, total: real, count: nat) {
    total + (if k in ks then SumKey(xs, key, k, f) else 0.0) == Sum(GroupsOf(xs, key, f, ks), GroupTotal)
    && count as real + (if k in ks then CountKey(xs, key, k) as real else 0.0) == Sum(GroupsOf(xs, key, f, ks), GroupCount)
  }

  lemma OthersStep<T, K(!new)>(xs: seq<T>, key: T -> K, f: T -> real, k: K, ks: seq<K>, j: K, total: real, count: nat)
    requires OthersSoFar(xs, key, f, k, ks, total, count) && j !in ks
    ensures OthersSoFar(xs, key, f, k, ks + [j],
                        total + (if j != k then SumKey(xs, key, j, f) else 0.0),
                        count + (if j != k then CountKey(xs, key, j) else 0))
  {
    GroupsOfSnoc(xs, key, f, ks, j);
  }

  /** Over all the groups, the loop has added up the records whose key is
      not `k`. */
  lemma OthersDone<T, K(!new)>(xs: seq<T>, key: T -> K, f: T -> real, k: K, total: real, count: nat)
    requires OthersSoFar(xs, key, f, k, FirstSeen(xs, key), total, count)
    ensures count == |Filter(xs, KeyIsNot(key, k))| && total == Sum(Filter(xs, KeyIsNot(key, k)), f)
  {
    GroupsPartition(xs, key, f);
    OtherKeys(xs, key, k, f);
    if k !in FirstSeen(xs, key) {
      AbsentKey(xs, key, k, f);
    }
  }

  /** The group a new key opens holds exactly the record that opened it. */
  lemma NewKeyGroup<T, K(!new)>(init: seq<T>, x: T, key: T -> K, f: T -> real)
    requires key(x) !in FirstSeen(init, key)
    ensures var xs, ks := init + [x], FirstSeen(init, key);
            Sum(GroupsOf(xs, key, f, ks + [key(x)]), GroupTotal) == Sum(GroupsOf(xs, key, f, ks), GroupTotal) + f(x)
            && Sum(GroupsOf(xs, key, f, ks + [key(x)]), GroupCount) == Sum(GroupsOf(xs, key, f, ks), GroupCount) + 1.0
  {
    var xs, ks := init + [x], FirstSeen(init, key);
    var ks' := ks + [key(x)];
    assert ks'[..|ks'| - 1] == ks;
    assert xs[..|xs| - 1] == init;
    AbsentKey(init, key, key(x), f);
    var gs := GroupsOf(xs, key, f, ks');
    assert gs == GroupsOf(xs, key, f, ks) + [Group(key(x), SumKey(xs, key, key(x), f), CountKey(xs, key, key(x)))];
    assert gs[..|gs| - 1] == GroupsOf(xs, key, f, ks);
  }

  /** Every group of a keyed fold holds at least one record. */
  lemma GroupsNonEmpty<T, K(!new)>(xs: seq<T>, key: T -> K, f: T -> real, i: int)
    requires 0 <= i < |Groups(xs, key, f)|
    ensures Groups(xs, key, f)[i].count >= 1
  {
    PresentKey(xs, key, FirstSeen(xs, key)[i]);
  }

  /** Looking a key up in a tallied object, with a missing key read as 0,
      gives the key's sum. */
  lemma TalliedLookup<T, K(!new)>(xs: seq<T>, key: T -> K, f: T -> real, order: seq<K>, totals: map<K, real>, k: K)
    requires Tallied(xs, key, f, order, totals)
    ensures (if k in totals then totals[k] else 0.0) == SumKey(xs, key, k, f)
  {
    if k !in totals {
      AbsentKey(xs, key, k, f);
    }
  }

  /** `groups` is what walking `xs` and doing `groups[key].count++` and
      `groups[key].total += f(x)` produces, with each key's record created
      on first sight; `order` is the key insertion order. */
  ghost predicate Grouped<T, K(!new)>(xs: seq<T>, key: T -> K, f: T -> real, order: seq<K>, groups: map<K, Group<K>>) {
    order == FirstSeen(xs, key)
    && (forall k :: k in groups <==> k in order)
    && (forall k :: k in groups ==> groups[k] == Group(k, SumKey(xs, key, k, f), CountKey(xs, key, k)))
  }

  function AddToGroup<K>(groups: map<K, Group<K>>, k: K, v: real): map<K, Group<K>> {
    var g := if k in groups then groups[k] else Group(k, 0.0, 0);
    groups[k := Group(k, g.total + v, g.count + 1)]
  }

  lemma GroupedStep<T, K(!new)>(xs: seq<T>, x: T, key: T -> K, f: T -> real, order: seq<K>, groups: map<K, Group<K>>)
    requires Grouped(xs, key, f, order, groups)
    ensures Grouped(xs + [x], key, f, Note(order, key(x)), AddToGroup(groups, key(x), f(x)))
  {
    var ys := xs + [x];
    assert ys[..|ys| - 1] == xs;
    var k := key(x);
    if k !in groups {
      assert k !in Map(xs, key);
      AbsentKey(xs, key, k, f);
    }
  }

  /** The members of a one-longer prefix. */
  lemma PrefixMembers<T>(s: seq<T>, j: nat)
    requires j < |s|
    ensures forall y :: y in s[..j + 1] <==> y in s[..j] || y == s[j]
  {
    assert s[..j + 1] == s[..j] + [s[j]];
  }

  /** A record adds its key to the keys seen unless it is already there. */
  lemma FirstSeenSnoc<T, K(!new)>(xs: seq<T>, x: T, key: T -> K)
    ensures FirstSeen(xs + [x], key) == Note(FirstSeen(xs, key), key(x))
  {
    assert (xs + [x])[..|xs|] == xs;
  }

  lemma TalliedNext<T, K(!new)>(xs: seq<T>, i: nat, key: T -> K, f: T -> real, order: seq<K>, totals: map<K, real>)
    requires i < |xs| && Tallied(xs[..i], key, f, order, totals)
    ensures Tallied(xs[..i + 1], key, f, Note(order, key(xs[i])), AddTo(totals, key(xs[i]), f(xs[i])))
  {
    TalliedStep(xs[..i], xs[i], key, f, order, totals);
    assert xs[..i + 1] == xs[..i] + [xs[i]];
  }

  lemma GroupedNext<T, K(!new)>(xs: seq<T>, i: nat, key: T -> K, f: T -> real, order: seq<K>, groups: map<K, Group<K>>)
    requires i < |xs| && Grouped(xs[..i], key, f, order, groups)
    ensures Grouped(xs[..i + 1], key, f, Note(order, key(xs[i])), AddToGroup(groups, key(xs[i]), f(xs[i])))
  {
    GroupedStep(xs[..i], xs[i], key, f, order, groups);
    assert xs[..i + 1] == xs[..i] + [xs[i]];
  }

  /** The `forEach` that keeps a `{ count, total }` record per key,
      creating it on the key's first record. */
  method GroupRecords<T, K(==,!new)>(xs: seq<T>, key: T -> K, f: T -> real) returns (order: seq<K>, groups: map<K, Group<K>>)
    ensures Grouped(xs, key, f, order, groups)
  {
    order, groups := [], map[];
    for i := 0 to |xs|
      invariant Grouped(xs[..i], key, f, order, groups)
    {
      var x := xs[i];
      GroupedNext(xs, i, key, f, order, groups);
      var k := key(x);
      var g := if k in groups then groups[k] else Group(k, 0.0, 0);
      groups := groups[k := Group(k, g.total + f(x), g.count + 1)];
      order := Note(order, k);
    }
    assert xs[..|xs|] == xs;
  }

  /** `Object.entries(groups)` in key order. */
  function GroupList<K>(order: seq<K>, groups: map<K, Group<K>>): (gs: seq<Group<K>>)
    requires forall k :: k in order ==> k in groups
    ensures |gs| == |order|
    ensures forall i :: 0 <= i < |order| ==> gs[i] == groups[order[i]]
  {
    seq(|order|, i requires 0 <= i < |order| => groups[order[i]])
  }

  lemma GroupedList<T, K(!new)>(xs: seq<T>, key: T -> K, f: T -> real, order: seq<K>, groups: map<K, Group<K>>)
    requires Grouped(xs, key, f, order, groups)
    ensures GroupList(order, groups) == Groups(xs, key, f)
  {
  }

  // ---------------------------------------------------------------------
  // Lists per key, as `(obj[key] ||= []).push(value)` builds them

  /** The records whose key is `k`, in order. */
  function WithKey<T, K(==,!new)>(xs: seq<T>, key: T -> K, k: K): seq<T>
    decreases |xs|
  {
    if |xs| == 0 then []
    else WithKey(xs[..|xs| - 1], key, k) + (if key(xs[|xs| - 1]) == k then [xs[|xs| - 1]] else [])
  }

  lemma WithKeyStep<T, K(!new)>(xs: seq<T>, x: T, key: T -> K, k: K)
    ensures WithKey(xs + [x], key, k) == WithKey(xs, key, k) + (if key(x) == k then [x] else [])
  {
    assert (xs + [x])[..|xs|] == xs;
  }

  /** The list of a key has as many records as the key counts, and they
      sum to the key's sum. */
  lemma {:induction false} WithKeyMeasures<T, K(!new)>(xs: seq<T>, key: T -> K, k: K, f: T -> real)
    ensures |WithKey(xs, key, k)| == CountKey(xs, key, k)
    ensures Sum(WithKey(xs, key, k), f) == SumKey(xs, key, k, f)
    ensures forall y :: y in WithKey(xs, key, k) ==> y in xs && key(y) == k
    decreases |xs|
  {
    if |xs| > 0 {
      var init, x := xs[..|xs| - 1], xs[|xs| - 1];
      WithKeyMeasures(init, key, k, f);
      var tail := if key(x) == k then [x] else [];
      SumAppend(WithKey(init, key, k), tail, f);
      assert Sum(tail, f) == (if key(x) == k then f(x) else 0.0) by {
        if key(x) == k {
          assert tail[..0] == [];
        }
      }
      assert forall y :: y in init ==> y in xs;
    }
  }

  function Real(x: real): real {
    x
  }

  /** `order` and `lists` are what walking `xs` and pushing `f` of each
      record onto `lists[key]` produces. */
  ghost predicate Bucketed<T, K(!new)>(xs: seq<T>, key: T -> K, f: T -> real, order: seq<K>, lists: map<K, seq<real>>) {
    order == FirstSeen(xs, key)
    && (forall k :: k in lists <==> k in order)
    && (forall k :: k in lists ==> lists[k] == Map(WithKey(xs, key, k), f))
  }

  function PushTo<K>(lists: map<K, seq<real>>, k: K, v: real): map<K, seq<real>> {
    lists[k := (if k in lists then lists[k] else []) + [v]]
  }

  lemma BucketedStep<T, K(!new)>(xs: seq<T>, x: T, key: T -> K, f: T -> real, order: seq<K>, lists: map<K, seq<real>>)
    requires Bucketed(xs, key, f, order, lists)
    ensures Bucketed(xs + [x], key, f, Note(order, key(x)), PushTo(lists, key(x), f(x)))
  {
    var ys := xs + [x];
    assert ys[..|ys| - 1] == xs;
    var k := key(x);
    if k !in lists {
      assert k !in Map(xs, key);
      AbsentKey(xs, key, k, f);
      WithKeyMeasures(xs, key, k, f);
    }
    forall j | j in PushTo(lists, k, f(x))
      ensures PushTo(lists, k, f(x))[j] == Map(WithKey(ys, key, j), f)
    {
      if j == k {
        assert Map(WithKey(ys, key, j), f) == Map(WithKey(xs, key, j), f) + [f(x)];
      } else {
        assert WithKey(ys, key, j) == WithKey(xs, key, j);
      }
    }
  }

  // ---------------------------------------------------------------------
  // Entries: `Object.entries` of a tallied object

  datatype Entry<K> = Entry(key: K, value: real)

  function EntryValue<K>(e: Entry<K>): real {
    e.value
  }

  /** `Object.entries(totals)` for an object whose keys were inserted in the
      order `order`. */
  function Entries<K>(order: seq<K>, totals: map<K, real>): (es: seq<Entry<K>>)
    requires forall k :: k in order ==> k in totals
    ensures |es| == |order|
    ensures forall i :: 0 <= i < |order| ==> es[i] == Entry(order[i], totals[order[i]])
  {
    seq(|order|, i requires 0 <= i < |order| => Entry(order[i], totals[order[i]]))
  }

  /** The per-key totals of `xs`, in first-seen key order. */
  function Totals<T, K(==,!new)>(xs: seq<T>, key: T -> K, f: T -> real): (es: seq<Entry<K>>)
    ensures |es| == |FirstSeen(xs, key)|
    ensures forall i :: 0 <= i < |es| ==> es[i] == Entry(FirstSeen(xs, key)[i], SumKey(xs, key, FirstSeen(xs, key)[i], f))
  {
    var ks := FirstSeen(xs, key);
    seq(|ks|, i requires 0 <= i < |ks| => Entry(ks[i], SumKey(xs, key, ks[i], f)))
  }

  lemma TalliedEntries<T, K(!new)>(xs: seq<T>, key: T -> K, f: T -> real, order: seq<K>, totals: map<K, real>)
    requires Tallied(xs, key, f, order, totals)
    ensures Entries(order, totals) == Totals(xs, key, f)
  {
  }

  lemma {:induction false} SumPointwise<T, U>(xs: seq<T>, f: T -> real, ys: seq<U>, g: U -> real)
    requires |xs| == |ys|
    requires forall i :: 0 <= i < |xs| ==> f(xs[i]) == g(ys[i])
    ensures Sum(xs, f) == Sum(ys, g)
    decreases |xs|
  {
    if |xs| > 0 {
      SumPointwise(xs[..|xs| - 1], f, ys[..|ys| - 1], g);
    }
  }

  /** Per-key totals add up to the overall total. */
  lemma TotalsPartition<T, K(!new)>(xs: seq<T>, key: T -> K, f: T -> real)
    ensures Sum(Totals(xs, key, f), EntryValue) == Sum(xs, f)
  {
    GroupsPartition(xs, key, f);
    SumPointwise(Totals(xs, key, f), EntryValue, Groups(xs, key, f), GroupTotal);
  }

  /** Each key occurs in exactly one entry. */
  lemma TotalsKeys<T, K(!new)>(xs: seq<T>, key: T -> K, f: T -> real)
    ensures var es := Totals(xs, key, f);
            (forall i, j :: 0 <= i < j < |es| ==> es[i].key != es[j].key)
            && (forall k :: k in Map(xs, key) <==> exists i :: 0 <= i < |es| && es[i].key == k)
  {
    var es, ks := Totals(xs, key, f), FirstSeen(xs, key);
    forall k | k in Map(xs, key)
      ensures exists i :: 0 <= i < |es| && es[i].key == k
    {
      var i :| 0 <= i < |ks| && ks[i] == k;
      assert es[i].key == k;
    }
  }

  /** A sum does not depend on the order of its terms. */
  lemma {:induction false} SumPermutation<T>(xs: seq<T>, ys: seq<T>, f: T -> real)
    requires multiset(xs) == multiset(ys)
    ensures Sum(xs, f) == Sum(ys, f)
    decreases |xs|
  {
    if |xs| > 0 {
      var init, x := xs[..|xs| - 1], xs[|xs| - 1];
      assert xs == init + [x];
      assert x in multiset(ys);
      var i :| 0 <= i < |ys| && ys[i] == x;
      var rest := ys[..i] + ys[i + 1..];
      assert ys == ys[..i] + [x] + ys[i + 1..];
      assert multiset(ys) == multiset(ys[..i]) + multiset{x} + multiset(ys[i + 1..]);
      assert multiset(xs) == multiset(init) + multiset{x};
      assert multiset(rest) == multiset(ys[..i]) + multiset(ys[i + 1..]);
      assert multiset(rest) == multiset(ys) - multiset{x};
      assert multiset(init) == multiset(xs) - multiset{x};
      SumPermutation(init, rest, f);
      SumAppend(ys[..i] + [x], ys[i + 1..], f);
      SumAppend(ys[..i], [x], f);
      SumAppend(ys[..i], ys[i + 1..], f);
      assert Sum([x], f) == f(x) by {
        assert [x][..0] == [];
      }
    } else {
      assert |ys| == |multiset(ys)|;
    }
  }

  // ---------------------------------------------------------------------
  // Arithmetic mean

  /** `list.length > 0 ? sum / list.length : 0` */
  function Mean<T>(xs: seq<T>, f: T -> real): real {
    if |xs| == 0 then 0.0 else Sum(xs, f) / |xs| as real
  }

  /** Over positive values the mean is positive exactly when there is
      something to average. */
  lemma MeanPositive<T>(xs: seq<T>, f: T -> real)
    requires forall k :: 0 <= k < |xs| ==> f(xs[k]) > 0.0
    ensures |xs| > 0 <==> Mean(xs, f) > 0.0
  {
    SumPositive(xs, f);
  }

  /** The mean lies between the smallest and the largest value. */
  lemma {:induction false} MeanBounds<T>(xs: seq<T>, f: T -> real, lo: real, hi: real)
    requires |xs| > 0
    requires forall k :: 0 <= k < |xs| ==> lo <= f(xs[k]) <= hi
    ensures lo <= Mean(xs, f) <= hi
  {
    SumBetween(xs, f, lo, hi);
  }

  lemma {:induction false} SumBetween<T>(xs: seq<T>, f: T -> real, lo: real, hi: real)
    requires forall k :: 0 <= k < |xs| ==> lo <= f(xs[k]) <= hi
    ensures lo * |xs| as real <= Sum(xs, f) <= hi * |xs| as real
    decreases |xs|
  {
    if |xs| > 0 {
      SumBetween(xs[..|xs| - 1], f, lo, hi);
    }
  }

  // ---------------------------------------------------------------------
  // Extremes: `Math.max(...values)` and `Math.min(...values)`

  function MaxOf<T>(xs: seq<T>, f: T -> real): (m: real)
    requires |xs| > 0
    ensures forall k :: 0 <= k < |xs| ==> f(xs[k]) <= m
    ensures exists k :: 0 <= k < |xs| && f(xs[k]) == m
    decreases |xs|
  {
    if |xs| == 1 then f(xs[0])
    else
      var m := MaxOf(xs[..|xs| - 1], f);
      assert forall k :: 0 <= k < |xs| - 1 ==> xs[..|xs| - 1][k] == xs[k];
      if f(xs[|xs| - 1]) > m then f(xs[|xs| - 1]) else m
  }

  function MinOf<T>(xs: seq<T>, f: T -> real): (m: real)
    requires |xs| > 0
    ensures forall k :: 0 <= k < |xs| ==> m <= f(xs[k])
    ensures exists k :: 0 <= k < |xs| && f(xs[k]) == m
    decreases |xs|
  {
    if |xs| == 1 then f(xs[0])
    else
      var m := MinOf(xs[..|xs| - 1], f);
      assert forall k :: 0 <= k < |xs| - 1 ==> xs[..|xs| - 1][k] == xs[k];
      if f(xs[|xs| - 1]) < m then f(xs[|xs| - 1]) else m
  }

  // ---------------------------------------------------------------------
  // Per-key means and the complement of a key

  /** `total / count` of a group record (groups are created by their first
      record, so the count is never zero where this is used). */
  function GroupMean<K>(g: Group<K>): real {
    if g.count == 0 then 0.0 else g.total / g.count as real
  }

  /** The records whose key is not `k`. */
  function KeyIsNot<T, K(==)>(key: T -> K, k: K): T -> bool {
    (x: T) => key(x) != k
  }

  /** No record has key `k` exactly when none is selected by it. */
  lemma WithKeyEmpty<T, K(!new)>(xs: seq<T>, key: T -> K, k: K)
    ensures |WithKey(xs, key, k)| == 0 <==> forall x :: x in xs ==> key(x) != k
  {
    var ys := WithKey(xs, key, k);
    WithKeyMeasures(xs, key, k, One);
    if |ys| > 0 {
      assert ys[0] in ys;
    }
    if x :| x in xs && key(x) == k {
      var i :| 0 <= i < |xs| && xs[i] == x;
      assert Map(xs, key)[i] == k;
      PresentKey(xs, key, k);
    }
  }

  /** Every record has key `k` exactly when none is left by the others. */
  lemma OtherKeysEmpty<T, K(!new)>(xs: seq<T>, key: T -> K, k: K)
    ensures |Filter(xs, KeyIsNot(key, k))| == 0 <==> forall x :: x in xs ==> key(x) == k
  {
    var ys := Filter(xs, KeyIsNot(key, k));
    if |ys| > 0 {
      assert ys[0] in ys;
    }
    if x :| x in xs && key(x) != k {
      assert KeyIsNot(key, k)(x);
    }
  }

  /** The records of the other keys are the rest of the list: their count
      and sum are the whole list's less those of key `k`. */
  lemma {:induction false} OtherKeys<T, K(!new)>(xs: seq<T>, key: T -> K, k: K, f: T -> real)
    ensures var rest := Filter(xs, KeyIsNot(key, k));
            |rest| == |xs| - CountKey(xs, key, k)
            && Sum(rest, f) == Sum(xs, f) - SumKey(xs, key, k, f)
    decreases |xs|
  {
    if |xs| > 0 {
      var init, x := xs[..|xs| - 1], xs[|xs| - 1];
      OtherKeys(init, key, k, f);
      if key(x) != k {
        var rest := Filter(init, KeyIsNot(key, k));
        assert (rest + [x])[..|rest|] == rest;
      }
    }
  }

  /** Adding one key's group to a list of groups adds that key's sum and
      count. */
  lemma GroupsOfSnoc<T, K(!new)>(xs: seq<T>, key: T -> K, f: T -> real, ks: seq<K>, k: K)
    ensures Sum(GroupsOf(xs, key, f, ks + [k]), GroupTotal) == Sum(GroupsOf(xs, key, f, ks), GroupTotal) + SumKey(xs, key, k, f)
    ensures Sum(GroupsOf(xs, key, f, ks + [k]), GroupCount) == Sum(GroupsOf(xs, key, f, ks), GroupCount) + CountKey(xs, key, k) as real
  {
    assert (ks + [k])[..|ks|] == ks;
    var gs := GroupsOf(xs, key, f, ks + [k]);
    assert gs[..|gs| - 1] == GroupsOf(xs, key, f, ks);
  }

  /** A key's list holds as many values as the key has records, and they sum
      to the key's sum. */
  lemma BucketMeasures<T, K(!new)>(xs: seq<T>, key: T -> K, f: T -> real, order: seq<K>, lists: map<K, seq<real>>, k: K)
    requires Bucketed(xs, key, f, order, lists) && k in lists
    ensures |lists[k]| == CountKey(xs, key, k) == |WithKey(xs, key, k)|
    ensures Sum(lists[k], Real) == SumKey(xs, key, k, f) == Sum(WithKey(xs, key, k), f)
  {
    WithKeyMeasures(xs, key, k, f);
    SumMap(WithKey(xs, key, k), f);
  }
}

=== FILE: ai_insight.dfy ===
/** The expense insight panel (app/expenses/_components/ExpenseAiInsight.tsx):
    on opening it asks the analysis endpoint for insights and shows them as
    a list; below, a conversation in which each question the user submits is
    followed by the endpoint's answer. The component's state hooks are the
    fields of `InsightPanel`; the HTTP replies are parameters. */
module AiInsight {
  import opened Wrappers
  import opened Text
  import opened Agg
  import opened FallbackAdvice
  import opened LlmAnalyze

  /** The question the panel sends when it opens (one string, written in
      pieces). */
  const InitialQuestion: string :=
    "What are the key insights " + "about this expense? " + "How does it compare " + "to my typical spending?"

  /** The `answer` field of the analysis response, as `fetchInsights` tells
      the cases apart. */
  datatype InsightsReply =
    | StringAnswer(text: string)
    | ListAnswer(items: seq<string>)
    | OtherAnswer
    | RequestFailed

  const ParagraphBreak: string := "\n\n"
  const AnalysisComplete: string := "Analysis complete. Ask questions about this expense below."
  const TroubleAnalyzing: string := "I'm currently having trouble analyzing this expense."
  const AskAnyway: string := "You can still ask questions about it below or try again later."
  const CouldNotProcess: string := "I'm sorry, I couldn't process your question. Please try again."

  predicate HasText(s: string) {
    !IsBlank(s)
  }

  /** The list `fetchInsights` shows for a reply: a text with blank lines
      becomes its non-blank paragraphs, any other text a single item. */
  function InsightsFrom(reply: InsightsReply): seq<string> {
    match reply
    case StringAnswer(text) =>
      if Contains(text, ParagraphBreak) then Filter(Split(text, ParagraphBreak), HasText) else [text]
    case ListAnswer(items) => items
    case OtherAnswer => [AnalysisComplete]
    case RequestFailed => [TroubleAnalyzing, AskAnyway]
  }

  /** The reply to a submitted question: the answer text, or a failure. */
  datatype QuestionReply = Replied(answer: string) | QuestionFailed

  datatype Role = User | Assistant

  /** A conversation turn; the role is the string "user" or "assistant" in
      the source. */
  datatype Turn = Turn(role: Role, content: string)

  function ReplyText(reply: QuestionReply): string {
    if reply.Replied? then reply.answer else CouldNotProcess
  }

  /** The conversation after submitting `question`: unchanged for a blank
      question, otherwise extended by the trimmed question and the reply. */
  function Ask(conversation: seq<Turn>, question: string, reply: QuestionReply): seq<Turn> {
    if IsBlank(question) then conversation
    else conversation + [Turn(User, Trim(question)), Turn(Assistant, ReplyText(reply))]
  }

  /** Questions and answers alternate, starting with a question, and no
      question is empty. */
  predicate Alternating(conversation: seq<Turn>) {
    |conversation| % 2 == 0
    && forall i :: 0 <= i < |conversation| ==>
         if i % 2 == 0 then conversation[i].role == User && conversation[i].content != ""
         else conversation[i].role == Assistant
  }

  /** Submitting a question keeps the conversation alternating, and the last
      two turns are the trimmed question and its answer. */
  lemma AskAlternates(conversation: seq<Turn>, question: string, reply: QuestionReply)
    requires Alternating(conversation)
    ensures var c := Ask(conversation, question, reply);
            Alternating(c)
            && (IsBlank(question) <==> c == conversation)
            && (!IsBlank(question) ==> |c| == |conversation| + 2 && c[..|conversation|] == conversation
                                       && c[|c| - 2].content == Trim(question)
                                       && c[|c| - 1].content == ReplyText(reply))
  {
    var c := Ask(conversation, question, reply);
    if !IsBlank(question) {
      assert c[..|conversation|] == conversation;
    }
  }

  class InsightPanel {
    var insights: seq<string>
    var isLoading: bool
    var userQuestion: string
    var conversation: seq<Turn>
    var isAskingQuestion: bool

    predicate Valid()
      reads this
    {
      Alternating(conversation)
    }

    constructor ()
      ensures Valid()
      ensures insights == [] && isLoading && userQuestion == "" && conversation == [] && !isAskingQuestion
    {
      insights := [];
      isLoading := true;
      userQuestion := "";
      conversation := [];
      isAskingQuestion := false;
    }

    /** Typing into the question box. */
    method Type(text: string)
      modifies this
      requires Valid()
      ensures Valid()
      ensures userQuestion == text
      ensures insights == old(insights) && isLoading == old(isLoading)
      ensures conversation == old(conversation) && isAskingQuestion == old(isAskingQuestion)
    {
      userQuestion := text;
    }

    /** `fetchInsights`, given the reply to the opening question. */
    method FetchInsights(reply: InsightsReply)
      modifies this
      requires Valid()
      ensures Valid()
      ensures insights == InsightsFrom(reply) && !isLoading
      ensures userQuestion == old(userQuestion) && conversation == old(conversation)
      ensures isAskingQuestion == old(isAskingQuestion)
    {
      isLoading := true;
      match reply {
        case StringAnswer(text) =>
          if Contains(text, ParagraphBreak) {
            insights := Filter(Split(text, ParagraphBreak), HasText);
          } else {
            insights := [text];
          }
        case ListAnswer(items) =>
          insights := items;
        case OtherAnswer =>
          insights := [AnalysisComplete];
        case RequestFailed =>
          insights := [TroubleAnalyzing, AskAnyway];
      }
      isLoading := false;
    }

    /** `handleSubmitQuestion`, given the reply to the question. Returns the
        history sent with the question: the conversation as it was before
        the question was added, since the request reads the state captured
        when the handler started. */
    method SubmitQuestion(reply: QuestionReply) returns (sent: Option<seq<Turn>>)
      modifies this
      requires Valid()
      ensures Valid()
      ensures conversation == Ask(old(conversation), old(userQuestion), reply)
      ensures IsBlank(old(userQuestion)) ==> sent == None && userQuestion == old(userQuestion)
      ensures !IsBlank(old(userQuestion)) ==> sent == Some(old(conversation)) && userQuestion == ""
      ensures IsBlank(old(userQuestion)) ==> isAskingQuestion == old(isAskingQuestion)
      ensures !IsBlank(old(userQuestion)) ==> !isAskingQuestion
      ensures insights == old(insights) && isLoading == old(isLoading)
    {
      if IsBlank(userQuestion) {
        return None;
      }
      AskAlternates(conversation, userQuestion, reply);
      var question := Trim(userQuestion);
      userQuestion := "";
      isAskingQuestion := true;
      var history := conversation;
      conversation := conversation + [Turn(User, question)];
      sent := Some(history);
      var content := if reply.Replied? then reply.answer else CouldNotProcess;
      conversation := conversation + [Turn(Assistant, content)];
      isAskingQuestion := false;
    }
  }

  // ---------------------------------------------------------------------
  // From the endpoint's answer to the panel

  /** The opening question is recognised by the endpoint as a request for
      insights, so when the model is unavailable the panel receives the
      fallback insight list. */
  lemma InitialQuestionAsksForInsights()
    ensures IsInsightsRequest(InitialQuestion)
  {
    var q := ToLower(InitialQuestion);
    forall i | 13 <= i < 25
      ensures q[i] == InitialQuestion[i]
    {
    }
    assert InitialQuestion[13..25] == "key insights";
    assert q[13..25] == "key insights";
    ContainsAt(q, "key insights", 13);
  }

  /** The text the endpoint sends for a list of insights. */
  function InsightsText(items: seq<string>): string {
    Join(items, ParagraphBreak)
  }

  /** Items without line breaks and with some text survive being joined by
      the endpoint and split again by the panel. */
  lemma {:induction false} PanelShowsEachInsight(items: seq<string>)
    requires |items| >= 1
    requires forall k :: 0 <= k < |items| ==> '\n' !in items[k] && HasText(items[k])
    ensures InsightsFrom(StringAnswer(InsightsText(items))) == items
  {
    var text := InsightsText(items);
    if |items| == 1 {
      assert text == items[0];
      if Contains(text, ParagraphBreak) {
        ContainsChar(text, ParagraphBreak);
        assert false;
      }
    } else {
      JoinContainsSeparator(items, ParagraphBreak);
      SplitJoin(items, ParagraphBreak);
      FilterAll(items, HasText);
    }
  }

  /** When the model is unavailable, the panel opens on exactly the
      fallback insights, one item per sentence, the closing sentence last,
      for any rendering of the sentences as single non-blank lines. */
  lemma FallbackReachesPanel(mine: seq<Expenses.Expense>, e: Expenses.Expense, rel: RelevantData, render: Insight -> string)
    requires Expenses.AllPositive(mine)
    requires StatsWellFormed(Some(CategoryStats(rel.categoryAverage, rel.categoryExpenseCount)))
    requires forall i :: '\n' !in render(i) && HasText(render(i))
    ensures var body := FallbackBody(InitialQuestion, mine, e, rel);
            body.FallbackInsightList?
            && var shown := InsightsFrom(StringAnswer(InsightsText(Map(body.insights, render))));
               shown == Map(body.insights, render)
               && 2 <= |shown| <= 3 && shown[|shown| - 1] == render(KeepTracking)
  {
    InitialQuestionAsksForInsights();
    FallbackRouting(InitialQuestion, mine, e, rel);
    var body := FallbackBody(InitialQuestion, mine, e, rel);
    PanelShowsEachInsight(Map(body.insights, render));
  }
}

=== FILE: ai_recommendations.dfy ===
/** The recommendation panel (app/insights/_components/AiRecommendations.tsx):
    tabs that select recommendations by keywords, and an icon and a
    background colour for each recommendation, both chosen by the same
    keyword priority. */
module AiRecommendations {
  import opened Text
  import opened Agg

  datatype Tab = SavingsTab | TrendsTab | BudgetTab | AllTab

  const SavingsWords: seq<string> := ["saving", "reduc", "cut", "emergency fund"]
  const TrendWords: seq<string> := ["increas", "decreas", "pattern", "spend"]
  const BudgetWords: seq<string> := ["budget", "allocat", "percent", "recommend"]

  /** The keywords of a category tab. */
  function TabWords(tab: Tab): seq<string>
    requires tab != AllTab
  {
    match tab
    case SavingsTab => SavingsWords
    case TrendsTab => TrendWords
    case BudgetTab => BudgetWords
  }

  /** A recommendation belongs to a category tab when its lowercased text
      contains one of the tab's keywords. */
  function InTab(tab: Tab): string -> bool
    requires tab != AllTab
  {
    (rec: string) => Mentions(ToLower(rec), TabWords(tab))
  }

  /** `getFilteredRecommendations` */
  function FilteredRecommendations(tab: Tab, recommendations: seq<string>): seq<string> {
    if tab == AllTab then recommendations else Filter(recommendations, InTab(tab))
  }

  /** The "all" tab shows the recommendations unchanged; a category tab
      shows, in their order, exactly those whose lowercased text contains
      one of its keywords. */
  lemma FilteredMeaning(tab: Tab, recommendations: seq<string>)
    ensures tab == AllTab ==> FilteredRecommendations(tab, recommendations) == recommendations
    ensures tab != AllTab ==>
              var shown := FilteredRecommendations(tab, recommendations);
              IsSublist(shown, recommendations)
              && forall rec :: rec in shown <==> rec in recommendations && Mentions(ToLower(rec), TabWords(tab))
  {
    if tab != AllTab {
      FilterIsSublist(recommendations, InTab(tab));
      forall rec | rec in recommendations && Mentions(ToLower(rec), TabWords(tab))
        ensures rec in FilteredRecommendations(tab, recommendations)
      {
        assert InTab(tab)(rec);
      }
    }
  }

  // ---------------------------------------------------------------------
  // Icon and colour

  const ThumbsUp: string := "\U{1F44D}"
  const ChartUp: string := "\U{1F4C8}"
  const ChartDown: string := "\U{1F4C9}"
  const MoneyBag: string := "\U{1F4B0}"
  const Bank: string := "\U{1F3E6}"
  const Siren: string := "\U{1F6A8}"
  const LightBulb: string := "\U{1F4A1}"

  predicate IsPraise(lower: string) {
    Contains(lower, "great job") || Contains(lower, "good job") || Contains(lower, "reduced")
  }

  predicate IsIncrease(lower: string) {
    Contains(lower, "increase") || Contains(lower, "increased")
  }

  predicate IsDecrease(lower: string) {
    Contains(lower, "decrease") || Contains(lower, "decreased")
  }

  predicate IsSaving(lower: string) {
    Contains(lower, "saving") || Contains(lower, "save")
  }

  /** `getRecommendationIcon` */
  function Icon(recommendation: string): string {
    var lower := ToLower(recommendation);
    if IsPraise(lower) then ThumbsUp
    else if IsIncrease(lower) then ChartUp
    else if IsDecrease(lower) then ChartDown
    else if Contains(lower, "budget") then MoneyBag
    else if IsSaving(lower) then Bank
    else if Contains(lower, "emergency") then Siren
    else LightBulb
  }

  /** `getBackgroundColorClass` */
  function BackgroundColor(recommendation: string): string {
    var lower := ToLower(recommendation);
    if IsPraise(lower) then "bg-green-50"
    else if IsIncrease(lower) then "bg-yellow-50"
    else if IsDecrease(lower) then "bg-blue-50"
    else if Contains(lower, "budget") then "bg-purple-50"
    else if IsSaving(lower) then "bg-teal-50"
    else if Contains(lower, "emergency") then "bg-red-50"
    else "bg-gray-50"
  }

  /** The colour that goes with each icon. */
  function ColorOfIcon(icon: string): string {
    if icon == ThumbsUp then "bg-green-50"
    else if icon == ChartUp then "bg-yellow-50"
    else if icon == ChartDown then "bg-blue-50"
    else if icon == MoneyBag then "bg-purple-50"
    else if icon == Bank then "bg-teal-50"
    else if icon == Siren then "bg-red-50"
    else "bg-gray-50"
  }

  /** Icon and colour always correspond: the two keyword chains make the
      same choice. */
  lemma IconMatchesColor(recommendation: string)
    ensures BackgroundColor(recommendation) == ColorOfIcon(Icon(recommendation))
  {
    assert ThumbsUp != ChartUp && ThumbsUp != ChartDown && ThumbsUp != MoneyBag && ThumbsUp != Bank && ThumbsUp != Siren;
    assert ChartUp != ChartDown && ChartUp != MoneyBag && ChartUp != Bank && ChartUp != Siren;
    assert ChartDown != MoneyBag && ChartDown != Bank && ChartDown != Siren;
    assert MoneyBag != Bank && MoneyBag != Siren && Bank != Siren;
  }

  /** A recommendation without any of the keywords gets the light bulb on
      grey; a praised reduction wins over every later keyword. */
  lemma IconPriority(recommendation: string)
    ensures var lower := ToLower(recommendation);
            (!IsPraise(lower) && !IsIncrease(lower) && !IsDecrease(lower) && !Contains(lower, "budget")
             && !IsSaving(lower) && !Contains(lower, "emergency"))
            <==> Icon(recommendation) == LightBulb && BackgroundColor(recommendation) == "bg-gray-50"
    ensures IsPraise(ToLower(recommendation)) <==> Icon(recommendation) == ThumbsUp
  {
    IconMatchesColor(recommendation);
    assert LightBulb != ThumbsUp && LightBulb != ChartUp && LightBulb != ChartDown;
    assert LightBulb != MoneyBag && LightBulb != Bank && LightBulb != Siren;
    assert ThumbsUp != ChartUp && ThumbsUp != ChartDown && ThumbsUp != MoneyBag && ThumbsUp != Bank && ThumbsUp != Siren;
  }
}

=== FILE: ask.dfy ===
/** `POST /api/advice/ask` (pages/api/advice/ask.ts): answers a free-text
    question about one expense without a language model. The lower-cased
    question is matched against keyword groups in a fixed order (comparison,
    month, pattern, weekday, saving), and the first group that matches picks
    the queries run over the user's expenses and the answer built from
    them. Answers are the templates' data; the wording is left to the
    rendering. */
module Ask {
  import opened Wrappers
  import opened Text
  import opened Agg
  import opened Sorting
  import opened Calendar
  import opened Expenses
  import opened Numbers
  import opened Store

  // ---------------------------------------------------------------------
  // Keyword groups, in the order the handler tries them

  const CompareWords: seq<string> := ["compare", "other expenses", "typical", "average", "normal"]
  const MonthWords: seq<string> := ["month", "budget"]
  const PatternWords: seq<string> := ["pattern", "frequent", "often", "regular"]
  const DayWords: seq<string> := ["day", "weekday", "weekend"]
  const SaveWords: seq<string> := ["save", "reduce", "cheaper", "less"]
  const AlternativeWords: seq<string> := ["similar", "alternative", "instead", "other place"]
  const WhenWords: seq<string> := ["day", "time", "when"]
  const ImpactWords: seq<string> := ["budget impact", "affect my budget"]

  // ---------------------------------------------------------------------
  // Answers

  /** An amount against an average: the band and the rounded percentage
      difference shown for it. */
  datatype Comparison = Comparison(amount: real, average: real, band: Band, percent: nat)

  /** The monthly summary sentence: total and category total of the
      expense's month. */
  datatype MonthInfo = MonthInfo(date: Date, total: real, categoryTotal: real, category: string)

  /** How often the place is visited, by the rounded mean gap in days. */
  datatype Frequency = EveryFewDays | AboutMonthly | Occasionally

  /** The weekday with the most visits when it has more than 40% of them. */
  datatype DayHabit = UsualDay(day: int, visits: real, outOf: nat) | NoUsualDay

  /** Amounts within 20% of the mean of each other, or their range. */
  datatype AmountHabit = Steady(average: real) | Varies(low: real, high: real)

  /** A cheaper place in the same category, keyed by its description's
      first word. */
  datatype Alternative = Alternative(description: string, averageAmount: real, visits: nat)

  datatype AskAnswer =
    // comparison
    | FirstInCategory(category: string)
    | CategoryComparison(category: string, c: Comparison, others: nat)
    | FirstAtPlace(description: string)
    | PlaceComparison(description: string, c: Comparison, visits: nat)
    | GeneralComparison(category: string, amount: real, description: string, date: Date)
    // month
    | BudgetShare(percent: int, info: MonthInfo)
    | CategoryShare(percent: int, info: MonthInfo)
    | MonthSummary(info: MonthInfo)
    // pattern
    | NoPatternYet(description: string)
    | VisitPattern(description: string, frequency: Frequency, averageGap: int, habit: DayHabit, amounts: AmountHabit)
    // weekday
    | FirstVisitRecorded(description: string, weekday: int, weekend: bool)
    | FirstOnThisDay(description: string, weekday: int, visits: nat)
    | AllOnThisDay(description: string, weekday: int)
    | DayComparison(description: string, weekday: int, c: Comparison)
    // saving
    | NoCheaperAlternatives(category: string, description: string)
    | CheaperAlternatives(alternatives: seq<Alternative>, saving: real)
    | TooFewForDays(description: string)
    | NoCheaperDay(description: string)
    | AlreadyCheapestDay(description: string, cheapestDay: int, cheapestAverage: real)
    | SwitchDay(description: string, cheapestDay: int, cheapestAverage: real, currentDay: int, saving: real)
    | SavingTips(category: string, description: string)
    // anything else
    | Overview(category: string, amount: real, description: string, date: Date)

  /** The band of `amount` against a positive `average`, and the rounded
      size of the difference in percent. */
  function CompareTo(amount: real, average: real): (c: Comparison)
    requires average > 0.0
    ensures c.amount == amount && c.average == average
    ensures c.band == Close <==> average * 0.9 < amount < average * 1.1
    ensures c.band == Higher <==> amount >= average * 1.1
    ensures c.band == Lower <==> amount <= average * 0.9
    ensures c.band != Close ==> c.percent >= 10
    ensures c.band == Higher ==> c.percent == Round(PercentDiff(amount, average))
  {
    var d := PercentDiff(amount, average);
    BandOfPercentDiff(amount, average);
    Comparison(amount, average, BandOf(d), AbsInt(Round(d)))
  }

  // ---------------------------------------------------------------------
  // 1. Comparison

  /** Other expenses of the category, newest first, at most 100. */
  function CategoryPeers(mine: seq<Expense>, e: Expense): seq<Expense> {
    Take(NewestFirst(SameCategoryOthers(mine, e)), 100)
  }

  /** Other expenses whose description contains this one's first word,
      newest first, at most 20. */
  function PlacePeers(mine: seq<Expense>, e: Expense): seq<Expense> {
    Take(NewestFirst(SimilarOthers(mine, e)), 20)
  }

  function ComparisonAnswer(q: string, e: Expense, mine: seq<Expense>): AskAnswer
    requires AllPositive(mine)
  {
    if Contains(q, "category") || Contains(q, ToLower(e.category)) then
      var peers := CategoryPeers(mine, e);
      NewestPositive(mine, SameCategoryOthers(mine, e), 100);
      MeanPositive(peers, Amount);
      if |peers| == 0 then FirstInCategory(e.category)
      else CategoryComparison(e.category, CompareTo(e.amount, Mean(peers, Amount)), |peers|)
    else if Contains(q, ToLower(e.description)) || Contains(q, "this place") then
      var peers := PlacePeers(mine, e);
      NewestPositive(mine, SimilarOthers(mine, e), 20);
      MeanPositive(peers, Amount);
      if |peers| == 0 then FirstAtPlace(e.description)
      else PlaceComparison(e.description, CompareTo(e.amount, Mean(peers, Amount)), |peers|)
    else GeneralComparison(e.category, e.amount, e.description, e.date)
  }

  /** There is no other expense of the category exactly when every
      expense of the category is this one. */
  lemma NoCategoryOthers(mine: seq<Expense>, e: Expense)
    ensures |SameCategoryOthers(mine, e)| == 0 <==> forall x :: x in mine && x.category == e.category ==> x.id == e.id
  {
    var others := SameCategoryOthers(mine, e);
    if |others| > 0 {
      assert others[0] in others;
    }
    if x :| x in mine && x.category == e.category && x.id != e.id {
      assert SameCategoryOther(e)(x);
    }
  }

  /** There is no other expense mentioning the first word exactly when
      every expense mentioning it is this one. */
  lemma NoSimilarOthers(mine: seq<Expense>, e: Expense)
    ensures |SimilarOthers(mine, e)| == 0 <==> forall x :: x in mine && MentionsFirstWord(x, e) ==> x.id == e.id
  {
    var others := SimilarOthers(mine, e);
    if |others| > 0 {
      assert others[0] in others;
    }
    if x :| x in mine && MentionsFirstWord(x, e) && x.id != e.id {
      assert SimilarOther(e)(x);
    }
  }

  /** The category peers are the newest (at most 100) other expenses of the
      category. */
  lemma CategoryPeersMeaning(mine: seq<Expense>, e: Expense)
    ensures var peers := CategoryPeers(mine, e);
            var others := SameCategoryOthers(mine, e);
            |peers| == (if |others| <= 100 then |others| else 100)
            && forall x :: x in peers ==> x in mine && x.category == e.category && x.id != e.id
  {
    NewestTake(SameCategoryOthers(mine, e), 100);
  }

  /** A category comparison is made against the mean of the newest (at most
      100) other expenses of the category, and says it is the first of its
      category exactly when there are none; the same holds for a place
      comparison with at most 20 expenses mentioning the first word. */
  lemma ComparisonMeaning(q: string, e: Expense, mine: seq<Expense>)
    requires AllPositive(mine)
    ensures var a := ComparisonAnswer(q, e, mine);
            var category := Contains(q, "category") || Contains(q, ToLower(e.category));
            (a.FirstInCategory? <==> category && forall x :: x in mine && x.category == e.category ==> x.id == e.id)
            && (a.CategoryComparison? ==>
                  var peers := CategoryPeers(mine, e);
                  1 <= a.others == |peers| <= 100
                  && a.others == (if |SameCategoryOthers(mine, e)| <= 100 then |SameCategoryOthers(mine, e)| else 100)
                  && a.c.average == Mean(peers, Amount)
                  && forall x :: x in peers ==> x in mine && x.category == e.category && x.id != e.id)
            && (a.FirstAtPlace? <==> !category && (Contains(q, ToLower(e.description)) || Contains(q, "this place"))
                                     && forall x :: x in mine && MentionsFirstWord(x, e) ==> x.id == e.id)
            && (a.PlaceComparison? ==> 1 <= a.visits <= 20 && a.c.average == Mean(PlacePeers(mine, e), Amount))
  {
    CategoryPeersMeaning(mine, e);
    NoCategoryOthers(mine, e);
    NewestTake(SimilarOthers(mine, e), 20);
    NoSimilarOthers(mine, e);
  }

  // ---------------------------------------------------------------------
  // 2. Month

  function MonthInfoOf(e: Expense, mine: seq<Expense>): MonthInfo {
    var month := InMonthOf(mine, e.date);
    MonthInfo(e.date, TotalAmount(month), TotalAmount(Filter(month, CategoryIs(e.category))), e.category)
  }

  function MonthlyAnswer(q: string, e: Expense, mine: seq<Expense>): AskAnswer
    requires AllPositive(mine) && e in mine
  {
    var info := MonthInfoOf(e, mine);
    MonthSums(mine, e);
    if Mentions(q, ImpactWords) then BudgetShare(Round(e.amount / info.total * 100.0), info)
    else if Contains(q, "category") && Contains(q, "month") then CategoryShare(Round(e.amount / info.categoryTotal * 100.0), info)
    else MonthSummary(info)
  }

  /** The expense is part of its own month, so both shares are whole
      percentages between 0 and 100, within half a percent of the exact
      share. */
  lemma MonthlyShares(q: string, e: Expense, mine: seq<Expense>)
    requires AllPositive(mine) && e in mine
    ensures var a := MonthlyAnswer(q, e, mine);
            var info := MonthInfoOf(e, mine);
            0.0 < e.amount <= info.categoryTotal <= info.total
            && (a.BudgetShare? ==> 0 <= a.percent <= 100
                                   && e.amount / info.total * 100.0 - 0.5 < a.percent as real <= e.amount / info.total * 100.0 + 0.5)
            && (a.CategoryShare? ==> 0 <= a.percent <= 100
                                     && e.amount / info.categoryTotal * 100.0 - 0.5 < a.percent as real <= e.amount / info.categoryTotal * 100.0 + 0.5)
  {
    var k :| 0 <= k < |mine| && mine[k] == e;
    MonthSums(mine, e);
    var info := MonthInfoOf(e, mine);
    ShareBounds(e.amount, info.total);
    ShareBounds(e.amount, info.categoryTotal);
  }

  // ---------------------------------------------------------------------
  // 3. Pattern

  /** Expenses whose description contains this one's first word, this one
      included, newest first, at most 20. */
  function RecentVisits(mine: seq<Expense>, e: Expense): seq<Expense> {
    Take(NewestFirst(SimilarAll(mine, e)), 20)
  }

  function FrequencyOf(averageGap: int): Frequency {
    if averageGap < 14 then EveryFewDays else if averageGap < 35 then AboutMonthly else Occasionally
  }

  /** The weekday count that sorts first in a stable descending sort of the
      per-weekday counts (weekdays in order of first appearance). */
  function TopDay(dates: seq<Expense>): Entry<int>
    requires |dates| > 0
  {
    assert Map(dates, WeekdayOf)[0] == WeekdayOf(dates[0]);
    SortDesc(Totals(dates, WeekdayOf, One), EntryValue)[0]
  }

  function HabitOf(dates: seq<Expense>): DayHabit
    requires |dates| > 0
  {
    var top := TopDay(dates);
    if top.value > |dates| as real * 0.4 then UsualDay(top.key, top.value, |dates|) else NoUsualDay
  }

  function AmountsOf(visits: seq<Expense>): AmountHabit
    requires |visits| > 0
  {
    var low, high := MinOf(visits, Amount), MaxOf(visits, Amount);
    if high - low < Mean(visits, Amount) * 0.2 then Steady(Mean(visits, Amount)) else Varies(low, high)
  }

  /** The visits in date order span `last - first` days, so the mean gap
      between consecutive visits is that span over the number of gaps. */
  function PatternAnswer(e: Expense, mine: seq<Expense>): AskAnswer {
    var visits := RecentVisits(mine, e);
    if |visits| <= 1 then NoPatternYet(e.description) else VisitPatternOf(e.description, visits)
  }

  /** The pattern of two or more visits. */
  function VisitPatternOf(description: string, visits: seq<Expense>): AskAnswer
    requires |visits| >= 2
  {
    var dates := OldestFirst(visits);
    var n := |dates|;
    var gap := Round((DayOf(dates[n - 1]) - DayOf(dates[0])) / (n - 1) as real);
    VisitPattern(description, FrequencyOf(gap), gap, HabitOf(dates), AmountsOf(visits))
  }

  /** The loop that adds up the gaps between consecutive visits: they
      telescope to the span from the first to the last. */
  method SumGaps(dates: seq<Expense>) returns (totalDays: real)
    requires |dates| > 0
    ensures totalDays == DayOf(dates[|dates| - 1]) - DayOf(dates[0])
  {
    totalDays := 0.0;
    for i := 1 to |dates|
      invariant totalDays == DayOf(dates[i - 1]) - DayOf(dates[0])
    {
      totalDays := totalDays + (DayOf(dates[i]) - DayOf(dates[i - 1]));
    }
  }

  /** The mean gap in days between consecutive visits, rounded. */
  method AverageGap(dates: seq<Expense>) returns (gap: int)
    requires |dates| >= 2
    ensures gap == Round((DayOf(dates[|dates| - 1]) - DayOf(dates[0])) / (|dates| - 1) as real)
  {
    var totalDays := SumGaps(dates);
    gap := Round(totalDays / (|dates| - 1) as real);
  }

  /** The `forEach` that counts visits per weekday into an object. */
  method CountWeekdays(dates: seq<Expense>) returns (order: seq<int>, counts: map<int, real>)
    ensures Tallied(dates, WeekdayOf, One, order, counts)
  {
    order, counts := [], map[];
    for i := 0 to |dates|
      invariant Tallied(dates[..i], WeekdayOf, One, order, counts)
    {
      TalliedNext(dates, i, WeekdayOf, One, order, counts);
      var day := WeekdayOf(dates[i]);
      counts := counts[day := (if day in counts then counts[day] else 0.0) + 1.0];
      order := Note(order, day);
    }
    assert dates[..|dates|] == dates;
  }

  /** The weekday part of the pattern branch: visits are counted per
      weekday, and the counts sorted in descending order. */
  method WeekdayHabit(dates: seq<Expense>) returns (habit: DayHabit)
    requires |dates| > 0
    ensures habit == HabitOf(dates)
  {
    var order, counts := CountWeekdays(dates);
    TalliedEntries(dates, WeekdayOf, One, order, counts);
    assert Map(dates, WeekdayOf)[0] == WeekdayOf(dates[0]);
    var top := SortDesc(Entries(order, counts), EntryValue)[0];
    habit := if top.value > |dates| as real * 0.4 then UsualDay(top.key, top.value, |dates|) else NoUsualDay;
  }

  /** The pattern branch: the gaps between consecutive visits are summed
      one by one, and the visits are counted per weekday. */
  method PatternAnalysis(e: Expense, mine: seq<Expense>) returns (a: AskAnswer)
    ensures a == PatternAnswer(e, mine)
  {
    var visits := RecentVisits(mine, e);
    if |visits| <= 1 {
      a := NoPatternYet(e.description);
    } else {
      a := DescribeVisits(e.description, visits);
    }
  }

  /** The gap and weekday loops over two or more visits. */
  method DescribeVisits(description: string, visits: seq<Expense>) returns (a: AskAnswer)
    requires |visits| >= 2
    ensures a == VisitPatternOf(description, visits)
  {
    var dates := OldestFirst(visits);
    var gap := AverageGap(dates);
    var habit := WeekdayHabit(dates);
    a := VisitPattern(description, FrequencyOf(gap), gap, habit, AmountsOf(visits));
  }

  /** The top weekday has as many visits as any weekday, and no weekday
      other than a usual one has more than 40% of them. */
  lemma TopDayIsMostFrequent(dates: seq<Expense>)
    requires |dates| > 0
    ensures var top := TopDay(dates);
            top.value == CountKey(dates, WeekdayOf, top.key) as real
            && forall d :: CountKey(dates, WeekdayOf, d) as real <= top.value
  {
    var es := Totals(dates, WeekdayOf, One);
    var ks := FirstSeen(dates, WeekdayOf);
    assert Map(dates, WeekdayOf)[0] == WeekdayOf(dates[0]);
    SortDescHead(es, EntryValue);
    var top := TopDay(dates);
    var i :| 0 <= i < |es| && es[i] == top && forall j :: 0 <= j < |es| ==> EntryValue(es[j]) <= EntryValue(es[i]);
    CountKeyAsSum(dates, WeekdayOf, top.key);
    forall d
      ensures CountKey(dates, WeekdayOf, d) as real <= top.value
    {
      CountKeyAsSum(dates, WeekdayOf, d);
      if d in Map(dates, WeekdayOf) {
        var j :| 0 <= j < |ks| && ks[j] == d;
        assert EntryValue(es[j]) == SumKey(dates, WeekdayOf, d, One);
      } else {
        AbsentKey(dates, WeekdayOf, d, One);
        SumNonNegative(dates, One);
        assert es[i].value == SumKey(dates, WeekdayOf, es[i].key, One);
      }
    }
  }

  /** A usual weekday has the most visits and more than 40% of them;
      without one, no weekday has more than 40%. */
  lemma HabitMeaning(dates: seq<Expense>)
    requires |dates| > 0
    ensures var habit := HabitOf(dates);
            (habit.UsualDay? ==>
               habit.visits == CountKey(dates, WeekdayOf, habit.day) as real
               && habit.visits > 0.4 * |dates| as real
               && forall d :: CountKey(dates, WeekdayOf, d) as real <= habit.visits)
            && (habit.NoUsualDay? ==> forall d :: CountKey(dates, WeekdayOf, d) as real <= 0.4 * |dates| as real)
  {
    TopDayIsMostFrequent(dates);
  }

  /** Steady amounts are each within 20% of their mean; varying ones lie in
      the reported range. */
  lemma AmountsMeaning(visits: seq<Expense>)
    requires |visits| > 0
    ensures var amounts := AmountsOf(visits);
            (amounts.Steady? ==> forall x :: x in visits ==> Abs(x.amount - amounts.average) < 0.2 * amounts.average)
            && (amounts.Varies? ==> forall x :: x in visits ==> amounts.low <= x.amount <= amounts.high)
  {
    var low, high := MinOf(visits, Amount), MaxOf(visits, Amount);
    MeanBounds(visits, Amount, low, high);
    forall x | x in visits
      ensures low <= x.amount <= high
    {
      var k :| 0 <= k < |visits| && visits[k] == x;
    }
  }

  /** What a visit pattern says: visits are counted on at least two dates,
      the mean gap is not negative, and the weekday habit and the amounts
      are as `HabitMeaning` and `AmountsMeaning` state. */
  lemma PatternMeaning(e: Expense, mine: seq<Expense>)
    ensures var a := PatternAnswer(e, mine);
            var visits := RecentVisits(mine, e);
            (a.NoPatternYet? <==> |visits| <= 1)
            && (a.VisitPattern? ==>
                  2 <= |visits| <= 20
                  && a.averageGap >= 0
                  && a.habit == HabitOf(OldestFirst(visits))
                  && a.amounts == AmountsOf(visits))
  {
    var visits := RecentVisits(mine, e);
    if |visits| > 1 {
      GapNonNegative(visits);
    }
  }

  /** Sorted oldest first, the visits span a number of days that is not
      negative. */
  lemma GapNonNegative(visits: seq<Expense>)
    requires |visits| > 1
    ensures var dates := OldestFirst(visits);
            |dates| == |visits|
            && Round((DayOf(dates[|dates| - 1]) - DayOf(dates[0])) / (|dates| - 1) as real) >= 0
  {
    var dates := OldestFirst(visits);
    OldestFirstCorrect(visits);
    assert |dates| == |multiset(dates)| == |visits|;
    var span := DayOf(dates[|dates| - 1]) - DayOf(dates[0]);
    assert span >= 0.0;
    assert span / (|dates| - 1) as real >= 0.0;
  }

  // ---------------------------------------------------------------------
  // 4. Weekday

  /** The answer for the other visits' count and the two means (the means
      of empty lists being 0). */
  function DayVerdict(e: Expense, visits: nat, thisAverage: real, otherAverage: real): AskAnswer
    requires otherAverage >= 0.0
  {
    if thisAverage == 0.0 then FirstOnThisDay(e.description, Weekday(e.date), visits)
    else if otherAverage == 0.0 then AllOnThisDay(e.description, Weekday(e.date))
    else DayComparison(e.description, Weekday(e.date), CompareTo(thisAverage, otherAverage))
  }

  /** The other visits on the expense's weekday, and on the other weekdays. */
  function OnDay(similar: seq<Expense>, day: int): seq<Expense> {
    WithKey(similar, WeekdayOf, day)
  }

  function OffDay(similar: seq<Expense>, day: int): seq<Expense> {
    Filter(similar, KeyIsNot(WeekdayOf, day))
  }

  /** Over positive amounts, the mean of a weekday's visits is zero exactly
      when there are none. */
  lemma OnDayMean(similar: seq<Expense>, day: int)
    requires AllPositive(similar)
    ensures Mean(OnDay(similar, day), Amount) >= 0.0
    ensures Mean(OnDay(similar, day), Amount) == 0.0 <==> forall x :: x in similar ==> WeekdayOf(x) != day
  {
    var onDay := OnDay(similar, day);
    WithKeyMeasures(similar, WeekdayOf, day, Amount);
    SubsetPositive(similar, onDay);
    MeanPositive(onDay, Amount);
    WithKeyEmpty(similar, WeekdayOf, day);
  }

  /** The mean of the other weekdays' visits is zero exactly when every
      visit is on that weekday. */
  lemma OffDayMean(similar: seq<Expense>, day: int)
    requires AllPositive(similar)
    ensures Mean(OffDay(similar, day), Amount) >= 0.0
    ensures Mean(OffDay(similar, day), Amount) == 0.0 <==> forall x :: x in similar ==> WeekdayOf(x) == day
  {
    var offDay := OffDay(similar, day);
    SubsetPositive(similar, offDay);
    MeanPositive(offDay, Amount);
    OtherKeysEmpty(similar, WeekdayOf, day);
  }

  lemma DayMeans(similar: seq<Expense>, day: int)
    requires AllPositive(similar)
    ensures Mean(OnDay(similar, day), Amount) >= 0.0 && Mean(OffDay(similar, day), Amount) >= 0.0
    ensures Mean(OnDay(similar, day), Amount) == 0.0 <==> forall x :: x in similar ==> WeekdayOf(x) != day
    ensures Mean(OffDay(similar, day), Amount) == 0.0 <==> forall x :: x in similar ==> WeekdayOf(x) == day
  {
    OnDayMean(similar, day);
    OffDayMean(similar, day);
  }

  function DayAnswer(e: Expense, mine: seq<Expense>): AskAnswer
    requires AllPositive(mine)
  {
    var similar := SimilarOthers(mine, e);
    var day := Weekday(e.date);
    if |similar| == 0 then FirstVisitRecorded(e.description, day, IsWeekend(e.date))
    else
      SubsetPositive(mine, similar);
      DayMeans(similar, day);
      DayVerdict(e, |similar|, Mean(OnDay(similar, day), Amount), Mean(OffDay(similar, day), Amount))
  }

  /** The loop over the weekday buckets that sums the buckets of the other
      weekdays. */
  method OtherDays(similar: seq<Expense>, day: int, order: seq<int>, dayAmounts: map<int, seq<real>>)
    returns (otherTotal: real, otherCount: nat)
    requires Bucketed(similar, WeekdayOf, Amount, order, dayAmounts)
    ensures otherCount == |OffDay(similar, day)| && otherTotal == Sum(OffDay(similar, day), Amount)
  {
    otherTotal, otherCount := 0.0, 0;
    for j := 0 to |order|
      invariant OthersSoFar(similar, WeekdayOf, Amount, day, order[..j], otherTotal, otherCount)
    {
      var k := order[j];
      BucketMeasures(similar, WeekdayOf, Amount, order, dayAmounts, k);
      assert order[..j + 1] == order[..j] + [k];
      assert forall i :: 0 <= i < j ==> order[i] != k;
      OthersStep(similar, WeekdayOf, Amount, day, order[..j], k, otherTotal, otherCount);
      if k != day {
        otherTotal := otherTotal + Sum(dayAmounts[k], Real);
        otherCount := otherCount + |dayAmounts[k]|;
      }
    }
    assert order[..|order|] == order;
    OthersDone(similar, WeekdayOf, Amount, day, otherTotal, otherCount);
  }

  /** The bucket of the expense's weekday, or no amounts. */
  lemma ThisDayBucket(similar: seq<Expense>, day: int, order: seq<int>, dayAmounts: map<int, seq<real>>)
    requires Bucketed(similar, WeekdayOf, Amount, order, dayAmounts)
    ensures var thisDay := if day in dayAmounts then dayAmounts[day] else [];
            (if |thisDay| > 0 then Sum(thisDay, Real) / |thisDay| as real else 0.0) == Mean(OnDay(similar, day), Amount)
  {
    WithKeyMeasures(similar, WeekdayOf, day, Amount);
    if day in dayAmounts {
      BucketMeasures(similar, WeekdayOf, Amount, order, dayAmounts, day);
    } else {
      AbsentKey(similar, WeekdayOf, day, Amount);
    }
  }

  /** The weekday branch: amounts are bucketed by weekday, then the buckets
      of the other weekdays are summed. */
  method DayAnalysis(e: Expense, mine: seq<Expense>) returns (a: AskAnswer)
    requires AllPositive(mine)
    ensures a == DayAnswer(e, mine)
  {
    var similar := SimilarOthers(mine, e);
    var day := Weekday(e.date);
    if |similar| == 0 {
      return FirstVisitRecorded(e.description, day, IsWeekend(e.date));
    }
    var order, dayAmounts := GroupByWeekday(similar);
    var thisDay := if day in dayAmounts then dayAmounts[day] else [];
    var thisAverage := if |thisDay| > 0 then Sum(thisDay, Real) / |thisDay| as real else 0.0;
    ThisDayBucket(similar, day, order, dayAmounts);
    var otherTotal, otherCount := OtherDays(similar, day, order, dayAmounts);
    var otherAverage := if otherCount > 0 then otherTotal / otherCount as real else 0.0;
    SubsetPositive(mine, similar);
    DayMeans(similar, day);
    a := DayVerdict(e, |similar|, thisAverage, otherAverage);
  }

  /** The weekday answers: the first visit on this weekday exactly when no
      earlier visit was on it, all visits on it exactly when none was on
      another, and otherwise a comparison of the two means. */
  lemma DayMeaning(e: Expense, mine: seq<Expense>)
    requires AllPositive(mine)
    ensures var a := DayAnswer(e, mine);
            var similar := SimilarOthers(mine, e);
            var day := Weekday(e.date);
            (a.FirstVisitRecorded? <==> |similar| == 0)
            && (a.FirstOnThisDay? <==> |similar| > 0 && forall x :: x in similar ==> WeekdayOf(x) != day)
            && (a.AllOnThisDay? <==> (exists x :: x in similar && WeekdayOf(x) == day)
                                     && (forall x :: x in similar ==> WeekdayOf(x) == day))
            && (a.DayComparison? ==>
                  a.c.amount == Mean(OnDay(similar, day), Amount)
                  && a.c.average == Mean(OffDay(similar, day), Amount))
  {
    var similar := SimilarOthers(mine, e);
    SubsetPositive(mine, similar);
    DayMeans(similar, Weekday(e.date));
    if |similar| > 0 {
      assert similar[0] in similar;
    }
  }

  // ---------------------------------------------------------------------
  // 5a. Cheaper alternatives

  function FirstWordOf(x: Expense): string {
    FirstWord(x.description)
  }

  /** `category: expense.category, description: { not: { contains: first
      word } }` (the expense itself never passes). */
  function OtherPlaces(mine: seq<Expense>, e: Expense): seq<Expense> {
    Filter(mine, OtherPlace(e))
  }

  function OtherPlace(e: Expense): Expense -> bool {
    (x: Expense) => x.category == e.category && !MentionsFirstWord(x, e)
  }

  /** At least two visits, and a mean below `amount`. */
  function Cheaper(amount: real): Group<string> -> bool {
    (g: Group<string>) => g.count >= 2 && g.total / g.count as real < amount
  }

  function AlternativeOf(g: Group<string>): Alternative {
    Alternative(g.key, GroupMean(g), g.count)
  }

  function AlternativeAverage(a: Alternative): real {
    a.averageAmount
  }

  /** The places of the category with at least two visits and a lower
      mean, in order of first appearance. */
  function Candidates(e: Expense, mine: seq<Expense>): seq<Alternative> {
    Map(Filter(Groups(OtherPlaces(mine, e), FirstWordOf, Amount), Cheaper(e.amount)), AlternativeOf)
  }

  /** The candidates, cheapest first, at most three. */
  function Alternatives(e: Expense, mine: seq<Expense>): seq<Alternative> {
    Take(SortAsc(Candidates(e, mine), AlternativeAverage), 3)
  }

  function AlternativesAnswer(e: Expense, mine: seq<Expense>): AskAnswer {
    AlternativesReply(e, Alternatives(e, mine))
  }

  /** The reply for the cheaper places found: the saving is measured
      against the cheapest. */
  function AlternativesReply(e: Expense, alternatives: seq<Alternative>): AskAnswer {
    if |alternatives| == 0 then NoCheaperAlternatives(e.category, e.description)
    else CheaperAlternatives(alternatives, e.amount - alternatives[0].averageAmount)
  }

  /** The alternatives branch: the places are tallied into an object by the
      first word of their description, then filtered, sorted and cut. */
  method AlternativesAnalysis(e: Expense, mine: seq<Expense>) returns (a: AskAnswer)
    ensures a == AlternativesAnswer(e, mine)
  {
    var places := OtherPlaces(mine, e);
    var placeGroups := PlaceGroups(places);
    var candidates := Map(Filter(placeGroups, Cheaper(e.amount)), AlternativeOf);
    assert candidates == Candidates(e, mine);
    var alternatives := Take(SortAsc(candidates, AlternativeAverage), 3);
    a := AlternativesReply(e, alternatives);
  }

  /** The tally of the places by first word, as `Object.entries` lists it. */
  method PlaceGroups(places: seq<Expense>) returns (gs: seq<Group<string>>)
    ensures gs == Groups(places, FirstWordOf, Amount)
  {
    var order, groups := GroupRecords(places, FirstWordOf, Amount);
    GroupedList(places, FirstWordOf, Amount, order, groups);
    gs := GroupList(order, groups);
  }

  /** A place's mean amount over the other places of the category. */
  function PlaceMean(places: seq<Expense>, k: string): real {
    if CountKey(places, FirstWordOf, k) == 0 then 0.0
    else SumKey(places, FirstWordOf, k, Amount) / CountKey(places, FirstWordOf, k) as real
  }

  /** Whether a place of the category has at least two visits and a lower
      mean than `amount`. */
  predicate CheaperPlace(places: seq<Expense>, k: string, amount: real) {
    CountKey(places, FirstWordOf, k) >= 2 && PlaceMean(places, k) < amount
  }

  /** Each candidate is a place of the category visited at least twice with
      a lower mean. */
  lemma CandidateSound(e: Expense, mine: seq<Expense>, c: Alternative)
    requires c in Candidates(e, mine)
    ensures var places := OtherPlaces(mine, e);
            c.description in Map(places, FirstWordOf)
            && c.visits == CountKey(places, FirstWordOf, c.description)
            && c.averageAmount == PlaceMean(places, c.description)
            && CheaperPlace(places, c.description, e.amount)
  {
    var places := OtherPlaces(mine, e);
    var gs := Groups(places, FirstWordOf, Amount);
    var cheap := Filter(gs, Cheaper(e.amount));
    var m :| 0 <= m < |cheap| && Map(cheap, AlternativeOf)[m] == c;
    var g := cheap[m];
    assert g in cheap;
    var j :| 0 <= j < |gs| && gs[j] == g;
    var ks := FirstSeen(places, FirstWordOf);
    assert g == Group(ks[j], SumKey(places, FirstWordOf, ks[j], Amount), CountKey(places, FirstWordOf, ks[j]));
    assert ks[j] in ks;
    assert c == AlternativeOf(g);
    assert Cheaper(e.amount)(g);
    assert c.description in Map(places, FirstWordOf);
    assert c.visits == CountKey(places, FirstWordOf, c.description);
    assert c.averageAmount == PlaceMean(places, c.description);
  }

  /** Each place of the category visited at least twice with a lower mean is
      a candidate. */
  lemma CandidateComplete(e: Expense, mine: seq<Expense>, k: string)
    requires var places := OtherPlaces(mine, e);
             k in Map(places, FirstWordOf) && CheaperPlace(places, k, e.amount)
    ensures AlternativeOf(Group(k, SumKey(OtherPlaces(mine, e), FirstWordOf, k, Amount), CountKey(OtherPlaces(mine, e), FirstWordOf, k)))
            in Candidates(e, mine)
  {
    var places := OtherPlaces(mine, e);
    var gs := Groups(places, FirstWordOf, Amount);
    var ks := FirstSeen(places, FirstWordOf);
    var j :| 0 <= j < |ks| && ks[j] == k;
    assert gs[j] in gs;
    assert Cheaper(e.amount)(gs[j]);
    var cheap := Filter(gs, Cheaper(e.amount));
    assert gs[j] in cheap;
    var m :| 0 <= m < |cheap| && cheap[m] == gs[j];
    assert Map(cheap, AlternativeOf)[m] == AlternativeOf(gs[j]);
  }

  /** The alternatives are at most three places of the category not
      mentioning this expense's first word, each visited at least twice with
      a lower mean, cheapest first. */
  lemma AlternativesSound(e: Expense, mine: seq<Expense>)
    ensures var alts := Alternatives(e, mine);
            var places := OtherPlaces(mine, e);
            |alts| <= 3
            && (forall i, j :: 0 <= i < j < |alts| ==> alts[i].averageAmount <= alts[j].averageAmount)
            && (forall i :: 0 <= i < |alts| ==>
                  alts[i].visits == CountKey(places, FirstWordOf, alts[i].description)
                  && alts[i].averageAmount == PlaceMean(places, alts[i].description)
                  && CheaperPlace(places, alts[i].description, e.amount))
  {
    var candidates := Candidates(e, mine);
    var sorted := SortAsc(candidates, AlternativeAverage);
    SortAscCorrect(candidates, AlternativeAverage);
    var alts := Alternatives(e, mine);
    forall i | 0 <= i < |alts|
      ensures var places := OtherPlaces(mine, e);
              alts[i].visits == CountKey(places, FirstWordOf, alts[i].description)
              && alts[i].averageAmount == PlaceMean(places, alts[i].description)
              && CheaperPlace(places, alts[i].description, e.amount)
    {
      assert alts[i] == sorted[i];
      assert sorted[i] in multiset(candidates);
      CandidateSound(e, mine, alts[i]);
    }
  }

  /** The first alternative is at least as cheap as every place that
      qualifies, there is one whenever a place qualifies, and the saving
      shown is positive. */
  lemma AlternativesCheapest(e: Expense, mine: seq<Expense>)
    ensures var alts := Alternatives(e, mine);
            var places := OtherPlaces(mine, e);
            forall k :: k in Map(places, FirstWordOf) && CheaperPlace(places, k, e.amount)
              ==> |alts| > 0 && alts[0].averageAmount <= PlaceMean(places, k)
    ensures var a := AlternativesAnswer(e, mine);
            a.CheaperAlternatives? ==> a.saving > 0.0
  {
    var places := OtherPlaces(mine, e);
    var candidates := Candidates(e, mine);
    var sorted := SortAsc(candidates, AlternativeAverage);
    SortAscCorrect(candidates, AlternativeAverage);
    var alts := Alternatives(e, mine);
    forall k | k in Map(places, FirstWordOf) && CheaperPlace(places, k, e.amount)
      ensures |alts| > 0 && alts[0].averageAmount <= PlaceMean(places, k)
    {
      CandidateComplete(e, mine, k);
      var c := AlternativeOf(Group(k, SumKey(places, FirstWordOf, k, Amount), CountKey(places, FirstWordOf, k)));
      assert c in multiset(sorted);
      var t :| 0 <= t < |sorted| && sorted[t] == c;
      assert alts[0] == sorted[0];
    }
    if |alts| > 0 {
      assert alts[0] == sorted[0];
      assert sorted[0] in multiset(candidates);
      CandidateSound(e, mine, alts[0]);
    }
  }

  // ---------------------------------------------------------------------
  // 5b. A cheaper weekday

  /** The loop over the weekday records that keeps the first record, among
      those with at least two visits, whose mean is strictly below every
      earlier candidate's. */
  function CheapestGroup<K>(gs: seq<Group<K>>): Option<Group<K>>
    decreases |gs|
  {
    if |gs| == 0 then None
    else
      var best := CheapestGroup(gs[..|gs| - 1]);
      var g := gs[|gs| - 1];
      if g.count >= 2 && (best.None? || GroupMean(g) < GroupMean(best.value)) then Some(g) else best
  }

  /** The cheapest record has at least two visits and the lowest mean among
      those that do, and there is none exactly when no record has two
      visits. */
  lemma {:induction false} CheapestGroupMeaning<K>(gs: seq<Group<K>>)
    ensures var c := CheapestGroup(gs);
            (c.None? <==> forall i :: 0 <= i < |gs| ==> gs[i].count < 2)
            && (c.Some? ==> c.value in gs && c.value.count >= 2
                            && forall i :: 0 <= i < |gs| && gs[i].count >= 2 ==> GroupMean(c.value) <= GroupMean(gs[i]))
    decreases |gs|
  {
    if |gs| > 0 {
      var init := gs[..|gs| - 1];
      CheapestGroupMeaning(init);
      assert forall i :: 0 <= i < |init| ==> init[i] == gs[i];
      var c := CheapestGroup(init);
      if c.Some? {
        assert c.value in gs;
      }
    }
  }

  /** `total / count || expenseAmount` for the expense's weekday: the
      weekday's mean when it has visits and a non-zero mean, the amount
      otherwise. */
  function DayMeanOr(similar: seq<Expense>, day: int, fallback: real): real {
    var n := CountKey(similar, WeekdayOf, day);
    if n > 0 && SumKey(similar, WeekdayOf, day, Amount) / n as real != 0.0
    then SumKey(similar, WeekdayOf, day, Amount) / n as real
    else fallback
  }

  /** The cheaper-weekday answer as the handler computes it. */
  function CheaperDayAsWritten(e: Expense, similar: seq<Expense>): AskAnswer {
    if |similar| < 3 then TooFewForDays(e.description)
    else
      match CheapestGroup(Groups(similar, WeekdayOf, Amount))
      case None => NoCheaperDay(e.description)
      case Some(c) =>
        var current := Weekday(e.date);
        if current == c.key then AlreadyCheapestDay(e.description, c.key, GroupMean(c))
        else SwitchDay(e.description, c.key, GroupMean(c), current, DayMeanOr(similar, current, e.amount) - GroupMean(c))
  }

  /** Two $5 visits to a cafe on Mondays and one $1 visit on a Tuesday. */
  const Monday1: Expense := Expense(1, 5.0, "Cafe", "Food", Date(2024, 1, 1))
  const Monday2: Expense := Expense(2, 5.0, "Cafe", "Food", Date(2024, 1, 8))
  const Tuesday: Expense := Expense(3, 1.0, "Cafe", "Food", Date(2024, 1, 2))
  const CafeVisits: seq<Expense> := [Monday1, Monday2, Tuesday]

  /** Day numbers in January 2024. */
  lemma January2024(d: int)
    requires 1 <= d <= 31
    ensures DayNumber(Date(2024, 1, d)) == 19722 + d
  {
  }

  /** The weekday of a day in January 2024, given the quotient and the
      remainder of its day number (shifted to a Sunday) by seven. */
  lemma January2024Weekday(d: int, q: int, w: int)
    requires 1 <= d <= 31 && 0 <= w < 7 && 19722 + d + 4 == 7 * q + w
    ensures Weekday(Date(2024, 1, d)) == w
  {
    January2024(d);
  }

  lemma CafeWeekdays()
    ensures WeekdayOf(Monday1) == 1 && WeekdayOf(Monday2) == 1 && WeekdayOf(Tuesday) == 2
  {
    January2024Weekday(1, 2818, 1);
    January2024Weekday(8, 2819, 1);
    January2024Weekday(2, 2818, 2);
  }

  /** The cafe visits' weekdays in order of first appearance. */
  lemma CafeDays()
    ensures FirstSeen(CafeVisits, WeekdayOf) == [1, 2]
  {
    CafeWeekdays();
    var p1, p2 := [Monday1], [Monday1, Monday2];
    assert CafeVisits[..2] == p2 && p2[..1] == p1 && p1[..0] == [];
    assert FirstSeen(p1, WeekdayOf) == [1];
    assert FirstSeen(p2, WeekdayOf) == [1];
  }

  /** The cafe visits' totals and counts per weekday. */
  lemma CafeSums()
    ensures SumKey(CafeVisits, WeekdayOf, 1, Amount) == 10.0 && CountKey(CafeVisits, WeekdayOf, 1) == 2
    ensures SumKey(CafeVisits, WeekdayOf, 2, Amount) == 1.0 && CountKey(CafeVisits, WeekdayOf, 2) == 1
  {
    CafeWeekdays();
    var p1, p2 := [Monday1], [Monday1, Monday2];
    assert CafeVisits[..2] == p2 && p2[..1] == p1 && p1[..0] == [];
    assert SumKey(p1, WeekdayOf, 1, Amount) == 5.0 && CountKey(p1, WeekdayOf, 1) == 1;
    assert SumKey(p1, WeekdayOf, 2, Amount) == 0.0 && CountKey(p1, WeekdayOf, 2) == 0;
    assert SumKey(p2, WeekdayOf, 1, Amount) == 10.0 && CountKey(p2, WeekdayOf, 1) == 2;
    assert SumKey(p2, WeekdayOf, 2, Amount) == 0.0 && CountKey(p2, WeekdayOf, 2) == 0;
  }

  /** The weekday records of the cafe visits: Monday twice for $10, Tuesday
      once for $1. */
  lemma CafeGroups()
    ensures Groups(CafeVisits, WeekdayOf, Amount) == [Group(1, 10.0, 2), Group(2, 1.0, 1)]
    ensures SumKey(CafeVisits, WeekdayOf, 2, Amount) == 1.0 && CountKey(CafeVisits, WeekdayOf, 2) == 1
  {
    CafeDays();
    CafeSums();
  }

  /** The handler suggests switching from the expense's weekday whenever the
      cheapest weekday with two visits is another one, even when the
      expense's own weekday, visited once, is cheaper still: asked about the
      $1 Tuesday visit, it suggests Monday with a "saving" of -4 per visit. */
  lemma NegativeSavingAsWritten()
    ensures var a := CheaperDayAsWritten(Tuesday, CafeVisits);
            a == SwitchDay("Cafe", 1, 5.0, 2, -4.0) && a.saving < 0.0
  {
    CafeWeekdays();
    CafeGroups();
    var g1, g2 := Group(1, 10.0, 2), Group(2, 1.0, 1);
    assert [g1, g2][..1] == [g1] && [g1][..0] == [];
    assert CheapestGroup([g1]) == Some(g1);
    assert CheapestGroup([g1, g2]) == Some(g1);
    assert GroupMean(g1) == 5.0;
  }

  /** The cheaper-weekday answer with the switch suggested only when the
      expense's weekday costs more on average than the cheapest one. */
  function CheaperDay(e: Expense, similar: seq<Expense>): AskAnswer {
    if |similar| < 3 then TooFewForDays(e.description)
    else
      match CheapestGroup(Groups(similar, WeekdayOf, Amount))
      case None => NoCheaperDay(e.description)
      case Some(c) =>
        var current := Weekday(e.date);
        if current == c.key then AlreadyCheapestDay(e.description, c.key, GroupMean(c))
        else if DayMeanOr(similar, current, e.amount) <= GroupMean(c) then NoCheaperDay(e.description)
        else SwitchDay(e.description, c.key, GroupMean(c), current, DayMeanOr(similar, current, e.amount) - GroupMean(c))
  }

  function CheaperDayAnswer(e: Expense, mine: seq<Expense>): AskAnswer {
    CheaperDay(e, SimilarAll(mine, e))
  }

  /** A suggested switch saves money: the suggested weekday has at least two
      visits, its mean is the lowest among the weekdays that do, it is not
      the expense's weekday, and the expense's weekday costs more. The
      cheapest weekday is reported as already chosen only when it is the
      expense's own. */
  lemma CheaperDayMeaning(e: Expense, similar: seq<Expense>)
    ensures var a := CheaperDay(e, similar);
            var gs := Groups(similar, WeekdayOf, Amount);
            (a.TooFewForDays? <==> |similar| < 3)
            && (a.SwitchDay? ==>
                  a.saving > 0.0 && a.currentDay == Weekday(e.date) != a.cheapestDay
                  && a.saving == DayMeanOr(similar, a.currentDay, e.amount) - a.cheapestAverage
                  && CountKey(similar, WeekdayOf, a.cheapestDay) >= 2
                  && a.cheapestAverage == SumKey(similar, WeekdayOf, a.cheapestDay, Amount) / CountKey(similar, WeekdayOf, a.cheapestDay) as real
                  && forall i :: 0 <= i < |gs| && gs[i].count >= 2 ==> a.cheapestAverage <= GroupMean(gs[i]))
            && (a.AlreadyCheapestDay? ==>
                  a.cheapestDay == Weekday(e.date) && CountKey(similar, WeekdayOf, a.cheapestDay) >= 2
                  && forall i :: 0 <= i < |gs| && gs[i].count >= 2 ==> a.cheapestAverage <= GroupMean(gs[i]))
  {
    var gs := Groups(similar, WeekdayOf, Amount);
    CheapestGroupMeaning(gs);
  }

  /** The loop over the weekday records that keeps the cheapest one with at
      least two visits, by key and mean. */
  method FindCheapest<K>(gs: seq<Group<K>>) returns (cheapestKey: Option<K>, cheapestAverage: real)
    ensures cheapestKey.None? <==> CheapestGroup(gs).None?
    ensures cheapestKey.Some? ==> cheapestKey.value == CheapestGroup(gs).value.key
                                  && cheapestAverage == GroupMean(CheapestGroup(gs).value)
  {
    cheapestKey, cheapestAverage := None, 0.0;
    for j := 0 to |gs|
      invariant cheapestKey.None? <==> CheapestGroup(gs[..j]).None?
      invariant cheapestKey.Some? ==> cheapestKey.value == CheapestGroup(gs[..j]).value.key
                                      && cheapestAverage == GroupMean(CheapestGroup(gs[..j]).value)
    {
      var g := gs[j];
      assert gs[..j + 1][..j] == gs[..j];
      if g.count >= 2 {
        var average := g.total / g.count as real;
        if cheapestKey.None? || average < cheapestAverage {
          cheapestKey, cheapestAverage := Some(g.key), average;
        }
      }
    }
    assert gs[..|gs|] == gs;
  }

  /** `dayAverages[currentDay]`'s mean, or the amount. */
  function CurrentAverage(dayAverages: map<int, Group<int>>, current: int, amount: real): real {
    if current in dayAverages && dayAverages[current].count > 0
       && dayAverages[current].total / dayAverages[current].count as real != 0.0
    then dayAverages[current].total / dayAverages[current].count as real
    else amount
  }

  lemma CurrentAverageIs(similar: seq<Expense>, order: seq<int>, dayAverages: map<int, Group<int>>, current: int, amount: real)
    requires Grouped(similar, WeekdayOf, Amount, order, dayAverages)
    ensures CurrentAverage(dayAverages, current, amount) == DayMeanOr(similar, current, amount)
  {
    if current !in dayAverages {
      AbsentKey(similar, WeekdayOf, current, Amount);
    }
  }

  /** The cheaper-weekday branch: a loop tallies total and count per
      weekday into an object, a second keeps the cheapest weekday seen. */
  method CheaperDayAnalysis(e: Expense, mine: seq<Expense>) returns (a: AskAnswer)
    ensures a == CheaperDayAnswer(e, mine)
  {
    var similar := SimilarAll(mine, e);
    if |similar| < 3 {
      a := TooFewForDays(e.description);
    } else {
      var current := Weekday(e.date);
      var cheapestDay, cheapestAverage, currentAverage := DayAverages(similar, current, e.amount);
      if cheapestDay.None? {
        a := NoCheaperDay(e.description);
      } else if current == cheapestDay.value {
        a := AlreadyCheapestDay(e.description, cheapestDay.value, cheapestAverage);
      } else if currentAverage <= cheapestAverage {
        a := NoCheaperDay(e.description);
      } else {
        a := SwitchDay(e.description, cheapestDay.value, cheapestAverage, current, currentAverage - cheapestAverage);
      }
    }
  }

  /** The weekday averages of the similar expenses: the cheapest weekday
      with at least two visits and its average, and the average of
      `current` (`amount` when it has none). */
  method DayAverages(similar: seq<Expense>, current: int, amount: real)
    returns (cheapestDay: Option<int>, cheapestAverage: real, currentAverage: real)
    ensures var best := CheapestGroup(Groups(similar, WeekdayOf, Amount));
            (cheapestDay.None? <==> best.None?)
            && (cheapestDay.Some? ==> cheapestDay.value == best.value.key && cheapestAverage == GroupMean(best.value))
    ensures currentAverage == DayMeanOr(similar, current, amount)
  {
    var order, dayAverages := GroupRecords(similar, WeekdayOf, Amount);
    GroupedList(similar, WeekdayOf, Amount, order, dayAverages);
    cheapestDay, cheapestAverage := FindCheapest(GroupList(order, dayAverages));
    currentAverage := CurrentAverage(dayAverages, current, amount);
    CurrentAverageIs(similar, order, dayAverages, current, amount);
  }

  // ---------------------------------------------------------------------
  // The whole answer

  /** Which branch of `generateAnswer` a lower-cased question takes. */
  datatype Topic = Comparing | Monthly | Patterns | Weekdays | CheaperPlaces | CheaperDays | Saving | General

  /** The first keyword group the question mentions decides the branch. */
  function TopicOf(q: string): Topic {
    if Mentions(q, CompareWords) then Comparing
    else if Mentions(q, MonthWords) then Monthly
    else if Mentions(q, PatternWords) then Patterns
    else if Mentions(q, DayWords) then Weekdays
    else if Mentions(q, SaveWords) then
      if Mentions(q, AlternativeWords) then CheaperPlaces
      else if Mentions(q, WhenWords) then CheaperDays
      else Saving
    else General
  }

  /** `generateAnswer` */
  function AnswerFor(question: string, e: Expense, mine: seq<Expense>): AskAnswer
    requires AllPositive(mine) && e in mine
  {
    var q := ToLower(question);
    match TopicOf(q)
    case Comparing => ComparisonAnswer(q, e, mine)
    case Monthly => MonthlyAnswer(q, e, mine)
    case Patterns => PatternAnswer(e, mine)
    case Weekdays => DayAnswer(e, mine)
    case CheaperPlaces => AlternativesAnswer(e, mine)
    case CheaperDays => CheaperDayAnswer(e, mine)
    case Saving => SavingTips(e.category, e.description)
    case General => Overview(e.category, e.amount, e.description, e.date)
  }

  method GenerateAnswer(question: string, e: Expense, mine: seq<Expense>) returns (a: AskAnswer)
    requires AllPositive(mine) && e in mine
    ensures a == AnswerFor(question, e, mine)
  {
    var q := ToLower(question);
    match TopicOf(q) {
      case Comparing => a := ComparisonAnswer(q, e, mine);
      case Monthly => a := MonthlyAnswer(q, e, mine);
      case Patterns => a := PatternAnalysis(e, mine);
      case Weekdays => a := DayAnalysis(e, mine);
      case CheaperPlaces => a := AlternativesAnalysis(e, mine);
      case CheaperDays => a := CheaperDayAnalysis(e, mine);
      case Saving => a := SavingTips(e.category, e.description);
      case General => a := Overview(e.category, e.amount, e.description, e.date);
    }
  }

  /** Every question mentioning a keyword group gets a specific answer; the
      general overview is left for those that mention none. A question that
      mentions the comparison words is always a comparison, whatever else it
      mentions, and a saving question leads to one of the three saving
      answers only when no earlier group is mentioned. */
  lemma TopicPrecedence(q: string)
    ensures TopicOf(q) == General <==>
              !Mentions(q, CompareWords) && !Mentions(q, MonthWords) && !Mentions(q, PatternWords)
              && !Mentions(q, DayWords) && !Mentions(q, SaveWords)
    ensures Mentions(q, CompareWords) ==> TopicOf(q) == Comparing
    ensures TopicOf(q) in {CheaperPlaces, CheaperDays, Saving} <==>
              !Mentions(q, CompareWords) && !Mentions(q, MonthWords) && !Mentions(q, PatternWords)
              && !Mentions(q, DayWords) && Mentions(q, SaveWords)
  {
  }

  /** A question that mentions "day" is taken by the weekday group before the
      saving group is tried, so the cheaper-weekday branch is only reached
      through "time" or "when", together with a saving word and no
      alternative word. */
  lemma CheaperDayNeedsTimeOrWhen(q: string)
    ensures TopicOf(q) == CheaperDays <==>
              !Mentions(q, CompareWords) && !Mentions(q, MonthWords) && !Mentions(q, PatternWords)
              && !Contains(q, "day") && !Contains(q, "weekday") && !Contains(q, "weekend")
              && Mentions(q, SaveWords) && !Mentions(q, AlternativeWords)
              && (Contains(q, "time") || Contains(q, "when"))
  {
    assert DayWords[0] == "day" && DayWords[1] == "weekday" && DayWords[2] == "weekend";
    assert WhenWords[1] == "time" && WhenWords[2] == "when";
    if Mentions(q, WhenWords) && !Contains(q, "day") {
      var i :| 0 <= i < |WhenWords| && Contains(q, WhenWords[i]);
    }
  }

  // ---------------------------------------------------------------------
  // The handler

  datatype AskResponse = Replied(answer: AskAnswer) | Refused(status: int, error: string)

  /** The handler over the expense table `rows`; the request checks are
      those of every advice endpoint. */
  method HandleAsk(email: Option<string>, user: Option<string>, httpMethod: string,
                   expenseId: Option<int>, question: string, rows: seq<Row>)
    returns (r: AskResponse)
    requires forall i :: 0 <= i < |rows| ==> rows[i].expense.amount > 0.0
    ensures var a := Admit(email, user, httpMethod, expenseId, question == "", "Expense ID and question are required", rows);
            (a.Rejected? ==> r == Refused(a.status, a.error))
            && (a.Admitted? ==>
                  var mine := Owned(rows, user.value);
                  AllPositive(mine) && a.row.expense in mine
                  && r == Replied(AnswerFor(question, a.row.expense, mine)))
  {
    var admission := Admit(email, user, httpMethod, expenseId, question == "", "Expense ID and question are required", rows);
    if admission.Rejected? {
      return Refused(admission.status, admission.error);
    }
    var mine := Owned(rows, user.value);
    OwnedPositive(rows, user.value);
    var answer := GenerateAnswer(question, admission.row.expense, mine);
    r := Replied(answer);
  }
}

=== FILE: calendar.dfy ===
/** Civil dates in the proleptic Gregorian calendar, as the application uses
    them through JavaScript's `Date` and date-fns: day numbers, weekdays,
    month arithmetic with JavaScript's overflow rule, and the month labels
    "yyyy-MM" and "MMM yyyy". A date here has day granularity. */
module Calendar {
  import opened Text

  datatype Date = Date(year: int, month: int, day: int)

  predicate IsLeapYear(y: int) {
    (y % 4 == 0 && y % 100 != 0) || y % 400 == 0
  }

  function DaysInMonth(y: int, m: int): int
    requires 1 <= m <= 12
  {
    if m == 2 then (if IsLeapYear(y) then 29 else 28)
    else if m == 4 || m == 6 || m == 9 || m == 11 then 30
    else 31
  }

  predicate ValidDate(d: Date) {
    1 <= d.month <= 12 && 1 <= d.day <= DaysInMonth(d.year, d.month)
  }

  /** Days since 1970-01-01 (which is day 0); the civil-from-days algorithm
      of H. Hinnant, on 400-year eras. */
  function DayNumber(d: Date): int {
    var y := if d.month <= 2 then d.year - 1 else d.year;
    var era := y / 400;
    var yoe := y - era * 400;
    var mp := if d.month > 2 then d.month - 3 else d.month + 9;
    var doy := (153 * mp + 2) / 5 + d.day - 1;
    var doe := yoe * 365 + yoe / 4 - yoe / 100 + doy;
    era * 146097 + doe - 719468
  }

  /** `getDay()`: 0 is Sunday, 6 is Saturday (1970-01-01 was a Thursday). */
  function Weekday(d: Date): int {
    (DayNumber(d) + 4) % 7
  }

  predicate IsWeekend(d: Date) {
    Weekday(d) == 0 || Weekday(d) == 6
  }

  /** Months counted from January of year 0; consecutive months differ by 1. */
  function MonthIndex(d: Date): int {
    d.year * 12 + d.month - 1
  }

  predicate SameMonth(a: Date, b: Date) {
    a.year == b.year && a.month == b.month
  }

  /** Within one month, later days have larger day numbers. */
  lemma DayNumberInMonth(a: Date, b: Date)
    requires SameMonth(a, b)
    ensures DayNumber(b) - DayNumber(a) == b.day - a.day
  {
  }

  /** The month after `(y, m)`. */
  function NextMonth(y: int, m: int): (int, int)
    requires 1 <= m <= 12
  {
    if m == 12 then (y + 1, 1) else (y, m + 1)
  }

  /** The date JavaScript builds from a year, a month and a day that may run
      up to three days past the month's end: the excess rolls into the
      following month. */
  function Normalize(y: int, m: int, day: int): (r: Date)
    requires 1 <= m <= 12 && 1 <= day <= 31
    ensures ValidDate(r)
  {
    var dim := DaysInMonth(y, m);
    if day <= dim then Date(y, m, day)
    else
      var (y2, m2) := NextMonth(y, m);
      Date(y2, m2, day - dim)
  }

  /** `date.setMonth(m)` with a zero-based month `m` of the date's own year
      (negative or above 11 moves into other years); the day of the month is
      kept and overflows into the next month when the target month is
      shorter. */
  function SetMonth(d: Date, m: int): (r: Date)
    requires ValidDate(d)
    ensures ValidDate(r)
  {
    Normalize(d.year + m / 12, m % 12 + 1, d.day)
  }

  /** `setMonth` lands in the requested month exactly when the day fits in
      it; otherwise it lands in the month after. */
  lemma SetMonthTarget(d: Date, m: int)
    requires ValidDate(d)
    ensures var t := d.year * 12 + m;
            var r := SetMonth(d, m);
            (d.day <= DaysInMonth(d.year + m / 12, m % 12 + 1) ==> MonthIndex(r) == t && r.day == d.day)
            && (d.day > DaysInMonth(d.year + m / 12, m % 12 + 1) ==> MonthIndex(r) == t + 1 && r.day < d.day)
  {
  }

  /** `date.setFullYear(y)`: only 29 February can overflow, into 1 March. */
  function SetFullYear(d: Date, y: int): (r: Date)
    requires ValidDate(d)
    ensures ValidDate(r)
  {
    Normalize(y, d.month, d.day)
  }

  // ---------------------------------------------------------------------
  // Labels

  /** date-fns `format(d, 'yyyy-MM')` for years 0..9999. */
  function MonthKey(y: int, m: int): string
    requires 0 <= y <= 9999 && 1 <= m <= 12
  {
    Digits(y, 4) + "-" + Digits(m, 2)
  }

  /** Month keys sort as strings in calendar order, and two keys are equal
      exactly when they name the same month. */
  lemma {:induction false} MonthKeyOrder(y1: int, m1: int, y2: int, m2: int)
    requires 0 <= y1 <= 9999 && 1 <= m1 <= 12
    requires 0 <= y2 <= 9999 && 1 <= m2 <= 12
    ensures LexLess(MonthKey(y1, m1), MonthKey(y2, m2)) <==> y1 < y2 || (y1 == y2 && m1 < m2)
    ensures MonthKey(y1, m1) == MonthKey(y2, m2) <==> y1 == y2 && m1 == m2
  {
    assert Pow10(4) == 10000 && Pow10(2) == 100;
    DigitsOrder(y1, y2, 4);
    DigitsOrder(m1, m2, 2);
    var a, b := Digits(y1, 4), Digits(y2, 4);
    var c, d := "-" + Digits(m1, 2), "-" + Digits(m2, 2);
    assert MonthKey(y1, m1) == a + c && MonthKey(y2, m2) == b + d;
    LexLessConcat(a, c, b, d);
    LexLessConcat("-", Digits(m1, 2), "-", Digits(m2, 2));
    assert !LexLess("-", "-");
    if a + c == b + d {
      assert a == (a + c)[..4] && b == (b + d)[..4];
      assert c[1..] == (a + c)[5..] && d[1..] == (b + d)[5..];
    }
  }

  const MonthNames: seq<string> :=
    ["Jan", "Feb", "Mar", "Apr", "May", "Jun", "Jul", "Aug", "Sep", "Oct", "Nov", "Dec"]

  /** date-fns `format(d, 'MMM yyyy')` for years 0..9999. */
  function MonthYearLabel(y: int, m: int): string
    requires 0 <= y <= 9999 && 1 <= m <= 12
  {
    MonthNames[m - 1] + " " + Digits(y, 4)
  }

  lemma MonthNamesDistinct(i: int, j: int)
    requires 0 <= i < 12 && 0 <= j < 12 && MonthNames[i] == MonthNames[j]
    ensures i == j
  {
  }

  /** Two "MMM yyyy" labels are equal exactly when they name the same month. */
  lemma {:induction false} MonthYearLabelInjective(y1: int, m1: int, y2: int, m2: int)
    requires 0 <= y1 <= 9999 && 1 <= m1 <= 12
    requires 0 <= y2 <= 9999 && 1 <= m2 <= 12
    ensures MonthYearLabel(y1, m1) == MonthYearLabel(y2, m2) <==> y1 == y2 && m1 == m2
  {
    assert Pow10(4) == 10000;
    DigitsOrder(y1, y2, 4);
    var l1, l2 := MonthYearLabel(y1, m1), MonthYearLabel(y2, m2);
    if l1 == l2 {
      assert MonthNames[m1 - 1] == l1[..3] && MonthNames[m2 - 1] == l2[..3];
      MonthNamesDistinct(m1 - 1, m2 - 1);
      assert Digits(y1, 4) == l1[4..] && Digits(y2, 4) == l2[4..];
    }
  }
}

=== FILE: cloudinary.dfy ===
/** `getPublicIdFromUrl` of lib/cloudinary.ts: the public id of an uploaded
    image is the capture group of the regular expression
    `/\/v\d+\/([^/]+\/[^.]+)/` applied to the image's URL. The model states
    the expression's meaning as the predicate `Matches` and computes the
    JavaScript answer — the leftmost match, each repetition as long as it
    can be — with `MatchAt` and `Search`. The upload and the deletion of
    images are calls into the Cloudinary service and are not part of the
    model. */
module Cloudinary {
  import opened Wrappers

  predicate IsDigit(c: char) {
    '0' <= c <= '9'
  }

  // ---------------------------------------------------------------------
  // What the expression matches

  /** `id` has the shape of the capture group `[^/]+\/[^.]+`: a non-empty
      segment without "/", a "/", then a non-empty rest without ".". `m` is
      the position of that "/". */
  ghost predicate SegmentedAt(id: string, m: int) {
    0 < m < |id| - 1 && id[m] == '/'
    && (forall k :: 0 <= k < m ==> id[k] != '/')
    && (forall k :: m < k < |id| ==> id[k] != '.')
  }

  ghost predicate Segmented(id: string) {
    exists m :: SegmentedAt(id, m)
  }

  /** The expression matches `url` at `i` with the digits ending at `j` and
      the capture `id` starting right after the "/" at `j`. */
  ghost predicate MatchesWith(url: string, i: int, j: int, id: string) {
    0 <= i && i + 2 < j < |url|
    && url[i] == '/' && url[i + 1] == 'v'
    && (forall k :: i + 2 <= k < j ==> IsDigit(url[k]))
    && url[j] == '/'
    && j + 1 + |id| <= |url| && url[j + 1..j + 1 + |id|] == id
    && Segmented(id)
  }

  /** Some match of the expression starts at `i` and captures `id`. */
  ghost predicate Matches(url: string, i: int, id: string) {
    exists j :: MatchesWith(url, i, j, id)
  }

  // ---------------------------------------------------------------------
  // How JavaScript finds it

  /** The length of the run of digits starting at `i` (`\d+` is greedy). */
  function DigitRun(s: string, i: nat): (n: nat)
    requires i <= |s|
    ensures i + n <= |s|
    ensures forall k :: i <= k < i + n ==> IsDigit(s[k])
    ensures i + n < |s| ==> !IsDigit(s[i + n])
    decreases |s| - i
  {
    if i < |s| && IsDigit(s[i]) then 1 + DigitRun(s, i + 1) else 0
  }

  /** The length of the run of characters other than `c` starting at `i`
      (`[^/]+` and `[^.]+` are greedy). */
  function RunWithout(s: string, i: nat, c: char): (n: nat)
    requires i <= |s|
    ensures i + n <= |s|
    ensures forall k :: i <= k < i + n ==> s[k] != c
    ensures i + n < |s| ==> s[i + n] == c
    decreases |s| - i
  {
    if i < |s| && s[i] != c then 1 + RunWithout(s, i + 1, c) else 0
  }

  /** The capture of the match starting at `i`, if there is one. */
  function MatchAt(url: string, i: nat): Option<string>
    requires i <= |url|
  {
    if i + 2 <= |url| && url[i] == '/' && url[i + 1] == 'v' then
      var j := i + 2 + DigitRun(url, i + 2);
      if j > i + 2 && j < |url| && url[j] == '/' then
        var a := RunWithout(url, j + 1, '/');
        var m := j + 1 + a;
        if a > 0 && m < |url| then
          var b := RunWithout(url, m + 1, '.');
          if b > 0 then Some(url[j + 1..m + 1 + b]) else None
        else None
      else None
    else None
  }

  /** The leftmost match at or after `i`. */
  function Search(url: string, i: nat): Option<string>
    requires i <= |url|
    decreases |url| - i
  {
    if i == |url| then None
    else if MatchAt(url, i).Some? then MatchAt(url, i)
    else Search(url, i + 1)
  }

  /** `getPublicIdFromUrl(url)`: null for an empty URL and when nothing
      matches, the capture of the leftmost, longest match otherwise. */
  function GetPublicIdFromUrl(url: string): (r: Option<string>)
    ensures url == "" ==> r == None
    ensures r.Some? ==> Segmented(r.value)
    ensures r.None? <==> forall i, id :: !Matches(url, i, id)
    ensures r.Some? ==> exists i :: Leftmost(url, i, r.value)
  {
    if url == "" then None
    else
      SearchMeaning(url, 0);
      Search(url, 0)
  }

  /** `id` is the capture of the match JavaScript picks: the match starts at
      `i`, nothing matches earlier, and no match at `i` captures more. */
  ghost predicate Leftmost(url: string, i: int, id: string) {
    Matches(url, i, id)
    && (forall i', id' :: 0 <= i' < i ==> !Matches(url, i', id'))
    && (forall id' :: Matches(url, i, id') ==> |id'| <= |id|)
  }

  // ---------------------------------------------------------------------
  // Proofs

  /** `MatchAt` finds exactly the longest match at `i`. */
  lemma MatchAtMeaning(url: string, i: nat)
    requires i <= |url|
    ensures MatchAt(url, i).Some? ==> Matches(url, i, MatchAt(url, i).value)
    ensures MatchAt(url, i).Some? ==> forall id :: Matches(url, i, id) ==> |id| <= |MatchAt(url, i).value|
    ensures MatchAt(url, i).None? ==> forall id :: !Matches(url, i, id)
  {
    forall id, j' | MatchesWith(url, i, j', id)
      ensures MatchAt(url, i).Some? && |id| <= |MatchAt(url, i).value|
    {
      NoLongerMatch(url, i, j', id);
    }
    if MatchAt(url, i).Some? {
      FoundMatches(url, i);
    }
  }

  /** Any match at `i` is found by `MatchAt`, and captures no more. */
  lemma NoLongerMatch(url: string, i: nat, j: int, id: string)
    requires i <= |url|
    requires MatchesWith(url, i, j, id)
    ensures MatchAt(url, i).Some? && |id| <= |MatchAt(url, i).value|
  {
    MatchedDigits(url, i, j, id);
    MatchedCapture(url, j, id);
  }

  /** Any match at `i` has its "/" right after the whole run of digits. */
  lemma MatchedDigits(url: string, i: nat, j: int, id: string)
    requires i <= |url|
    requires MatchesWith(url, i, j, id)
    ensures j == i + 2 + DigitRun(url, i + 2)
  {
  }

  /** A capture starting after the "/" at `j` is no longer than the one
      the greedy runs give, and those runs succeed. */
  lemma MatchedCapture(url: string, j: int, id: string)
    requires 0 <= j < |url| && j + 1 + |id| <= |url| && url[j + 1..j + 1 + |id|] == id && Segmented(id)
    ensures var a := RunWithout(url, j + 1, '/');
            var m := j + 1 + a;
            a > 0 && m < |url|
            && RunWithout(url, m + 1, '.') > 0
            && |id| <= a + 1 + RunWithout(url, m + 1, '.')
  {
    var p := j + 1;
    var m' :| SegmentedAt(id, m');
    var a := RunWithout(url, p, '/');
    assert id[0] == url[p];
    assert id[m'] == url[p + m'];
    assert a == m';
    var b := RunWithout(url, p + a + 1, '.');
    assert id[m' + 1] == url[p + a + 1];
  }

  /** What `MatchAt` returns is a match at `i`. */
  lemma FoundMatches(url: string, i: nat)
    requires i <= |url| && MatchAt(url, i).Some?
    ensures Matches(url, i, MatchAt(url, i).value)
  {
    var j := i + 2 + DigitRun(url, i + 2);
    var a := RunWithout(url, j + 1, '/');
    var m := j + 1 + a;
    var b := RunWithout(url, m + 1, '.');
    var id := url[j + 1..m + 1 + b];
    assert id == MatchAt(url, i).value;
    assert SegmentedAt(id, a);
    assert MatchesWith(url, i, j, id);
  }

  /** `Search` from `i`, when nothing matches before `i`, finds the
      leftmost match. */
  lemma {:induction false} SearchMeaning(url: string, i: nat)
    requires i <= |url|
    requires forall i', id :: 0 <= i' < i ==> !Matches(url, i', id)
    ensures Search(url, i).None? <==> forall i', id :: !Matches(url, i', id)
    ensures Search(url, i).Some? ==> Segmented(Search(url, i).value)
    ensures Search(url, i).Some? ==> exists i' :: Leftmost(url, i', Search(url, i).value)
    decreases |url| - i
  {
    if i == |url| {
      assert forall i', id :: i <= i' ==> !Matches(url, i', id);
    } else {
      MatchAtMeaning(url, i);
      if MatchAt(url, i).Some? {
        var id := MatchAt(url, i).value;
        var j :| MatchesWith(url, i, j, id);
        assert Leftmost(url, i, id);
      } else {
        SearchMeaning(url, i + 1);
      }
    }
  }

  /** A public id is a folder segment and a name without extension:
      `segment + "/" + rest`, neither part empty, no "/" in the segment and
      no "." in the rest. */
  lemma SplitId(id: string) returns (segment: string, rest: string)
    requires Segmented(id)
    ensures id == segment + "/" + rest
    ensures |segment| > 0 && '/' !in segment
    ensures |rest| > 0 && '.' !in rest
  {
    var m :| SegmentedAt(id, m);
    segment, rest := id[..m], id[m + 1..];
    assert id == id[..m] + [id[m]] + id[m + 1..];
  }

  /** The secure URL of an uploaded image, `<base>/v<version>/<folder>/<name>.<ext>`,
      gives the folder and the file name without its extension, provided
      the base (such as "https://res.cloudinary.com/demo/image/upload") has
      no "/v" in it. */
  lemma UploadedUrl(base: string, version: string, folder: string, name: string, ext: string)
    requires forall p :: 0 <= p < |base| - 1 ==> !(base[p] == '/' && base[p + 1] == 'v')
    requires |version| > 0 && forall c :: c in version ==> IsDigit(c)
    requires |folder| > 0 && '/' !in folder
    requires |name| > 0 && '.' !in name
    ensures GetPublicIdFromUrl(base + "/v" + version + "/" + folder + "/" + name + "." + ext) == Some(folder + "/" + name)
  {
    var head := base + "/v" + version + "/";
    var id := folder + "/" + name;
    var url := head + id + "." + ext;
    assert url == base + "/v" + version + "/" + folder + "/" + name + "." + ext;
    var i, j := |base|, |base| + 2 + |version|;
    var m, e := j + 1 + |folder|, j + 1 + |id|;
    forall p | 0 <= p < i
      ensures !(url[p] == '/' && url[p + 1] == 'v')
    {
      assert url[p] == head[p] && url[p + 1] == head[p + 1];
      if p + 1 < i {
        assert head[p] == base[p] && head[p + 1] == base[p + 1];
      }
    }
    forall k | i + 2 <= k < j
      ensures IsDigit(url[k])
    {
      assert url[k] == head[k] == version[k - i - 2];
    }
    forall k | j + 1 <= k < e
      ensures url[k] == id[k - j - 1]
    {
    }
    assert url[i] == '/' && url[i + 1] == 'v' && url[j] == '/' && url[e] == '.';
    assert url[m] == id[|folder|] == '/';
    assert url[j + 1..e] == id;
    forall k | j + 1 <= k < m
      ensures url[k] != '/'
    {
      assert url[k] == folder[k - j - 1];
    }
    forall k | m + 1 <= k < e
      ensures url[k] != '.'
    {
      assert url[k] == name[k - m - 1];
    }
    CandidateAt(url, i, j, m, e);
  }

  /** The capture when the first "/v" is at `i`, its digits end at `j`, the
      segment ends at `m` and the rest at `e`. */
  lemma CandidateAt(url: string, i: nat, j: nat, m: nat, e: nat)
    requires i + 2 < j && j + 1 < m && m + 1 < e <= |url|
    requires forall p :: 0 <= p < i ==> !(url[p] == '/' && url[p + 1] == 'v')
    requires url[i] == '/' && url[i + 1] == 'v'
    requires forall k :: i + 2 <= k < j ==> IsDigit(url[k])
    requires url[j] == '/'
    requires forall k :: j + 1 <= k < m ==> url[k] != '/'
    requires url[m] == '/'
    requires forall k :: m + 1 <= k < e ==> url[k] != '.'
    requires e < |url| ==> url[e] == '.'
    ensures GetPublicIdFromUrl(url) == Some(url[j + 1..e])
  {
    SkipToCandidate(url, 0, i);
    MatchAtCandidate(url, i, j, m, e);
    assert Search(url, i) == MatchAt(url, i);
  }

  /** The greedy runs at a candidate stop where its parts end. */
  lemma MatchAtCandidate(url: string, i: nat, j: nat, m: nat, e: nat)
    requires i + 2 < j && j + 1 < m && m + 1 < e <= |url|
    requires url[i] == '/' && url[i + 1] == 'v'
    requires forall k :: i + 2 <= k < j ==> IsDigit(url[k])
    requires url[j] == '/'
    requires forall k :: j + 1 <= k < m ==> url[k] != '/'
    requires url[m] == '/'
    requires forall k :: m + 1 <= k < e ==> url[k] != '.'
    requires e < |url| ==> url[e] == '.'
    ensures MatchAt(url, i) == Some(url[j + 1..e])
  {
    RunOfDigits(url, i + 2, j - i - 2);
    RunOfOthers(url, j + 1, '/', m - j - 1);
    RunOfOthers(url, m + 1, '.', e - m - 1);
    MatchAtFromRuns(url, i, j, m, e);
  }

  /** `MatchAt` once the lengths of its three greedy runs are known. */
  lemma MatchAtFromRuns(url: string, i: nat, j: nat, m: nat, e: nat)
    requires i + 2 < j && j + 1 < m && m + 1 < e <= |url|
    requires url[i] == '/' && url[i + 1] == 'v' && url[j] == '/'
    requires DigitRun(url, i + 2) == j - i - 2
    requires RunWithout(url, j + 1, '/') == m - j - 1
    requires RunWithout(url, m + 1, '.') == e - m - 1
    ensures MatchAt(url, i) == Some(url[j + 1..e])
  {
  }

  /** No match starts where "/v" does not. */
  lemma {:induction false} SkipToCandidate(url: string, i: nat, k: nat)
    requires i <= k < |url|
    requires forall p :: i <= p < k ==> !(url[p] == '/' && url[p + 1] == 'v')
    ensures Search(url, i) == Search(url, k)
    decreases k - i
  {
    if i < k {
      SkipToCandidate(url, i + 1, k);
    }
  }

  /** A run of `n` digits followed by a non-digit is what `\d+` takes. */
  lemma RunOfDigits(s: string, i: nat, n: nat)
    requires i + n <= |s|
    requires forall k :: i <= k < i + n ==> IsDigit(s[k])
    requires i + n < |s| ==> !IsDigit(s[i + n])
    ensures DigitRun(s, i) == n
  {
  }

  /** A run of `n` characters other than `c` followed by `c` is what the
      negated class takes. */
  lemma RunOfOthers(s: string, i: nat, c: char, n: nat)
    requires i + n <= |s|
    requires forall k :: i <= k < i + n ==> s[k] != c
    requires i + n < |s| ==> s[i + n] == c
    ensures RunWithout(s, i, c) == n
  {
  }
}

=== FILE: connections.dfy ===
/** The connections endpoint of pages/api/user/connections.ts: the other
    members of the households the signed-in user belongs to, grouped by
    user, each with the households shared with them. The two membership
    queries become filters over the table of membership rows; the session
    is the parameter `sessionEmail` and the user table a map from email to
    user id. */
module Connections {
  import opened Wrappers
  import opened Agg
  import opened MemberRoles

  datatype UserInfo = UserInfo(id: string, name: Option<string>, email: string, image: Option<string>)
  datatype HouseholdRef = HouseholdRef(id: string, name: string)

  /** A `householdMember` row with its user and household included. */
  datatype Membership = Membership(user: UserInfo, household: HouseholdRef, role: Role)

  /** One household shared with a connection, and the connection's role there. */
  datatype SharedHousehold = SharedHousehold(id: string, name: string, role: Role)

  /** One other user and the households shared with them. */
  datatype Connection = Connection(user: UserInfo, households: seq<SharedHousehold>)

  function UserIdOf(m: Membership): string {
    m.user.id
  }

  function HouseholdIdOf(m: Membership): string {
    m.household.id
  }

  function SharedOf(m: Membership): SharedHousehold {
    SharedHousehold(m.household.id, m.household.name, m.role)
  }

  function Size(c: Connection): real {
    |c.households| as real
  }

  // ---------------------------------------------------------------------
  // The two queries

  function IsUser(me: string): Membership -> bool {
    (m: Membership) => m.user.id == me
  }

  /** `userHouseholds.map((h) => h.householdId)` */
  function HouseholdIdsOf(rows: seq<Membership>, me: string): seq<string> {
    Map(Filter(rows, IsUser(me)), HouseholdIdOf)
  }

  /** `householdId: { in: householdIds }, userId: { not: user.id }` */
  function Shares(ids: seq<string>, me: string): Membership -> bool {
    (m: Membership) => m.household.id in ids && m.user.id != me
  }

  /** The rows of the other members of the user's households. */
  function ConnectionRows(rows: seq<Membership>, me: string): seq<Membership> {
    Filter(rows, Shares(HouseholdIdsOf(rows, me), me))
  }

  // ---------------------------------------------------------------------
  // The grouping

  /** The group of user `k`: the user of their first row, and one entry per
      row of theirs, in order. */
  function GroupOf(xs: seq<Membership>, k: string): (c: Connection)
    requires k in Map(xs, UserIdOf)
  {
    var mine := WithKey(xs, UserIdOf, k);
    PresentKey(xs, UserIdOf, k);
    WithKeyMeasures(xs, UserIdOf, k, One);
    Connection(mine[0].user, Map(mine, SharedOf))
  }

  /** `Object.values(groupedConnections)`: one group per user, in the order
      the users first appear. */
  function Grouping(xs: seq<Membership>): seq<Connection> {
    var ks := FirstSeen(xs, UserIdOf);
    seq(|ks|, i requires 0 <= i < |ks| => GroupOf(xs, ks[i]))
  }

  /** The accumulator of the `reduce` after the rows `xs`: its keys in
      insertion order, and each key's group. */
  ghost predicate GroupedSoFar(xs: seq<Membership>, order: seq<string>, acc: map<string, Connection>) {
    order == FirstSeen(xs, UserIdOf)
    && (forall k :: k in acc <==> k in order)
    && (forall k :: k in acc ==> acc[k] == GroupOf(xs, k))
  }

  /** `acc[userId] ||= { user, households: [] }` followed by the push. */
  function AddRow(acc: map<string, Connection>, m: Membership): map<string, Connection> {
    var k := m.user.id;
    var c := if k in acc then acc[k] else Connection(m.user, []);
    acc[k := Connection(c.user, c.households + [SharedOf(m)])]
  }

  /** The `reduce` over the connection rows, then `Object.values`. */
  method GroupConnections(connections: seq<Membership>) returns (result: seq<Connection>)
    ensures result == Grouping(connections)
  {
    var order: seq<string>, acc: map<string, Connection> := [], map[];
    for i := 0 to |connections|
      invariant GroupedSoFar(connections[..i], order, acc)
    {
      var m := connections[i];
      GroupedNext(connections, i, order, acc);
      acc := AddRow(acc, m);
      order := Note(order, m.user.id);
    }
    GroupedAll(connections, order, acc);
    result := Values(order, acc);
  }

  lemma GroupedNext(xs: seq<Membership>, i: nat, order: seq<string>, acc: map<string, Connection>)
    requires i < |xs| && GroupedSoFar(xs[..i], order, acc)
    ensures GroupedSoFar(xs[..i + 1], Note(order, xs[i].user.id), AddRow(acc, xs[i]))
  {
    GroupedStep(xs[..i], xs[i], order, acc);
    assert xs[..i + 1] == xs[..i] + [xs[i]];
  }

  lemma GroupedAll(xs: seq<Membership>, order: seq<string>, acc: map<string, Connection>)
    requires GroupedSoFar(xs[..|xs|], order, acc)
    ensures forall k :: k in order ==> k in acc
    ensures Values(order, acc) == Grouping(xs)
  {
    assert xs[..|xs|] == xs;
    ValuesAreGrouping(xs, order, acc);
  }

  /** `Object.values(acc)` in key order. */
  function Values(order: seq<string>, acc: map<string, Connection>): seq<Connection>
    requires forall k :: k in order ==> k in acc
  {
    seq(|order|, j requires 0 <= j < |order| => acc[order[j]])
  }

  lemma ValuesAreGrouping(xs: seq<Membership>, order: seq<string>, acc: map<string, Connection>)
    requires GroupedSoFar(xs, order, acc)
    ensures Values(order, acc) == Grouping(xs)
  {
  }

  /** One more row extends its user's group, creating it on the user's first
      row, and leaves the other groups alone. */
  lemma GroupedStep(xs: seq<Membership>, m: Membership, order: seq<string>, acc: map<string, Connection>)
    requires GroupedSoFar(xs, order, acc)
    ensures GroupedSoFar(xs + [m], Note(order, m.user.id), AddRow(acc, m))
  {
    var ys, k, after := xs + [m], m.user.id, AddRow(acc, m);
    FirstSeenSnoc(xs, m, UserIdOf);
    forall j | j in after
      ensures j in Map(ys, UserIdOf) && after[j] == GroupOf(ys, j)
    {
      if j != k {
        GroupOfOther(xs, m, j);
      } else if k in acc {
        GroupOfAgain(xs, m);
      } else {
        GroupOfFirst(xs, m);
      }
    }
  }

  lemma MapSnoc(xs: seq<Membership>, m: Membership)
    ensures Map(xs + [m], UserIdOf) == Map(xs, UserIdOf) + [m.user.id]
  {
    var a, b := Map(xs + [m], UserIdOf), Map(xs, UserIdOf) + [m.user.id];
    forall i | 0 <= i < |a|
      ensures a[i] == b[i]
    {
      if i < |xs| {
        assert (xs + [m])[i] == xs[i];
      }
    }
  }

  /** Another user's row leaves a user's group as it was. */
  lemma GroupOfOther(xs: seq<Membership>, m: Membership, j: string)
    requires j in Map(xs, UserIdOf) && j != m.user.id
    ensures j in Map(xs + [m], UserIdOf) && GroupOf(xs + [m], j) == GroupOf(xs, j)
  {
    MapSnoc(xs, m);
    WithKeyStep(xs, m, UserIdOf, j);
  }

  /** A further row of a user adds its household to the user's group. */
  lemma GroupOfAgain(xs: seq<Membership>, m: Membership)
    requires m.user.id in Map(xs, UserIdOf)
    ensures m.user.id in Map(xs + [m], UserIdOf)
    ensures GroupOf(xs + [m], m.user.id)
            == Connection(GroupOf(xs, m.user.id).user, GroupOf(xs, m.user.id).households + [SharedOf(m)])
  {
    var k := m.user.id;
    MapSnoc(xs, m);
    WithKeyStep(xs, m, UserIdOf, k);
    var mine := WithKey(xs, UserIdOf, k);
    PresentKey(xs, UserIdOf, k);
    WithKeyMeasures(xs, UserIdOf, k, One);
    assert Map(mine + [m], SharedOf) == Map(mine, SharedOf) + [SharedOf(m)];
  }

  /** The first row of a user starts the user's group. */
  lemma GroupOfFirst(xs: seq<Membership>, m: Membership)
    requires m.user.id !in Map(xs, UserIdOf)
    ensures m.user.id in Map(xs + [m], UserIdOf)
    ensures GroupOf(xs + [m], m.user.id) == Connection(m.user, [SharedOf(m)])
  {
    var k := m.user.id;
    MapSnoc(xs, m);
    WithKeyStep(xs, m, UserIdOf, k);
    WithKeyEmpty(xs, UserIdOf, k);
    assert WithKey(xs, UserIdOf, k) == [] by {
      forall x | x in xs
        ensures UserIdOf(x) != k
      {
        var i :| 0 <= i < |xs| && xs[i] == x;
        assert Map(xs, UserIdOf)[i] == UserIdOf(x);
      }
    }
    assert Map([m], SharedOf) == [SharedOf(m)];
  }

  /** The groups list every user of the rows once, each group is non-empty
      and holds exactly that user's rows, and together the groups hold one
      entry per row. */
  lemma {:induction false} GroupingMeaning(xs: seq<Membership>)
    ensures var r := Grouping(xs);
            && (forall i, j :: 0 <= i < j < |r| ==> r[i].user.id != r[j].user.id)
            && (forall u :: u in Map(xs, UserIdOf) <==> exists i :: 0 <= i < |r| && r[i].user.id == u)
            && (forall i :: 0 <= i < |r| ==>
                  (|r[i].households| >= 1 && r[i].households == Map(WithKey(xs, UserIdOf, r[i].user.id), SharedOf)))
            && Sum(r, Size) == |xs| as real
  {
    var r, ks := Grouping(xs), FirstSeen(xs, UserIdOf);
    forall i | 0 <= i < |r|
      ensures r[i].user.id == ks[i] && |r[i].households| >= 1
    {
      var mine := WithKey(xs, UserIdOf, ks[i]);
      PresentKey(xs, UserIdOf, ks[i]);
      WithKeyMeasures(xs, UserIdOf, ks[i], One);
      assert mine[0] in mine;
    }
    forall u | u in Map(xs, UserIdOf)
      ensures exists i :: 0 <= i < |r| && r[i].user.id == u
    {
      var i :| 0 <= i < |ks| && ks[i] == u;
      assert r[i].user.id == u;
    }
    GroupingSize(xs);
  }

  /** The groups hold one entry per row. */
  lemma GroupingSize(xs: seq<Membership>)
    ensures Sum(Grouping(xs), Size) == |xs| as real
  {
    var r, ks := Grouping(xs), FirstSeen(xs, UserIdOf);
    forall i | 0 <= i < |r|
      ensures Size(r[i]) == GroupCount(Groups(xs, UserIdOf, One)[i])
    {
      PresentKey(xs, UserIdOf, ks[i]);
      WithKeyMeasures(xs, UserIdOf, ks[i], One);
    }
    GroupsPartition(xs, UserIdOf, One);
    SumPointwise(r, Size, Groups(xs, UserIdOf, One), GroupCount);
  }

  /** No group is the signed-in user's, every household listed is one the
      signed-in user belongs to, and the groups hold one entry per row of
      the second query. */
  lemma ConnectionsMeaning(rows: seq<Membership>, me: string)
    ensures var r := Grouping(ConnectionRows(rows, me));
            && (forall c :: c in r ==> c.user.id != me)
            && (forall c, h :: c in r && h in c.households ==>
                  exists m :: m in rows && m.user.id == me && m.household.id == h.id)
            && Sum(r, Size) == |ConnectionRows(rows, me)| as real
  {
    var xs := ConnectionRows(rows, me);
    var r := Grouping(xs);
    GroupingMeaning(xs);
    ConnectionRowsMeaning(rows, me);
    forall c | c in r
      ensures c.user.id != me
      ensures forall h :: h in c.households ==> exists x :: x in xs && SharedOf(x) == h
    {
      GroupRows(xs, c);
    }
  }

  /** A group's user and its households come from rows of the grouped list. */
  lemma GroupRows(xs: seq<Membership>, c: Connection)
    requires c in Grouping(xs)
    ensures exists x :: x in xs && x.user == c.user
    ensures forall h :: h in c.households ==> exists x :: x in xs && SharedOf(x) == h
  {
    var r := Grouping(xs);
    var i :| 0 <= i < |r| && r[i] == c;
    var k := FirstSeen(xs, UserIdOf)[i];
    var mine := WithKey(xs, UserIdOf, k);
    PresentKey(xs, UserIdOf, k);
    WithKeyMeasures(xs, UserIdOf, k, One);
    assert mine[0] in mine;
    forall h | h in c.households
      ensures exists x :: x in xs && SharedOf(x) == h
    {
      var t :| 0 <= t < |mine| && Map(mine, SharedOf)[t] == h;
      assert mine[t] in mine;
    }
  }

  /** The rows of the second query are other users' rows in households
      the signed-in user belongs to. */
  lemma ConnectionRowsMeaning(rows: seq<Membership>, me: string)
    ensures forall x :: x in ConnectionRows(rows, me) ==>
              x.user.id != me && exists m :: m in rows && m.user.id == me && m.household.id == x.household.id
  {
    var ids := HouseholdIdsOf(rows, me);
    var mine := Filter(rows, IsUser(me));
    forall x | x in ConnectionRows(rows, me)
      ensures exists m :: m in rows && m.user.id == me && m.household.id == x.household.id
    {
      assert Shares(ids, me)(x);
      var s :| 0 <= s < |ids| && ids[s] == x.household.id;
      assert ids[s] == HouseholdIdOf(mine[s]);
      assert mine[s] in mine;
      assert IsUser(me)(mine[s]);
    }
  }

  // ---------------------------------------------------------------------
  // The handler

  datatype Response = Failure(status: int, error: string) | Success(connections: seq<Connection>)

  /** `handler(req, res)`: 401 without a session email or without a user
      for it, 405 for anything but GET, otherwise the grouped connections. */
  method Handle(sessionEmail: Option<string>, users: map<string, string>, httpMethod: string, rows: seq<Membership>)
    returns (res: Response)
    ensures (sessionEmail.None? || sessionEmail.value == "") ==> res == Failure(401, "Unauthorized")
    ensures sessionEmail.Some? && sessionEmail.value != "" && sessionEmail.value !in users ==>
              res == Failure(401, "User not found")
    ensures sessionEmail.Some? && sessionEmail.value != "" && sessionEmail.value in users && httpMethod != "GET" ==>
              res == Failure(405, "Method not allowed")
    ensures res.Success? <==> sessionEmail.Some? && sessionEmail.value != "" && sessionEmail.value in users && httpMethod == "GET"
    ensures res.Success? ==> res.connections == Grouping(ConnectionRows(rows, users[sessionEmail.value]))
  {
    if sessionEmail.None? || sessionEmail.value == "" {
      return Failure(401, "Unauthorized");
    }
    var email := sessionEmail.value;
    if email !in users {
      return Failure(401, "User not found");
    }
    if httpMethod != "GET" {
      return Failure(405, "Method not allowed");
    }
    var connections := ConnectionRows(rows, users[email]);
    var result := GroupConnections(connections);
    return Success(result);
  }
}

=== FILE: constants.dfy ===
/** The category list and the category badge colours of lib/constants.ts.
    Whether the page is in dark mode, when the caller does not say, is read
    from the document; that reading is the parameter `documentIsDark`. */
module Constants {
  import opened Wrappers

  /** `EXPENSE_CATEGORIES` */
  const ExpenseCategories: seq<string> := [
    "Housing", "Transportation", "Food", "Utilities", "Insurance",
    "Healthcare", "Debt", "Personal", "Entertainment", "Education",
    "Clothing", "Gifts/Donations", "Savings", "Travel", "Miscellaneous"
  ]

  /** The Tailwind classes of a badge in the light and the dark theme. */
  datatype ColorSet = ColorSet(light: string, dark: string)

  /** `colorMap` of `getCategoryColor` */
  const ColorMap: map<string, ColorSet> := map[
    "Housing" := ColorSet("bg-red-100 text-red-800", "bg-red-900/30 text-red-300"),
    "Transportation" := ColorSet("bg-blue-100 text-blue-800", "bg-blue-900/30 text-blue-300"),
    "Food" := ColorSet("bg-green-100 text-green-800", "bg-green-900/30 text-green-300"),
    "Utilities" := ColorSet("bg-yellow-100 text-yellow-800", "bg-yellow-900/30 text-yellow-300"),
    "Insurance" := ColorSet("bg-purple-100 text-purple-800", "bg-purple-900/30 text-purple-300"),
    "Healthcare" := ColorSet("bg-pink-100 text-pink-800", "bg-pink-900/30 text-pink-300"),
    "Debt" := ColorSet("bg-orange-100 text-orange-800", "bg-orange-900/30 text-orange-300"),
    "Personal" := ColorSet("bg-teal-100 text-teal-800", "bg-teal-900/30 text-teal-300"),
    "Entertainment" := ColorSet("bg-indigo-100 text-indigo-800", "bg-indigo-900/30 text-indigo-300"),
    "Education" := ColorSet("bg-cyan-100 text-cyan-800", "bg-cyan-900/30 text-cyan-300"),
    "Clothing" := ColorSet("bg-lime-100 text-lime-800", "bg-lime-900/30 text-lime-300"),
    "Gifts/Donations" := ColorSet("bg-rose-100 text-rose-800", "bg-rose-900/30 text-rose-300"),
    "Savings" := ColorSet("bg-emerald-100 text-emerald-800", "bg-emerald-900/30 text-emerald-300"),
    "Travel" := ColorSet("bg-violet-100 text-violet-800", "bg-violet-900/30 text-violet-300"),
    "Miscellaneous" := ColorSet("bg-gray-100 text-gray-800", "bg-gray-700 text-gray-300")
  ]

  /** `darkMode`: the explicit flag when given, the document's theme
      otherwise. */
  function DarkMode(isDarkMode: Option<bool>, documentIsDark: bool): bool {
    if isDarkMode.Some? then isDarkMode.value else documentIsDark
  }

  /** `getCategoryColor(category, isDarkMode)`: the badge of a listed
      category, the Miscellaneous badge for any other, in the theme chosen.
      Whatever the category, the result is the badge of a listed one. */
  function GetCategoryColor(category: string, isDarkMode: Option<bool>, documentIsDark: bool): (c: string)
    ensures exists listed :: listed in ExpenseCategories && listed in ColorMap
              && c == (if DarkMode(isDarkMode, documentIsDark) then ColorMap[listed].dark else ColorMap[listed].light)
  {
    var colorSet := if category in ColorMap then ColorMap[category] else ColorMap["Miscellaneous"];
    var listed := if category in ColorMap then category else "Miscellaneous";
    assert listed in ExpenseCategories by { KeysAreCategories(); }
    if DarkMode(isDarkMode, documentIsDark) then colorSet.dark else colorSet.light
  }

  /** The colour map has an entry for exactly the listed categories. */
  lemma KeysAreCategories()
    ensures forall c :: c in ColorMap <==> c in ExpenseCategories
  {
  }

  /** The list holds 15 different categories. */
  lemma CategoriesDistinct()
    ensures |ExpenseCategories| == 15
    ensures forall i, j :: 0 <= i < j < |ExpenseCategories| ==> ExpenseCategories[i] != ExpenseCategories[j]
  {
  }

  /** A category that is not listed is shown like "Miscellaneous"; a listed
      one keeps its own badge. */
  lemma UnknownFallsBack(category: string, isDarkMode: Option<bool>, documentIsDark: bool)
    ensures category !in ExpenseCategories ==>
              GetCategoryColor(category, isDarkMode, documentIsDark)
              == GetCategoryColor("Miscellaneous", isDarkMode, documentIsDark)
    ensures category in ExpenseCategories ==>
              GetCategoryColor(category, isDarkMode, documentIsDark)
              == (if DarkMode(isDarkMode, documentIsDark) then ColorMap[category].dark else ColorMap[category].light)
  {
    KeysAreCategories();
  }

  /** An explicit flag decides the theme whatever the document says. */
  lemma ExplicitModeWins(category: string, dark: bool, documentIsDark: bool)
    ensures GetCategoryColor(category, Some(dark), documentIsDark) == GetCategoryColor(category, Some(dark), !documentIsDark)
    ensures GetCategoryColor(category, Some(dark), documentIsDark) == GetCategoryColor(category, None, dark)
  {
  }

  /** No badge is the same in both themes. */
  lemma ThemesDiffer(a: string)
    requires a in ColorMap
    ensures ColorMap[a].light != ColorMap[a].dark
  {
  }

  /** Different listed categories get different badges in the light theme. */
  lemma LightColorsDistinct(a: string, b: string)
    requires a in ColorMap && b in ColorMap && a != b
    ensures ColorMap[a].light != ColorMap[b].light
  {
  }

  /** Different listed categories get different badges in the dark theme. */
  lemma DarkColorsDistinct(a: string, b: string)
    requires a in ColorMap && b in ColorMap && a != b
    ensures ColorMap[a].dark != ColorMap[b].dark
  {
  }
}

=== FILE: enhanced_dashboard.dfy ===
/** The home dashboard with a budget bar (app/_components/EnhancedDashboard.tsx):
    the effect that derives this month's total, the budget progress, the
    five most recent expenses, the five largest categories and the monthly
    chart, and the colour of the progress bar. `new Date()` is the
    parameter `today`. */
module EnhancedDashboard {
  import opened Agg
  import opened Sorting
  import opened Calendar
  import opened Expenses
  import opened Store
  import opened Ranking

  /** The budget limit: initialised to 2000 and never changed. */
  const MonthlyLimit: real := 2000.0

  /** `getMonth() === currentMonth && getFullYear() === currentYear` */
  function ThisMonth(today: Date): Expense -> bool {
    (x: Expense) => x.date.month == today.month && x.date.year == today.year
  }

  /** The total of the expenses dated in today's month and year. */
  function MonthTotal(expenses: seq<Expense>, today: Date): real {
    Sum(Filter(expenses, ThisMonth(today)), Amount)
  }

  /** Only expenses of the current month and year count: adding one from
      another month leaves the total unchanged, adding one from this month
      adds its amount. */
  lemma MonthTotalStep(expenses: seq<Expense>, x: Expense, today: Date)
    ensures MonthTotal(expenses + [x], today)
            == MonthTotal(expenses, today)
               + (if x.date.month == today.month && x.date.year == today.year then x.amount else 0.0)
  {
    var ys := expenses + [x];
    assert ys[..|ys| - 1] == expenses;
    if ThisMonth(today)(x) {
      SumAppend(Filter(expenses, ThisMonth(today)), [x], Amount);
      assert Sum([x], Amount) == x.amount by { assert [x][..0] == []; }
    }
  }

  /** With positive amounts the month total lies between 0 and the total
      of all expenses. */
  lemma MonthTotalBounds(expenses: seq<Expense>, today: Date)
    requires AllPositive(expenses)
    ensures 0.0 <= MonthTotal(expenses, today) <= TotalAmount(expenses)
  {
    FilterSum(expenses, ThisMonth(today), Amount);
  }

  /** `Math.min((monthTotal / monthlyLimit) * 100, 100)` */
  function Progress(total: real): (p: real)
    ensures p <= 100.0
    ensures p == 100.0 <==> total >= MonthlyLimit
    ensures total < MonthlyLimit ==> p * MonthlyLimit == total * 100.0
    ensures total >= 0.0 ==> p >= 0.0
  {
    if total / MonthlyLimit * 100.0 < 100.0 then total / MonthlyLimit * 100.0 else 100.0
  }

  datatype BarColor = Green | Yellow | Red

  /** The class of the progress bar: above 85 red, above 65 yellow. */
  function ProgressColor(progress: real): BarColor {
    if progress > 85.0 then Red else if progress > 65.0 then Yellow else Green
  }

  function Severity(c: BarColor): int {
    match c
    case Green => 0
    case Yellow => 1
    case Red => 2
  }

  /** The colour only gets more severe as spending grows: red from 1700
      spent, yellow from 1300, green below. */
  lemma ColorOfTotal(total: real, more: real)
    requires total <= more
    ensures Severity(ProgressColor(Progress(total))) <= Severity(ProgressColor(Progress(more)))
    ensures ProgressColor(Progress(total)) == Red <==> total > 1700.0
    ensures ProgressColor(Progress(total)) == Yellow <==> 1300.0 < total <= 1700.0
    ensures ProgressColor(Progress(total)) == Green <==> total <= 1300.0
  {
  }

  /** `sort` newest first, `slice(0, 5)` */
  function Recent(expenses: seq<Expense>): seq<Expense> {
    Take(NewestFirst(expenses), 5)
  }

  /** The recent list holds five expenses, or all of them, newest first, and
      no expense left out is newer than the last one shown. */
  lemma RecentMeaning(expenses: seq<Expense>)
    ensures var r := Recent(expenses);
            && |r| == (if |expenses| <= 5 then |expenses| else 5)
            && (forall x :: x in r ==> x in expenses)
            && (forall i, j :: 0 <= i < j < |r| ==> DayOf(r[i]) >= DayOf(r[j]))
            && (forall x :: x in expenses && x !in r ==> |r| == 5 && DayOf(x) <= DayOf(r[4]))
  {
    var sorted := NewestFirst(expenses);
    var r := Recent(expenses);
    NewestFirstCorrect(expenses);
    NewestTake(expenses, 5);
    forall x | x in expenses && x !in r
      ensures |r| == 5 && DayOf(x) <= DayOf(r[4])
    {
      assert x in multiset(sorted);
      var k :| 0 <= k < |sorted| && sorted[k] == x;
      assert k >= |r| by {
        assert forall b :: 0 <= b < |r| ==> r[b] == sorted[b] && r[b] in r;
      }
      assert r[4] == sorted[4];
    }
  }

  /** `categoryData`: the five largest categories. */
  function TopCategories(expenses: seq<Expense>): seq<Entry<string>> {
    Top(expenses, Category, Amount, 5)
  }

  /** The month name of an expense, year dropped (`toLocaleString` with
      only `month: 'short'`); `MonthNames[m - 1]` is the label. */
  function MonthOfYear(x: Expense): int {
    x.date.month
  }

  /** `Object.entries(monthlyTotals).slice(-6)`: the last six month names
      in first-seen order. */
  function MonthlyChart(expenses: seq<Expense>): seq<Entry<int>> {
    TakeLast(Totals(expenses, MonthOfYear, Amount), 6)
  }

  /** The chart has at most six bars, each month name once; a bar sums
      every expense of that month name, whatever its year, and the bars are
      the last ones of the first-seen order. */
  lemma MonthlyChartMeaning(expenses: seq<Expense>)
    ensures var c := MonthlyChart(expenses);
            var ts := Totals(expenses, MonthOfYear, Amount);
            && |c| <= 6
            && c == ts[|ts| - |c|..]
            && (|ts| > 6 ==> |c| == 6)
            && (forall i, j :: 0 <= i < j < |c| ==> c[i].key != c[j].key)
            && (forall b :: b in c ==> b.value == SumKey(expenses, MonthOfYear, b.key, Amount))
  {
    var ts := Totals(expenses, MonthOfYear, Amount);
    TotalsKeys(expenses, MonthOfYear, Amount);
    SuffixEntries(ts, 6);
    forall b | b in ts
      ensures b.value == SumKey(expenses, MonthOfYear, b.key, Amount)
    {
      var i :| 0 <= i < |ts| && ts[i] == b;
    }
  }

  /** The last `n` entries of a list with distinct keys have distinct keys,
      and each is one of the list's. */
  lemma SuffixEntries<K>(ts: seq<Entry<K>>, n: nat)
    requires forall i, j :: 0 <= i < j < |ts| ==> ts[i].key != ts[j].key
    ensures var c := TakeLast(ts, n);
            && (forall i, j :: 0 <= i < j < |c| ==> c[i].key != c[j].key)
            && (forall b :: b in c ==> b in ts)
  {
    var c := TakeLast(ts, n);
    forall i, j | 0 <= i < j < |c|
      ensures c[i].key != c[j].key
    {
      assert c[i] == ts[|ts| - |c| + i] && c[j] == ts[|ts| - |c| + j];
    }
  }

  /** The state the effect writes. */
  class Dashboard {
    var totalThisMonth: real
    var monthlyProgress: real
    var recentExpenses: seq<Expense>
    var topCategories: seq<Entry<string>>
    var monthlyData: seq<Entry<int>>

    constructor()
      ensures totalThisMonth == 0.0 && monthlyProgress == 0.0
      ensures recentExpenses == [] && topCategories == [] && monthlyData == []
    {
      totalThisMonth, monthlyProgress := 0.0, 0.0;
      recentExpenses, topCategories, monthlyData := [], [], [];
    }

    /** The effect: nothing happens without expenses; otherwise every field
        is recomputed from them. */
    method Refresh(expenses: seq<Expense>, today: Date)
      modifies this
      ensures |expenses| == 0 ==>
                totalThisMonth == old(totalThisMonth) && monthlyProgress == old(monthlyProgress)
                && recentExpenses == old(recentExpenses) && topCategories == old(topCategories)
                && monthlyData == old(monthlyData)
      ensures |expenses| > 0 ==>
                totalThisMonth == MonthTotal(expenses, today) && monthlyProgress == Progress(totalThisMonth)
                && recentExpenses == Recent(expenses) && topCategories == TopCategories(expenses)
                && monthlyData == MonthlyChart(expenses)
    {
      if |expenses| > 0 {
        var monthTotal := MonthTotal(expenses, today);
        totalThisMonth := monthTotal;
        monthlyProgress := if monthTotal / MonthlyLimit * 100.0 < 100.0 then monthTotal / MonthlyLimit * 100.0 else 100.0;
        recentExpenses := Recent(expenses);
        topCategories := TopCategories(expenses);
        monthlyData := MonthlyChart(expenses);
      }
    }
  }
}

=== FILE: expense_insights.dfy ===
/** The per-expense insights endpoint (pages/api/advice/expense-insights.ts).
    After the request checks shared by the advice endpoints it builds a list
    of insights about one expense in five steps: a comparison with similar
    expenses of the category, weekday and frequency habits at a meal place,
    the expense's share of its month, the category's projected monthly
    spending against the previous months, and a generic closing insight
    when none of these applied. An insight is the data its sentence is
    formatted from. */
module ExpenseInsights {
  import opened Wrappers
  import opened Text
  import opened Numbers
  import opened Agg
  import opened Sorting
  import opened Calendar
  import opened Expenses
  import opened Store

  datatype Insight =
    // 1. against similar expenses of the category
    | AboveSimilar(category: string, percent: int, average: real)
    | BelowSimilar(category: string, percent: int, average: real)
    | LikeSimilar(category: string, average: real)
    // 2. habits at a meal place
    | CheaperOnWeekday(place: string, weekday: int, dayAverage: real, average: real)
    | PricierOnWeekday(place: string, weekday: int, dayAverage: real, average: real)
    | VisitEvery(place: string, days: int, monthlySpend: real)
    // 3. share of the month
    | CategoryShare(percent: int, category: string)
    | MonthShare(percent: int)
    // 4. trend of the category
    | OnTrack(category: string, projected: real, percent: int, average: real)
    // 5. generic
    | Significant(category: string)
    | KeepTracking

  // ---------------------------------------------------------------------
  // 1. Similar expenses

  /** `category` equal, `description` containing the first word, `id` not
      the expense's. */
  function SimilarInCategory(e: Expense): Expense -> bool {
    (x: Expense) => x.category == e.category && MentionsFirstWord(x, e) && x.id != e.id
  }

  /** The ten newest similar expenses. */
  function SimilarPeers(mine: seq<Expense>, e: Expense): seq<Expense> {
    Take(NewestFirst(Filter(mine, SimilarInCategory(e))), 10)
  }

  /** The comparison sentence for a positive average: more than 20% above
      it, more than 20% below it, or in line with it. */
  function Comparison(e: Expense, average: real): Insight
    requires average > 0.0
  {
    if e.amount > average * 1.2 then AboveSimilar(e.category, Round((e.amount / average - 1.0) * 100.0), average)
    else if e.amount < average * 0.8 then BelowSimilar(e.category, Round((1.0 - e.amount / average) * 100.0), average)
    else LikeSimilar(e.category, average)
  }

  lemma PeersPositive(mine: seq<Expense>, e: Expense)
    requires AllPositive(mine)
    ensures AllPositive(SimilarPeers(mine, e))
    ensures |SimilarPeers(mine, e)| > 0 ==> Mean(SimilarPeers(mine, e), Amount) > 0.0
  {
    NewestPositive(mine, Filter(mine, SimilarInCategory(e)), 10);
    MeanPositive(SimilarPeers(mine, e), Amount);
  }

  function SimilarInsights(e: Expense, mine: seq<Expense>): (r: seq<Insight>)
    requires AllPositive(mine)
    ensures |r| <= 1
    ensures forall i :: i in r ==> i.AboveSimilar? || i.BelowSimilar? || i.LikeSimilar?
  {
    var peers := SimilarPeers(mine, e);
    PeersPositive(mine, e);
    if |peers| == 0 then [] else [Comparison(e, Mean(peers, Amount))]
  }

  /** The three comparison cases split the amounts at 80% and 120% of the
      average, and the rounded percentages are those beyond the bounds: at
      least 20 above, and between 20 and 100 below. */
  lemma ComparisonMeaning(e: Expense, average: real)
    requires average > 0.0 && e.amount > 0.0
    ensures var c := Comparison(e, average);
            c.average == average && c.category == e.category
            && (c.AboveSimilar? <==> e.amount > average * 1.2)
            && (c.BelowSimilar? <==> e.amount < average * 0.8)
            && (c.LikeSimilar? <==> average * 0.8 <= e.amount <= average * 1.2)
            && (c.AboveSimilar? ==> c.percent >= 20)
            && (c.BelowSimilar? ==> 20 <= c.percent <= 100)
  {
    var r := e.amount / average;
    assert r * average == e.amount;
    ScaleOrder(1.2, r, average);
    ScaleOrder(r, 0.8, average);
    ScaleOrder(0.0, r, average);
    if e.amount > average * 1.2 {
      assert (r - 1.0) * 100.0 > 20.0;
    } else if e.amount < average * 0.8 {
      assert 20.0 < (1.0 - r) * 100.0 < 100.0;
    }
  }

  /** One comparison exactly when some other expense of the category
      mentions the first word of the description; its average is the mean
      of the ten newest such expenses. */
  lemma SimilarMeaning(e: Expense, mine: seq<Expense>)
    requires AllPositive(mine)
    ensures var r := SimilarInsights(e, mine);
            (|r| == 1 <==> exists x :: x in mine && x.category == e.category && MentionsFirstWord(x, e) && x.id != e.id)
            && (|r| == 1 ==> r[0].average == Mean(SimilarPeers(mine, e), Amount) && r[0].average > 0.0)
  {
    var matching := Filter(mine, SimilarInCategory(e));
    NewestTake(matching, 10);
    PeersPositive(mine, e);
    if x :| x in mine && x.category == e.category && MentionsFirstWord(x, e) && x.id != e.id {
      assert SimilarInCategory(e)(x);
      assert x in matching;
    }
    if |matching| > 0 {
      assert matching[0] in matching;
    }
  }

  // ---------------------------------------------------------------------
  // 2. Meal places

  const MealWords: seq<string> := ["lunch", "coffee", "breakfast", "dinner"]

  predicate IsMeal(description: string) {
    Mentions(ToLower(description), MealWords)
  }

  /** `description` equal, `id` not the expense's. */
  function SamePlaceOther(e: Expense): Expense -> bool {
    (x: Expense) => x.description == e.description && x.id != e.id
  }

  /** The ten newest other visits to the same place. */
  function SamePlace(mine: seq<Expense>, e: Expense): seq<Expense> {
    Take(NewestFirst(Filter(mine, SamePlaceOther(e))), 10)
  }

  /** The visits on the expense's weekday (the weekday names compared in
      the source name the same day exactly when the weekdays are equal). */
  function SameWeekday(e: Expense, visits: seq<Expense>): seq<Expense> {
    WithKey(visits, WeekdayOf, Weekday(e.date))
  }

  /** With two or more visits on the expense's weekday, their mean against
      the overall mean: below 90%, above 110%, or nothing to say. */
  function DayInsights(e: Expense, visits: seq<Expense>, average: real): (r: seq<Insight>)
    ensures |r| <= 1
    ensures forall i :: i in r ==> i.CheaperOnWeekday? || i.PricierOnWeekday?
  {
    var sameDay := SameWeekday(e, visits);
    if |sameDay| < 2 then []
    else
      var dayAverage := Mean(sameDay, Amount);
      if dayAverage < average * 0.9 then [CheaperOnWeekday(e.description, Weekday(e.date), dayAverage, average)]
      else if dayAverage > average * 1.1 then [PricierOnWeekday(e.description, Weekday(e.date), dayAverage, average)]
      else []
  }

  /** Whole days from the oldest of the visits (the last, newest first) to
      the expense. */
  function DaysSinceOldest(e: Expense, visits: seq<Expense>): int
    requires |visits| > 0
  {
    DayNumber(e.date) - DayNumber(visits[|visits| - 1].date)
  }

  /** The days between visits, counting the expense as one more visit. */
  function VisitGap(days: int, visits: nat): real {
    days as real / (visits + 1) as real
  }

  /** The frequency test as written: a gap under a week, at four or more
      earlier visits. */
  predicate FrequencyReportedAsWritten(days: int, visits: nat) {
    VisitGap(days, visits) < 7.0 && visits >= 4
  }

  /** The frequency test as intended: the gap must also be positive, since
      the monthly spending divides by it. */
  predicate FrequencyReported(days: int, visits: nat) {
    0.0 < VisitGap(days, visits) < 7.0 && visits >= 4
  }

  function FrequencyInsights(e: Expense, visits: seq<Expense>, average: real): (r: seq<Insight>)
    requires |visits| > 0
    ensures |r| <= 1
    ensures forall i :: i in r ==> i.VisitEvery?
  {
    var days := DaysSinceOldest(e, visits);
    var gap := VisitGap(days, |visits|);
    if FrequencyReported(days, |visits|) then [VisitEvery(e.description, Round(gap), average * 30.0 / gap)] else []
  }

  lemma PlacePositive(mine: seq<Expense>, e: Expense)
    requires AllPositive(mine)
    ensures AllPositive(SamePlace(mine, e))
    ensures |SamePlace(mine, e)| > 0 ==> Mean(SamePlace(mine, e), Amount) > 0.0
  {
    NewestPositive(mine, Filter(mine, SamePlaceOther(e)), 10);
    MeanPositive(SamePlace(mine, e), Amount);
  }

  function MealInsights(e: Expense, mine: seq<Expense>): (r: seq<Insight>)
    ensures |r| <= 2
    ensures forall i :: i in r ==> i.CheaperOnWeekday? || i.PricierOnWeekday? || i.VisitEvery?
  {
    if !IsMeal(e.description) then []
    else
      var visits := SamePlace(mine, e);
      if |visits| < 3 then []
      else
        var average := Mean(visits, Amount);
        DayInsights(e, visits, average) + FrequencyInsights(e, visits, average)
  }

  /** The weekday insights: a cheaper day exactly when at least two visits
      fell on the expense's weekday and their mean is under 90% of the mean
      of all visits, a pricier day exactly when it is over 110%. */
  lemma DayInsightsMeaning(e: Expense, visits: seq<Expense>, average: real)
    requires average >= 0.0
    ensures var r := DayInsights(e, visits, average);
            var sameDay := SameWeekday(e, visits);
            (|r| == 1 && r[0].CheaperOnWeekday? <==> |sameDay| >= 2 && Mean(sameDay, Amount) < average * 0.9)
            && (|r| == 1 && r[0].PricierOnWeekday? <==> |sameDay| >= 2 && Mean(sameDay, Amount) > average * 1.1)
            && (|r| == 1 ==> r[0].dayAverage == Mean(sameDay, Amount) && r[0].average == average
                             && r[0].weekday == Weekday(e.date))
            && (forall x :: x in sameDay ==> x in visits && WeekdayOf(x) == Weekday(e.date))
  {
    WithKeyMeasures(visits, WeekdayOf, Weekday(e.date), Amount);
  }

  /** A reported visit frequency has a gap of more than zero and less than a
      week, rounded to 0..7 days, and a monthly spending above 30/7 times the
      average visit: the spending of a month of weekly visits. The expense
      is then later than the oldest visit. */
  lemma FrequencyMeaning(e: Expense, visits: seq<Expense>, average: real)
    requires |visits| > 0 && average > 0.0
    ensures var r := FrequencyInsights(e, visits, average);
            (|r| == 1 <==> FrequencyReported(DaysSinceOldest(e, visits), |visits|))
            && (|r| == 1 ==> 0 <= r[0].days <= 7 && r[0].monthlySpend > average * 30.0 / 7.0
                             && |visits| >= 4 && DayNumber(e.date) > DayNumber(visits[|visits| - 1].date))
  {
    var days := DaysSinceOldest(e, visits);
    if FrequencyReported(days, |visits|) {
      GapFacts(days, |visits|, average);
    }
  }

  /** A gap strictly between zero and a week comes from a positive number
      of days, rounds to 0..7, and gives a monthly spending above that of
      weekly visits. */
  lemma GapFacts(days: int, visits: nat, average: real)
    requires average > 0.0 && 0.0 < VisitGap(days, visits) < 7.0
    ensures days > 0
    ensures 0 <= Round(VisitGap(days, visits)) <= 7
    ensures average * 30.0 / VisitGap(days, visits) > average * 30.0 / 7.0
  {
    PositiveQuotient(days, (visits + 1) as real);
    ReciprocalOrder(average * 30.0, VisitGap(days, visits), 7.0);
  }

  /** A positive quotient by a positive divisor has a positive dividend. */
  lemma PositiveQuotient(days: int, n: real)
    requires n > 0.0 && days as real / n > 0.0
    ensures days > 0
  {
    var q := days as real / n;
    assert q * n == days as real;
    if days <= 0 {
      ScaleOrder(0.0, q, n);
    }
  }

  /** Dividing a positive number by the smaller of two positive divisors
      gives the larger quotient. */
  lemma ReciprocalOrder(a: real, g: real, h: real)
    requires a > 0.0 && 0.0 < g < h
    ensures a / g > a / h
  {
    var u, v := a / g, a / h;
    assert u * g == a;
    assert v * h == a;
    assert u > 0.0 by {
      if u <= 0.0 {
        ScaleOrder(0.0, g, -u);
      }
    }
    ScaleOrder(g, h, u);
    ScaleOrder(v, u, h);
  }

  /** The meal insights need a meal word in the description and three or
      more earlier visits to the same place; their averages are those of the
      ten newest visits. */
  lemma MealMeaning(e: Expense, mine: seq<Expense>)
    requires AllPositive(mine)
    ensures var r := MealInsights(e, mine);
            var visits := SamePlace(mine, e);
            (|r| > 0 ==> IsMeal(e.description) && |visits| >= 3)
            && (forall i :: i in r && !i.VisitEvery? ==> i.average == Mean(visits, Amount) && i.place == e.description)
            && (forall x :: x in visits ==> x in mine && x.description == e.description && x.id != e.id)
  {
    var visits := SamePlace(mine, e);
    NewestTake(Filter(mine, SamePlaceOther(e)), 10);
    if IsMeal(e.description) && |visits| >= 3 {
      PlacePositive(mine, e);
      DayInsightsMeaning(e, visits, Mean(visits, Amount));
    }
  }

  // ---------------------------------------------------------------------
  // 3. Share of the month

  /** The category's total in the expense's month. */
  function CategoryMonthTotal(e: Expense, mine: seq<Expense>): real {
    TotalAmount(Filter(InMonthOf(mine, e.date), CategoryIs(e.category)))
  }

  /** The two share insights of an expense over 100: more than 50% of the
      category's month, more than 15% of the whole month. */
  function ShareInsights(category: string, amount: real, categoryTotal: real, total: real): (r: seq<Insight>)
    requires categoryTotal > 0.0 && total > 0.0
    ensures |r| <= 2
    ensures forall i :: i in r ==> i.CategoryShare? || i.MonthShare?
  {
    var categoryPercentage := amount / categoryTotal * 100.0;
    var totalPercentage := amount / total * 100.0;
    (if categoryPercentage > 50.0 && amount > 100.0 then [CategoryShare(Round(categoryPercentage), category)] else [])
    + (if totalPercentage > 15.0 && amount > 100.0 then [MonthShare(Round(totalPercentage))] else [])
  }

  function MonthInsights(e: Expense, mine: seq<Expense>): (r: seq<Insight>)
    requires AllPositive(mine) && e in mine
    ensures |r| <= 2
    ensures forall i :: i in r ==> i.CategoryShare? || i.MonthShare?
  {
    MonthSums(mine, e);
    ShareInsights(e.category, e.amount, CategoryMonthTotal(e, mine), TotalAmount(InMonthOf(mine, e.date)))
  }

  /** An expense over 100 is reported when it is more than half of its
      category's total, with a rounded share of 50..100%, and when it is more
      than 15% of the whole total, with a rounded share of 15..100%. */
  lemma ShareMeaning(category: string, amount: real, categoryTotal: real, total: real)
    requires 0.0 < amount <= categoryTotal <= total
    ensures var r := ShareInsights(category, amount, categoryTotal, total);
            ((exists i :: i in r && i.CategoryShare?) <==> amount > 100.0 && amount > categoryTotal * 0.5)
            && ((exists i :: i in r && i.MonthShare?) <==> amount > 100.0 && amount > total * 0.15)
            && (forall i :: i in r && i.CategoryShare? ==> 50 <= i.percent <= 100 && i.category == category)
            && (forall i :: i in r && i.MonthShare? ==> 15 <= i.percent <= 100)
  {
    var r := ShareInsights(category, amount, categoryTotal, total);
    ShareBounds(amount, categoryTotal);
    ShareBounds(amount, total);
    ShareAbove(amount, categoryTotal, 50.0);
    ShareAbove(amount, total, 15.0);
    var first := if amount / categoryTotal * 100.0 > 50.0 && amount > 100.0 then 1 else 0;
    if first == 1 {
      assert r[0].CategoryShare?;
    }
    if amount / total * 100.0 > 15.0 && amount > 100.0 {
      assert r[first].MonthShare?;
    }
  }

  /** The same for the expense's month: the expense counts in both totals,
      so both shares are defined. */
  lemma MonthMeaning(e: Expense, mine: seq<Expense>)
    requires AllPositive(mine) && e in mine
    ensures var r := MonthInsights(e, mine);
            var categoryTotal := CategoryMonthTotal(e, mine);
            var total := TotalAmount(InMonthOf(mine, e.date));
            ((exists i :: i in r && i.CategoryShare?) <==> e.amount > 100.0 && e.amount > categoryTotal * 0.5)
            && ((exists i :: i in r && i.MonthShare?) <==> e.amount > 100.0 && e.amount > total * 0.15)
            && (forall i :: i in r && i.CategoryShare? ==> 50 <= i.percent <= 100 && i.category == e.category)
            && (forall i :: i in r && i.MonthShare? ==> 15 <= i.percent <= 100)
  {
    MonthSums(mine, e);
    assert e.amount > 0.0 by {
      var k :| 0 <= k < |mine| && mine[k] == e;
    }
    ShareMeaning(e.category, e.amount, CategoryMonthTotal(e, mine), TotalAmount(InMonthOf(mine, e.date)));
  }

  /** A share of a positive whole is over `p` percent exactly when the part
      is over `p`/100 of the whole. */
  lemma ShareAbove(part: real, whole: real, p: real)
    requires whole > 0.0
    ensures part / whole * 100.0 > p <==> part > whole * (p / 100.0)
  {
    var r := part / whole;
    assert r * whole == part;
    ScaleOrder(p / 100.0, r, whole);
  }

  // ---------------------------------------------------------------------
  // 4. Trend of the category

  /** `category` equal, `date` on or after the start of the month five
      months before the expense's; later months are not excluded. */
  function InTrendWindow(e: Expense): Expense -> bool {
    (x: Expense) => x.category == e.category && MonthIndex(x.date) >= MonthIndex(e.date) - 5
  }

  function TrendWindow(mine: seq<Expense>, e: Expense): seq<Expense> {
    Filter(mine, InTrendWindow(e))
  }

  /** The month entries of a key other than `m`. The source compares
      "yyyy-MM" keys, which are equal exactly when the months are (see
      `Expenses.MonthKeyOfOrder`). */
  function EntryKeyIsNot(m: int): Entry<int> -> bool {
    (en: Entry<int>) => en.key != m
  }

  /** The monthly totals of the window other than the expense's month. */
  function OtherMonths(mine: seq<Expense>, e: Expense): seq<Entry<int>> {
    Filter(Totals(TrendWindow(mine, e), MonthOf, Amount), EntryKeyIsNot(MonthOf(e)))
  }

  /** The month's spending so far, scaled from the expense's day of the
      month to the whole month. */
  function Projected(categoryTotal: real, d: Date): real
    requires ValidDate(d)
  {
    categoryTotal / d.day as real * DaysInMonth(d.year, d.month) as real
  }

  /** The other months of the window each carry a positive total. */
  lemma OtherMonthsPositive(mine: seq<Expense>, e: Expense)
    requires AllPositive(mine)
    ensures forall k :: 0 <= k < |OtherMonths(mine, e)| ==> OtherMonths(mine, e)[k].value > 0.0
    ensures |OtherMonths(mine, e)| > 0 ==> Sum(OtherMonths(mine, e), EntryValue) > 0.0
  {
    var window := TrendWindow(mine, e);
    var others := OtherMonths(mine, e);
    var all := Totals(window, MonthOf, Amount);
    SubsetPositive(mine, window);
    forall k | 0 <= k < |others|
      ensures others[k].value > 0.0
    {
      assert others[k] in all;
      var j :| 0 <= j < |all| && all[j] == others[k];
      SumKeyPositive(window, MonthOf, FirstSeen(window, MonthOf)[j], Amount);
    }
    SumPositive(others, EntryValue);
  }

  /** With `count` other months summing to `sum`, a projection over 130% of
      their average is reported. */
  function TrendVerdict(category: string, projected: real, sum: real, count: nat): (r: seq<Insight>)
    requires count > 0 ==> sum > 0.0
    ensures |r| <= 1
    ensures forall i :: i in r ==> i.OnTrack?
  {
    if count == 0 then []
    else
      var historical := sum / count as real;
      if projected > historical * 1.3 then [OnTrack(category, projected, Round((projected / historical - 1.0) * 100.0), historical)]
      else []
  }

  function TrendInsights(e: Expense, mine: seq<Expense>): (r: seq<Insight>)
    requires AllPositive(mine) && ValidDate(e.date)
    ensures |r| <= 1
    ensures forall i :: i in r ==> i.OnTrack?
  {
    var others := OtherMonths(mine, e);
    OtherMonthsPositive(mine, e);
    TrendVerdict(e.category, Projected(CategoryMonthTotal(e, mine), e.date), Sum(others, EntryValue), |others|)
  }

  /** A projection is reported exactly when there are other months and it
      exceeds their average by more than 30%; the average is positive and
      the reported excess, rounded, at least 30%. */
  lemma VerdictMeaning(category: string, projected: real, sum: real, count: nat)
    requires count > 0 ==> sum > 0.0
    ensures var r := TrendVerdict(category, projected, sum, count);
            (|r| == 1 <==> count > 0 && projected > sum / count as real * 1.3)
            && (|r| == 1 ==> r[0].average == sum / count as real && r[0].average > 0.0
                             && r[0].projected == projected && r[0].percent >= 30)
  {
    if count > 0 {
      var historical := sum / count as real;
      assert historical > 0.0;
      var rate := projected / historical;
      assert rate * historical == projected;
      ScaleOrder(1.3, rate, historical);
    }
  }

  /** The projection of a month's spending so far is never below it. */
  lemma ProjectionAtLeast(total: real, d: Date)
    requires total >= 0.0 && ValidDate(d)
    ensures Projected(total, d) >= total
  {
    var perDay := total / d.day as real;
    assert perDay * d.day as real == total;
    assert perDay >= 0.0 by {
      if perDay < 0.0 {
        ScaleOrder(perDay, 0.0, d.day as real);
      }
    }
    assert Projected(total, d) == perDay * DaysInMonth(d.year, d.month) as real;
    assert perDay * DaysInMonth(d.year, d.month) as real >= perDay * d.day as real;
  }

  /** Each other month of the window appears with its total, and lies
      within the window's months. */
  lemma OtherMonthsTotals(mine: seq<Expense>, e: Expense)
    ensures var others := OtherMonths(mine, e);
            forall k :: 0 <= k < |others| ==>
              others[k].key != MonthOf(e) && others[k].key >= MonthOf(e) - 5
              && others[k].value == SumKey(TrendWindow(mine, e), MonthOf, others[k].key, Amount)
  {
    var window := TrendWindow(mine, e);
    var all := Totals(window, MonthOf, Amount);
    var others := OtherMonths(mine, e);
    forall k | 0 <= k < |others|
      ensures others[k].key != MonthOf(e) && others[k].key >= MonthOf(e) - 5
      ensures others[k].value == SumKey(window, MonthOf, others[k].key, Amount)
    {
      assert others[k] in others && EntryKeyIsNot(MonthOf(e))(others[k]);
      assert others[k] in all;
      var j :| 0 <= j < |all| && all[j] == others[k];
      assert others[k].key in Map(window, MonthOf);
      var i :| 0 <= i < |window| && Map(window, MonthOf)[i] == others[k].key;
      assert window[i] in window && InTrendWindow(e)(window[i]);
      assert MonthOf(window[i]) == others[k].key;
    }
  }

  /** No month is counted twice. */
  lemma OtherMonthsDistinct(mine: seq<Expense>, e: Expense)
    ensures var others := OtherMonths(mine, e);
            forall j, k :: 0 <= j < k < |others| ==> others[j].key != others[k].key
  {
    var window := TrendWindow(mine, e);
    TotalsKeys(window, MonthOf, Amount);
    forall j, k | 0 <= j < k < |OtherMonths(mine, e)|
      ensures OtherMonths(mine, e)[j].key != OtherMonths(mine, e)[k].key
    {
      FilterKeepsOrder(Totals(window, MonthOf, Amount), EntryKeyIsNot(MonthOf(e)), j, k);
    }
  }

  /** Every month of the window other than the expense's is counted. */
  lemma OtherMonthsComplete(mine: seq<Expense>, e: Expense)
    ensures var others := OtherMonths(mine, e);
            forall x :: x in TrendWindow(mine, e) && MonthOf(x) != MonthOf(e) ==>
              exists k :: 0 <= k < |others| && others[k].key == MonthOf(x)
  {
    var window := TrendWindow(mine, e);
    var all := Totals(window, MonthOf, Amount);
    var others := OtherMonths(mine, e);
    TotalsKeys(window, MonthOf, Amount);
    forall x | x in window && MonthOf(x) != MonthOf(e)
      ensures exists k :: 0 <= k < |others| && others[k].key == MonthOf(x)
    {
      var i :| 0 <= i < |window| && window[i] == x;
      assert Map(window, MonthOf)[i] == MonthOf(x);
      assert MonthOf(x) in Map(window, MonthOf);
      var j :| 0 <= j < |all| && all[j].key == MonthOf(x);
      assert EntryKeyIsNot(MonthOf(e))(all[j]);
      assert all[j] in others;
      var k :| 0 <= k < |others| && others[k] == all[j];
    }
  }

  /** There is a month to compare with exactly when some expense of the
      category in the window lies outside the expense's month. */
  lemma OtherMonthsExist(mine: seq<Expense>, e: Expense)
    ensures |OtherMonths(mine, e)| > 0 <==> exists x :: x in mine && InTrendWindow(e)(x) && MonthOf(x) != MonthOf(e)
  {
    var window := TrendWindow(mine, e);
    var others := OtherMonths(mine, e);
    if x :| x in mine && InTrendWindow(e)(x) && MonthOf(x) != MonthOf(e) {
      assert x in window;
      OtherMonthsComplete(mine, e);
    }
    if |others| > 0 {
      OtherMonthsTotals(mine, e);
      var all := Totals(window, MonthOf, Amount);
      assert others[0] in all;
      var j :| 0 <= j < |all| && all[j] == others[0];
      assert all[j].key in Map(window, MonthOf);
      var i :| 0 <= i < |window| && Map(window, MonthOf)[i] == all[j].key;
      assert window[i] in mine;
    }
  }

  /** Filtering keeps distinct-keyed entries apart: two positions of the
      filtered list come from two positions of the original. */
  lemma {:induction false} FilterKeepsOrder(es: seq<Entry<int>>, p: Entry<int> -> bool, j: int, k: int)
    requires forall a, b :: 0 <= a < b < |es| ==> es[a].key != es[b].key
    requires 0 <= j < k < |Filter(es, p)|
    ensures Filter(es, p)[j].key != Filter(es, p)[k].key
    decreases |es|
  {
    var init := es[..|es| - 1];
    var fs := Filter(init, p);
    if p(es[|es| - 1]) && k == |Filter(es, p)| - 1 {
      assert Filter(es, p)[j] == fs[j];
      assert fs[j] in init;
      var a :| 0 <= a < |init| && init[a] == fs[j];
      assert es[a] == fs[j];
    } else {
      assert Filter(es, p)[j] == fs[j] && Filter(es, p)[k] == fs[k];
      FilterKeepsOrder(init, p, j, k);
    }
  }

  /** The trend insight compares the projection of the category's month,
      never below its spending so far, with the average total of the other
      months. */
  lemma TrendMeaning(e: Expense, mine: seq<Expense>)
    requires AllPositive(mine) && ValidDate(e.date)
    ensures var r := TrendInsights(e, mine);
            var others := OtherMonths(mine, e);
            (|r| == 1 <==> |others| > 0 && Projected(CategoryMonthTotal(e, mine), e.date) > Sum(others, EntryValue) / |others| as real * 1.3)
            && (|r| == 1 ==> r[0].category == e.category && r[0].percent >= 30 && r[0].average > 0.0
                             && r[0].average == Sum(others, EntryValue) / |others| as real
                             && r[0].projected >= CategoryMonthTotal(e, mine))
  {
    var others := OtherMonths(mine, e);
    var month := Filter(InMonthOf(mine, e.date), CategoryIs(e.category));
    OtherMonthsPositive(mine, e);
    VerdictMeaning(e.category, Projected(CategoryMonthTotal(e, mine), e.date), Sum(others, EntryValue), |others|);
    SubsetPositive(mine, month);
    SumNonNegative(month, Amount);
    ProjectionAtLeast(CategoryMonthTotal(e, mine), e.date);
  }

  // ---------------------------------------------------------------------
  // 5. The whole list

  /** The insights of steps 1 to 4, in order. */
  function Collected(e: Expense, mine: seq<Expense>): (r: seq<Insight>)
    requires AllPositive(mine) && e in mine && ValidDate(e.date)
    ensures |r| <= 6
    ensures forall i :: i in r ==> !i.Significant? && !i.KeepTracking?
  {
    var similar, meal := SimilarInsights(e, mine), MealInsights(e, mine);
    var month, trend := MonthInsights(e, mine), TrendInsights(e, mine);
    StepsSpecific(similar, meal, month, trend);
    similar + meal + (month + trend)
  }

  /** What the four steps report is never one of the generic insights. */
  lemma StepsSpecific(similar: seq<Insight>, meal: seq<Insight>, month: seq<Insight>, trend: seq<Insight>)
    requires forall i :: i in similar ==> i.AboveSimilar? || i.BelowSimilar? || i.LikeSimilar?
    requires forall i :: i in meal ==> i.CheaperOnWeekday? || i.PricierOnWeekday? || i.VisitEvery?
    requires forall i :: i in month ==> i.CategoryShare? || i.MonthShare?
    requires forall i :: i in trend ==> i.OnTrack?
    ensures forall i :: i in similar + meal + (month + trend) ==> !i.Significant? && !i.KeepTracking?
  {
  }

  /** The insights the endpoint returns. */
  function InsightsFor(e: Expense, mine: seq<Expense>): seq<Insight>
    requires AllPositive(mine) && e in mine && ValidDate(e.date)
  {
    var found := Collected(e, mine);
    if |found| > 0 then found
    else (if e.amount > 100.0 then [Significant(e.category)] else []) + [KeepTracking]
  }

  /** The list is never empty and holds at most six insights; the generic
      ones appear exactly when no step had anything to say, the
      significance remark only for an expense over 100, and then the advice
      to keep tracking comes last. */
  lemma InsightsMeaning(e: Expense, mine: seq<Expense>)
    requires AllPositive(mine) && e in mine && ValidDate(e.date)
    ensures var r := InsightsFor(e, mine);
            1 <= |r| <= 6
            && (r[|r| - 1] == KeepTracking <==> |Collected(e, mine)| == 0)
            && (Significant(e.category) in r <==> |Collected(e, mine)| == 0 && e.amount > 100.0)
            && (|Collected(e, mine)| > 0 ==> r == Collected(e, mine))
  {
    var found := Collected(e, mine);
    if |found| > 0 {
      assert found[|found| - 1] in found;
    }
  }

  // ---------------------------------------------------------------------
  // The generator, step by step

  /** The `forEach` that adds each amount into the total of its month. */
  method MonthlyTotals(window: seq<Expense>) returns (order: seq<int>, totals: map<int, real>)
    ensures Tallied(window, MonthOf, Amount, order, totals)
  {
    order, totals := [], map[];
    for i := 0 to |window|
      invariant Tallied(window[..i], MonthOf, Amount, order, totals)
    {
      var month := MonthOf(window[i]);
      TalliedNext(window, i, MonthOf, Amount, order, totals);
      if month !in totals {
        totals := totals[month := 0.0];
        order := order + [month];
      }
      totals := totals[month := totals[month] + window[i].amount];
    }
    assert window[..|window|] == window;
  }

  /** One more entry adds its value and one to the sums of the entries `p`
      keeps, when `p` keeps it. */
  lemma KeptNext<K>(entries: seq<Entry<K>>, j: nat, p: Entry<K> -> bool)
    requires j < |entries|
    ensures Sum(Filter(entries[..j + 1], p), EntryValue) == Sum(Filter(entries[..j], p), EntryValue) + (if p(entries[j]) then entries[j].value else 0.0)
    ensures |Filter(entries[..j + 1], p)| == |Filter(entries[..j], p)| + (if p(entries[j]) then 1 else 0)
  {
    var kept := Filter(entries[..j], p);
    assert entries[..j + 1][..j] == entries[..j];
    if p(entries[j]) {
      assert (kept + [entries[j]])[..|kept|] == kept;
    }
  }

  /** The `Object.entries` loop that sums and counts the months other than
      the current one. */
  method SumOtherMonths(entries: seq<Entry<int>>, current: int) returns (sum: real, count: nat)
    ensures sum == Sum(Filter(entries, EntryKeyIsNot(current)), EntryValue)
    ensures count == |Filter(entries, EntryKeyIsNot(current))|
  {
    sum, count := 0.0, 0;
    for j := 0 to |entries|
      invariant sum == Sum(Filter(entries[..j], EntryKeyIsNot(current)), EntryValue)
      invariant count == |Filter(entries[..j], EntryKeyIsNot(current))|
    {
      KeptNext(entries, j, EntryKeyIsNot(current));
      if entries[j].key != current {
        sum := sum + entries[j].value;
        count := count + 1;
      }
    }
    assert entries[..|entries|] == entries;
  }

  /** Step 2: at a meal place with three or more earlier visits, the
      weekday comparison and then the visit frequency. */
  method MealHabits(e: Expense, mine: seq<Expense>) returns (found: seq<Insight>)
    requires AllPositive(mine)
    ensures found == MealInsights(e, mine)
  {
    found := [];
    if IsMeal(e.description) {
      var visits := SamePlace(mine, e);
      if |visits| >= 3 {
        var average := Sum(visits, Amount) / |visits| as real;
        assert average == Mean(visits, Amount);
        found := WeekdayHabit(e, visits, average);
        var frequency := FrequencyHabit(e, visits, average);
        found := found + frequency;
      }
    }
  }

  /** The frequency check of step 2: the days from the oldest visit spread
      over the visits and the expense. */
  method FrequencyHabit(e: Expense, visits: seq<Expense>, average: real) returns (found: seq<Insight>)
    requires |visits| > 0
    ensures found == FrequencyInsights(e, visits, average)
  {
    found := [];
    var days := DaysSinceOldest(e, visits);
    var gap := VisitGap(days, |visits|);
    if FrequencyReported(days, |visits|) {
      found := found + [VisitEvery(e.description, Round(gap), average * 30.0 / gap)];
    }
  }

  /** The weekday comparison of step 2: the visits on the expense's weekday
      against the mean of all visits. */
  method WeekdayHabit(e: Expense, visits: seq<Expense>, average: real) returns (found: seq<Insight>)
    ensures found == DayInsights(e, visits, average)
  {
    found := [];
    var sameDay := SameWeekday(e, visits);
    if |sameDay| >= 2 {
      var dayAverage := Sum(sameDay, Amount) / |sameDay| as real;
      if dayAverage < average * 0.9 {
        found := found + [CheaperOnWeekday(e.description, Weekday(e.date), dayAverage, average)];
      } else if dayAverage > average * 1.1 {
        found := found + [PricierOnWeekday(e.description, Weekday(e.date), dayAverage, average)];
      }
    }
  }

  /** Step 3: the month's totals, and the share insights; the category's
      total is kept for the trend. */
  method MonthImpact(e: Expense, mine: seq<Expense>) returns (found: seq<Insight>, categoryTotal: real)
    requires AllPositive(mine) && e in mine
    ensures found == MonthInsights(e, mine) && categoryTotal == CategoryMonthTotal(e, mine)
  {
    var month := InMonthOf(mine, e.date);
    categoryTotal := TotalAmount(Filter(month, CategoryIs(e.category)));
    var total := TotalAmount(month);
    MonthSums(mine, e);
    found := ShareChecks(e.category, e.amount, categoryTotal, total);
  }

  /** The two percentage checks of step 3. */
  method ShareChecks(category: string, amount: real, categoryTotal: real, total: real) returns (found: seq<Insight>)
    requires categoryTotal > 0.0 && total > 0.0
    ensures found == ShareInsights(category, amount, categoryTotal, total)
  {
    found := [];
    var categoryPercentage := amount / categoryTotal * 100.0;
    if categoryPercentage > 50.0 && amount > 100.0 {
      found := found + [CategoryShare(Round(categoryPercentage), category)];
    }
    var totalPercentage := amount / total * 100.0;
    if totalPercentage > 15.0 && amount > 100.0 {
      found := found + [MonthShare(Round(totalPercentage))];
    }
  }

  /** Step 4: the months are tallied, the other months summed and counted,
      and the projection compared with their average. */
  method Trend(e: Expense, mine: seq<Expense>, categoryTotal: real) returns (found: seq<Insight>)
    requires AllPositive(mine) && ValidDate(e.date)
    requires categoryTotal == CategoryMonthTotal(e, mine)
    ensures found == TrendInsights(e, mine)
  {
    var window := TrendWindow(mine, e);
    var order, totals := MonthlyTotals(window);
    TalliedEntries(window, MonthOf, Amount, order, totals);
    var entries := Entries(order, totals);
    assert entries == Totals(window, MonthOf, Amount);
    var sum, count := SumOtherMonths(entries, MonthOf(e));
    assert sum == Sum(OtherMonths(mine, e), EntryValue) && count == |OtherMonths(mine, e)|;
    OtherMonthsPositive(mine, e);
    var projected := categoryTotal / e.date.day as real * DaysInMonth(e.date.year, e.date.month) as real;
    assert projected == Projected(CategoryMonthTotal(e, mine), e.date);
    found := TrendVerdict(e.category, projected, sum, count);
  }

  /** Step 1: the comparison is pushed when there are similar expenses. */
  method CompareWithSimilar(e: Expense, mine: seq<Expense>) returns (found: seq<Insight>)
    requires AllPositive(mine)
    ensures found == SimilarInsights(e, mine)
  {
    found := [];
    var similar := SimilarPeers(mine, e);
    if |similar| > 0 {
      PeersPositive(mine, e);
      var average := Sum(similar, Amount) / |similar| as real;
      found := found + [Comparison(e, average)];
    }
  }

  /** `generateExpenseInsights`: the insights the steps push, in order,
      and the generic insights when there are none. */
  method GenerateExpenseInsights(e: Expense, mine: seq<Expense>) returns (insights: seq<Insight>)
    requires AllPositive(mine) && e in mine && ValidDate(e.date)
    ensures insights == InsightsFor(e, mine)
  {
    var similar := CompareWithSimilar(e, mine);
    var habits := MealHabits(e, mine);
    var shares, categoryTotal := MonthImpact(e, mine);
    var trend := Trend(e, mine, categoryTotal);
    insights := similar + habits + shares + trend;
    if |insights| == 0 {
      if e.amount > 100.0 {
        insights := insights + [Significant(e.category)];
      }
      insights := insights + [KeepTracking];
    }
  }

  // ---------------------------------------------------------------------
  // The visit frequency as written

  /** An expense on the same day as the oldest of four earlier visits gives
      a gap of zero, which the frequency test as written accepts: the
      monthly figure then divides by zero. An expense dated ten days before
      that visit gives a negative gap, accepted too, and a negative monthly
      figure. The intended test accepts neither, and agrees with the test
      as written whenever the expense is later than the oldest visit. */
  lemma FrequencyAsWrittenAcceptsNonPositiveGaps()
    ensures FrequencyReportedAsWritten(0, 4) && VisitGap(0, 4) == 0.0 && !FrequencyReported(0, 4)
    ensures FrequencyReportedAsWritten(-10, 4) && VisitGap(-10, 4) == -2.0 && !FrequencyReported(-10, 4)
    ensures forall days: int, visits: nat :: days > 0 ==>
              (FrequencyReported(days, visits) <==> FrequencyReportedAsWritten(days, visits))
  {
    forall days: int, visits: nat | days > 0
      ensures FrequencyReported(days, visits) <==> FrequencyReportedAsWritten(days, visits)
    {
      assert VisitGap(days, visits) > 0.0;
    }
  }

  // ---------------------------------------------------------------------
  // The handler

  datatype InsightsResponse = Insights(insights: seq<Insight>) | Refused(status: int, error: string)

  /** The handler over the expense table `rows`, with the request checks of
      every advice endpoint; the id is the only required field. */
  method HandleExpenseInsights(email: Option<string>, user: Option<string>, httpMethod: string,
                               expenseId: Option<int>, rows: seq<Row>)
    returns (r: InsightsResponse)
    requires forall i :: 0 <= i < |rows| ==> rows[i].expense.amount > 0.0 && ValidDate(rows[i].expense.date)
    ensures var a := Admit(email, user, httpMethod, expenseId, false, "Expense ID is required", rows);
            (a.Rejected? ==> r == Refused(a.status, a.error))
            && (a.Admitted? ==>
                  var mine := Owned(rows, user.value);
                  AllPositive(mine) && a.row.expense in mine && ValidDate(a.row.expense.date)
                  && r == Insights(InsightsFor(a.row.expense, mine)))
  {
    var admission := Admit(email, user, httpMethod, expenseId, false, "Expense ID is required", rows);
    if admission.Rejected? {
      return Refused(admission.status, admission.error);
    }
    var mine := Owned(rows, user.value);
    OwnedPositive(rows, user.value);
    var i :| 0 <= i < |rows| && rows[i] == admission.row;
    var insights := GenerateExpenseInsights(admission.row.expense, mine);
    r := Insights(insights);
  }
}

=== FILE: expense_list.dfy ===
/** The expense table of app/expenses/ExpenseList.tsx: a search, a category
    and a date filter, a sort column with a direction, the total of the
    shown rows, and the two handlers that change the sort and reset the
    filters. `new Date()` is the parameter `today`. */
module ExpenseList {
  import opened Text
  import opened Agg
  import opened Sorting
  import opened Calendar
  import opened Expenses

  datatype SortOrder = Asc | Desc

  function Flip(o: SortOrder): SortOrder {
    if o == Asc then Desc else Asc
  }

  // ---------------------------------------------------------------------
  // Filtering

  /** The search box: the lowercased description contains the lowercased
      term. */
  predicate SearchMatch(searchTerm: string, e: Expense) {
    Contains(ToLower(e.description), ToLower(searchTerm))
  }

  /** The category select: the empty choice matches every category. */
  predicate CategoryMatch(categoryFilter: string, e: Expense) {
    categoryFilter == "" || e.category == categoryFilter
  }

  /** The date select, by whole days: "today" is the same calendar date;
      "week" starts seven days back; "month" starts at `setMonth(month - 1)`
      of today and "year" at `setFullYear(year - 1)`; anything else keeps
      every date. */
  predicate DateMatch(dateFilter: string, today: Date, d: Date)
    requires ValidDate(today)
  {
    if dateFilter == "today" then d == today
    else if dateFilter == "week" then DayNumber(d) >= DayNumber(today) - 7
    else if dateFilter == "month" then DayNumber(d) >= DayNumber(SetMonth(today, today.month - 2))
    else if dateFilter == "year" then DayNumber(d) >= DayNumber(SetFullYear(today, today.year - 1))
    else true
  }

  function Matches(searchTerm: string, categoryFilter: string, dateFilter: string, today: Date): Expense -> bool
    requires ValidDate(today)
  {
    (e: Expense) => SearchMatch(searchTerm, e) && CategoryMatch(categoryFilter, e) && DateMatch(dateFilter, today, e.date)
  }

  // ---------------------------------------------------------------------
  // Sorting

  /** `a.localeCompare(b)`, by code units: negative, zero or positive. */
  function TextCompare(a: string, b: string): real {
    if LexLess(a, b) then -1.0 else if a == b then 0.0 else 1.0
  }

  /** The comparator handed to `sort`. */
  function Compare(sortBy: string, order: SortOrder, a: Expense, b: Expense): real {
    if sortBy == "date" then
      (if order == Asc then (DayNumber(a.date) - DayNumber(b.date)) as real
       else (DayNumber(b.date) - DayNumber(a.date)) as real)
    else if sortBy == "amount" then
      (if order == Asc then a.amount - b.amount else b.amount - a.amount)
    else if sortBy == "category" then
      (if order == Asc then TextCompare(a.category, b.category) else TextCompare(b.category, a.category))
    else 0.0
  }

  /** `a` may stay before `b`: the comparator does not ask for a swap. */
  function Precedes(sortBy: string, order: SortOrder): (Expense, Expense) -> bool {
    (a: Expense, b: Expense) => Compare(sortBy, order, a, b) <= 0.0
  }

  /** Descending is ascending with the arguments exchanged, so it is its
      exact negation; an unknown column compares everything as equal. */
  lemma CompareMeaning(sortBy: string, a: Expense, b: Expense)
    ensures Compare(sortBy, Desc, a, b) == -Compare(sortBy, Asc, a, b)
    ensures sortBy == "date" ==> (Compare(sortBy, Asc, a, b) < 0.0 <==> DayNumber(a.date) < DayNumber(b.date))
    ensures sortBy == "amount" ==> (Compare(sortBy, Asc, a, b) < 0.0 <==> a.amount < b.amount)
    ensures sortBy == "category" ==> (Compare(sortBy, Asc, a, b) < 0.0 <==> LexLess(a.category, b.category))
    ensures sortBy != "date" && sortBy != "amount" && sortBy != "category" ==> Compare(sortBy, Asc, a, b) == 0.0
  {
    LexLessTrichotomy(a.category, b.category);
  }

  /** Every column gives a total preorder, so the sort is well defined. */
  lemma PrecedesIsPreorder(sortBy: string, order: SortOrder)
    ensures TotalPreorder(Precedes(sortBy, order))
  {
    var le := Precedes(sortBy, order);
    forall a, b
      ensures le(a, b) || le(b, a)
    {
      CompareMeaning(sortBy, a, b);
      CompareMeaning(sortBy, b, a);
    }
    forall a, b, c | le(a, b) && le(b, c)
      ensures le(a, c)
    {
      if sortBy == "category" {
        CategoryTransitive(order, a.category, b.category, c.category);
      }
    }
  }

  lemma CategoryTransitive(order: SortOrder, x: string, y: string, z: string)
    requires order == Asc ==> TextCompare(x, y) <= 0.0 && TextCompare(y, z) <= 0.0
    requires order == Desc ==> TextCompare(y, x) <= 0.0 && TextCompare(z, y) <= 0.0
    ensures order == Asc ==> TextCompare(x, z) <= 0.0
    ensures order == Desc ==> TextCompare(z, x) <= 0.0
  {
    if order == Asc {
      if LexLess(x, y) && LexLess(y, z) {
        LexLessTransitive(x, y, z);
      }
    } else {
      if LexLess(z, y) && LexLess(y, x) {
        LexLessTransitive(z, y, x);
      }
    }
  }

  // ---------------------------------------------------------------------
  // The shown rows

  /** `filteredExpenses`: filter, then sort. */
  function Shown(expenses: seq<Expense>, searchTerm: string, categoryFilter: string, dateFilter: string,
                 sortBy: string, order: SortOrder, today: Date): seq<Expense>
    requires ValidDate(today)
  {
    SortBy(Filter(expenses, Matches(searchTerm, categoryFilter, dateFilter, today)), Precedes(sortBy, order))
  }

  /** The shown rows are exactly the matching expenses, each as often as in
      the input, in comparator order; the total is the sum of the matching
      amounts. */
  lemma ShownMeaning(expenses: seq<Expense>, searchTerm: string, categoryFilter: string, dateFilter: string,
                     sortBy: string, order: SortOrder, today: Date)
    requires ValidDate(today)
    ensures var shown := Shown(expenses, searchTerm, categoryFilter, dateFilter, sortBy, order, today);
            var kept := Filter(expenses, Matches(searchTerm, categoryFilter, dateFilter, today));
            && multiset(shown) == multiset(kept)
            && IsSublist(kept, expenses)
            && |shown| <= |expenses|
            && Sorted(shown, Precedes(sortBy, order))
            && (forall e :: e in shown <==>
                  e in expenses && SearchMatch(searchTerm, e) && CategoryMatch(categoryFilter, e)
                  && DateMatch(dateFilter, today, e.date))
            && Sum(shown, Amount) == Sum(kept, Amount)
  {
    var kept := Filter(expenses, Matches(searchTerm, categoryFilter, dateFilter, today));
    var shown := Shown(expenses, searchTerm, categoryFilter, dateFilter, sortBy, order, today);
    PrecedesIsPreorder(sortBy, order);
    SortByCorrect(kept, Precedes(sortBy, order));
    FilterIsSublist(expenses, Matches(searchTerm, categoryFilter, dateFilter, today));
    SumPermutation(shown, kept, Amount);
    forall e
      ensures e in shown <==> e in kept
    {
      assert e in shown <==> e in multiset(shown);
      assert e in kept <==> e in multiset(kept);
    }
  }

  /** The default filters (empty search, any category, all dates) keep
      every expense. */
  lemma DefaultFiltersKeepAll(expenses: seq<Expense>, sortBy: string, order: SortOrder, today: Date)
    requires ValidDate(today)
    ensures Filter(expenses, Matches("", "", "all", today)) == expenses
    ensures multiset(Shown(expenses, "", "", "all", sortBy, order, today)) == multiset(expenses)
  {
    forall k | 0 <= k < |expenses|
      ensures Matches("", "", "all", today)(expenses[k])
    {
      assert OccursAt(ToLower(expenses[k].description), ToLower(""), 0);
    }
    FilterAll(expenses, Matches("", "", "all", today));
    PrecedesIsPreorder(sortBy, order);
    SortByCorrect(expenses, Precedes(sortBy, order));
  }

  /** With an unknown column the comparator always returns 0 and the stable
      sort keeps the filtered order. */
  lemma UnknownColumnKeepsOrder(expenses: seq<Expense>, searchTerm: string, categoryFilter: string, dateFilter: string,
                                sortBy: string, order: SortOrder, today: Date)
    requires ValidDate(today)
    requires sortBy != "date" && sortBy != "amount" && sortBy != "category"
    ensures Shown(expenses, searchTerm, categoryFilter, dateFilter, sortBy, order, today)
            == Filter(expenses, Matches(searchTerm, categoryFilter, dateFilter, today))
  {
    SortBySortedInput(Filter(expenses, Matches(searchTerm, categoryFilter, dateFilter, today)), Precedes(sortBy, order));
  }

  // ---------------------------------------------------------------------
  // The sort header

  /** `handleSort(column)`: the same column flips the direction, another
      column is selected in descending order. */
  function SortToggle(sortBy: string, order: SortOrder, column: string): (string, SortOrder) {
    if sortBy == column then (sortBy, Flip(order)) else (column, Desc)
  }

  /** Clicking the current column twice restores the direction; clicking a
      new column twice ends ascending on it. */
  lemma SortToggleTwice(sortBy: string, order: SortOrder, column: string)
    ensures var (s1, o1) := SortToggle(sortBy, order, column);
            var (s2, o2) := SortToggle(s1, o1, column);
            s1 == column && s2 == column
            && (sortBy == column ==> o1 != order && o2 == order)
            && (sortBy != column ==> o1 == Desc && o2 == Asc)
  {
  }

  // ---------------------------------------------------------------------
  // The component state

  class View {
    const expenses: seq<Expense>
    var searchTerm: string
    var categoryFilter: string
    var dateFilter: string
    var sortBy: string
    var sortOrder: SortOrder

    /** Every filter and the sort at its initial value. */
    predicate AtDefaults()
      reads this
    {
      searchTerm == "" && categoryFilter == "" && dateFilter == "all" && sortBy == "date" && sortOrder == Desc
    }

    constructor(initialExpenses: seq<Expense>)
      ensures expenses == initialExpenses && AtDefaults()
    {
      expenses := initialExpenses;
      searchTerm, categoryFilter, dateFilter := "", "", "all";
      sortBy, sortOrder := "date", Desc;
    }

    function FilteredExpenses(today: Date): seq<Expense>
      requires ValidDate(today)
      reads this
    {
      Shown(expenses, searchTerm, categoryFilter, dateFilter, sortBy, sortOrder, today)
    }

    /** `totalAmount`: the sum over the shown rows. */
    function TotalAmount(today: Date): real
      requires ValidDate(today)
      reads this
    {
      Sum(FilteredExpenses(today), Amount)
    }

    method HandleSort(column: string)
      modifies this
      ensures (sortBy, sortOrder) == SortToggle(old(sortBy), old(sortOrder), column)
      ensures searchTerm == old(searchTerm) && categoryFilter == old(categoryFilter) && dateFilter == old(dateFilter)
    {
      if sortBy == column {
        sortOrder := if sortOrder == Asc then Desc else Asc;
      } else {
        sortBy := column;
        sortOrder := Desc;
      }
    }

    /** After clearing, every expense is shown, newest first. */
    method ClearFilters()
      modifies this
      ensures AtDefaults()
      ensures forall today :: ValidDate(today) ==> multiset(FilteredExpenses(today)) == multiset(expenses)
    {
      searchTerm := "";
      categoryFilter := "";
      dateFilter := "all";
      sortBy := "date";
      sortOrder := Desc;
      forall today | ValidDate(today)
        ensures multiset(FilteredExpenses(today)) == multiset(expenses)
      {
        DefaultFiltersKeepAll(expenses, sortBy, sortOrder, today);
      }
    }
  }
}

=== FILE: expenses.dfy ===
/** The expense record shared by the analysis code, and the field accessors
    the folds are keyed by. */
module Expenses {
  import opened Text
  import opened Calendar
  import opened Agg

  /** An expense row: the amount is exact, the date has day granularity. */
  datatype Expense = Expense(id: int, amount: real, description: string, category: string, date: Date)

  function Amount(e: Expense): real {
    e.amount
  }

  function Category(e: Expense): string {
    e.category
  }

  /** The expense's calendar month (see `Calendar.MonthIndex`). */
  function MonthOf(e: Expense): int {
    MonthIndex(e.date)
  }

  function MonthCategory(e: Expense): (int, string) {
    (MonthIndex(e.date), e.category)
  }

  /** `getDay()` of the expense date. */
  function WeekdayOf(e: Expense): int {
    Weekday(e.date)
  }

  function DayOf(e: Expense): real {
    DayNumber(e.date) as real
  }

  /** The amount form only accepts amounts greater than zero. */
  predicate AllPositive(es: seq<Expense>) {
    forall i :: 0 <= i < |es| ==> es[i].amount > 0.0
  }

  /** Expenses drawn from a list of positive expenses are positive. */
  lemma SubsetPositive(mine: seq<Expense>, xs: seq<Expense>)
    requires AllPositive(mine) && forall x :: x in xs ==> x in mine
    ensures AllPositive(xs)
  {
    forall i | 0 <= i < |xs|
      ensures xs[i].amount > 0.0
    {
      assert xs[i] in mine;
    }
  }

  function AsReal(n: int): real {
    n as real
  }

  /** `description.split(' ')[0]` */
  function FirstWord(s: string): string {
    Split(s, " ")[0]
  }

  /** The total amount of a list of expenses. */
  function TotalAmount(es: seq<Expense>): real {
    Sum(es, Amount)
  }

  /** The "yyyy-MM" key of a month index, for years 0..9999. */
  function MonthKeyOf(m: int): string
    requires 0 <= m < 120000
  {
    MonthKey(m / 12, m % 12 + 1)
  }

  /** Month keys compare as strings exactly as the months compare in time. */
  lemma MonthKeyOfOrder(m1: int, m2: int)
    requires 0 <= m1 < 120000 && 0 <= m2 < 120000
    ensures LexLess(MonthKeyOf(m1), MonthKeyOf(m2)) <==> m1 < m2
    ensures MonthKeyOf(m1) == MonthKeyOf(m2) <==> m1 == m2
  {
    MonthKeyOrder(m1 / 12, m1 % 12 + 1, m2 / 12, m2 % 12 + 1);
  }

  lemma TotalAmountPositive(es: seq<Expense>)
    requires AllPositive(es) && |es| > 0
    ensures TotalAmount(es) > 0.0
  {
    SumPositive(es, Amount);
  }
}

=== FILE: fallback_advice.dfy ===
/** The rule-based insights and answers the expense pages fall back on when
    the language model cannot be reached (lib/generateFallbackAdvice.ts).
    Sentences are represented by what they say: each datatype constructor is
    one sentence template, its fields are the values filled into it. */
module FallbackAdvice {
  import opened Wrappers
  import opened Text
  import opened Agg
  import opened Expenses
  import opened Numbers

  /** The category statistics of an expense: the mean amount and the number
      of other expenses of the same category. */
  datatype CategoryStats = CategoryStats(average: real, count: int)

  /** The statistics are a mean of positive amounts, so the average is
      positive whenever there is something to average. */
  predicate StatsWellFormed(data: Option<CategoryStats>) {
    data.Some? && data.value.count > 0 ==> data.value.average > 0.0
  }

  /** `categoryData?.average || 0` */
  function StatsAverage(data: Option<CategoryStats>): real {
    if data.Some? then data.value.average else 0.0
  }

  /** `categoryData?.count || 0` */
  function StatsCount(data: Option<CategoryStats>): int {
    if data.Some? then data.value.count else 0
  }

  datatype Insight =
    | CloseToCategoryAverage(category: string, average: real)
    | AboveCategoryAverage(category: string, percent: nat, average: real)
    | BelowCategoryAverage(category: string, percent: nat, average: real)
    | FirstInCategory(category: string)
    | ConsistentWithVisits(place: string)
    | MoreThanUsual(place: string, percent: nat)
    | LessThanUsual(place: string, percent: nat)
    | KeepTracking

  /** The first sentence: the expense against its category's average. */
  function CategoryInsight(e: Expense, data: Option<CategoryStats>): Insight
    requires StatsWellFormed(data)
  {
    var average := StatsAverage(data);
    if StatsCount(data) > 0 then
      var d := PercentDiff(e.amount, average);
      match BandOf(d)
      case Close => CloseToCategoryAverage(e.category, average)
      case Higher => AboveCategoryAverage(e.category, AbsInt(Round(d)), average)
      case Lower => BelowCategoryAverage(e.category, AbsInt(Round(d)), average)
    else FirstInCategory(e.category)
  }

  /** The second sentence: the expense against earlier visits to the same
      place. */
  function SimilarInsight(e: Expense, similar: seq<Expense>): Insight
    requires |similar| > 0 && AllPositive(similar)
  {
    TotalAmountPositive(similar);
    var d := PercentDiff(e.amount, Mean(similar, Amount));
    match BandOf(d)
    case Close => ConsistentWithVisits(e.description)
    case Higher => MoreThanUsual(e.description, AbsInt(Round(d)))
    case Lower => LessThanUsual(e.description, AbsInt(Round(d)))
  }

  /** The insights of `generateFallbackAdvice`. */
  function FallbackInsights(e: Expense, data: Option<CategoryStats>, similar: seq<Expense>): seq<Insight>
    requires StatsWellFormed(data) && AllPositive(similar)
  {
    [CategoryInsight(e, data)]
    + (if |similar| > 0 then [SimilarInsight(e, similar)] else [])
    + [KeepTracking]
  }

  /** `generateFallbackAdvice`: pushes the category sentence, the sentence
      about similar expenses when there are any (their mean is a running
      sum divided by their number), and the closing sentence. */
  method GenerateFallbackAdvice(e: Expense, data: Option<CategoryStats>, similar: seq<Expense>)
    returns (insights: seq<Insight>)
    requires StatsWellFormed(data) && AllPositive(similar)
    ensures insights == FallbackInsights(e, data, similar)
  {
    insights := [];
    var categoryAverage := StatsAverage(data);
    var categoryCount := StatsCount(data);
    if categoryCount > 0 {
      var percentDiff := (e.amount - categoryAverage) / categoryAverage * 100.0;
      if Abs(percentDiff) < 10.0 {
        insights := insights + [CloseToCategoryAverage(e.category, categoryAverage)];
      } else if percentDiff > 0.0 {
        insights := insights + [AboveCategoryAverage(e.category, AbsInt(Round(percentDiff)), categoryAverage)];
      } else {
        insights := insights + [BelowCategoryAverage(e.category, AbsInt(Round(percentDiff)), categoryAverage)];
      }
    } else {
      insights := insights + [FirstInCategory(e.category)];
    }
    if |similar| > 0 {
      var sum := 0.0;
      var i := 0;
      while i < |similar|
        invariant 0 <= i <= |similar|
        invariant sum == Sum(similar[..i], Amount)
      {
        SumAppend(similar[..i], [similar[i]], Amount);
        assert similar[..i + 1] == similar[..i] + [similar[i]];
        sum := sum + similar[i].amount;
        i := i + 1;
      }
      assert similar[..i] == similar;
      TotalAmountPositive(similar);
      var similarAverage := sum / |similar| as real;
      var percentDiff := (e.amount - similarAverage) / similarAverage * 100.0;
      if Abs(percentDiff) < 10.0 {
        insights := insights + [ConsistentWithVisits(e.description)];
      } else if percentDiff > 0.0 {
        insights := insights + [MoreThanUsual(e.description, AbsInt(Round(percentDiff)))];
      } else {
        insights := insights + [LessThanUsual(e.description, AbsInt(Round(percentDiff)))];
      }
    }
    insights := insights + [KeepTracking];
  }

  /** The fallback always has the category sentence first and the closing
      sentence last, with the similar-expense sentence between them exactly
      when there are similar expenses. */
  lemma FallbackInsightsShape(e: Expense, data: Option<CategoryStats>, similar: seq<Expense>)
    requires StatsWellFormed(data) && AllPositive(similar)
    ensures var r := FallbackInsights(e, data, similar);
            (|r| == 3 <==> |similar| > 0) && 2 <= |r| <= 3
            && r[|r| - 1] == KeepTracking
            && (r[0].FirstInCategory? <==> StatsCount(data) <= 0)
            && (forall i :: 0 < i < |r| - 1 ==>
                  r[i].ConsistentWithVisits? || r[i].MoreThanUsual? || r[i].LessThanUsual?)
  {
  }

  /** The category sentence: within 10% of a positive average the expense is
      called close to it, from 10% above it is called higher, from 10% below
      it lower, and the percentage quoted is then at least 10. */
  lemma CategoryInsightBands(e: Expense, data: Option<CategoryStats>)
    requires StatsWellFormed(data) && StatsCount(data) > 0
    ensures var r, avg := CategoryInsight(e, data), StatsAverage(data);
            (r.CloseToCategoryAverage? <==> avg * 0.9 < e.amount < avg * 1.1)
            && (r.AboveCategoryAverage? <==> e.amount >= avg * 1.1)
            && (r.BelowCategoryAverage? <==> e.amount <= avg * 0.9)
            && (r.AboveCategoryAverage? || r.BelowCategoryAverage? ==> r.percent >= 10)
            && r.category == e.category
  {
    var d := PercentDiff(e.amount, StatsAverage(data));
    BandOfPercentDiff(e.amount, StatsAverage(data));
    if BandOf(d) != Close {
      RoundedOutsideBand(d);
    }
  }

  /** The similar-expense sentence compares with the mean of the similar
      expenses in the same three bands. */
  lemma SimilarInsightBands(e: Expense, similar: seq<Expense>)
    requires |similar| > 0 && AllPositive(similar)
    ensures var r, avg := SimilarInsight(e, similar), Mean(similar, Amount);
            avg > 0.0
            && (r.ConsistentWithVisits? <==> avg * 0.9 < e.amount < avg * 1.1)
            && (r.MoreThanUsual? <==> e.amount >= avg * 1.1)
            && (r.LessThanUsual? <==> e.amount <= avg * 0.9)
            && (r.MoreThanUsual? || r.LessThanUsual? ==> r.percent >= 10)
            && r.place == e.description
  {
    TotalAmountPositive(similar);
    var d := PercentDiff(e.amount, Mean(similar, Amount));
    BandOfPercentDiff(e.amount, Mean(similar, Amount));
    if BandOf(d) != Close {
      RoundedOutsideBand(d);
    }
  }

  // ---------------------------------------------------------------------
  // Answers to questions

  datatype Answer =
    | AverageComparison(category: string, amount: real, average: real, count: int)
    | FirstOfCategory(category: string)
    | MonthlyImpact(category: string)
    | ConsistentPurchases(visits: nat, place: string)
    | NoPatternYet(place: string)
    | SavingTips(category: string)
    | ExpenseSummary(category: string, amount: real, date: Calendar.Date)

  const CompareWords: seq<string> := ["compare", "average"]
  const BudgetWords: seq<string> := ["budget", "month"]
  const PatternWords: seq<string> := ["pattern", "trend"]
  const SaveWords: seq<string> := ["save", "reduce"]

  /** `generateFallbackAnswer`: the first group of keywords the lower-cased
      question contains picks the answer. */
  function FallbackAnswer(question: string, e: Expense, data: CategoryStats, similar: seq<Expense>): Answer {
    var q := ToLower(question);
    if Mentions(q, CompareWords) then
      (if data.count > 0 then AverageComparison(e.category, e.amount, data.average, data.count)
       else FirstOfCategory(e.category))
    else if Mentions(q, BudgetWords) then MonthlyImpact(e.category)
    else if Mentions(q, PatternWords) then
      (if |similar| >= 3 then ConsistentPurchases(|similar|, e.description) else NoPatternYet(e.description))
    else if Mentions(q, SaveWords) then SavingTips(e.category)
    else ExpenseSummary(e.category, e.amount, e.date)
  }

  /** Each kind of answer is given for exactly the questions whose first
      matching keyword group is its own. */
  lemma FallbackAnswerDispatch(question: string, e: Expense, data: CategoryStats, similar: seq<Expense>)
    ensures var r, q := FallbackAnswer(question, e, data, similar), ToLower(question);
            ((r.AverageComparison? || r.FirstOfCategory?) <==> Mentions(q, CompareWords))
            && (r.AverageComparison? ==> data.count > 0 && r.count == data.count)
            && (r.MonthlyImpact? <==> !Mentions(q, CompareWords) && Mentions(q, BudgetWords))
            && ((r.ConsistentPurchases? || r.NoPatternYet?) <==>
                  !Mentions(q, CompareWords) && !Mentions(q, BudgetWords) && Mentions(q, PatternWords))
            && (r.ConsistentPurchases? ==> r.visits >= 3)
            && (r.SavingTips? <==>
                  !Mentions(q, CompareWords) && !Mentions(q, BudgetWords) && !Mentions(q, PatternWords)
                  && Mentions(q, SaveWords))
  {
  }

  /** The answer ignores the case of the question. */
  lemma {:induction false} FallbackAnswerIgnoresCase(question: string, e: Expense, data: CategoryStats, similar: seq<Expense>)
    ensures FallbackAnswer(ToLower(question), e, data, similar) == FallbackAnswer(question, e, data, similar)
  {
    ToLowerIdempotent(question);
  }
}

=== FILE: home_dashboard.dfy ===
/** The overview tab of app/_components/HomeDashboard.tsx: the total spent,
    the per-category totals and the five largest categories. */
module HomeDashboard {
  import opened Agg
  import opened Expenses
  import opened Ranking

  /** `totalSpending` */
  function TotalSpending(expenses: seq<Expense>): real {
    Sum(expenses, Amount)
  }

  /** `spendingByCategory`, as entries in key order. */
  function SpendingByCategory(expenses: seq<Expense>): seq<Entry<string>> {
    Totals(expenses, Category, Amount)
  }

  /** `categoryData`: the five largest categories, largest first. */
  function CategoryData(expenses: seq<Expense>): seq<Entry<string>> {
    Top(expenses, Category, Amount, 5)
  }

  /** The category totals add up to the total spent and list each category
      once; the chart data holds at most five of them, largest first, and a
      category left out spent no more than any shown. */
  lemma OverviewMeaning(expenses: seq<Expense>)
    ensures var byCategory := SpendingByCategory(expenses);
            && Sum(byCategory, EntryValue) == TotalSpending(expenses)
            && (forall i, j :: 0 <= i < j < |byCategory| ==> byCategory[i].key != byCategory[j].key)
            && (forall c :: c in Map(expenses, Category) <==> exists i :: 0 <= i < |byCategory| && byCategory[i].key == c)
    ensures var top := CategoryData(expenses);
            && |top| <= 5
            && (forall i, j :: 0 <= i < j < |top| ==> top[i].value >= top[j].value && top[i].key != top[j].key)
            && (forall t :: t in top ==> t.value == SumKey(expenses, Category, t.key, Amount))
            && (forall c :: c in Map(expenses, Category) && (forall t :: t in top ==> t.key != c) ==>
                  forall t :: t in top ==> SumKey(expenses, Category, c, Amount) <= t.value)
  {
    TotalsPartition(expenses, Category, Amount);
    TotalsKeys(expenses, Category, Amount);
    TopMeaning(expenses, Category, Amount, 5);
  }
}

=== FILE: household_tabs.dfy ===
/** The summary tab of a household (app/households/_components/HouseholdTabs.tsx):
    the household total, the per-category and per-member groups, each
    sorted by total, largest first, and the display name of a member. */
module HouseholdTabs {
  import opened Wrappers
  import opened Agg
  import opened Sorting

  datatype HouseholdExpense = HouseholdExpense(
    amount: real, category: string, userId: string, userName: Option<string>, userEmail: Option<string>)

  function Amount(x: HouseholdExpense): real {
    x.amount
  }

  function CategoryOf(x: HouseholdExpense): string {
    x.category
  }

  function UserKey(x: HouseholdExpense): string {
    x.userId
  }

  /** A present, non-empty string; `null` and `""` are both falsy. */
  predicate Truthy(s: Option<string>) {
    s.Some? && s.value != ""
  }

  /** `user.name || user.email || 'Unknown User'` */
  function UserName(x: HouseholdExpense): (r: string)
    ensures r != ""
    ensures Truthy(x.userName) ==> r == x.userName.value
    ensures !Truthy(x.userName) && Truthy(x.userEmail) ==> r == x.userEmail.value
    ensures !Truthy(x.userName) && !Truthy(x.userEmail) ==> r == "Unknown User"
  {
    if Truthy(x.userName) then x.userName.value
    else if Truthy(x.userEmail) then x.userEmail.value
    else "Unknown User"
  }

  /** `totalAmount` */
  function TotalAmount(xs: seq<HouseholdExpense>): real {
    Sum(xs, Amount)
  }

  // ---------------------------------------------------------------------
  // Categories

  /** `sortedCategories`: the category groups, largest total first. */
  function SortedCategories(xs: seq<HouseholdExpense>): seq<Group<string>> {
    SortDesc(Groups(xs, CategoryOf, Amount), GroupTotal)
  }

  /** The category groups partition the expenses: their totals add up to
      the household total and their counts to the number of expenses;
      each category appears once, with its own sum and count, and the list
      is in descending order of total. */
  lemma CategoriesMeaning(xs: seq<HouseholdExpense>)
    ensures var gs := SortedCategories(xs);
            && Sum(gs, GroupTotal) == TotalAmount(xs)
            && Sum(gs, GroupCount) == |xs| as real
            && (forall i, j :: 0 <= i < j < |gs| ==> gs[i].total >= gs[j].total && gs[i].key != gs[j].key)
            && (forall g :: g in gs ==> g.count >= 1 && g.total == SumKey(xs, CategoryOf, g.key, Amount)
                                        && g.count == CountKey(xs, CategoryOf, g.key))
            && (forall c :: c in Map(xs, CategoryOf) <==> exists g :: g in gs && g.key == c)
  {
    SortedGroups(xs, CategoryOf);
  }

  /** The same facts for any key. */
  lemma SortedGroups<K(!new)>(xs: seq<HouseholdExpense>, key: HouseholdExpense -> K)
    ensures var gs := SortDesc(Groups(xs, key, Amount), GroupTotal);
            && Sum(gs, GroupTotal) == Sum(xs, Amount)
            && Sum(gs, GroupCount) == |xs| as real
            && (forall i, j :: 0 <= i < j < |gs| ==> gs[i].total >= gs[j].total && gs[i].key != gs[j].key)
            && (forall g :: g in gs ==> g.count >= 1 && g.total == SumKey(xs, key, g.key, Amount)
                                        && g.count == CountKey(xs, key, g.key))
            && (forall k :: k in Map(xs, key) <==> exists g :: g in gs && g.key == k)
  {
    var us := Groups(xs, key, Amount);
    var gs := SortDesc(us, GroupTotal);
    SortDescCorrect(us, GroupTotal);
    GroupsPartition(xs, key, Amount);
    SumPermutation(gs, us, GroupTotal);
    SumPermutation(gs, us, GroupCount);
    GroupsFacts(xs, key);
    PermutedKeysDistinct(us, gs, GroupKey);
    SameElements(us, gs);
  }

  /** The groups in first-seen order: one per key, each non-empty and
      holding its key's sum and count. */
  lemma GroupsFacts<K(!new)>(xs: seq<HouseholdExpense>, key: HouseholdExpense -> K)
    ensures var us := Groups(xs, key, Amount);
            && (forall i, j :: 0 <= i < j < |us| ==> us[i].key != us[j].key)
            && (forall g :: g in us ==> g.count >= 1 && g.total == SumKey(xs, key, g.key, Amount)
                                        && g.count == CountKey(xs, key, g.key))
            && (forall k :: k in Map(xs, key) <==> exists g :: g in us && g.key == k)
  {
    var us := Groups(xs, key, Amount);
    var ks := FirstSeen(xs, key);
    forall g | g in us
      ensures g.count >= 1
    {
      var i :| 0 <= i < |us| && us[i] == g;
      GroupsNonEmpty(xs, key, Amount, i);
    }
    forall k | k in Map(xs, key)
      ensures exists g :: g in us && g.key == k
    {
      var i :| 0 <= i < |ks| && ks[i] == k;
      assert us[i].key == k;
    }
  }

  /** A reordering has the same elements. */
  lemma SameElements<T>(us: seq<T>, gs: seq<T>)
    requires multiset(gs) == multiset(us)
    ensures forall g :: g in gs <==> g in us
  {
    forall g
      ensures g in gs <==> g in us
    {
      assert g in gs <==> g in multiset(gs);
      assert g in us <==> g in multiset(us);
    }
  }

  function GroupKey<K>(g: Group<K>): K {
    g.key
  }

  /** Reordering a list whose elements carry distinct keys keeps the keys
      distinct. */
  lemma PermutedKeysDistinct<T, K>(us: seq<T>, gs: seq<T>, key: T -> K)
    requires forall i, j :: 0 <= i < j < |us| ==> key(us[i]) != key(us[j])
    requires multiset(gs) == multiset(us)
    ensures forall i, j :: 0 <= i < j < |gs| ==> key(gs[i]) != key(gs[j])
  {
    forall i, j | 0 <= i < j < |us|
      ensures us[i] != us[j]
    {
      assert key(us[i]) != key(us[j]);
    }
    DistinctPermutation(us, gs);
    forall i, j | 0 <= i < j < |gs|
      ensures key(gs[i]) != key(gs[j])
    {
      assert gs[i] in multiset(us) && gs[j] in multiset(us);
      var a :| 0 <= a < |us| && us[a] == gs[i];
      var b :| 0 <= b < |us| && us[b] == gs[j];
      assert a != b;
    }
  }

  // ---------------------------------------------------------------------
  // Members

  datatype Member = Member(userId: string, name: string, total: real, count: nat)

  function MemberTotal(m: Member): real {
    m.total
  }

  function MemberCount(m: Member): real {
    m.count as real
  }

  function MemberId(m: Member): string {
    m.userId
  }

  /** A member's group is named after the first of their expenses. */
  function NameOf(xs: seq<HouseholdExpense>, userId: string): string {
    var own := WithKey(xs, UserKey, userId);
    if |own| == 0 then "Unknown User" else UserName(own[0])
  }

  function MemberOf(xs: seq<HouseholdExpense>): Group<string> -> Member {
    (g: Group<string>) => Member(g.key, NameOf(xs, g.key), g.total, g.count)
  }

  /** `sortedUsers`: one entry per `user.id`, largest total first. */
  function SortedMembers(xs: seq<HouseholdExpense>): seq<Member> {
    SortDesc(Map(Groups(xs, UserKey, Amount), MemberOf(xs)), MemberTotal)
  }

  /** The member groups are keyed by user id and partition the expenses
      like the category groups; each is named after the member's first
      expense. */
  lemma MembersMeaning(xs: seq<HouseholdExpense>)
    ensures var ms := SortedMembers(xs);
            && Sum(ms, MemberTotal) == TotalAmount(xs)
            && Sum(ms, MemberCount) == |xs| as real
            && (forall i, j :: 0 <= i < j < |ms| ==> ms[i].total >= ms[j].total && ms[i].userId != ms[j].userId)
            && (forall m :: m in ms ==> m.count >= 1 && m.total == SumKey(xs, UserKey, m.userId, Amount)
                                        && m.count == CountKey(xs, UserKey, m.userId)
                                        && m.name == NameOf(xs, m.userId))
            && (forall u :: u in Map(xs, UserKey) <==> exists m :: m in ms && m.userId == u)
  {
    var gs := Groups(xs, UserKey, Amount);
    var us := Map(gs, MemberOf(xs));
    var ms := SortDesc(us, MemberTotal);
    SortDescCorrect(us, MemberTotal);
    GroupsPartition(xs, UserKey, Amount);
    SumPointwise(gs, GroupTotal, us, MemberTotal);
    SumPointwise(gs, GroupCount, us, MemberCount);
    SumPermutation(ms, us, MemberTotal);
    SumPermutation(ms, us, MemberCount);
    MemberFacts(xs);
    PermutedKeysDistinct(us, ms, MemberId);
    SameElements(us, ms);
  }

  lemma MemberFacts(xs: seq<HouseholdExpense>)
    ensures var us := Map(Groups(xs, UserKey, Amount), MemberOf(xs));
            && (forall i, j :: 0 <= i < j < |us| ==> us[i].userId != us[j].userId)
            && (forall m :: m in us ==> m.count >= 1 && m.total == SumKey(xs, UserKey, m.userId, Amount)
                                        && m.count == CountKey(xs, UserKey, m.userId)
                                        && m.name == NameOf(xs, m.userId))
            && (forall u :: u in Map(xs, UserKey) <==> exists m :: m in us && m.userId == u)
  {
    var gs := Groups(xs, UserKey, Amount);
    var us := Map(gs, MemberOf(xs));
    GroupsFacts(xs, UserKey);
    forall m | m in us
      ensures m.count >= 1 && m.total == SumKey(xs, UserKey, m.userId, Amount)
              && m.count == CountKey(xs, UserKey, m.userId) && m.name == NameOf(xs, m.userId)
    {
      var i :| 0 <= i < |us| && us[i] == m;
      assert gs[i] in gs;
    }
    forall u | u in Map(xs, UserKey)
      ensures exists m :: m in us && m.userId == u
    {
      var g :| g in gs && g.key == u;
      var i :| 0 <= i < |gs| && gs[i] == g;
      assert us[i].userId == u;
    }
  }

  /** The name of a member is the display name of their first expense in
      the list. */
  lemma NameOfFirst(xs: seq<HouseholdExpense>, u: string)
    requires u in Map(xs, UserKey)
    ensures exists i :: 0 <= i < |xs| && xs[i].userId == u && NameOf(xs, u) == UserName(xs[i])
                        && forall j :: 0 <= j < i ==> xs[j].userId != u
  {
    PresentKey(xs, UserKey, u);
    WithKeyMeasures(xs, UserKey, u, Amount);
    var i := WithKeyFirst(xs, UserKey, u);
  }

  lemma {:induction false} WithKeyFirst<T, K(!new)>(xs: seq<T>, key: T -> K, k: K) returns (i: nat)
    requires |WithKey(xs, key, k)| > 0
    ensures i < |xs| && xs[i] == WithKey(xs, key, k)[0] && key(xs[i]) == k
    ensures forall j :: 0 <= j < i ==> key(xs[j]) != k
    decreases |xs|
  {
    var init := xs[..|xs| - 1];
    if |WithKey(init, key, k)| > 0 {
      i := WithKeyFirst(init, key, k);
    } else {
      i := |xs| - 1;
      WithKeyMeasures(init, key, k, One);
      forall j | 0 <= j < i
        ensures key(xs[j]) != k
      {
        if key(xs[j]) == k {
          assert Map(init, key)[j] == k;
          PresentKey(init, key, k);
        }
      }
    }
  }
}

=== FILE: llm_analyze.dfy ===
/** `POST /api/advice/llm-analyze` (pages/api/advice/llm-analyze.ts): checks
    the request, gathers the statistics around one expense, sends them with
    the question and the earlier conversation to the language model, and
    answers with the model's text or, when the model cannot be used, with the
    rule-based fallback. The model call itself is the `outcome` parameter. */
module LlmAnalyze {
  import opened Wrappers
  import opened Text
  import opened Agg
  import opened Calendar
  import opened Expenses
  import opened Store
  import opened FallbackAdvice

  // ---------------------------------------------------------------------
  // Gathered data

  /** `expenseData`: the expense and whether it is shared with a household
      (the date is rendered as text in the source). */
  datatype ExpenseData = ExpenseData(expense: Expense, isShared: bool)

  /** `dayOfWeekPatterns[day]`. Days are keyed by their `getDay()` number
      rather than by their English name; the two are in one-to-one
      correspondence. */
  datatype DayPattern = DayPattern(count: nat, average: real)

  /** `monthlyAverages[month]`: the month's total and its per-category
      totals, with the category keys in insertion order. */
  datatype MonthBucket = MonthBucket(total: real, order: seq<string>, byCategory: map<string, real>)

  datatype RelevantData = RelevantData(
    categoryAverage: real,
    categoryExpenseCount: nat,
    similarAverage: real,
    similarCount: nat,
    monthlyTotal: real,
    monthlyCategory: real,
    weeklyTotal: real,
    dayOfWeekPatterns: map<int, DayPattern>,
    monthOrder: seq<int>,
    monthlyAverages: map<int, MonthBucket>)

  /** The category query: other expenses of the category, newest first, at
      most 50. */
  function CategoryExpenses(mine: seq<Expense>, e: Expense): seq<Expense> {
    Sorting.Take(NewestFirst(SameCategoryOthers(mine, e)), 50)
  }

  /** The similar-description query: newest first, at most 20. */
  function SimilarExpenses(mine: seq<Expense>, e: Expense): seq<Expense> {
    Sorting.Take(NewestFirst(SimilarOthers(mine, e)), 20)
  }

  /** The history query: from the first day of the month five months before
      the expense's month. */
  function HistoricalExpenses(mine: seq<Expense>, e: Expense): seq<Expense> {
    SinceMonthsBefore(mine, e.date, 5)
  }

  function PatternOf(similar: seq<Expense>, d: int): DayPattern {
    var n := CountKey(similar, WeekdayOf, d);
    DayPattern(n, if n == 0 then 0.0 else SumKey(similar, WeekdayOf, d, Amount) / n as real)
  }

  /** The day-of-week patterns are only computed from three similar
      expenses up; each weekday present gets its count and mean amount. */
  ghost predicate DayPatterns(similar: seq<Expense>, patterns: map<int, DayPattern>) {
    (|similar| < 3 ==> patterns == map[])
    && (|similar| >= 3 ==>
          (forall d :: d in patterns <==> d in Map(similar, WeekdayOf))
          && (forall d :: d in patterns ==> patterns[d] == PatternOf(similar, d)))
  }

  /** The monthly buckets after walking `xs`: months in first-seen order,
      each with its total and, per category, the category's total in that
      month. */
  ghost predicate MonthsBucketed(xs: seq<Expense>, order: seq<int>, buckets: map<int, MonthBucket>) {
    order == FirstSeen(xs, MonthOf)
    && (forall m :: m in buckets <==> m in order)
    && (forall m :: m in buckets ==> BucketFor(xs, m, buckets[m]))
  }

  /** Month `m`'s bucket: the month's total, and its expenses tallied by
      category. */
  ghost predicate BucketFor(xs: seq<Expense>, m: int, b: MonthBucket) {
    b.total == SumKey(xs, MonthOf, m, Amount)
    && Tallied(WithKey(xs, MonthOf, m), Category, Amount, b.order, b.byCategory)
  }

  /** Everything `gatherExpenseData` computes for expense `e` over the
      user's expenses `mine`. */
  ghost predicate Gathered(mine: seq<Expense>, e: Expense, rel: RelevantData) {
    var category := CategoryExpenses(mine, e);
    var similar := SimilarExpenses(mine, e);
    var month := InMonthOf(mine, e.date);
    rel.categoryAverage == Mean(category, Amount)
    && rel.categoryExpenseCount == |category|
    && rel.similarAverage == Mean(similar, Amount)
    && rel.similarCount == |similar|
    && rel.monthlyTotal == TotalAmount(month)
    && rel.monthlyCategory == TotalAmount(Filter(month, CategoryIs(e.category)))
    && rel.weeklyTotal == TotalAmount(InWeekOf(mine, e.date))
    && DayPatterns(similar, rel.dayOfWeekPatterns)
    && MonthsBucketed(HistoricalExpenses(mine, e), rel.monthOrder, rel.monthlyAverages)
  }

  /** `gatherExpenseData` */
  method GatherExpenseData(mine: seq<Expense>, e: Expense, householdId: Option<string>)
    returns (data: ExpenseData, rel: RelevantData)
    ensures data == ExpenseData(e, householdId.Some?)
    ensures Gathered(mine, e, rel)
  {
    data := ExpenseData(e, householdId.Some?);
    var categoryExpenses := CategoryExpenses(mine, e);
    var similarExpenses := SimilarExpenses(mine, e);
    var monthlyExpenses := InMonthOf(mine, e.date);
    var patterns := DayOfWeekPatterns(similarExpenses);
    var monthOrder, monthlyAverages := MonthlyAverages(HistoricalExpenses(mine, e));
    rel := RelevantData(
      Mean(categoryExpenses, Amount), |categoryExpenses|,
      Mean(similarExpenses, Amount), |similarExpenses|,
      TotalAmount(monthlyExpenses),
      TotalAmount(Filter(monthlyExpenses, CategoryIs(e.category))),
      TotalAmount(InWeekOf(mine, e.date)),
      patterns, monthOrder, monthlyAverages);
  }

  /** A weekday's bucket holds its visits' amounts, at least one. */
  lemma DayBucketPattern(similar: seq<Expense>, order: seq<int>, byDay: map<int, seq<real>>, day: int)
    requires Bucketed(similar, WeekdayOf, Amount, order, byDay) && day in order
    ensures |byDay[day]| > 0 && PatternOf(similar, day) == DayPattern(|byDay[day]|, Sum(byDay[day], Real) / |byDay[day]| as real)
  {
    BucketMeasures(similar, WeekdayOf, Amount, order, byDay, day);
    PresentKey(similar, WeekdayOf, day);
  }

  method DayOfWeekPatterns(similar: seq<Expense>) returns (patterns: map<int, DayPattern>)
    ensures DayPatterns(similar, patterns)
  {
    patterns := map[];
    if |similar| >= 3 {
      var order, byDay := GroupByWeekday(similar);
      var j := 0;
      while j < |order|
        invariant 0 <= j <= |order|
        invariant forall d :: d in patterns <==> d in order[..j]
        invariant forall d :: d in patterns ==> patterns[d] == PatternOf(similar, d)
      {
        var day := order[j];
        var amounts := byDay[day];
        DayBucketPattern(similar, order, byDay, day);
        patterns := patterns[day := DayPattern(|amounts|, Sum(amounts, Real) / |amounts| as real)];
        PrefixMembers(order, j);
        j := j + 1;
      }
      assert order[..j] == order;
    }
  }

  function BucketOrEmpty(buckets: map<int, MonthBucket>, m: int): MonthBucket {
    if m in buckets then buckets[m] else MonthBucket(0.0, [], map[])
  }

  /** Adds one expense to its month's bucket. */
  function AddToBucket(b: MonthBucket, e: Expense): MonthBucket {
    MonthBucket(b.total + e.amount, Note(b.order, e.category), AddTo(b.byCategory, e.category, e.amount))
  }

  lemma MonthsBucketedStep(xs: seq<Expense>, e: Expense, order: seq<int>, buckets: map<int, MonthBucket>)
    requires MonthsBucketed(xs, order, buckets)
    ensures var m := MonthOf(e);
            MonthsBucketed(xs + [e], Note(order, m), buckets[m := AddToBucket(BucketOrEmpty(buckets, m), e)])
  {
    var ys, m := xs + [e], MonthOf(e);
    FirstSeenSnoc(xs, e, MonthOf);
    if m !in buckets {
      assert m !in Map(xs, MonthOf);
      EmptyBucket(xs, m);
    }
    var nb := buckets[m := AddToBucket(BucketOrEmpty(buckets, m), e)];
    forall k | k in nb
      ensures BucketFor(ys, k, nb[k])
    {
      if k == m {
        BucketStep(xs, e, BucketOrEmpty(buckets, m));
      } else {
        OtherBucket(xs, e, buckets[k], k);
      }
    }
  }

  /** A month without expenses has an empty bucket. */
  lemma EmptyBucket(xs: seq<Expense>, m: int)
    requires m !in Map(xs, MonthOf)
    ensures BucketFor(xs, m, MonthBucket(0.0, [], map[]))
  {
    AbsentKey(xs, MonthOf, m, Amount);
    WithKeyMeasures(xs, MonthOf, m, Amount);
    assert |WithKey(xs, MonthOf, m)| == 0;
  }

  /** Adding an expense leaves the buckets of the other months as they
      are. */
  lemma OtherBucket(xs: seq<Expense>, e: Expense, b: MonthBucket, k: int)
    requires k != MonthOf(e) && BucketFor(xs, k, b)
    ensures BucketFor(xs + [e], k, b)
  {
    assert (xs + [e])[..|xs|] == xs;
    WithKeyStep(xs, e, MonthOf, k);
    assert WithKey(xs + [e], MonthOf, k) == WithKey(xs, MonthOf, k) + [];
    assert WithKey(xs, MonthOf, k) + [] == WithKey(xs, MonthOf, k);
  }

  /** Adding an expense to the bucket of its own month. */
  lemma BucketStep(xs: seq<Expense>, e: Expense, b: MonthBucket)
    requires BucketFor(xs, MonthOf(e), b)
    ensures BucketFor(xs + [e], MonthOf(e), AddToBucket(b, e))
  {
    assert (xs + [e])[..|xs|] == xs;
    WithKeyStep(xs, e, MonthOf, MonthOf(e));
    TalliedStep(WithKey(xs, MonthOf, MonthOf(e)), e, Category, Amount, b.order, b.byCategory);
  }

  lemma MonthsBucketedNext(history: seq<Expense>, i: nat, order: seq<int>, buckets: map<int, MonthBucket>)
    requires i < |history| && MonthsBucketed(history[..i], order, buckets)
    ensures var m := MonthOf(history[i]);
            (m in buckets <==> m in order)
            && MonthsBucketed(history[..i + 1], Note(order, m), buckets[m := AddToBucket(BucketOrEmpty(buckets, m), history[i])])
  {
    MonthsBucketedStep(history[..i], history[i], order, buckets);
    assert history[..i + 1] == history[..i] + [history[i]];
  }

  /** Section 7 of `gatherExpenseData`: one pass filling, per month, the
      total and the per-category totals. */
  method MonthlyAverages(history: seq<Expense>) returns (order: seq<int>, buckets: map<int, MonthBucket>)
    ensures MonthsBucketed(history, order, buckets)
  {
    order, buckets := [], map[];
    var i := 0;
    while i < |history|
      invariant 0 <= i <= |history|
      invariant MonthsBucketed(history[..i], order, buckets)
    {
      var e := history[i];
      MonthsBucketedNext(history, i, order, buckets);
      var month := MonthOf(e);
      if month !in buckets {
        buckets := buckets[month := MonthBucket(0.0, [], map[])];
        order := order + [month];
      }
      var b := buckets[month];
      buckets := buckets[month := AddToBucket(b, e)];
      i := i + 1;
    }
    assert history[..i] == history;
  }

  // ---------------------------------------------------------------------
  // Properties of the gathered data

  /** The category statistics handed to the fallback are well formed: at
      most 50 expenses, averaging to a positive amount when there is one and
      to 0 when there is none. */
  lemma CategoryStatsFacts(mine: seq<Expense>, e: Expense, rel: RelevantData)
    requires AllPositive(mine) && Gathered(mine, e, rel)
    ensures rel.categoryExpenseCount <= 50 && rel.similarCount <= 20
    ensures rel.categoryExpenseCount > 0 <==> rel.categoryAverage > 0.0
    ensures rel.similarCount > 0 <==> rel.similarAverage > 0.0
    ensures StatsWellFormed(Some(CategoryStats(rel.categoryAverage, rel.categoryExpenseCount)))
  {
    QueriesPositive(mine, e);
    MeanPositive(CategoryExpenses(mine, e), Amount);
    MeanPositive(SimilarExpenses(mine, e), Amount);
  }

  lemma QueriesPositive(mine: seq<Expense>, e: Expense)
    requires AllPositive(mine)
    ensures AllPositive(CategoryExpenses(mine, e)) && AllPositive(SimilarExpenses(mine, e))
  {
    NewestFirstCorrect(SameCategoryOthers(mine, e));
    NewestFirstCorrect(SimilarOthers(mine, e));
    QueryPositive(mine, NewestFirst(SameCategoryOthers(mine, e)), SameCategoryOthers(mine, e), 50);
    QueryPositive(mine, NewestFirst(SimilarOthers(mine, e)), SimilarOthers(mine, e), 20);
  }

  /** The expense counts in its own month: its amount is at most its
      category's monthly total, which is at most the monthly total. */
  lemma MonthlyTotalsFacts(mine: seq<Expense>, e: Expense, rel: RelevantData)
    requires AllPositive(mine) && e in mine && Gathered(mine, e, rel)
    ensures 0.0 < e.amount <= rel.monthlyCategory <= rel.monthlyTotal
    ensures e.amount <= rel.weeklyTotal
  {
    var k :| 0 <= k < |mine| && mine[k] == e;
    MonthSums(mine, e);
    WeekContainsDate(e.date);
    FilterSum(mine, InWeek(e.date), Amount);
  }

  /** A weekday pattern is the count and mean amount of the similar
      expenses on that weekday, of which there is at least one. */
  lemma DayPatternMeaning(similar: seq<Expense>, patterns: map<int, DayPattern>, d: int)
    requires DayPatterns(similar, patterns) && d in patterns
    ensures |similar| >= 3
    ensures var on := WithKey(similar, WeekdayOf, d);
            patterns[d].count == |on| >= 1
            && patterns[d].average == Mean(on, Amount)
            && forall x :: x in on ==> x in similar && WeekdayOf(x) == d
  {
    WithKeyMeasures(similar, WeekdayOf, d, Amount);
    PresentKey(similar, WeekdayOf, d);
  }

  /** A month's total is the sum of its per-category totals. */
  lemma MonthBucketPartition(history: seq<Expense>, order: seq<int>, buckets: map<int, MonthBucket>, m: int)
    requires MonthsBucketed(history, order, buckets) && m in buckets
    ensures var b := buckets[m];
            (forall c :: c in b.order ==> c in b.byCategory)
            && b.total == Sum(Entries(b.order, b.byCategory), EntryValue)
  {
    var b := buckets[m];
    var inMonth := WithKey(history, MonthOf, m);
    TalliedEntries(inMonth, Category, Amount, b.order, b.byCategory);
    TotalsPartition(inMonth, Category, Amount);
    WithKeyMeasures(history, MonthOf, m, Amount);
  }

  // ---------------------------------------------------------------------
  // The conversation sent to the model

  /** A turn of the conversation as the client keeps it. */
  datatype ChatMessage = ChatMessage(role: string, content: string)

  datatype LlmMessage =
    | SystemPrompt
    | HistoryTurn(turn: ChatMessage)
    | QuestionPrompt(data: ExpenseData, relevant: RelevantData, question: string)

  /** `array.splice(at, 0, ...items)` */
  function Splice<T>(s: seq<T>, at: nat, items: seq<T>): seq<T>
    requires at <= |s|
  {
    s[..at] + items + s[at..]
  }

  /** The messages: the system prompt, then the earlier conversation
      spliced in at index 1, then the prompt carrying the data and the
      question. */
  function Messages(data: ExpenseData, rel: RelevantData, question: string, history: seq<ChatMessage>): seq<LlmMessage> {
    var messages := [SystemPrompt, QuestionPrompt(data, rel, question)];
    if |history| > 0 then Splice(messages, 1, Map(history, (m: ChatMessage) => HistoryTurn(m))) else messages
  }

  /** The conversation keeps its order between the system prompt and the
      question, which always comes last. */
  lemma MessagesShape(data: ExpenseData, rel: RelevantData, question: string, history: seq<ChatMessage>)
    ensures var ms := Messages(data, rel, question, history);
            |ms| == |history| + 2
            && ms[0] == SystemPrompt
            && ms[|ms| - 1] == QuestionPrompt(data, rel, question)
            && forall i :: 0 <= i < |history| ==> ms[i + 1] == HistoryTurn(history[i])
  {
  }

  // ---------------------------------------------------------------------
  // The handler

  /** What came back from the model call: a body that is not JSON, a JSON
      error object, a thrown exception, or a completion. */
  datatype LlmOutcome = Unparseable | ProviderError | CallFailed | Completion(content: string)

  /** The answer's content: the model's text, the fallback insights (sent
      joined by blank lines), or a fallback answer. */
  datatype AnswerBody =
    | ModelAnswer(text: string)
    | FallbackInsightList(insights: seq<Insight>)
    | FallbackReply(reply: Answer)

  datatype AnalyzeResponse = Answered(answer: AnswerBody) | Refused(status: int, error: string)

  /** The opening request of the insight panel is recognised by two
      phrases. */
  predicate IsInsightsRequest(question: string) {
    Contains(ToLower(question), "key insights") || Contains(ToLower(question), "how does it compare")
  }

  /** The similar expenses the fallback uses: a second query with the same
      filter, in table order, at most 10, and only when the first query
      found any. */
  function FallbackSimilar(mine: seq<Expense>, e: Expense, rel: RelevantData): seq<Expense> {
    if rel.similarCount > 0 then Sorting.Take(SimilarOthers(mine, e), 10) else []
  }

  /** The same fallback on each of the three failure paths. */
  function FallbackBody(question: string, mine: seq<Expense>, e: Expense, rel: RelevantData): AnswerBody
    requires AllPositive(mine)
    requires StatsWellFormed(Some(CategoryStats(rel.categoryAverage, rel.categoryExpenseCount)))
  {
    var stats := CategoryStats(rel.categoryAverage, rel.categoryExpenseCount);
    var similar := FallbackSimilar(mine, e, rel);
    QueryPositive(mine, SimilarOthers(mine, e), SimilarOthers(mine, e), 10);
    if IsInsightsRequest(question) then FallbackInsightList(FallbackInsights(e, Some(stats), similar))
    else FallbackReply(FallbackAnswer(question, e, stats, similar))
  }

  /** The handler. `email` is the session's email, `user` the id that email
      looks up, `expenseId` the body's id (`None` when missing or falsy) and
      `rows` the expense table; `outcome` is what the model call produced.
      Also returns the messages sent to the model and the data gathered, when
      the request got that far. */
  method Analyze(email: Option<string>, user: Option<string>, httpMethod: string,
                 expenseId: Option<int>, question: string, history: seq<ChatMessage>,
                 rows: seq<Row>, outcome: LlmOutcome)
    returns (r: AnalyzeResponse, sent: seq<LlmMessage>, rel: RelevantData)
    requires forall i :: 0 <= i < |rows| ==> rows[i].expense.amount > 0.0
    ensures var a := Admit(email, user, httpMethod, expenseId, question == "", "Expense ID and question are required", rows);
            (a.Rejected? <==> r.Refused?)
            && (a.Rejected? ==> r == Refused(a.status, a.error))
            && (a.Admitted? ==>
                  var mine := Owned(rows, user.value);
                  Gathered(mine, a.row.expense, rel)
                  && sent == Messages(ExpenseData(a.row.expense, a.row.householdId.Some?), rel, question, history)
                  && (outcome.Completion? ==> r.answer == ModelAnswer(outcome.content))
                  && (!outcome.Completion? ==>
                        AllPositive(mine)
                        && StatsWellFormed(Some(CategoryStats(rel.categoryAverage, rel.categoryExpenseCount)))
                        && r.answer == FallbackBody(question, mine, a.row.expense, rel)))
  {
    sent := [];
    rel := RelevantData(0.0, 0, 0.0, 0, 0.0, 0.0, 0.0, map[], [], map[]);
    var admission := Admit(email, user, httpMethod, expenseId, question == "", "Expense ID and question are required", rows);
    if admission.Rejected? {
      return Refused(admission.status, admission.error), sent, rel;
    }
    var row := admission.row;
    var mine := Owned(rows, user.value);
    OwnedPositive(rows, user.value);
    var data;
    data, rel := GatherExpenseData(mine, row.expense, row.householdId);
    sent := Messages(data, rel, question, history);
    if outcome.Completion? {
      r := Answered(ModelAnswer(outcome.content));
    } else {
      CategoryStatsFacts(mine, row.expense, rel);
      r := Answered(FallbackBody(question, mine, row.expense, rel));
    }
  }

  /** On every failure of the model call the opening request of the insight
      panel gets the insight list (whose last sentence is the closing one),
      and any other question gets a single fallback answer. */
  lemma FallbackRouting(question: string, mine: seq<Expense>, e: Expense, rel: RelevantData)
    requires AllPositive(mine)
    requires StatsWellFormed(Some(CategoryStats(rel.categoryAverage, rel.categoryExpenseCount)))
    ensures var b := FallbackBody(question, mine, e, rel);
            (b.FallbackInsightList? <==> IsInsightsRequest(question))
            && (b.FallbackInsightList? ==> 2 <= |b.insights| <= 3 && b.insights[|b.insights| - 1] == KeepTracking
                                           && (|b.insights| == 3 <==> rel.similarCount > 0 && |SimilarOthers(mine, e)| > 0))
            && (b.FallbackReply? ==> b.reply == FallbackAnswer(question, e, CategoryStats(rel.categoryAverage, rel.categoryExpenseCount), FallbackSimilar(mine, e, rel)))
  {
    QueryPositive(mine, SimilarOthers(mine, e), SimilarOthers(mine, e), 10);
    var stats := CategoryStats(rel.categoryAverage, rel.categoryExpenseCount);
    FallbackInsightsShape(e, Some(stats), FallbackSimilar(mine, e, rel));
  }
}

=== FILE: member_roles.dfy ===
/** The household role controls: the role selector of
    app/households/_components/MemberRoleSelector.tsx and the role toggle of
    app/households/_components/MemberRoleToggle.tsx. Both decide on the
    client whether to send a role change; the request itself, its toasts
    and the page reload are not part of the model. */
module MemberRoles {

  datatype Role = Admin | Member

  /** The other role. */
  function Opposite(r: Role): (o: Role)
    ensures o != r
  {
    if r == Admin then Member else Admin
  }

  /** The role as the UI names it. */
  function RoleName(r: Role): string {
    if r == Admin then "Admin" else "Member"
  }

  /** What a click decides: nothing, a refusal with its toast, or a request
      to change the role to `role`. */
  datatype Outcome = Unchanged | Refused(message: string) | Sent(role: Role)

  const OwnRoleOnlyDown := "You can only change your own role from admin to member"
  const OtherAdminFixed := "You cannot change another admin's role"
  const OnlyPromote := "You can only change members to admins"
  const OwnRoleFixed := "You cannot change your own role"

  // ---------------------------------------------------------------------
  // The selector

  /** `updateRole(newRole)` of the selector, up to the request. */
  function UpdateRole(currentRole: Role, isCurrentUser: bool, newRole: Role): (o: Outcome)
    ensures o.Sent? ==> o.role == newRole && newRole != currentRole
  {
    if newRole == currentRole then Unchanged
    else if isCurrentUser then
      if currentRole == Admin && newRole == Member then Sent(newRole) else Refused(OwnRoleOnlyDown)
    else if currentRole == Admin then Refused(OtherAdminFixed)
    else if newRole != Admin then Refused(OnlyPromote)
    else Sent(newRole)
  }

  /** `canChangeRole()` */
  predicate CanChangeRole(currentRole: Role, isCurrentUser: bool) {
    if isCurrentUser then currentRole == Admin else currentRole == Member
  }

  /** The select is disabled while a request runs or when the role cannot
      change. */
  predicate SelectorDisabled(isLoading: bool, currentRole: Role, isCurrentUser: bool) {
    isLoading || !CanChangeRole(currentRole, isCurrentUser)
  }

  /** Choosing the role a member already has does nothing. */
  lemma SameRoleIsNoOp(currentRole: Role, isCurrentUser: bool)
    ensures UpdateRole(currentRole, isCurrentUser, currentRole) == Unchanged
  {
  }

  /** On one's own row only a step down from admin to member is sent; every
      other change is refused. */
  lemma OwnRoleRule(currentRole: Role, newRole: Role)
    ensures UpdateRole(currentRole, true, newRole).Sent? <==> currentRole == Admin && newRole == Member
    ensures newRole != currentRole && !(currentRole == Admin && newRole == Member) ==>
              UpdateRole(currentRole, true, newRole) == Refused(OwnRoleOnlyDown)
  {
  }

  /** On another member's row an admin is never changed and a member can
      only be promoted; the "only promote" refusal cannot happen, since a
      member asked for a different role is asked to become admin. */
  lemma OtherRoleRule(currentRole: Role, newRole: Role)
    ensures UpdateRole(currentRole, false, newRole).Sent? <==> currentRole == Member && newRole == Admin
    ensures currentRole == Admin && newRole != Admin ==> UpdateRole(currentRole, false, newRole) == Refused(OtherAdminFixed)
    ensures UpdateRole(currentRole, false, newRole) != Refused(OnlyPromote)
  {
  }

  /** `canChangeRole` agrees with `updateRole`: when it is false every
      different role is refused, and when it is true exactly the opposite
      role is sent. */
  lemma CanChangeRoleMeaning(currentRole: Role, isCurrentUser: bool, newRole: Role)
    ensures !CanChangeRole(currentRole, isCurrentUser) && newRole != currentRole ==>
              UpdateRole(currentRole, isCurrentUser, newRole).Refused?
    ensures CanChangeRole(currentRole, isCurrentUser) ==>
              (UpdateRole(currentRole, isCurrentUser, newRole).Sent? <==> newRole == Opposite(currentRole))
    ensures CanChangeRole(currentRole, isCurrentUser) <==> UpdateRole(currentRole, isCurrentUser, Opposite(currentRole)).Sent?
  {
  }

  // ---------------------------------------------------------------------
  // The toggle

  /** `toggleRole()` of the toggle, up to the request. */
  function ToggleRole(currentRole: Role, isCurrentUser: bool): (o: Outcome)
    ensures o != Unchanged
  {
    if isCurrentUser then Refused(OwnRoleFixed) else Sent(Opposite(currentRole))
  }

  /** The button is disabled while a request runs and on one's own row. */
  predicate ToggleDisabled(isLoading: bool, isCurrentUser: bool) {
    isLoading || isCurrentUser
  }

  /** The button text. */
  function ToggleLabel(isLoading: bool, currentRole: Role): string {
    if isLoading then "Updating..." else RoleName(currentRole)
  }

  /** One's own role is never toggled; any other role is asked to become
      the other one, so toggling the result restores the role. */
  lemma ToggleMeaning(currentRole: Role, isCurrentUser: bool)
    ensures ToggleRole(currentRole, isCurrentUser).Refused? <==> isCurrentUser
    ensures ToggleRole(currentRole, isCurrentUser).Sent? ==>
              var next := ToggleRole(currentRole, isCurrentUser).role;
              next != currentRole && ToggleRole(next, isCurrentUser) == Sent(currentRole)
  {
  }

  /** The button is enabled exactly when it is idle and on another member's
      row, and only then can a click send a request. */
  lemma ToggleDisabledMeaning(isLoading: bool, currentRole: Role, isCurrentUser: bool)
    ensures !ToggleDisabled(isLoading, isCurrentUser) <==> !isLoading && !isCurrentUser
    ensures !ToggleDisabled(isLoading, isCurrentUser) ==> ToggleRole(currentRole, isCurrentUser).Sent?
  {
  }

  /** The label reads "Updating..." exactly while loading, and otherwise
      names the role, a different name for each role. */
  lemma ToggleLabelMeaning(isLoading: bool, currentRole: Role, other: Role)
    ensures ToggleLabel(isLoading, currentRole) == "Updating..." <==> isLoading
    ensures !isLoading ==> ToggleLabel(isLoading, currentRole) == RoleName(currentRole)
    ensures RoleName(currentRole) == RoleName(other) <==> currentRole == other
  {
  }

  /** The toggle is laxer than the selector: whatever the selector sends for
      another member the toggle sends too, but the toggle also demotes
      another admin, which the selector refuses. */
  lemma SelectorWithinToggle(currentRole: Role, newRole: Role)
    ensures UpdateRole(currentRole, false, newRole).Sent? ==> ToggleRole(currentRole, false) == UpdateRole(currentRole, false, newRole)
    ensures currentRole == Admin ==>
              ToggleRole(currentRole, false) == Sent(Member) && UpdateRole(currentRole, false, Member).Refused?
  {
  }
}

=== FILE: middleware.dfy ===
/** The routing decision of middleware.ts: which requests pass and which are
    redirected, from whether the request carries a session token and from
    its path. The token lookup is the parameter `isAuthenticated`; the
    `config.matcher` that decides which paths reach the middleware at all
    is not part of the model. */
module Middleware {
  import opened Text

  /** `NextResponse.next()` or a redirect to `target`. */
  datatype Decision = Pass | Redirect(target: string)

  const SignIn := "/auth/signin"
  const Home := "/"

  /** The pages reachable without a session. */
  const PublicPaths: seq<string> :=
    [SignIn, "/auth/signup", "/auth/error", "/auth/forgot-password", "/auth/reset-password"]

  predicate IsPublicPath(path: string) {
    path in PublicPaths
  }

  /** API routes, framework assets, images and the favicon pass untouched. */
  predicate PassesThrough(path: string) {
    StartsWith(path, "/api/") || StartsWith(path, "/_next/") || StartsWith(path, "/images/")
    || Contains(path, "favicon.ico")
  }

  /** `middleware(request)` */
  function Route(isAuthenticated: bool, path: string): (d: Decision)
    ensures d.Redirect? ==> d.target == (if isAuthenticated then Home else SignIn)
  {
    if StartsWith(path, "/api/") then Pass
    else if StartsWith(path, "/_next/") || StartsWith(path, "/images/") || Contains(path, "favicon.ico") then Pass
    else if isAuthenticated && IsPublicPath(path) then Redirect(Home)
    else if !isAuthenticated && !IsPublicPath(path) then Redirect(SignIn)
    else Pass
  }

  /** The public paths are five distinct pages under "/auth/". */
  lemma PublicPathsMeaning()
    ensures |PublicPaths| == 5
    ensures forall i, j :: 0 <= i < j < |PublicPaths| ==> PublicPaths[i] != PublicPaths[j]
    ensures forall p :: p in PublicPaths ==> StartsWith(p, "/auth/")
  {
  }

  /** No public page is passed through: none is under "/api/", "/_next/" or
      "/images/", and none mentions the favicon. */
  lemma PublicPathsAreRouted(path: string)
    requires IsPublicPath(path)
    ensures !PassesThrough(path)
  {
    PublicPathShape(path);
    ShapeIsRouted(path);
  }

  /** A path beginning with "/au" is under none of the pass-through
      prefixes, and without a "v" it does not mention the favicon. */
  lemma ShapeIsRouted(path: string)
    requires |path| >= 3 && path[..3] == "/au" && 'v' !in path
    ensures !PassesThrough(path)
  {
    assert path[2] == 'u';
    NoFavicon(path);
  }

  /** Every public page begins with "/au" and has no "v". */
  lemma PublicPathShape(path: string)
    requires IsPublicPath(path)
    ensures |path| >= 3 && path[..3] == "/au" && 'v' !in path
  {
  }

  /** A path without a "v" does not mention the favicon. */
  lemma NoFavicon(path: string)
    requires 'v' !in path
    ensures !Contains(path, "favicon.ico")
  {
    if Contains(path, "favicon.ico") {
      ContainsChars(path, "favicon.ico");
    }
  }

  /** A request is redirected exactly when it does not pass through and
      its authentication matches the page being public: signed-in users
      are sent home from the auth pages, everybody else to the sign-in
      page from every other page. "/api/" paths always pass. */
  lemma RouteMeaning(isAuthenticated: bool, path: string)
    ensures Route(isAuthenticated, path).Redirect? <==> !PassesThrough(path) && (isAuthenticated <==> IsPublicPath(path))
    ensures StartsWith(path, "/api/") ==> Route(isAuthenticated, path) == Pass
    ensures isAuthenticated && IsPublicPath(path) ==> Route(isAuthenticated, path) == Redirect(Home)
    ensures !isAuthenticated && !IsPublicPath(path) && !PassesThrough(path) ==> Route(isAuthenticated, path) == Redirect(SignIn)
  {
    if IsPublicPath(path) {
      PublicPathsAreRouted(path);
    }
  }

  /** A redirect target is passed under the same authentication, so the
      middleware never redirects twice in a row. */
  lemma NoRedirectLoop(isAuthenticated: bool, path: string)
    ensures Route(isAuthenticated, path).Redirect? ==>
              Route(isAuthenticated, Route(isAuthenticated, path).target) == Pass
  {
    if isAuthenticated {
      assert !IsPublicPath(Home);
    } else {
      assert IsPublicPath(SignIn);
      PublicPathsAreRouted(SignIn);
    }
  }
}

=== FILE: numbers.dfy ===
/** JavaScript number helpers used by the analysis code: `Math.abs`,
    `Math.round` (which rounds halves up, toward positive infinity),
    `Math.min` and `Math.max`, and the percentage difference banding that
    several insight generators share. */
module Numbers {

  function Abs(x: real): (r: real)
    ensures r >= 0.0 && (r == x || r == -x)
  {
    if x < 0.0 then -x else x
  }

  /** `Math.round(x)`: the integer nearest to `x`, halves rounded up. */
  function Round(x: real): (r: int)
    ensures x - 0.5 < r as real <= x + 0.5
  {
    (x + 0.5).Floor
  }

  function AbsInt(n: int): (r: nat)
    ensures r == n || r == -n
  {
    if n < 0 then -n else n
  }

  /** The rounded magnitude of a percentage outside the +-10% band is at
      least 10. */
  lemma RoundedOutsideBand(d: real)
    requires Abs(d) >= 10.0
    ensures AbsInt(Round(d)) >= 10
  {
  }

  lemma RoundOfInt(n: int)
    ensures Round(n as real) == n
  {
  }

  /** A positive part of a whole, as a rounded percentage, lies between 0
      and 100. */
  lemma ShareBounds(part: real, whole: real)
    requires 0.0 < part <= whole
    ensures 0 <= Round(part / whole * 100.0) <= 100
  {
    var r := part / whole;
    assert r * whole == part;
    if r > 1.0 {
      ScaleOrder(1.0, r, whole);
    }
    if r <= 0.0 {
      ScaleOrder(r, 0.0, whole);
    }
    assert 0.0 < r * 100.0 <= 100.0;
  }

  function MinReal(a: real, b: real): (r: real)
    ensures r <= a && r <= b && (r == a || r == b)
  {
    if a <= b then a else b
  }

  function MaxReal(a: real, b: real): (r: real)
    ensures r >= a && r >= b && (r == a || r == b)
  {
    if a >= b then a else b
  }

  // ---------------------------------------------------------------------
  // Percentage banding

  /** `((amount - average) / average) * 100` */
  function PercentDiff(amount: real, average: real): real
    requires average != 0.0
  {
    (amount - average) / average * 100.0
  }

  /** How an amount relates to an average: within 10%, above, or below. */
  datatype Band = Close | Higher | Lower

  /** `Math.abs(d) < 10` first, then the sign of `d`. */
  function BandOf(d: real): Band {
    if Abs(d) < 10.0 then Close else if d > 0.0 then Higher else Lower
  }

  /** For a positive average the bands are the open interval of +-10% around
      it, everything from 110% up, and everything up to 90%. */
  lemma BandOfPercentDiff(amount: real, average: real)
    requires average > 0.0
    ensures var b := BandOf(PercentDiff(amount, average));
            (b == Close <==> average * 0.9 < amount < average * 1.1)
            && (b == Higher <==> amount >= average * 1.1)
            && (b == Lower <==> amount <= average * 0.9)
  {
    var d := PercentDiff(amount, average);
    assert d * average == (amount - average) * 100.0;
    BandBounds(d, amount, average);
  }

  lemma BandBounds(d: real, amount: real, average: real)
    requires average > 0.0 && d * average == (amount - average) * 100.0
    ensures d < 10.0 <==> amount < average * 1.1
    ensures -10.0 < d <==> average * 0.9 < amount
    ensures d > 0.0 <==> amount > average
  {
    BandBound(d, 10.0, amount, average);
    BandBound(d, -10.0, amount, average);
    BandBound(d, 0.0, amount, average);
  }

  /** `d < c` exactly when the amount is below `(1 + c/100)` times the
      average. */
  lemma BandBound(d: real, c: real, amount: real, average: real)
    requires average > 0.0 && d * average == (amount - average) * 100.0
    ensures d < c <==> amount * 100.0 < average * (100.0 + c)
    ensures c < d <==> average * (100.0 + c) < amount * 100.0
  {
    ScaleOrder(d, c, average);
    ScaleOrder(c, d, average);
  }

  lemma ScaleOrder(x: real, y: real, a: real)
    requires a > 0.0
    ensures x < y <==> x * a < y * a
  {
    if x < y {
      assert (y - x) * a > 0.0;
    } else {
      assert (x - y) * a >= 0.0;
    }
  }
}

=== FILE: profile_content.dfy ===
/** The profile page's client logic, app/profile/ProfileContent.tsx: when
    the user name may change again, the edit form's state, the image
    picker's checks and the Cancel button. The request the form sends and
    the page refresh are not part of the model; `Submission` is what the
    form would send. */
module ProfileContent {
  import opened Wrappers
  import opened Text
  import Accounts

  // ---------------------------------------------------------------------
  // The user name cooldown as the page shows it

  /** `canChangeUsername`: never changed, or more than 30 days ago. */
  predicate CanChangeUsername(lastUsernameChange: Option<int>, now: int) {
    lastUsernameChange.None? || now - lastUsernameChange.value > 30 * Accounts.DayMs
  }

  /** `daysUntilUsernameChange` */
  function DaysUntilUsernameChange(lastUsernameChange: Option<int>, now: int): (d: int)
    ensures d >= 0
    ensures lastUsernameChange.None? ==> d == 0
  {
    if lastUsernameChange.None? then 0
    else
      var days := 30 - Accounts.DaysSince(now, lastUsernameChange.value);
      if days > 0 then days else 0
  }

  /** For a change in the past the days shown lie between 0 and 30, and
      they are 0 whenever the page allows a change. */
  lemma DaysUntilBounds(lastUsernameChange: Option<int>, now: int)
    requires lastUsernameChange.Some? ==> lastUsernameChange.value <= now
    ensures 0 <= DaysUntilUsernameChange(lastUsernameChange, now) <= 30
    ensures CanChangeUsername(lastUsernameChange, now) ==> DaysUntilUsernameChange(lastUsernameChange, now) == 0
  {
    if lastUsernameChange.Some? {
      var t := now - lastUsernameChange.value;
      Accounts.FloorBelow(t, 0);
      Accounts.FloorBelow(t, 30);
      Accounts.FloorBelow(t, 31);
    }
  }

  /** The page is stricter than the server by one instant: where the page
      allows a change the server accepts it, and they disagree exactly when
      30 days have passed to the millisecond. */
  lemma PageWithinServer(last: int, now: int)
    ensures CanChangeUsername(Some(last), now) ==> Accounts.CooldownWait(now, last).None?
    ensures Accounts.CooldownWait(now, last).None? && !CanChangeUsername(Some(last), now)
            <==> now - last == 30 * Accounts.DayMs
  {
  }

  /** While the server refuses a rename of a name changed in the past, the
      page shows the same number of days as the server's message. */
  lemma PageShowsServerWait(last: int, now: int)
    requires last <= now
    requires Accounts.CooldownWait(now, last).Some?
    ensures DaysUntilUsernameChange(Some(last), now) == Accounts.CooldownWait(now, last).value
  {
  }

  // ---------------------------------------------------------------------
  // The image picker

  /** A chosen file: its size in bytes, its MIME type, and the URL
      `URL.createObjectURL` gives it. */
  datatype File = File(size: int, mimeType: string, objectUrl: string)

  const MaxImageSize := 5 * 1024 * 1024
  const TooLarge := "Image size must be less than 5MB"
  const NotAnImage := "File must be an image"

  /** The error `handleImageChange` reports for a file, or None when it
      takes it: the size is checked before the type. */
  function ImageProblem(file: File): (e: Option<string>)
    ensures e.None? <==> file.size <= MaxImageSize && StartsWith(file.mimeType, "image/")
    ensures file.size > MaxImageSize ==> e == Some(TooLarge)
    ensures e == Some(NotAnImage) ==> file.size <= MaxImageSize
  {
    if file.size > MaxImageSize then Some(TooLarge)
    else if !StartsWith(file.mimeType, "image/") then Some(NotAnImage)
    else None
  }

  /** `user.name || ''` and the like. */
  function OrEmpty(s: Option<string>): string {
    if s.Some? then s.value else ""
  }

  /** `user.image || null` */
  function OrNull(s: Option<string>): Option<string> {
    if s.Some? && s.value != "" then s else None
  }

  /** What the form sends: the three text fields and the chosen file. */
  datatype Sent = Sent(name: string, bio: string, location: string, image: Option<File>)

  // ---------------------------------------------------------------------
  // The form

  class ProfileForm {
    var name: string
    var bio: string
    var location: string
    var imageFile: Option<File>
    var imagePreview: Option<string>
    var isEditing: bool
    var error: string
    var success: string

    /** A chosen file is the one previewed. */
    predicate PreviewShowsFile()
      reads this
    {
      imageFile.Some? ==> imagePreview == Some(imageFile.value.objectUrl)
    }

    /** The first render for `user`. */
    constructor(user: Accounts.ProfileView)
      ensures name == OrEmpty(user.name) && bio == OrEmpty(user.bio) && location == OrEmpty(user.location)
      ensures imageFile == None && imagePreview == OrNull(user.image)
      ensures !isEditing && error == "" && success == ""
      ensures PreviewShowsFile()
    {
      name := OrEmpty(user.name);
      bio := OrEmpty(user.bio);
      location := OrEmpty(user.location);
      imageFile := None;
      imagePreview := OrNull(user.image);
      isEditing := false;
      error := "";
      success := "";
    }

    /** The form data `handleSubmit` sends. */
    function Submission(): Sent
      reads this
    {
      Sent(name, bio, location, imageFile)
    }

    /** `handleImageChange` with the first selected file, if any: a
        rejected file only sets the error; an accepted one becomes the chosen
        file and the preview and clears the error. */
    method HandleImageChange(file: Option<File>)
      modifies this
      ensures file.None? ==> unchanged(this)
      ensures file.Some? && ImageProblem(file.value).Some? ==>
                error == ImageProblem(file.value).value
                && imageFile == old(imageFile) && imagePreview == old(imagePreview)
                && name == old(name) && bio == old(bio) && location == old(location)
                && isEditing == old(isEditing) && success == old(success)
      ensures file.Some? && ImageProblem(file.value).None? ==>
                imageFile == file && imagePreview == Some(file.value.objectUrl) && error == ""
                && name == old(name) && bio == old(bio) && location == old(location)
                && isEditing == old(isEditing) && success == old(success)
      ensures old(PreviewShowsFile()) ==> PreviewShowsFile()
    {
      if file.None? {
        return;
      }
      var problem := ImageProblem(file.value);
      if problem.Some? {
        error := problem.value;
        return;
      }
      imageFile := file;
      imagePreview := Some(file.value.objectUrl);
      error := "";
    }

    /** The Cancel button as written: the text fields, the preview and both
        messages return to the user's, but a chosen file stays chosen. */
    method CancelAsWritten(user: Accounts.ProfileView)
      modifies this
      ensures !isEditing && imagePreview == OrNull(user.image)
      ensures name == OrEmpty(user.name) && bio == OrEmpty(user.bio) && location == OrEmpty(user.location)
      ensures error == "" && success == ""
      ensures imageFile == old(imageFile)
    {
      isEditing := false;
      imagePreview := OrNull(user.image);
      name := OrEmpty(user.name);
      bio := OrEmpty(user.bio);
      location := OrEmpty(user.location);
      error := "";
      success := "";
    }

    /** The Cancel button with the chosen file discarded too: the form is
        back to its first render, apart from the edit mode being off. */
    method Cancel(user: Accounts.ProfileView)
      modifies this
      ensures !isEditing && imagePreview == OrNull(user.image) && imageFile == None
      ensures name == OrEmpty(user.name) && bio == OrEmpty(user.bio) && location == OrEmpty(user.location)
      ensures error == "" && success == ""
      ensures PreviewShowsFile()
      ensures Submission() == Sent(OrEmpty(user.name), OrEmpty(user.bio), OrEmpty(user.location), None)
    {
      CancelAsWritten(user);
      imageFile := None;
    }
  }

  /** Choosing an image and pressing Cancel as written leaves the file
      chosen while the preview shows the stored image, so the next save
      uploads the discarded file; the corrected Cancel sends no file. */
  method CancelKeepsFile(user: Accounts.ProfileView, file: File) returns (asWritten: Sent, corrected: Sent)
    requires ImageProblem(file).None?
    requires OrNull(user.image) != Some(file.objectUrl)
    ensures asWritten.image == Some(file)
    ensures corrected.image == None
  {
    var form := new ProfileForm(user);
    form.HandleImageChange(Some(file));
    form.CancelAsWritten(user);
    assert !form.PreviewShowsFile();
    asWritten := form.Submission();
    var again := new ProfileForm(user);
    again.HandleImageChange(Some(file));
    again.Cancel(user);
    corrected := again.Submission();
  }
}

=== FILE: ranking.dfy ===
/** The "totals per key, largest first, first n" idiom the dashboards
    share: an object filled by `reduce`, `Object.entries`, a descending
    `sort` on the value and `slice(0, n)`. */
module Ranking {
  import opened Agg
  import opened Sorting

  /** The per-key totals, largest first. */
  function Ranked<T, K(==,!new)>(xs: seq<T>, key: T -> K, f: T -> real): seq<Entry<K>> {
    SortDesc(Totals(xs, key, f), EntryValue)
  }

  /** The first `n` of them. */
  function Top<T, K(==,!new)>(xs: seq<T>, key: T -> K, f: T -> real, n: nat): seq<Entry<K>> {
    Take(Ranked(xs, key, f), n)
  }

  /** The ranking lists every key once with its own total, in descending
      order, and its totals add up to the overall total. */
  lemma RankedMeaning<T, K(!new)>(xs: seq<T>, key: T -> K, f: T -> real)
    ensures var rs := Ranked(xs, key, f);
            && Sum(rs, EntryValue) == Sum(xs, f)
            && (forall i, j :: 0 <= i < j < |rs| ==> rs[i].value >= rs[j].value && rs[i].key != rs[j].key)
            && (forall r :: r in rs ==> r.value == SumKey(xs, key, r.key, f))
            && (forall k :: k in Map(xs, key) <==> exists r :: r in rs && r.key == k)
            && |rs| == |FirstSeen(xs, key)|
  {
    var ts := Totals(xs, key, f);
    var rs := Ranked(xs, key, f);
    SortDescCorrect(ts, EntryValue);
    SumPermutation(rs, ts, EntryValue);
    TotalsPartition(xs, key, f);
    assert |rs| == |multiset(rs)| == |multiset(ts)| == |ts|;
    RankedKeys(xs, key, f);
  }

  lemma RankedKeys<T, K(!new)>(xs: seq<T>, key: T -> K, f: T -> real)
    ensures var rs := Ranked(xs, key, f);
            && (forall i, j :: 0 <= i < j < |rs| ==> rs[i].key != rs[j].key)
            && (forall r :: r in rs ==> r.value == SumKey(xs, key, r.key, f))
            && (forall k :: k in Map(xs, key) <==> exists r :: r in rs && r.key == k)
  {
    var ts := Totals(xs, key, f);
    var rs := Ranked(xs, key, f);
    SortDescCorrect(ts, EntryValue);
    TotalsKeys(xs, key, f);
    forall i, j | 0 <= i < j < |rs|
      ensures rs[i].key != rs[j].key
    {
      assert rs[i] in multiset(ts) && rs[j] in multiset(ts);
      var a :| 0 <= a < |ts| && ts[a] == rs[i];
      var b :| 0 <= b < |ts| && ts[b] == rs[j];
      if a == b {
        TwoOccurrences(rs, i, j);
        DistinctCounts(ts, ts[a]);
      }
    }
    forall r | r in rs
      ensures r.value == SumKey(xs, key, r.key, f) && r.key in Map(xs, key)
    {
      assert r in multiset(ts);
      var a :| 0 <= a < |ts| && ts[a] == r;
    }
    forall k | k in Map(xs, key)
      ensures exists r :: r in rs && r.key == k
    {
      var a :| 0 <= a < |ts| && ts[a].key == k;
      assert ts[a] in multiset(rs);
    }
  }

  /** The first `n` of the ranking: at most `n` entries, in descending
      order, each with its own total; every key left out totals no more
      than any shown one; with at most `n` keys nothing is left out. */
  lemma TopMeaning<T, K(!new)>(xs: seq<T>, key: T -> K, f: T -> real, n: nat)
    ensures var ts := Top(xs, key, f, n);
            && |ts| <= n
            && |ts| == (if |FirstSeen(xs, key)| <= n then |FirstSeen(xs, key)| else n)
            && (forall i, j :: 0 <= i < j < |ts| ==> ts[i].value >= ts[j].value && ts[i].key != ts[j].key)
            && (forall t :: t in ts ==> t.value == SumKey(xs, key, t.key, f))
            && (forall k :: k in Map(xs, key) && (forall t :: t in ts ==> t.key != k) ==>
                  forall t :: t in ts ==> SumKey(xs, key, k, f) <= t.value)
            && (|FirstSeen(xs, key)| <= n ==> Sum(ts, EntryValue) == Sum(xs, f))
  {
    var rs := Ranked(xs, key, f);
    var ts := Top(xs, key, f, n);
    RankedMeaning(xs, key, f);
    forall k | k in Map(xs, key) && (forall t :: t in ts ==> t.key != k)
      ensures forall t :: t in ts ==> SumKey(xs, key, k, f) <= t.value
    {
      var r :| r in rs && r.key == k;
      var a :| 0 <= a < |rs| && rs[a] == r;
      assert a >= |ts| by {
        assert forall b :: 0 <= b < |ts| ==> ts[b] == rs[b] && ts[b] in ts;
      }
      forall t | t in ts
        ensures SumKey(xs, key, k, f) <= t.value
      {
        var b :| 0 <= b < |ts| && ts[b] == t;
      }
    }
  }
}

=== FILE: rate_limit_alert.dfy ===
/** The banner of components/RateLimitAlert.tsx shown when the AI analysis
    is rate limited: it counts the remaining seconds down once a second,
    shows them as HH:MM:SS, and hides itself and calls `onClose` when the
    count reaches zero or the dismiss button is pressed. The one-second
    timer is modelled by `Alert.Tick`, one run of the effect and, when it
    schedules one, of its timer; `onClose` is counted in `closeCalls`. */
module RateLimitAlert {
  import opened Wrappers
  import opened Text

  /** `retryAfter` when the caller gives none: one hour. */
  const DefaultRetryAfter := 3600

  const DefaultMessage := "You've reached the maximum number of AI analysis requests for now."

  // ---------------------------------------------------------------------
  // formatTime

  /** JavaScript's `%`: the remainder has the sign of the dividend. */
  function JsRem(a: int, b: int): int
    requires b > 0
  {
    if a >= 0 then a % b else -((-a) % b)
  }

  /** `Math.floor(seconds / 3600)`; Dafny's `/` by a positive divisor
      rounds down as `Math.floor` does. */
  function Hours(seconds: int): int {
    seconds / 3600
  }

  /** `Math.floor((seconds % 3600) / 60)` */
  function Minutes(seconds: int): int {
    JsRem(seconds, 3600) / 60
  }

  /** `seconds % 60` */
  function Seconds(seconds: int): int {
    JsRem(seconds, 60)
  }

  /** `n.toString().padStart(2, '0')` */
  function Field(n: int): string {
    PadStart(IntToString(n), 2, '0')
  }

  /** `formatTime(seconds)` */
  function FormatTime(seconds: int): string {
    Join([Field(Hours(seconds)), Field(Minutes(seconds)), Field(Seconds(seconds))], ":")
  }

  /** Reads an "H:M:S" display back into seconds: three fields of digits
      separated by ":". */
  function ParseTime(t: string): Option<int> {
    ParseFields(Split(t, ":"))
  }

  /** The seconds the three fields of a display stand for. */
  function ParseFields(parts: seq<string>): Option<int> {
    if |parts| == 3 && AllDigits(parts[0]) && AllDigits(parts[1]) && AllDigits(parts[2]) then
      Some(ParseDigits(parts[0]) * 3600 + ParseDigits(parts[1]) * 60 + ParseDigits(parts[2]))
    else None
  }

  /** For a count that is not negative the three fields add up to it, and
      minutes and seconds stay below 60. */
  lemma ClockFields(seconds: int)
    requires seconds >= 0
    ensures Hours(seconds) * 3600 + Minutes(seconds) * 60 + Seconds(seconds) == seconds
    ensures Hours(seconds) >= 0 && 0 <= Minutes(seconds) < 60 && 0 <= Seconds(seconds) < 60
  {
    var h, r := seconds / 3600, seconds % 3600;
    var m, sec := r / 60, r % 60;
    assert r == m * 60 + sec;
    assert seconds == (h * 60 + m) * 60 + sec;
    DivMod60(seconds, h * 60 + m, sec);
  }

  /** Division and remainder by 60 are determined by the quotient and
      remainder that rebuild the dividend. */
  lemma DivMod60(x: int, q: int, r: int)
    requires 0 <= r < 60 && x == q * 60 + r
    ensures x / 60 == q && x % 60 == r
  {
  }

  /** A field of a count that is not negative is at least two digits and
      reads back as the number. */
  lemma FieldDigits(n: int)
    requires n >= 0
    ensures AllDigits(Field(n)) && ParseDigits(Field(n)) == n
    ensures |Field(n)| >= 2 && (n < 100 ==> |Field(n)| == 2)
  {
    var s := NatToString(n);
    ParseNatToString(n);
    if |s| < 2 {
      ParseLeadingZeros(2 - |s|, s);
    }
    if n < 100 {
      NatToStringShort(n);
    }
  }

  /** A number below 100 is written with at most two digits. */
  lemma NatToStringShort(n: nat)
    requires n < 100
    ensures |NatToString(n)| <= 2
  {
    if n >= 10 {
      assert NatToString(n / 10) == [DigitChar(n / 10)];
    }
  }

  /** The display reads back as the count: `formatTime` loses nothing for
      a count that is not negative, even past 99 hours. */
  lemma FormatTimeRoundTrip(seconds: int)
    requires seconds >= 0
    ensures ParseTime(FormatTime(seconds)) == Some(seconds)
  {
    var parts := [Field(Hours(seconds)), Field(Minutes(seconds)), Field(Seconds(seconds))];
    FieldsValue(seconds, parts);
    ParseJoined(parts);
  }

  /** The three fields of a count that is not negative are digit strings
      that stand for the count. */
  lemma FieldsValue(seconds: int, parts: seq<string>)
    requires seconds >= 0
    requires parts == [Field(Hours(seconds)), Field(Minutes(seconds)), Field(Seconds(seconds))]
    ensures forall k :: 0 <= k < |parts| ==> AllDigits(parts[k])
    ensures ParseFields(parts) == Some(seconds)
  {
    ClockFields(seconds);
    FieldDigits(Hours(seconds));
    FieldDigits(Minutes(seconds));
    FieldDigits(Seconds(seconds));
  }

  /** Digit strings joined by ":" split back into themselves. */
  lemma ParseJoined(parts: seq<string>)
    requires |parts| >= 1
    requires forall k :: 0 <= k < |parts| ==> AllDigits(parts[k])
    ensures ParseTime(Join(parts, ":")) == ParseFields(parts)
  {
    forall k | 0 <= k < |parts|
      ensures ':' !in parts[k]
    {
      NoColon(parts[k]);
    }
    SplitJoin(parts, ":");
  }

  lemma NoColon(s: string)
    requires AllDigits(s)
    ensures ':' !in s
  {
  }

  /** Below 100 hours the display is exactly "HH:MM:SS": eight characters
      with the separators in third and sixth place. */
  lemma FormatTimeShape(seconds: int)
    requires 0 <= seconds < 100 * 3600
    ensures |FormatTime(seconds)| == 8
    ensures FormatTime(seconds)[2] == ':' && FormatTime(seconds)[5] == ':'
  {
    ClockFields(seconds);
    FieldDigits(Hours(seconds));
    FieldDigits(Minutes(seconds));
    FieldDigits(Seconds(seconds));
    var h, m, s := Field(Hours(seconds)), Field(Minutes(seconds)), Field(Seconds(seconds));
    assert Join([m, s], ":") == m + ":" + s;
    assert FormatTime(seconds) == h + ":" + (m + ":" + s);
  }

  // ---------------------------------------------------------------------
  // The banner

  class Alert {
    /** `timeRemaining`, in seconds */
    var timeRemaining: int
    /** `visible` */
    var visible: bool
    /** How many times `onClose` has been called. */
    var closeCalls: nat
    /** Whether the caller passed `onClose`. */
    const hasOnClose: bool
    const message: string

    /** The first render, with the props' defaults. */
    constructor(retryAfter: Option<int>, message: Option<string>, hasOnClose: bool)
      ensures timeRemaining == (if retryAfter.Some? then retryAfter.value else DefaultRetryAfter)
      ensures this.message == (if message.Some? then message.value else DefaultMessage)
      ensures visible && closeCalls == 0 && this.hasOnClose == hasOnClose
    {
      timeRemaining := if retryAfter.Some? then retryAfter.value else DefaultRetryAfter;
      this.message := if message.Some? then message.value else DefaultMessage;
      this.hasOnClose := hasOnClose;
      visible := true;
      closeCalls := 0;
    }

    /** The countdown text on screen; nothing once hidden. */
    function Shown(): Option<string>
      reads this
    {
      if visible then Some(FormatTime(timeRemaining)) else None
    }

    /** One run of the effect: at zero or below it hides the banner and calls
        `onClose`; otherwise its timer lowers the count by one second. */
    method Tick()
      modifies this
      ensures old(timeRemaining) <= 0 ==>
                !visible && timeRemaining == old(timeRemaining)
                && closeCalls == old(closeCalls) + (if hasOnClose then 1 else 0)
      ensures old(timeRemaining) > 0 ==>
                timeRemaining == old(timeRemaining) - 1 && visible == old(visible) && closeCalls == old(closeCalls)
    {
      if timeRemaining <= 0 {
        visible := false;
        if hasOnClose {
          closeCalls := closeCalls + 1;
        }
      } else {
        timeRemaining := timeRemaining - 1;
      }
    }

    /** The dismiss button, rendered only when `onClose` was given. */
    method Dismiss()
      requires hasOnClose
      modifies this
      ensures !visible && closeCalls == old(closeCalls) + 1 && timeRemaining == old(timeRemaining)
    {
      visible := false;
      closeCalls := closeCalls + 1;
    }

    /** Left alone, the banner counts down one second per tick, so it closes
        after exactly `timeRemaining` seconds (at once when the count is not
        positive) and calls `onClose` once. */
    method CountDown() returns (ticks: nat)
      modifies this
      ensures ticks == (if old(timeRemaining) > 0 then old(timeRemaining) else 0)
      ensures timeRemaining == (if old(timeRemaining) > 0 then 0 else old(timeRemaining))
      ensures !visible && closeCalls == old(closeCalls) + (if hasOnClose then 1 else 0)
    {
      ticks := 0;
      while timeRemaining > 0
        invariant timeRemaining + ticks == old(timeRemaining) || (ticks == 0 && timeRemaining == old(timeRemaining))
        invariant old(timeRemaining) > 0 ==> timeRemaining >= 0 && timeRemaining + ticks == old(timeRemaining)
        invariant old(timeRemaining) <= 0 ==> ticks == 0 && timeRemaining == old(timeRemaining)
        invariant closeCalls == old(closeCalls)
        decreases timeRemaining
      {
        Tick();
        ticks := ticks + 1;
      }
      Tick();
    }

    /** Dismissing hides the banner but does not stop its timer: when the
        count then runs out `onClose` is called a second time. */
    method DismissThenCountDown() returns (ticks: nat)
      requires hasOnClose
      modifies this
      ensures !visible && closeCalls == old(closeCalls) + 2
      ensures ticks == (if old(timeRemaining) > 0 then old(timeRemaining) else 0)
    {
      Dismiss();
      ticks := CountDown();
    }
  }
}

=== FILE: sorting.dfy ===
/** `Array.prototype.sort` with a comparator, modelled by insertion sort.
    JavaScript's sort is stable; insertion sort keeps tied elements in input
    order as well, and the lemmas below state the consequences the
    application relies on (an already sorted input is returned unchanged,
    and the head of the result is the earliest input element that no other
    element sorts strictly before).
    `le(a, b)` means "the comparator does not put `b` strictly before `a`". */
module Sorting {

  ghost predicate TotalPreorder<T(!new)>(le: (T, T) -> bool) {
    (forall a, b :: le(a, b) || le(b, a))
    && (forall a, b, c :: le(a, b) && le(b, c) ==> le(a, c))
  }

  predicate Sorted<T>(s: seq<T>, le: (T, T) -> bool) {
    forall i, j :: 0 <= i < j < |s| ==> le(s[i], s[j])
  }

  /** Places `x` after every element that is not strictly after it. */
  function Insert<T>(x: T, s: seq<T>, le: (T, T) -> bool): (r: seq<T>)
    ensures |r| == |s| + 1
    decreases |s|
  {
    if |s| == 0 then [x]
    else if le(s[0], x) then [s[0]] + Insert(x, s[1..], le)
    else [x] + s
  }

  function SortBy<T>(xs: seq<T>, le: (T, T) -> bool): (r: seq<T>)
    ensures |r| == |xs|
    decreases |xs|
  {
    if |xs| == 0 then [] else Insert(xs[|xs| - 1], SortBy(xs[..|xs| - 1], le), le)
  }

  lemma {:induction false} InsertPermutes<T>(x: T, s: seq<T>, le: (T, T) -> bool)
    ensures multiset(Insert(x, s, le)) == multiset(s) + multiset{x}
    decreases |s|
  {
    if |s| > 0 && le(s[0], x) {
      InsertPermutes(x, s[1..], le);
      assert s == [s[0]] + s[1..];
    }
  }

  lemma {:induction false} InsertSorted<T(!new)>(x: T, s: seq<T>, le: (T, T) -> bool)
    requires TotalPreorder(le) && Sorted(s, le)
    ensures Sorted(Insert(x, s, le), le)
    decreases |s|
  {
    if |s| > 0 {
      if le(s[0], x) {
        InsertSorted(x, s[1..], le);
        InsertPermutes(x, s[1..], le);
        var r := Insert(x, s, le);
        forall j | 0 < j < |r|
          ensures le(s[0], r[j])
        {
          assert r[j] in multiset(Insert(x, s[1..], le));
          assert r[j] == x || r[j] in s[1..];
        }
      } else {
        assert le(x, s[0]);
      }
    }
  }

  /** The sort returns a sorted permutation of its input. */
  lemma {:induction false} SortByCorrect<T(!new)>(xs: seq<T>, le: (T, T) -> bool)
    requires TotalPreorder(le)
    ensures Sorted(SortBy(xs, le), le)
    ensures multiset(SortBy(xs, le)) == multiset(xs)
    decreases |xs|
  {
    if |xs| > 0 {
      var init := xs[..|xs| - 1];
      SortByCorrect(init, le);
      InsertSorted(xs[|xs| - 1], SortBy(init, le), le);
      InsertPermutes(xs[|xs| - 1], SortBy(init, le), le);
      assert xs == init + [xs[|xs| - 1]];
    }
  }

  /** The first element of the sorted list is the first minimal element of
      the input: it is not after anything, and every element before it in
      the input is strictly after it. */
  lemma {:induction false} SortByHead<T(!new)>(xs: seq<T>, le: (T, T) -> bool) returns (i: nat)
    requires TotalPreorder(le) && |xs| > 0
    ensures i < |xs| && xs[i] == SortBy(xs, le)[0]
    ensures forall j :: 0 <= j < |xs| ==> le(xs[i], xs[j])
    ensures forall j :: 0 <= j < i ==> !le(xs[j], xs[i])
    decreases |xs|
  {
    var init, x := xs[..|xs| - 1], xs[|xs| - 1];
    if |init| == 0 {
      i := 0;
      assert le(x, x);
    } else {
      var k := SortByHead(init, le);
      var h := SortBy(init, le)[0];
      if le(h, x) {
        i := k;
        assert SortBy(xs, le)[0] == h;
        assert forall j :: 0 <= j < |init| ==> xs[j] == init[j];
      } else {
        i := |xs| - 1;
        assert SortBy(xs, le)[0] == x;
        InsertBelowHead(init, le, k, x);
      }
    }
  }

  /** An element strictly before the first minimal element of `init` is
      strictly before every element of `init`. */
  lemma InsertBelowHead<T(!new)>(init: seq<T>, le: (T, T) -> bool, k: nat, x: T)
    requires TotalPreorder(le) && k < |init|
    requires forall j :: 0 <= j < |init| ==> le(init[k], init[j])
    requires !le(init[k], x)
    ensures forall j :: 0 <= j < |init| ==> !le(init[j], x) && le(x, init[j])
  {
    assert le(x, init[k]);
  }

  /** Sorting a list in which no element is strictly after an earlier one
      leaves it unchanged. */
  lemma {:induction false} SortBySortedInput<T(!new)>(xs: seq<T>, le: (T, T) -> bool)
    requires Sorted(xs, le)
    ensures SortBy(xs, le) == xs
    decreases |xs|
  {
    if |xs| > 0 {
      var init := xs[..|xs| - 1];
      SortBySortedInput(init, le);
      InsertAtEnd(xs[|xs| - 1], init, le);
      assert xs == init + [xs[|xs| - 1]];
    }
  }

  lemma {:induction false} InsertAtEnd<T>(x: T, s: seq<T>, le: (T, T) -> bool)
    requires forall i :: 0 <= i < |s| ==> le(s[i], x)
    ensures Insert(x, s, le) == s + [x]
    decreases |s|
  {
    if |s| > 0 {
      InsertAtEnd(x, s[1..], le);
      assert s == [s[0]] + s[1..];
    }
  }

  lemma {:induction false} DistinctCounts<T>(xs: seq<T>, x: T)
    requires forall i, j :: 0 <= i < j < |xs| ==> xs[i] != xs[j]
    ensures multiset(xs)[x] <= 1
    decreases |xs|
  {
    if |xs| > 0 {
      var init := xs[..|xs| - 1];
      DistinctCounts(init, x);
      assert xs == init + [xs[|xs| - 1]];
      if x == xs[|xs| - 1] {
        assert x !in init;
      }
    }
  }

  /** A permutation of a list without repetitions has none either. */
  lemma DistinctPermutation<T>(xs: seq<T>, ys: seq<T>)
    requires forall i, j :: 0 <= i < j < |xs| ==> xs[i] != xs[j]
    requires multiset(ys) == multiset(xs)
    ensures forall i, j :: 0 <= i < j < |ys| ==> ys[i] != ys[j]
  {
    forall i, j | 0 <= i < j < |ys|
      ensures ys[i] != ys[j]
    {
      if ys[i] == ys[j] {
        TwoOccurrences(ys, i, j);
        DistinctCounts(xs, ys[i]);
      }
    }
  }

  lemma TwoOccurrences<T>(ys: seq<T>, i: int, j: int)
    requires 0 <= i < j < |ys| && ys[i] == ys[j]
    ensures multiset(ys)[ys[i]] >= 2
  {
    assert ys == ys[..j] + [ys[j]] + ys[j + 1..];
    assert ys[i] in ys[..j];
  }

  // ---------------------------------------------------------------------
  // Sorting by a numeric key

  /** `xs.sort((a, b) => key(b) - key(a))`: largest key first. */
  function SortDesc<T>(xs: seq<T>, key: T -> real): seq<T> {
    SortBy(xs, (a, b) => key(a) >= key(b))
  }

  /** `xs.sort((a, b) => key(a) - key(b))`: smallest key first. */
  function SortAsc<T>(xs: seq<T>, key: T -> real): seq<T> {
    SortBy(xs, (a, b) => key(a) <= key(b))
  }

  lemma SortDescCorrect<T(!new)>(xs: seq<T>, key: T -> real)
    ensures var r := SortDesc(xs, key);
            multiset(r) == multiset(xs)
            && forall i, j :: 0 <= i < j < |r| ==> key(r[i]) >= key(r[j])
  {
    SortByCorrect(xs, (a, b) => key(a) >= key(b));
  }

  lemma SortAscCorrect<T(!new)>(xs: seq<T>, key: T -> real)
    ensures var r := SortAsc(xs, key);
            multiset(r) == multiset(xs)
            && forall i, j :: 0 <= i < j < |r| ==> key(r[i]) <= key(r[j])
  {
    SortByCorrect(xs, (a, b) => key(a) <= key(b));
  }

  /** The head of a descending sort is the first element with the largest
      key. */
  lemma SortDescHead<T(!new)>(xs: seq<T>, key: T -> real)
    requires |xs| > 0
    ensures exists i :: 0 <= i < |xs| && xs[i] == SortDesc(xs, key)[0]
                        && (forall j :: 0 <= j < |xs| ==> key(xs[j]) <= key(xs[i]))
                        && (forall j :: 0 <= j < i ==> key(xs[j]) < key(xs[i]))
  {
    var i := SortByHead(xs, (a, b) => key(a) >= key(b));
  }

  /** The head of an ascending sort is the first element with the smallest
      key. */
  lemma SortAscHead<T(!new)>(xs: seq<T>, key: T -> real)
    requires |xs| > 0
    ensures exists i :: 0 <= i < |xs| && xs[i] == SortAsc(xs, key)[0]
                        && (forall j :: 0 <= j < |xs| ==> key(xs[i]) <= key(xs[j]))
                        && (forall j :: 0 <= j < i ==> key(xs[i]) < key(xs[j]))
  {
    var i := SortByHead(xs, (a, b) => key(a) <= key(b));
  }

  /** `s.slice(0, n)` */
  function Take<T>(s: seq<T>, n: nat): (r: seq<T>)
    ensures |r| <= n && |r| <= |s|
    ensures |s| <= n ==> r == s
    ensures r == s[..|r|]
  {
    if |s| <= n then s else s[..n]
  }

  /** `s.slice(-n)`: the last `n` elements, or all of them. */
  function TakeLast<T>(s: seq<T>, n: nat): (r: seq<T>)
    ensures |r| <= n && |r| <= |s|
    ensures |s| <= n ==> r == s
    ensures r == s[|s| - |r|..]
  {
    if |s| <= n then s else s[|s| - n..]
  }
}

=== FILE: spending_insights.dfy ===
/** The insight panel of app/insights/_components/SpendingInsights.tsx: the
    effect that derives the monthly average, the month-over-month change and
    the unusual-category warning from the dashboard's figures and writes
    them into the component's `insights` state. */
module SpendingInsights {
  import opened Wrappers

  datatype CategoryAmount = CategoryAmount(category: string, amount: real)
  datatype MonthAmount = MonthAmount(month: string, amount: real)

  datatype MonthChange = MonthChange(amount: real, percentage: real, increased: bool)
  datatype Unusual = Unusual(category: string, amount: real, percentage: real)

  /** The change from the previous month to the current one; the percentage
      is 0 when the previous month is not positive. */
  function MonthOverMonth(previous: real, current: real): (c: MonthChange)
    ensures c.amount == current - previous
    ensures c.increased <==> current > previous
    ensures previous <= 0.0 ==> c.percentage == 0.0
    ensures previous > 0.0 ==> previous + previous * c.percentage / 100.0 == current
    ensures previous > 0.0 ==> (c.percentage > 0.0 <==> c.increased)
  {
    var change := current - previous;
    MonthChange(change, if previous > 0.0 then change / previous * 100.0 else 0.0, change > 0.0)
  }

  /** The warning for a top category that holds more than 40 % of the
      total; `None` when it does not. */
  function UnusualShare(top: CategoryAmount, totalSpending: real): (r: Option<Unusual>)
    requires totalSpending != 0.0
    ensures r.Some? <==> top.amount / totalSpending * 100.0 > 40.0
    ensures r.Some? ==> r.value.category == top.category && r.value.amount == top.amount
    ensures r.Some? ==> r.value.percentage * totalSpending == top.amount * 100.0
  {
    var percentage := top.amount / totalSpending * 100.0;
    if percentage > 40.0 then Some(Unusual(top.category, top.amount, percentage)) else None
  }

  /** The state the effect writes. `biggestExpense` is part of the
      component's state but no code path ever writes it. */
  class Panel {
    var monthlyAverage: real
    var change: MonthChange
    var unusual: Option<Unusual>

    constructor()
      ensures monthlyAverage == 0.0 && change == MonthChange(0.0, 0.0, false) && unusual == None
    {
      monthlyAverage := 0.0;
      change := MonthChange(0.0, 0.0, false);
      unusual := None;
    }

    /** The effect run when the figures change. Each field is written only
        on its own branch, so an earlier change or warning stays in place
        when the new figures do not produce one. */
    method Refresh(totalSpending: real, topCategories: seq<CategoryAmount>, monthlyData: seq<MonthAmount>)
      requires |topCategories| > 0 ==> totalSpending != 0.0
      modifies this
      ensures |monthlyData| == 0 ==> monthlyAverage == old(monthlyAverage) && change == old(change) && unusual == old(unusual)
      ensures |monthlyData| > 0 ==> monthlyAverage * (|monthlyData| as real) == totalSpending
      ensures |monthlyData| >= 2 ==>
                change == MonthOverMonth(monthlyData[|monthlyData| - 2].amount, monthlyData[|monthlyData| - 1].amount)
      ensures |monthlyData| < 2 ==> change == old(change)
      ensures |monthlyData| > 0 && |topCategories| > 0 && UnusualShare(topCategories[0], totalSpending).Some? ==>
                unusual == UnusualShare(topCategories[0], totalSpending)
      ensures !(|monthlyData| > 0 && |topCategories| > 0 && UnusualShare(topCategories[0], totalSpending).Some?) ==>
                unusual == old(unusual)
    {
      if |monthlyData| == 0 {
        return;
      }
      monthlyAverage := totalSpending / (|monthlyData| as real);
      if |monthlyData| >= 2 {
        var currentMonth := monthlyData[|monthlyData| - 1];
        var previousMonth := monthlyData[|monthlyData| - 2];
        change := MonthOverMonth(previousMonth.amount, currentMonth.amount);
      }
      if |topCategories| > 0 {
        var warning := UnusualShare(topCategories[0], totalSpending);
        if warning.Some? {
          unusual := warning;
        }
      }
    }
  }

  /** A warning raised once is not withdrawn by a later refresh whose top
      category is no longer above 40 %, and a single month keeps the
      previous change. */
  method StaleWarning() returns (p: Panel)
    ensures p.unusual == Some(Unusual("Food", 50.0, 50.0))
    ensures p.monthlyAverage == 100.0
  {
    p := new Panel();
    p.Refresh(100.0, [CategoryAmount("Food", 50.0)], [MonthAmount("Jan", 100.0)]);
    assert p.unusual == Some(Unusual("Food", 50.0, 50.0));
    p.Refresh(100.0, [CategoryAmount("Rent", 30.0)], [MonthAmount("Feb", 100.0)]);
  }
}

=== FILE: store.dfy ===
/** The expense table as the API handlers query it. A row carries the
    owning user and the optional household next to the expense; the queries
    are `findMany` calls whose `where` clause is a predicate on the row, whose
    `orderBy: { date: 'desc' }` is a stable newest-first sort, and whose
    `take` keeps a prefix. */
module Store {
  import opened Wrappers
  import opened Text
  import opened Agg
  import opened Sorting
  import opened Calendar
  import opened Expenses

  datatype Row = Row(owner: string, householdId: Option<string>, expense: Expense)

  /** The expenses of user `u`, in table order. */
  function Owned(rows: seq<Row>, u: string): (es: seq<Expense>)
    ensures forall e :: e in es <==> exists i :: 0 <= i < |rows| && rows[i].owner == u && rows[i].expense == e
    decreases |rows|
  {
    if |rows| == 0 then []
    else
      var init, r := rows[..|rows| - 1], rows[|rows| - 1];
      var es := Owned(init, u) + (if r.owner == u then [r.expense] else []);
      assert forall i :: 0 <= i < |init| ==> rows[i] == init[i];
      es
  }

  /** `expense.findUnique({ where: { id } })` */
  function FindExpense(rows: seq<Row>, id: int): (r: Option<Row>)
    ensures r.Some? ==> r.value in rows && r.value.expense.id == id
    ensures r.None? ==> forall i :: 0 <= i < |rows| ==> rows[i].expense.id != id
    decreases |rows|
  {
    if |rows| == 0 then None
    else if rows[0].expense.id == id then Some(rows[0])
    else
      var r := FindExpense(rows[1..], id);
      assert forall i :: 1 <= i < |rows| ==> rows[i] == rows[1..][i - 1];
      r
  }

  /** An expense found by id and owned by `u` is among `u`'s expenses, so
      every query over them that does not exclude it sees it. */
  lemma FoundIsOwned(rows: seq<Row>, id: int, u: string)
    requires FindExpense(rows, id).Some? && FindExpense(rows, id).value.owner == u
    ensures FindExpense(rows, id).value.expense in Owned(rows, u)
  {
    var r := FindExpense(rows, id).value;
    var i :| 0 <= i < |rows| && rows[i] == r;
  }

  /** `orderBy: { date: 'desc' }` */
  function NewestFirst(es: seq<Expense>): seq<Expense> {
    SortDesc(es, DayOf)
  }

  /** `orderBy: { date: 'asc' }` */
  function OldestFirst(es: seq<Expense>): seq<Expense> {
    SortAsc(es, DayOf)
  }

  lemma NewestFirstCorrect(es: seq<Expense>)
    ensures var r := NewestFirst(es);
            multiset(r) == multiset(es)
            && forall i, j :: 0 <= i < j < |r| ==> DayOf(r[i]) >= DayOf(r[j])
  {
    SortDescCorrect(es, DayOf);
  }

  lemma OldestFirstCorrect(es: seq<Expense>)
    ensures var r := OldestFirst(es);
            multiset(r) == multiset(es)
            && forall i, j :: 0 <= i < j < |r| ==> DayOf(r[i]) <= DayOf(r[j])
  {
    SortAscCorrect(es, DayOf);
  }

  // ---------------------------------------------------------------------
  // Where clauses relative to one expense

  /** `category: expense.category, id: { not: expense.id }` */
  function SameCategoryOthers(es: seq<Expense>, e: Expense): seq<Expense> {
    Filter(es, SameCategoryOther(e))
  }

  function SameCategoryOther(e: Expense): Expense -> bool {
    (x: Expense) => x.category == e.category && x.id != e.id
  }

  /** `category: c` */
  function CategoryIs(c: string): Expense -> bool {
    (x: Expense) => x.category == c
  }

  /** `description: { contains: expense.description.split(' ')[0] }` */
  predicate MentionsFirstWord(x: Expense, e: Expense) {
    Contains(x.description, FirstWord(e.description))
  }

  /** The first-word description match, with or without the expense
      itself. */
  function SimilarOthers(es: seq<Expense>, e: Expense): seq<Expense> {
    Filter(es, SimilarOther(e))
  }

  function SimilarOther(e: Expense): Expense -> bool {
    (x: Expense) => MentionsFirstWord(x, e) && x.id != e.id
  }

  function SimilarAll(es: seq<Expense>, e: Expense): seq<Expense> {
    Filter(es, Similar(e))
  }

  function Similar(e: Expense): Expense -> bool {
    (x: Expense) => MentionsFirstWord(x, e)
  }

  /** `date: { gte: startOfMonth(d), lte: endOfMonth(d) }` */
  function InMonthOf(es: seq<Expense>, d: Date): seq<Expense> {
    Filter(es, InMonth(d))
  }

  function InMonth(d: Date): Expense -> bool {
    (x: Expense) => MonthIndex(x.date) == MonthIndex(d)
  }

  /** The day number of the Sunday that starts `d`'s week (date-fns
      `startOfWeek` with its default week start). */
  function WeekStart(d: Date): int {
    DayNumber(d) - Weekday(d)
  }

  /** `date: { gte: startOfWeek(d), lte: endOfWeek(d) }` */
  function InWeekOf(es: seq<Expense>, d: Date): seq<Expense> {
    Filter(es, InWeek(d))
  }

  function InWeek(d: Date): Expense -> bool {
    (x: Expense) => WeekStart(d) <= DayNumber(x.date) <= WeekStart(d) + 6
  }

  /** `date: { gte: subMonths(startOfMonth(d), n) }` */
  function SinceMonthsBefore(es: seq<Expense>, d: Date, n: int): seq<Expense> {
    Filter(es, Since(d, n))
  }

  function Since(d: Date, n: int): Expense -> bool {
    (x: Expense) => MonthIndex(x.date) >= MonthIndex(d) - n
  }

  /** The week of a date runs from its Sunday to the following Saturday and
      contains the date. */
  lemma WeekContainsDate(d: Date)
    ensures WeekStart(d) <= DayNumber(d) <= WeekStart(d) + 6
  {
  }

  /** A query's results over expenses with positive amounts have positive
      amounts, whatever the order and the limit. */
  lemma QueryPositive(mine: seq<Expense>, sorted: seq<Expense>, filtered: seq<Expense>, n: nat)
    requires AllPositive(mine)
    requires forall x :: x in filtered ==> x in mine
    requires multiset(sorted) == multiset(filtered)
    ensures AllPositive(Take(sorted, n))
  {
    forall i | 0 <= i < |Take(sorted, n)|
      ensures Take(sorted, n)[i].amount > 0.0
    {
      var x := sorted[i];
      assert x in multiset(sorted);
      assert x in filtered;
      assert x in mine;
      var k :| 0 <= k < |mine| && mine[k] == x;
    }
  }

  /** The same for a query sorted newest first. */
  lemma NewestPositive(mine: seq<Expense>, filtered: seq<Expense>, n: nat)
    requires AllPositive(mine)
    requires forall x :: x in filtered ==> x in mine
    ensures AllPositive(Take(NewestFirst(filtered), n))
  {
    NewestFirstCorrect(filtered);
    QueryPositive(mine, NewestFirst(filtered), filtered, n);
  }

  /** A query sorted newest first and cut to `n` rows keeps the first `n`
      rows or all of them, each one of the query's. */
  lemma NewestTake(filtered: seq<Expense>, n: nat)
    ensures |Take(NewestFirst(filtered), n)| == (if |filtered| <= n then |filtered| else n)
    ensures forall x :: x in Take(NewestFirst(filtered), n) ==> x in filtered
  {
    var sorted := NewestFirst(filtered);
    NewestFirstCorrect(filtered);
    assert |sorted| == |multiset(sorted)| == |filtered|;
    forall x | x in Take(sorted, n)
      ensures x in filtered
    {
      assert x in multiset(sorted);
    }
  }

  /** The expense counts in its own month: its amount is at most its
      category's monthly total, which is at most the monthly total. */
  lemma MonthSums(mine: seq<Expense>, e: Expense)
    requires AllPositive(mine) && e in mine
    ensures var month := InMonthOf(mine, e.date);
            e.amount <= TotalAmount(Filter(month, CategoryIs(e.category))) <= TotalAmount(month)
  {
    var month := InMonthOf(mine, e.date);
    FilterSum(mine, InMonth(e.date), Amount);
    assert e in month;
    forall i | 0 <= i < |month|
      ensures month[i].amount >= 0.0
    {
      assert month[i] in mine;
    }
    FilterSum(month, CategoryIs(e.category), Amount);
  }

  // ---------------------------------------------------------------------
  // The checks of the expense advice endpoints

  /** What the request checks decide: an error response, or the expense row
      the request is about. */
  datatype Admission = Rejected(status: int, error: string) | Admitted(row: Row)

  /** A session with an email whose user exists. */
  predicate SignedIn(email: Option<string>, user: Option<string>) {
    email.Some? && email.value != "" && user.Some?
  }

  /** The checks each advice endpoint makes before its own work, in order:
      a session with an email (401), a user with that email (401), a POST
      (405), the required body fields (400, with the endpoint's own message;
      `incomplete` says a field other than the id is missing), an expense
      with that id (404) owned by the user (403). `user` is the id the email
      looks up, and `expenseId` is `None` when the id is missing or falsy. */
  function Admit(email: Option<string>, user: Option<string>, httpMethod: string, expenseId: Option<int>,
                 incomplete: bool, incompleteError: string, rows: seq<Row>): (a: Admission)
    ensures a.Rejected? && a.status == 401 <==> !SignedIn(email, user)
    ensures a.Rejected? && a.status == 405 <==> SignedIn(email, user) && httpMethod != "POST"
    ensures a.Rejected? && a.status == 400 <==> (SignedIn(email, user) && httpMethod == "POST"
                                                 && (expenseId.None? || incomplete))
    ensures a.Rejected? && a.status == 400 ==> a.error == incompleteError
    ensures a.Rejected? && a.status == 404 <==> (SignedIn(email, user) && httpMethod == "POST"
                                                 && expenseId.Some? && !incomplete
                                                 && FindExpense(rows, expenseId.value).None?)
    ensures a.Rejected? && a.status == 403 <==> (SignedIn(email, user) && httpMethod == "POST"
                                                 && expenseId.Some? && !incomplete
                                                 && FindExpense(rows, expenseId.value).Some?
                                                 && FindExpense(rows, expenseId.value).value.owner != user.value)
    ensures a.Rejected? ==> a.status in {400, 401, 403, 404, 405}
    ensures a.Admitted? ==> user.Some? && expenseId.Some? && FindExpense(rows, expenseId.value) == Some(a.row)
                            && a.row.owner == user.value && a.row.expense in Owned(rows, user.value)
  {
    if email.None? || email.value == "" then Rejected(401, "Unauthorized")
    else if user.None? then Rejected(401, "User not found")
    else if httpMethod != "POST" then Rejected(405, "Method not allowed")
    else if expenseId.None? || incomplete then Rejected(400, incompleteError)
    else
      var found := FindExpense(rows, expenseId.value);
      if found.None? then Rejected(404, "Expense not found")
      else if found.value.owner != user.value then Rejected(403, "Forbidden - you do not have access to this expense")
      else
        FoundIsOwned(rows, expenseId.value, user.value);
        Admitted(found.value)
  }

  /** The expenses of an admitted request's user, all with positive amounts
      when the table's are. */
  lemma OwnedPositive(rows: seq<Row>, u: string)
    requires forall i :: 0 <= i < |rows| ==> rows[i].expense.amount > 0.0
    ensures AllPositive(Owned(rows, u))
  {
    var mine := Owned(rows, u);
    forall i | 0 <= i < |mine|
      ensures mine[i].amount > 0.0
    {
      assert mine[i] in mine;
    }
  }

  // ---------------------------------------------------------------------
  // Grouping by weekday

  /** The `forEach` that pushes each expense's amount onto the list of its
      weekday. */
  method GroupByWeekday(xs: seq<Expense>) returns (order: seq<int>, byDay: map<int, seq<real>>)
    ensures Bucketed(xs, WeekdayOf, Amount, order, byDay)
  {
    order, byDay := [], map[];
    var i := 0;
    while i < |xs|
      invariant 0 <= i <= |xs|
      invariant Bucketed(xs[..i], WeekdayOf, Amount, order, byDay)
    {
      var e := xs[i];
      BucketedStep(xs[..i], e, WeekdayOf, Amount, order, byDay);
      assert xs[..i + 1] == xs[..i] + [e];
      var day := WeekdayOf(e);
      if day !in byDay {
        byDay := byDay[day := []];
        order := order + [day];
      }
      byDay := byDay[day := byDay[day] + [e.amount]];
      i := i + 1;
    }
    assert xs[..i] == xs;
  }
}

=== FILE: text.dfy ===
/** String operations the application relies on, in the semantics of
    JavaScript's String methods: `toLowerCase` (ASCII letters), `includes`,
    `indexOf`, `startsWith`, `split`, `join`, `trim`, `padStart`, the
    relational `<` on strings, and decimal rendering of integers. */
module Text {

  // ---------------------------------------------------------------------
  // Case folding

  function LowerChar(c: char): char {
    if 'A' <= c <= 'Z' then (c as int + 32) as char else c
  }

  /** `s.toLowerCase()`; only the ASCII letters A-Z are folded. */
  function ToLower(s: string): string {
    seq(|s|, i requires 0 <= i < |s| => LowerChar(s[i]))
  }

  /** Lower-casing twice is lower-casing once. */
  lemma ToLowerIdempotent(s: string)
    ensures ToLower(ToLower(s)) == ToLower(s)
  {
    assert forall i :: 0 <= i < |s| ==> LowerChar(LowerChar(s[i])) == LowerChar(s[i]);
  }

  // ---------------------------------------------------------------------
  // Searching

  /** `p` occurs in `s` at position `j`. */
  predicate OccursAt(s: string, p: string, j: int) {
    0 <= j && j + |p| <= |s| && s[j..j + |p|] == p
  }

  /** `s.indexOf(p)`: the first position at which `p` occurs, or -1. */
  function IndexOf(s: string, p: string): (r: int)
    ensures r >= -1
    ensures r >= 0 ==> OccursAt(s, p, r)
    ensures r >= 0 ==> forall j :: 0 <= j < r ==> !OccursAt(s, p, j)
    ensures r < 0 ==> forall j :: 0 <= j <= |s| ==> !OccursAt(s, p, j)
    decreases |s|
  {
    if OccursAt(s, p, 0) then 0
    else if |s| == 0 then -1
    else
      var k := IndexOf(s[1..], p);
      OccursShift(s, p);
      if k < 0 then -1 else k + 1
  }

  /** An occurrence after the first position of `s` is one in `s[1..]`. */
  lemma OccursShift(s: string, p: string)
    requires |s| > 0
    ensures forall j :: 1 <= j ==> (OccursAt(s, p, j) <==> OccursAt(s[1..], p, j - 1))
  {
    forall j | 1 <= j
      ensures OccursAt(s, p, j) <==> OccursAt(s[1..], p, j - 1)
    {
      if j + |p| <= |s| {
        var a, b := s[j..j + |p|], s[1..][j - 1..j - 1 + |p|];
        assert forall t :: 0 <= t < |p| ==> a[t] == s[j + t] == b[t];
        assert a == b;
      }
    }
  }

  /** `s.includes(p)`. */
  predicate Contains(s: string, p: string) {
    IndexOf(s, p) >= 0
  }

  /** Does `s` contain one of the words? (`words.some(w => s.includes(w))`,
      written out as a chain of `||` in the source.) */
  predicate Mentions(s: string, words: seq<string>) {
    exists i :: 0 <= i < |words| && Contains(s, words[i])
  }

  lemma ContainsAt(s: string, p: string, i: int)
    requires 0 <= i && i + |p| <= |s| && s[i..i + |p|] == p
    ensures Contains(s, p)
  {
    assert OccursAt(s, p, i);
  }

  /** `s.startsWith(p)`. */
  predicate StartsWith(s: string, p: string) {
    OccursAt(s, p, 0)
  }

  /** Every character of a contained string is a character of `s`. */
  lemma ContainsChars(s: string, p: string)
    requires Contains(s, p)
    ensures forall c :: c in p ==> c in s
  {
    var r := IndexOf(s, p);
    forall c | c in p
      ensures c in s
    {
      var t :| 0 <= t < |p| && p[t] == c;
      assert s[r + t] == s[r..r + |p|][t];
    }
  }

  lemma ContainsChar(s: string, p: string)
    requires Contains(s, p) && |p| > 0
    ensures p[0] in s
  {
    var r := IndexOf(s, p);
    assert s[r] == p[0];
  }

  // ---------------------------------------------------------------------
  // Whitespace

  /** The characters `trim` removes: the ASCII white space, the byte order
      mark, the line and paragraph separators, and the space separators of
      Unicode (no-break space, Ogham space mark, the spaces from en quad to
      hair space, narrow no-break space, medium mathematical space and
      ideographic space). */
  predicate IsSpace(c: char) {
    c == ' ' || c == '\t' || c == '\n' || c == '\r'
    || c as int == 0x0B || c as int == 0x0C || c as int == 0xA0 || c as int == 0xFEFF
    || c as int == 0x1680 || (0x2000 <= c as int <= 0x200A)
    || c as int == 0x2028 || c as int == 0x2029 || c as int == 0x202F
    || c as int == 0x205F || c as int == 0x3000
  }

  function TrimStart(s: string): string
    decreases |s|
  {
    if |s| > 0 && IsSpace(s[0]) then TrimStart(s[1..]) else s
  }

  function TrimEnd(s: string): string
    decreases |s|
  {
    if |s| > 0 && IsSpace(s[|s| - 1]) then TrimEnd(s[..|s| - 1]) else s
  }

  /** `s.trim()`. */
  function Trim(s: string): string {
    TrimEnd(TrimStart(s))
  }

  /** `s.trim() === ''` */
  predicate IsBlank(s: string) {
    Trim(s) == ""
  }

  lemma {:induction false} TrimStartNonSpaceHead(s: string)
    requires |s| > 0 && !IsSpace(s[0])
    ensures TrimStart(s) == s
  {
  }

  /** A string that starts with a non-space character is not blank. */
  lemma {:induction false} NotBlankWhenHeadIsText(s: string)
    requires |s| > 0 && !IsSpace(s[0])
    ensures !IsBlank(s)
  {
    TrimStartNonSpaceHead(s);
    TrimEndKeepsHead(s);
  }

  lemma {:induction false} TrimEndKeepsHead(s: string)
    requires |s| > 0 && !IsSpace(s[0])
    ensures |TrimEnd(s)| > 0 && TrimEnd(s)[0] == s[0]
    decreases |s|
  {
    if IsSpace(s[|s| - 1]) {
      assert |s| > 1;
      TrimEndKeepsHead(s[..|s| - 1]);
    }
  }

  // ---------------------------------------------------------------------
  // split and join

  /** `s.split(sep)` for a non-empty separator: the pieces between the
      successive leftmost non-overlapping occurrences of `sep`. */
  function Split(s: string, sep: string): (parts: seq<string>)
    requires |sep| > 0
    ensures |parts| >= 1
    decreases |s|
  {
    var i := IndexOf(s, sep);
    if i < 0 then [s] else [s[..i]] + Split(s[i + |sep|..], sep)
  }

  /** `parts.join(sep)`. */
  function Join(parts: seq<string>, sep: string): string
    decreases |parts|
  {
    if |parts| == 0 then ""
    else if |parts| == 1 then parts[0]
    else parts[0] + sep + Join(parts[1..], sep)
  }

  /** The first occurrence of `sep` in `p + sep + rest` is right after `p`
      when `p` does not contain the separator's first character. */
  lemma {:induction false} IndexOfAfterPrefix(p: string, sep: string, rest: string)
    requires |sep| > 0 && sep[0] !in p
    ensures IndexOf(p + sep + rest, sep) == |p|
  {
    var s := p + sep + rest;
    assert s[|p|..|p| + |sep|] == sep;
    assert OccursAt(s, sep, |p|);
  }

  lemma {:induction false} SplitAfterPrefix(p: string, sep: string, rest: string)
    requires |sep| > 0 && sep[0] !in p
    ensures Split(p + sep + rest, sep) == [p] + Split(rest, sep)
  {
    var s := p + sep + rest;
    IndexOfAfterPrefix(p, sep, rest);
    assert s[..|p|] == p;
    assert s[|p| + |sep|..] == rest;
  }

  lemma {:induction false} SplitWithoutSeparator(s: string, sep: string)
    requires |sep| > 0 && sep[0] !in s
    ensures Split(s, sep) == [s]
  {
    if IndexOf(s, sep) >= 0 {
      ContainsChar(s, sep);
    }
  }

  /** Splitting a join recovers the parts when no part contains the first
      character of the separator. */
  lemma {:induction false} SplitJoin(parts: seq<string>, sep: string)
    requires |parts| >= 1 && |sep| > 0
    requires forall k :: 0 <= k < |parts| ==> sep[0] !in parts[k]
    ensures Split(Join(parts, sep), sep) == parts
    decreases |parts|
  {
    if |parts| == 1 {
      SplitWithoutSeparator(parts[0], sep);
    } else {
      SplitJoin(parts[1..], sep);
      SplitJoinStep(parts, sep);
    }
  }

  /** One part more in front of a join that splits back. */
  lemma SplitJoinStep(parts: seq<string>, sep: string)
    requires |parts| >= 2 && |sep| > 0 && sep[0] !in parts[0]
    requires Split(Join(parts[1..], sep), sep) == parts[1..]
    ensures Split(Join(parts, sep), sep) == parts
  {
    SplitAfterPrefix(parts[0], sep, Join(parts[1..], sep));
    assert [parts[0]] + parts[1..] == parts;
  }

  /** Joining two or more parts puts the separator in the result. */
  lemma {:induction false} JoinContainsSeparator(parts: seq<string>, sep: string)
    requires |parts| >= 2
    ensures Contains(Join(parts, sep), sep)
  {
    var s := Join(parts, sep);
    assert s == parts[0] + sep + Join(parts[1..], sep);
    assert s[|parts[0]|..|parts[0]| + |sep|] == sep;
    ContainsAt(s, sep, |parts[0]|);
  }

  // ---------------------------------------------------------------------
  // Ordering: JavaScript's `<` on strings compares code units left to right.

  predicate LexLess(a: string, b: string)
    decreases |a|
  {
    if |a| == 0 then |b| > 0
    else if |b| == 0 then false
    else a[0] < b[0] || (a[0] == b[0] && LexLess(a[1..], b[1..]))
  }

  /** On equal-length prefixes, `<` decides on the prefixes first. */
  lemma {:induction false} LexLessConcat(x1: string, z1: string, x2: string, z2: string)
    requires |x1| == |x2|
    ensures LexLess(x1 + z1, x2 + z2) <==> LexLess(x1, x2) || (x1 == x2 && LexLess(z1, z2))
    decreases |x1|
  {
    if |x1| > 0 {
      assert (x1 + z1)[1..] == x1[1..] + z1;
      assert (x2 + z2)[1..] == x2[1..] + z2;
      LexLessConcat(x1[1..], z1, x2[1..], z2);
      if x1[0] == x2[0] && x1[1..] == x2[1..] {
        assert x1 == [x1[0]] + x1[1..];
        assert x2 == [x2[0]] + x2[1..];
      }
    } else {
      assert x1 + z1 == z1 && x2 + z2 == z2;
    }
  }

  /** `<` on strings is a strict total order: exactly one of `a < b`,
      `a == b` and `b < a` holds. */
  lemma {:induction false} LexLessTrichotomy(a: string, b: string)
    ensures LexLess(a, b) || a == b || LexLess(b, a)
    ensures !(LexLess(a, b) && LexLess(b, a)) && !LexLess(a, a)
    decreases |a|
  {
    LexLessIrreflexive(a);
    if |a| > 0 && |b| > 0 {
      LexLessTrichotomy(a[1..], b[1..]);
      if a[0] == b[0] && a[1..] == b[1..] {
        assert a == [a[0]] + a[1..] && b == [b[0]] + b[1..];
      }
    }
  }

  lemma {:induction false} LexLessIrreflexive(a: string)
    ensures !LexLess(a, a)
    decreases |a|
  {
    if |a| > 0 {
      LexLessIrreflexive(a[1..]);
    }
  }

  lemma {:induction false} LexLessTransitive(a: string, b: string, c: string)
    requires LexLess(a, b) && LexLess(b, c)
    ensures LexLess(a, c)
    decreases |a|
  {
    if |a| > 0 && a[0] == b[0] && b[0] == c[0] {
      LexLessTransitive(a[1..], b[1..], c[1..]);
    }
  }

  // ---------------------------------------------------------------------
  // Decimal digits

  function DigitChar(d: int): char
    requires 0 <= d < 10
  {
    ('0' as int + d) as char
  }

  function Pow10(w: nat): nat {
    if w == 0 then 1 else 10 * Pow10(w - 1)
  }

  /** The last `w` decimal digits of `n`, with leading zeros. */
  function Digits(n: nat, w: nat): (s: string)
    ensures |s| == w
  {
    if w == 0 then "" else Digits(n / 10, w - 1) + [DigitChar(n % 10)]
  }

  /** Fixed-width digit strings compare like the numbers they write. */
  lemma {:induction false} DigitsOrder(a: nat, b: nat, w: nat)
    requires a < Pow10(w) && b < Pow10(w)
    ensures LexLess(Digits(a, w), Digits(b, w)) <==> a < b
    ensures Digits(a, w) == Digits(b, w) <==> a == b
  {
    if w > 0 {
      DigitsOrder(a / 10, b / 10, w - 1);
      LexLessConcat(Digits(a / 10, w - 1), [DigitChar(a % 10)], Digits(b / 10, w - 1), [DigitChar(b % 10)]);
      var da, db := Digits(a, w), Digits(b, w);
      if da == db {
        assert da[w - 1] == DigitChar(a % 10) && db[w - 1] == DigitChar(b % 10);
        assert da[..w - 1] == Digits(a / 10, w - 1) && db[..w - 1] == Digits(b / 10, w - 1);
      }
    }
  }

  /** The decimal numeral of a natural number, without leading zeros. */
  function NatToString(n: nat): (s: string)
    ensures |s| >= 1
    ensures AllDigits(s)
    decreases n
  {
    if n < 10 then [DigitChar(n)] else NatToString(n / 10) + [DigitChar(n % 10)]
  }

  predicate AllDigits(s: string) {
    forall i :: 0 <= i < |s| ==> '0' <= s[i] <= '9'
  }

  /** The value of a string of decimal digits. */
  function ParseDigits(s: string): nat
    requires AllDigits(s)
    decreases |s|
  {
    if |s| == 0 then 0
    else 10 * ParseDigits(s[..|s| - 1]) + (s[|s| - 1] as int - '0' as int)
  }

  /** Parsing a numeral gives back the number. */
  lemma {:induction false} ParseNatToString(n: nat)
    ensures ParseDigits(NatToString(n)) == n
    decreases n
  {
    if n >= 10 {
      ParseNatToString(n / 10);
      var a := NatToString(n / 10);
      assert NatToString(n)[..|a|] == a;
    }
  }

  /** Leading zeros do not change the value. */
  lemma {:induction false} ParseLeadingZeros(k: nat, s: string)
    requires AllDigits(s)
    ensures AllDigits(seq(k, _ => '0') + s)
    ensures ParseDigits(seq(k, _ => '0') + s) == ParseDigits(s)
    decreases |s|, k
  {
    var z := seq(k, _ => '0') + s;
    if |s| > 0 {
      var init := s[..|s| - 1];
      ParseLeadingZeros(k, init);
      assert z[..|z| - 1] == seq(k, _ => '0') + init;
    } else if k > 0 {
      ParseLeadingZeros(k - 1, s);
      assert z[..|z| - 1] == seq(k - 1, _ => '0') + s;
    }
  }

  /** `n.toString()` for an integer `n`. */
  function IntToString(n: int): string {
    if n < 0 then "-" + NatToString(-n) else NatToString(n)
  }

  /** `s.padStart(w, c)`: left-pads with `c` up to length `w`. */
  function PadStart(s: string, w: nat, c: char): (r: string)
    ensures |r| == if |s| >= w then |s| else w
    ensures |s| >= w ==> r == s
    ensures |s| < w ==> r[w - |s|..] == s && forall i :: 0 <= i < w - |s| ==> r[i] == c
  {
    if |s| >= w then s else seq(w - |s|, _ => c) + s
  }
}

=== FILE: wrappers.dfy ===
/** Optional values, for JavaScript's `undefined`/`null` results. */
module Wrappers {
  datatype Option<T> = None | Some(value: T)
}
